=== FILE: README.md ===
# zynthian-ui core, modelled in Dafny

zynthian is an open synthesiser platform. Its UI process (zynthian-ui) arranges
audio and MIDI processors into *chains*, keeps snapshots of their state
(ZS3 sub-snapshots), routes MIDI, and drives a set of engines. Most of the
repository is Tkinter screens and JACK/ALSA plumbing. This project models the
sequential, self-contained logic inside it and proves properties of that model:

- **Audio-file player** (`zynlibs/zynaudioplayer/player.c`, module `AudioPlayer`):
  - the 16-slot player table and per-player state (file open, read status, play state, position, gain, loop, tracks, buffers);
  - the validating setters and getters;
  - one step of the file-reader thread: the status machine and the per-frame downmix into the two ring buffers, which are bounded FIFOs;
  - one call of the JACK render callback: transport, gain, position advance with wrap, fade/stop, re-cue at end of file, zero fill, and the MIDI note-on/note-off/pitch-bend triggers;
  - the threshold-based change notifications.
- **Step-sequencer pattern** (`zynlibs/zynseq/pattern.cpp`, module `Sequencer`): a class over a sorted event sequence with overlap-replacing insertion, note and program-change edits, all-or-nothing transpose, clamped bulk edits, truncation and a linear undo/redo history of snapshots.
- **Chains** (`zyngine/zynthian_chain.py`, module `Chain`): the MIDI and audio slot lists, series/parallel insertion, removal, swap, and the slot and processor queries.
- **Chain manager** (`zyngine/zynthian_chain_manager.py`, module `ChainManager`): the chain table, its insertion order, the MIDI-channel index, free-channel queries, jack name generation and processor counting.
- **Processor** (`zyngine/zynthian_processor.py`, module `Processor`): bank and preset selection, the bank-MSB offset table, favourites, controller screens and the base path.
- **State manager** (`zyngine/zynthian_state_manager.py`, module `StateManager`): the busy set, the ZS3 table, MIDI-learn exclusivity, MIDI clone flags and the MIDI profile state.
- **Audio mixer engine** (`zyngine/zynthian_engine_audio_mixer.py`, module `AudioMixer`): channel clamping in the setters, solo, the MIDI-learn table, and the sparse `get_state`/`set_state`.
- **Signal manager** (`zyngine/zynthian_signal_manager.py`, module `SignalManager`): the callback register, registration, unregistration and dispatch in order.
- **Aeolus engine** (`zyngine/zynthian_engine_aeolus.py`, module `Aeolus`): the MIDI channel configuration words, the stop-control byte encoding, the staged bank list and the extended configuration.
- **setBfree engine** (`zyngine/zynthian_engine_setbfree.py`, module `SetBfree`): the `.pgm` program-line parser, dummy channels for disabled manuals, preset comparison, controller values and the staged bank list.
- **Wiring and MIDI configuration** (`zyngine/zyngine_config.py`, module `EngineConfig`): the custom switches, the Zynaptik and Zyntof sensors, the switch timing and the master-channel change codes.
- **Configuration file** (`zynconf/zynthian_config.py`, module `ZynConf`): the `save_config` line rewriting, the MIDI port-list parsers, `update_midi_profile` and `get_jackd_options`.
- **Key bindings** (`zyngui/zynthian_gui_keybinding.py`, module `KeyBinding`): the binding table, lookup with the any-modifier fallback and the singleton.
- **GUI core** (`zyngui/zynthian_gui.py`, module `Gui`): switch press classification, the screen history, the parsing of queued CUIA (callable UI action) events, the auto-repeat counter and program change validation.

Two shared modules hold what the source takes from Python:
- `Wrappers` holds `Option`;
- `PyText` holds the `str` builtins the code relies on: `int()`, `strip`, `split`, `lower`, `upper`, `join`, zero-padded formatting and binary formatting.

Environment variables, files and the foreign libraries (`lib_zyncore`, `lib_zynmixer`, JACK, libsndfile, libsamplerate) appear as parameters or fields. An operation that changes an object's fields is a method of a class with a `modifies` frame. Each such method is specified by functions of the old state, and the properties of those functions are proved as lemmas.

## Model

| member | source | states |
|---|---|---|
| SignalManager.EmptyRegister | zyngine/zynthian_signal_manager.py:88-94 | the table reset_register builds has last_signal rows of last_subsignal lists, all empty |
| SignalManager.AdmitsBeyondTable | zyngine/zynthian_signal_manager.py:96-99 | an index pair passes the inclusive guard yet misses the table exactly when it names row last_signal or column last_subsignal |
| SignalManager.GuardAdmitsLastSignal | zyngine/zynthian_signal_manager.py:96-99 | the guard admits signal 13 and subsignal 10, which the 13 x 10 table does not hold |
| SignalManager.RemoveFirstSpec | zyngine/zynthian_signal_manager.py:101-107 | list.remove takes out exactly one occurrence of the callback: one shorter, multiset minus that callback |
| SignalManager.RemoveFirstOrder | zyngine/zynthian_signal_manager.py:101-107 | list.remove keeps the order of the rest: the entries before the first occurrence, then those after it |
| SignalManager.RemovedEverywhereSpec | zyngine/zynthian_signal_manager.py:109-115 | unregister_all removes one occurrence from every list that holds the callback, leaves the others alone, and a callback registered once per list is gone |
| SignalManager.RaisingSpec | zyngine/zynthian_signal_manager.py:117-125 | the errors send logs are exactly the registered callbacks that raise, never more than the callbacks, none when none raises |
| SignalManager.FirstCrash | zyngine/zynthian_signal_manager.py:140-146 | the index of the first queued signal whose delivery raises IndexError; all before it are deliverable |
| SignalManager.EmptyRow | zyngine/zynthian_signal_manager.py:92-94 | the inner loop of reset_register builds one row of empty lists |
| SignalManager.RemoveFromRow | zyngine/zynthian_signal_manager.py:110-115 | the inner loop of unregister_all removes the callback from each list of a row and keeps the row's length |
| SignalManager.CallEach | zyngine/zynthian_signal_manager.py:120-125 | send calls every callback of the list in order and logs the raising ones, carrying on after each |
| SignalManager.ZynSignalManager.constructor | zyngine/zynthian_signal_manager.py:64-79 | a new manager has the empty table, an empty queue, exit flag cleared and the dispatch thread running |
| SignalManager.ZynSignalManager.Stop | zyngine/zynthian_signal_manager.py:81-82 | stop sets the exit flag |
| SignalManager.ZynSignalManager.ResetRegister | zyngine/zynthian_signal_manager.py:88-94 | the table becomes the empty table |
| SignalManager.ZynSignalManager.Register | zyngine/zynthian_signal_manager.py:96-99 | outside the guard nothing happens; inside the table the callback is appended to that list only; guarded indices past the table raise and leave the table as it was |
| SignalManager.ZynSignalManager.RegisterInRange | zyngine/zynthian_signal_manager.py:96-99 | with the guard matching the table's size, the callback is appended exactly when the indices name a list, and registering never raises |
| SignalManager.ZynSignalManager.Unregister | zyngine/zynthian_signal_manager.py:101-107 | a warning is logged exactly when the guard passes and the list is missing or lacks the callback; otherwise its first occurrence is removed from that list only |
| SignalManager.ZynSignalManager.UnregisterAll | zyngine/zynthian_signal_manager.py:109-115 | the table after unregister_all is RemovedEverywhere of the old table |
| SignalManager.ZynSignalManager.Send | zyngine/zynthian_signal_manager.py:117-125 | for guarded indices in the table every registered callback is called in order and the raising ones are logged; the table is unchanged |
| SignalManager.ZynSignalManager.SendQueued | zyngine/zynthian_signal_manager.py:131-132 | the signal and its arguments go to the back of the queue |
| SignalManager.ZynSignalManager.Dispatch | zyngine/zynthian_signal_manager.py:140-146 | the thread sends the queued signals in order up to and including the first one that raises, which ends it; a stopped thread sends nothing |
| KeyBinding.ComboKey | zyngui/zynthian_gui_keybinding.py:254-270 | the key of a binding for one modifier is the keycode text followed by the modifier, so it is never the bare keycode key |
| KeyBinding.Bound | zyngui/zynthian_gui_keybinding.py:254-270 | bind_key adds exactly one key (the bare keycode when the modifier is None) holding the action, and keeps every other binding |
| KeyBinding.LookupAfterBind | zyngui/zynthian_gui_keybinding.py:153-181 | a combination bound for a modifier is found under that modifier |
| KeyBinding.LookupAfterBindAny | zyngui/zynthian_gui_keybinding.py:153-181 | a keycode bound for any modifier is found under every modifier without its own binding |
| KeyBinding.ComboWins | zyngui/zynthian_gui_keybinding.py:172-181 | a binding for the particular modifier takes precedence over one for any modifier |
| KeyBinding.BindLeavesOthers | zyngui/zynthian_gui_keybinding.py:254-270 | binding one key leaves every lookup that does not read that key unchanged |
| KeyBinding.KeyNameLookupAgrees | zyngui/zynthian_gui_keybinding.py:172-181 | for key names the lookup as written and the corrected lookup give the same action |
| KeyBinding.AnyModifierBindingLost | zyngui/zynthian_gui_keybinding.py:176-181 | as written, an integer keycode bound for any modifier is not found even right after bind_key; the corrected lookup finds it |
| KeyBinding.Keybinding.constructor | zyngui/zynthian_gui_keybinding.py:135-150 | a new object holds the default table with binding enabled |
| KeyBinding.Keybinding.ResetConfig | zyngui/zynthian_gui_keybinding.py:245-251 | the table becomes a copy of the default table and binding is enabled |
| KeyBinding.Keybinding.BindKey | zyngui/zynthian_gui_keybinding.py:254-270 | the table becomes Bound of the old table |
| KeyBinding.Keybinding.Enable | zyngui/zynthian_gui_keybinding.py:273-295 | the enabled flag becomes the argument, and isEnabled answers it |
| KeyBinding.Keybinding.GetKeyAction | zyngui/zynthian_gui_keybinding.py:153-181 | an action is found exactly when the combination or the bare keycode is bound, and it is one of the bound actions |
| KeyBinding.Keybinding.Load | zyngui/zynthian_gui_keybinding.py:184-212 | success exactly when a table was read; it then replaces the bindings, otherwise the configuration is reset |
| KeyBinding.KeybindingSingleton.constructor | zyngui/zynthian_gui_keybinding.py:116 | no instance exists at first |
| KeyBinding.KeybindingSingleton.Construct | zyngui/zynthian_gui_keybinding.py:135-150 | the first construction becomes the instance with the default table; any later one raises and leaves the instance alone |
| KeyBinding.KeybindingSingleton.GetInstance | zyngui/zynthian_gui_keybinding.py:118-132 | the first call makes a fresh default instance; every later call returns that same object |
| Gui.SwitchTiming | zyngui/zynthian_gui.py:1305-1319 | each letter in if-and-only-if form: P for 0, L beyond the long time, B beyond the bold time, S for shorter positive times, None only for negative durations |
| Gui.TimingMonotone | zyngui/zynthian_gui.py:1305-1319 | holding a switch longer never gives a shorter class (S, B, L), when the bold time is at most the long time |
| Gui.Trunc | zyngui/zynthian_gui.py:1910 | int() of a float truncates toward zero: within one of the value, on the side of zero |
| Gui.HistoryAfter | zyngui/zynthian_gui.py:491-499 | the history update fails exactly for REPLACE on an empty history |
| Gui.HistoryModes | zyngui/zynthian_gui.py:491-499 | ADD, REPLACE and RESET leave the screen on top; ADD keeps the history below and adds at most one entry, so it keeps screens from following themselves; REPLACE keeps the depth and all but the top |
| Gui.PopUntil | zyngui/zynthian_gui.py:528-537 | what remains of the history is a prefix of it |
| Gui.PopUntilSpec | zyngui/zynthian_gui.py:528-537 | close_screen discards only entries equal to the current screen and goes back to the topmost entry that differs, or to audio_mixer when every entry equals it |
| Gui.CloseUndoesAdd | zyngui/zynthian_gui.py:475-540 | closing a screen shown with ADD goes back to the screen below and restores the history, when no screen followed itself before |
| Gui.Gui.constructor | zyngui/zynthian_gui.py:108-109 | the history starts empty with no current screen |
| Gui.Gui.ShowScreen | zyngui/zynthian_gui.py:475-505 | on success the history becomes HistoryAfter and the target screen (the one asked for, else the current one, else audio_mixer) becomes current; when pop raises nothing changes |
| Gui.Gui.CloseScreen | zyngui/zynthian_gui.py:528-540 | the history and screen after close_screen are PopUntil of the old ones followed by ADD of the screen it goes back to |
| Gui.ParseParams | zyngui/zynthian_gui.py:1890-1895 | one parameter per word |
| Gui.EventRoundTrip | zyngui/zynthian_gui.py:1884-1900 | a text of space-free words whose first word is lower case parses back to that name and the parsed other words, with no parameters for a bare name |
| Gui.LetterParam | zyngui/zynthian_gui.py:1892-1895 | an action letter is not read by int() and stays a word parameter |
| Gui.ZynswitchEventParses | zyngui/zynthian_gui.py:1293-1303 | the text zynswitches queues parses to the cuia zynswitch with the switch number and the action letter |
| Gui.RepeatPushesSpec | zyngui/zynthian_gui.py:1950-1957 | a queue timeout pushes exactly the switches whose stamp was 0, each once, in increasing order |
| Gui.Countdown | zyngui/zynthian_gui.py:1878-1957 | after a handled push the stamp counts up from -3 and reaches 0 at the third timeout; from then on each timeout pushes again |
| Gui.StampKept | zyngui/zynthian_gui.py:1950-1957 | a press time or no stamp is never changed by timeouts and never repeats |
| Gui.StampIndex | zyngui/zynthian_gui.py:1906-1908 | a switch parameter gives an index within the stamp list, negative values counting from the end |
| Gui.Dispatch | zyngui/zynthian_gui.py:1913-1937 | the stamp list keeps its length |
| Gui.SwitchStep | zyngui/zynthian_gui.py:1904-1939 | the stamp list keeps its length |
| Gui.PressRelease | zyngui/zynthian_gui.py:1904-1939 | a push not taken by its handler stamps the time; the later release runs the S, B or L action its duration gives and clears the stamp |
| Gui.HandledPushRelease | zyngui/zynthian_gui.py:1904-1957 | a handled push starts the countdown at -3; a release during the countdown or the repeat clears the stamp as an unknown action and nothing repeats after it |
| Gui.ZynswitchDispatch | zyngui/zynthian_gui.py:1904-1939 | the event queued for a switch held a positive time reaches the handler of its timing letter and clears that switch's stamp |
| Gui.SwitchStamps.constructor | zyngui/zynthian_gui.py:1877 | one empty stamp per switch and four more |
| Gui.SwitchStamps.Tick | zyngui/zynthian_gui.py:1950-1957 | each countdown rises by one, other stamps stay, and the pushed switches are RepeatPushes of the old stamps |
| Gui.SwitchStamps.SwitchEvent | zyngui/zynthian_gui.py:1904-1939 | the stamps and outcome are those of SwitchStep on the old stamps |
| Gui.ProgramChange | zyngui/zynthian_gui.py:1228-1236 | a change is sent only with channel 0..15 and program 0..127, the program read from the first parameter and the channel from the second or else the active channel |
| Gui.NumberParams | zyngui/zynthian_gui.py:1892-1893 | numbers written in decimal are read back as integer parameters |
| Gui.ProgramChangeSent | zyngui/zynthian_gui.py:1228-1236 | a program and channel in range are sent as given |
| Gui.ProgramChangeFromText | zyngui/zynthian_gui.py:1228-1236 | the queued text "program_change pgm chan" sends exactly that program change for values in range |
| Aeolus.KeyboardWord | zyngine/zynthian_engine_aeolus.py:334-338 | the word for a keyboard has the keyboard in its low nibble and bits 0x5000 set; the 0x2000 flag and the keyboard in the second nibble exactly for the swell keyboards 0 and 1 |
| Aeolus.FirstOn | zyngine/zynthian_engine_aeolus.py:332-339 | the first layer from a position on whose MIDI channel is the one asked for, or None when no later layer listens on it |
| Aeolus.ChanWord | zyngine/zynthian_engine_aeolus.py:329-340 | a channel's word is zero exactly when no layer listens on it, otherwise it names the keyboard of the first such layer's division |
| Aeolus.AsWrittenAgreesInOrder | zyngine/zynthian_engine_aeolus.py:329-340 | while the layers are the divisions in order, the word computed from layer positions equals the word computed from divisions |
| Aeolus.PedalsGetSwellKeyboard | zyngine/zynthian_engine_aeolus.py:329-340 | with Manual I and Pedals the pedal channel is given keyboard 1 (word 0x7011) instead of the pedal keyboard 3 (word 0x5003) |
| Aeolus.ChanWordOf | zyngine/zynthian_engine_aeolus.py:331-340 | the inner loop of set_midi_chans computes ChanWord |
| Aeolus.MarkerValues | zyngine/zynthian_engine_aeolus.py:562-567 | the fixed bit strings of the stop encoding read back as 12, 10 and 0 |
| Aeolus.StopBytesValue | zyngine/zynthian_engine_aeolus.py:562-570 | for groups below 8 and buttons below 32 the stop bytes are 0b01mm0ggg (mm = 10 on, 01 off) and the button |
| Aeolus.StopBytesDecode | zyngine/zynthian_engine_aeolus.py:562-570 | the stop bytes decode back to the on flag, the off flag, the group and the button |
| Aeolus.ByteFields | zyngine/zynthian_engine_aeolus.py:566 | the bit fields of the first stop byte |
| Aeolus.SustainReachesStopEncoding | zyngine/zynthian_engine_aeolus.py:558-570 | as written the Sustain control matches none of the compared symbols and fails in the stop encoding for lack of a graph path |
| Aeolus.SendControllerValue | zyngine/zynthian_engine_aeolus.py:558-570 | a swell control or Sustain is sent as its own CC; any other control with a graph path sends the two CC 98 stop bytes; without a graph path it raises |
| Aeolus.SustainSentDirectly | zyngine/zynthian_engine_aeolus.py:558-562 | with the comparison on the whole symbol, Sustain is sent as CC 64 with its value |
| Aeolus.Lookup | zyngine/zynthian_engine_aeolus.py:57-78 | the name stored under a key of keyboard_config_names or temperament_names, None exactly when no entry has that key |
| Aeolus.PairBanks | zyngine/zynthian_engine_aeolus.py:379-385 | one bank entry per pair, as (title, key, title) |
| Aeolus.ExtrasStep | zyngine/zynthian_engine_aeolus.py:410-429 | one turn of the loop that adds layers: a wanted division takes the next free channel; a wanted division with no channel left is where get_next_free_midi_chan raises, the layers added so far staying; an unwanted one is skipped |
| Aeolus.ExtrasSpec | zyngine/zynthian_engine_aeolus.py:410-429 | the k-th added layer is the k-th wanted division on the k-th free channel; with fewer free channels than wanted divisions, exactly the layers added before the raise, one per free channel |
| Aeolus.WantedFromOne | zyngine/zynthian_engine_aeolus.py:411 | the divisions wanted from 1 on are those whose bit is set in the configuration, in order |
| Aeolus.ConfigDivisions | zyngine/zynthian_engine_aeolus.py:57-64 | each listed keyboard configuration plays exactly the divisions its title names |
| Aeolus.BankList | zyngine/zynthian_engine_aeolus.py:372-391 | the keyboard layouts before a layout is chosen, the temperaments before a temperament is chosen, then General and the layer's division |
| Aeolus.PathOf | zyngine/zynthian_engine_aeolus.py:348-356 | Aeolus/Keyboards, then Aeolus/Temperament, then the division and temperament; it raises exactly when the chosen temperament has no name |
| Aeolus.OfferedTemperamentsHavePaths | zyngine/zynthian_engine_aeolus.py:348-382 | every temperament the bank list offers gives a path once chosen |
| Aeolus.FindPreset | zyngine/zynthian_engine_aeolus.py:537-544 | the first preset with the name from a position on; when every preset has a name, None exactly when none matches |
| Aeolus.ExtendedConfigRoundTrip | zyngine/zynthian_engine_aeolus.py:589-630 | restoring what get_extended_config saved gives back the keyboard configuration, the temperament and each processor's division |
| Aeolus.LegacyConfigHasFourKeyboards | zyngine/zynthian_engine_aeolus.py:618-620 | a snapshot without a keyboard entry restores configuration 15, all four divisions |
| Aeolus.AeolusEngine.constructor | zyngine/zynthian_engine_aeolus.py:222-240 | nothing chosen, no layers, the stored presets |
| Aeolus.AeolusEngine.GetBankList | zyngine/zynthian_engine_aeolus.py:372-391 | the bank list of the engine's stage |
| Aeolus.AeolusEngine.GetPath | zyngine/zynthian_engine_aeolus.py:348-356 | the path of the engine's stage |
| Aeolus.AeolusEngine.SetMidiChans | zyngine/zynthian_engine_aeolus.py:326-340 | sixteen words, each the ChanWord of its channel |
| Aeolus.AeolusEngine.AddExtraLayers | zyngine/zynthian_engine_aeolus.py:410-429 | the layers gain Extras of the configuration; it raises ("No available free MIDI channels!") exactly when more divisions are wanted than channels are free; the set-up and presets are unchanged |
| Aeolus.AeolusEngine.SetBank | zyngine/zynthian_engine_aeolus.py:394-452 | the first call stores the keyboard configuration and the second the temperament, both answering None; afterwards it adds the extra layers only when no synthesiser runs and there is at most one layer, and answers True unless the channels run out, when the exception propagates with the layers added so far kept |
| Aeolus.AeolusEngine.GetPresetIndex | zyngine/zynthian_engine_aeolus.py:537-544 | None for a missing bank, otherwise FindPreset in that bank |
| Aeolus.AeolusEngine.GetExtendedConfig | zyngine/zynthian_engine_aeolus.py:589-602 | a configuration that restores the engine's set-up, with one division per layer |
| Aeolus.AeolusEngine.SetExtendedConfig | zyngine/zynthian_engine_aeolus.py:605-630 | the set-up stored from the configuration (legacy keys and defaults included) and one chain setting per layer |
| SetBfree.SkipSpaces | zyngine/zynthian_engine_setbfree.py:478-479 | the end of the run of whitespace from a position: everything skipped is whitespace and what follows is not |
| SetBfree.SkipSeps | zyngine/zynthian_engine_setbfree.py:479 | the end of the run of `{`, `}` and `,` from a position |
| SetBfree.SkipDigits | zyngine/zynthian_engine_setbfree.py:478 | the end of the run of digits from a position: everything skipped is a digit and what follows is not |
| SetBfree.SepEnd | zyngine/zynthian_engine_setbfree.py:479 | a match of the separator pattern is never empty |
| SetBfree.Fragments | zyngine/zynthian_engine_setbfree.py:479-487 | re.split always gives at least one fragment |
| SetBfree.FragmentsHaveNoSeps | zyngine/zynthian_engine_setbfree.py:479-487 | no fragment of the split holds a separator character |
| SetBfree.ScanPast | zyngine/zynthian_engine_setbfree.py:479-487 | positions where the separator pattern cannot start do not change the fragments |
| SetBfree.FragmentHead | zyngine/zynthian_engine_setbfree.py:479-487 | the first fragment begins with the text scanned before the first separator |
| SetBfree.StripQuotes | zyngine/zynthian_engine_setbfree.py:497 | str.strip of quotes: never longer, and a non-empty result neither begins nor ends with a quote |
| SetBfree.DrawbarDigits | zyngine/zynthian_engine_setbfree.py:514-515 | the drawbar characters of a value, never more than the value holds |
| SetBfree.DrawbarKeyInjective | zyngine/zynthian_engine_setbfree.py:516 | different drawbar numbers give different params keys |
| SetBfree.DrawbarKeyNotLater | zyngine/zynthian_engine_setbfree.py:512-518 | drawbar_j is not among the keys written after it |
| SetBfree.DrawbarsSet | zyngine/zynthian_engine_setbfree.py:512-518 | the k-th drawbar character is stored under drawbar_(j+k), characters other than 0 to 8 taking no number |
| SetBfree.DrawbarsFrame | zyngine/zynthian_engine_setbfree.py:512-518 | every other key keeps its value through the drawbar loop |
| SetBfree.ProgramParamsKeys | zyngine/zynthian_engine_setbfree.py:505-518 | a program's params never hold "name" or "drawbars" |
| SetBfree.ProgramParamsDrawbar | zyngine/zynthian_engine_setbfree.py:512-518 | the k-th drawbar character, counting from 0, becomes drawbar_(k+1) |
| SetBfree.FirstFragment | zyngine/zynthian_engine_setbfree.py:478-487 | the first fragment of a program line is its number and the next begins where name=" does |
| SetBfree.NameQuoteIsPlain | zyngine/zynthian_engine_setbfree.py:478-479 | name=" holds neither whitespace nor a separator |
| SetBfree.NameFragment | zyngine/zynthian_engine_setbfree.py:479-487 | a fragment that starts at name=" begins with it |
| SetBfree.ProgramLineFragments | zyngine/zynthian_engine_setbfree.py:478-487 | a program line splits into its number and then a fragment beginning name=" |
| SetBfree.SplitName | zyngine/zynthian_engine_setbfree.py:496 | splitting that fragment at '=' gives "name" first |
| SetBfree.NameParam | zyngine/zynthian_engine_setbfree.py:495-499 | that fragment sets the "name" param |
| SetBfree.ProgramLineHasName | zyngine/zynthian_engine_setbfree.py:483-505 | a line matching the first pattern always yields a "name" param, so reading the title never raises |
| SetBfree.FirstFragmentName | zyngine/zynthian_engine_setbfree.py:495-499 | later fragments cannot remove a "name" param set by the first |
| SetBfree.ParseLineSpec | zyngine/zynthian_engine_setbfree.py:481-525 | exactly the lines matching ^N{name="..." with N > 0 become programs, numbered N - 1 |
| SetBfree.LoadProgramList | zyngine/zynthian_engine_setbfree.py:473-531 | None exactly when the file cannot be read; otherwise one entry per program in file order, numbered from 0, as [i, [0, 0, program], title, params] |
| SetBfree.CmpLoadedEntries | zyngine/zynthian_engine_setbfree.py:410-417 | two loaded entries compare equal exactly when they are the same MIDI program |
| SetBfree.ControlValue | zyngine/zynthian_engine_setbfree.py:435-441 | rotary speed maps tremolo to fast, chorale to slow and everything else to off; other controllers take the value as it is |
| SetBfree.RotarySpeedLabels | zyngine/zynthian_engine_setbfree.py:435-441 | a preset's rotary speed always lands on one of the controller's three labels |
| SetBfree.UpdateControllerValues | zyngine/zynthian_engine_setbfree.py:423-451 | exactly the params with a controller symbol the processor has are set, each to its translated value; the others are skipped |
| SetBfree.DummyFrom | zyngine/zynthian_engine_setbfree.py:284-286 | the search from a channel down stops at the first channel not in use, every channel above it being in use, or at 0 |
| SetBfree.DummyIsFree | zyngine/zynthian_engine_setbfree.py:284-286 | with three manuals the dummy channel is one of 12..15 that no manual uses |
| SetBfree.FourChannelsInThree | zyngine/zynthian_engine_setbfree.py:284-286 | three manuals cannot use all four of channels 12 to 15 |
| SetBfree.FillDisabledChans | zyngine/zynthian_engine_setbfree.py:275-289 | a copy of the channels with each disabled manual on the dummy channel and the others kept |
| SetBfree.ChannelTexts | zyngine/zynthian_engine_setbfree.py:295-297 | the texts substituted for the three channel markers are the 1-based channels |
| SetBfree.ChannelTextsRead | zyngine/zynthian_engine_setbfree.py:295-297 | each substituted text reads back as the 1-based channel |
| SetBfree.ManualsOffer | zyngine/zynthian_engine_setbfree.py:358-364 | every layout offered is a manuals layout needing no more extra channels than are free |
| SetBfree.SetBfreeEngine.constructor | zyngine/zynthian_engine_setbfree.py:170-202 | no layout, no tonewheel model, not running |
| SetBfree.SetBfreeEngine.GetBankList | zyngine/zynthian_engine_setbfree.py:358-377 | without a layout: all layouts with two or more free channels, the first three with one, and with none the first layout is chosen and the tonewheel models offered; then the models until one is set; then the manual's program bank |
| SetBfree.SetBfreeEngine.SetBank | zyngine/zynthian_engine_setbfree.py:381-395 | the first call stores the layout and answers None; later calls store the model if none is set, start the engine if it is not running and answer True |
| SetBfree.OfferedModelsAreSet | zyngine/zynthian_engine_setbfree.py:53-57 | every offered tonewheel model is a non-empty name, so choosing one completes the set-up |
| AudioMixer.SymbolOf | zyngine/zynthian_engine_audio_mixer.py:60-104 | a strip dictionary key names the controller whose symbol it is, or none (the KeyError) |
| AudioMixer.SymbolNames | zyngine/zynthian_engine_audio_mixer.py:60-104 | every controller is found again under its own symbol and the six symbols of a strip are distinct |
| AudioMixer.Strip.Set | zyngine/zynthian_engine_audio_mixer.py:134-142 | setting one controller of a strip changes that controller only |
| AudioMixer.Defaults | zyngine/zynthian_engine_audio_mixer.py:357-374 | the strip every reset restores: each controller at its value_default |
| AudioMixer.Clamp | zyngine/zynthian_engine_audio_mixer.py:137-138 | a channel at or above the channel count addresses the main bus; a lower one addresses itself |
| AudioMixer.Lookup | zyngine/zynthian_engine_audio_mixer.py:441-446 | the controller bound to a CC exists exactly when some item of the table has that CC, and is that item's |
| AudioMixer.Put | zyngine/zynthian_engine_audio_mixer.py:439 | dictionary assignment: a known CC keeps its place, a new one goes last, keys stay distinct, the CC now gives the controller and every other CC gives what it gave |
| AudioMixer.RemoveAt | zyngine/zynthian_engine_audio_mixer.py:452 | dict.pop drops one item and keeps the others in order |
| AudioMixer.EmptyTables | zyngine/zynthian_engine_audio_mixer.py:459-460 | sixteen empty learn tables |
| AudioMixer.IndexOfCtrl | zyngine/zynthian_engine_audio_mixer.py:113-117 | the first item from an index on that binds the controller, or none when no item does |
| AudioMixer.FirstMapping | zyngine/zynthian_engine_audio_mixer.py:113-117 | the first binding of a controller in channel order then insertion order, and that no earlier item binds it; none exactly when no table binds it |
| AudioMixer.UnlearnDropsOne | zyngine/zynthian_engine_audio_mixer.py:448-453 | midi_unlearn of a bound controller drops exactly one of its bindings |
| AudioMixer.FindFirst | zyngine/zynthian_engine_audio_mixer.py:113-117 | the nested scan of get_learned_cc finds the first binding of the controller |
| AudioMixer.Forwarded | zyngine/zynthian_engine_audio_mixer.py:441-446 | the controllers a CC goes to are exactly those bound to it on some MIDI channel, at most one per channel |
| AudioMixer.CollectTargets | zyngine/zynthian_engine_audio_mixer.py:441-446 | the loop over the 16 channels collects exactly the controllers bound to the CC, in channel order |
| AudioMixer.StripKeysDistinct | zyngine/zynthian_engine_audio_mixer.py:387-391 | 'chan_NN' and 'main' keys of different strips differ |
| AudioMixer.OffDefault | zyngine/zynthian_engine_audio_mixer.py:392-395 | a controller is listed in a strip's state exactly when its value differs from its default, and then with that value |
| AudioMixer.StripKeys | zyngine/zynthian_engine_audio_mixer.py:387-391 | one distinct key per strip, in strip order |
| AudioMixer.Listing | zyngine/zynthian_engine_audio_mixer.py:386-397 | a strip has an entry exactly when some controller is off its default, and the entry is its off-default values |
| AudioMixer.StripsState | zyngine/zynthian_engine_audio_mixer.py:386-397 | get_state lists under 'chan_NN' or 'main' exactly the strips with an off-default controller, with those values |
| AudioMixer.ChanEntries | zyngine/zynthian_engine_audio_mixer.py:398-401 | the "midi_learn" items of one channel: "chan,cc" to the controller's graph path, in insertion order |
| AudioMixer.PyIndex | zyngine/zynthian_engine_audio_mixer.py:431 | a Python list index: in range, or counted from the end when negative |
| AudioMixer.ParsePath | zyngine/zynthian_engine_audio_mixer.py:431 | a graph path that resolves names a real strip |
| AudioMixer.ParseLearn | zyngine/zynthian_engine_audio_mixer.py:428-433 | a "midi_learn" item that is restored names one of the 16 channels and a real strip |
| AudioMixer.ParseKeyOf | zyngine/zynthian_engine_audio_mixer.py:401-430 | the "chan,cc" key get_state writes splits back into the channel and CC |
| AudioMixer.ParsePathOf | zyngine/zynthian_engine_audio_mixer.py:401-431 | the graph path get_state writes resolves to the same controller |
| AudioMixer.ParseLearnKey | zyngine/zynthian_engine_audio_mixer.py:398-433 | a saved binding parses back to itself |
| AudioMixer.Parsed | zyngine/zynthian_engine_audio_mixer.py:428-433 | each "midi_learn" item is parsed on its own |
| AudioMixer.ParsedEntries | zyngine/zynthian_engine_audio_mixer.py:398-433 | the saved "midi_learn" items parse back to the bindings they were made from |
| AudioMixer.ParsedChannel | zyngine/zynthian_engine_audio_mixer.py:398-433 | one channel's saved items parse back to its bindings |
| AudioMixer.ReplayChannel | zyngine/zynthian_engine_audio_mixer.py:428-433 | replaying a table's bindings into its empty slot rebuilds the table, order included |
| AudioMixer.ReplayLearned | zyngine/zynthian_engine_audio_mixer.py:427-433 | replaying the bindings of the first tables into empty tables restores those tables |
| AudioMixer.Restored | zyngine/zynthian_engine_audio_mixer.py:418-423 | each controller of a strip takes its listed value, else its default when full, else keeps its value |
| AudioMixer.RestoredAll | zyngine/zynthian_engine_audio_mixer.py:418-423 | restoring the controllers one by one in the strip's order restores the strip |
| AudioMixer.RestoredStrips | zyngine/zynthian_engine_audio_mixer.py:412-423 | set_state restores every strip from the entry under its own key |
| AudioMixer.RestoreOffDefault | zyngine/zynthian_engine_audio_mixer.py:392-423 | a strip's off-default listing restores it in full from any starting values |
| AudioMixer.OffDefaultOf | zyngine/zynthian_engine_audio_mixer.py:392-395 | a controller is listed exactly when it is off its default, with its value |
| AudioMixer.StateRoundTrip | zyngine/zynthian_engine_audio_mixer.py:380-433 | set_state of a get_state result in full gives back every controller value and every learned binding, whatever the mixer held before |
| AudioMixer.BuildState | zyngine/zynthian_engine_audio_mixer.py:380-402 | the nested loops of get_state build exactly the state StateOf describes |
| AudioMixer.BuildStrips | zyngine/zynthian_engine_audio_mixer.py:386-397 | the strip loop lists the off-default values of every strip under its key |
| AudioMixer.ChanState | zyngine/zynthian_engine_audio_mixer.py:391-395 | the symbol loop collects exactly the off-default controllers |
| AudioMixer.BuildLearn | zyngine/zynthian_engine_audio_mixer.py:397-401 | the "midi_learn" loop lists every binding of the 16 channels in order |
| AudioMixer.ChanItems | zyngine/zynthian_engine_audio_mixer.py:400-401 | one channel's items in insertion order |
| AudioMixer.RestoreStrips | zyngine/zynthian_engine_audio_mixer.py:412-423 | the strip loop of set_state restores every strip |
| AudioMixer.RestoreStrip | zyngine/zynthian_engine_audio_mixer.py:418-423 | the controller loop restores one strip |
| AudioMixer.ReplayItems | zyngine/zynthian_engine_audio_mixer.py:424-433 | after every table is emptied, the items that parse are bound in order and the others skipped |
| AudioMixer.ZynMixer.constructor | zyngine/zynthian_engine_audio_mixer.py:45-108 | the channel count from the library, every controller at the library's value, 16 empty tables, no learn controller and no callback |
| AudioMixer.ZynMixer.SetParam | zyngine/zynthian_engine_audio_mixer.py:134-314 | nothing for a None channel; otherwise the clamped strip's library value is set and, when update, its controller; nothing else changes |
| AudioMixer.ZynMixer.SetSoloAsWritten | zyngine/zynthian_engine_audio_mixer.py:238-259 | set_solo as written: clearing the main bus solo clears the controllers of channels 0 .. max-2 only |
| AudioMixer.ZynMixer.SetSolo | zyngine/zynthian_engine_audio_mixer.py:238-259 | set_solo with the main bus solo clearing every channel's solo controller; a channel's solo refreshes the main bus controller |
| AudioMixer.ZynMixer.Reset | zyngine/zynthian_engine_audio_mixer.py:357-374 | the clamped strip's controllers and library values return to their defaults; nothing else changes |
| AudioMixer.ZynMixer.ResetState | zyngine/zynthian_engine_audio_mixer.py:376-378 | every strip at its defaults |
| AudioMixer.ZynMixer.GetLearnedCc | zyngine/zynthian_engine_audio_mixer.py:113-117 | the first [chan, cc] bound to the controller: no earlier channel binds it, within the channel it is the first binding in order, its lookup gives the controller back, and none exactly when no table binds it |
| AudioMixer.ZynMixer.MidiUnlearn | zyngine/zynthian_engine_audio_mixer.py:448-453 | the first binding of the controller, and only it, is dropped |
| AudioMixer.ZynMixer.MidiUnlearnChan | zyngine/zynthian_engine_audio_mixer.py:455-457 | midi_unlearn of each controller of the strip, in order |
| AudioMixer.ZynMixer.MidiUnlearnAll | zyngine/zynthian_engine_audio_mixer.py:459-460 | sixteen empty tables; nothing else changes |
| AudioMixer.ZynMixer.EnableMidiLearn | zyngine/zynthian_engine_audio_mixer.py:462-463 | the learn controller is set; nothing else changes |
| AudioMixer.ZynMixer.DisableMidiLearn | zyngine/zynthian_engine_audio_mixer.py:465-468 | learn mode off, and the callback called exactly when one is set |
| AudioMixer.ZynMixer.SetMidiLearnCb | zyngine/zynthian_engine_audio_mixer.py:470-471 | the callback is set; nothing else changes |
| AudioMixer.ZynMixer.MidiControlChange | zyngine/zynthian_engine_audio_mixer.py:437-446 | in learn mode the CC on this channel is bound to the learning controller and learn mode ends; otherwise the value goes to the controllers bound to the CC |
| AudioMixer.ZynMixer.GetState | zyngine/zynthian_engine_audio_mixer.py:380-402 | the off-default values by strip key and every learned binding |
| AudioMixer.ZynMixer.SetState | zyngine/zynthian_engine_audio_mixer.py:405-433 | every strip restored; a "midi_learn" entry replaces the tables by the items that parse |
| AudioMixer.LookupDistinct | zyngine/zynthian_engine_audio_mixer.py:441-446 | in a table of distinct keys each key gives the controller at its index |
| AudioMixer.ReplayKeepsTables | zyngine/zynthian_engine_audio_mixer.py:428-433 | restored bindings only name real strips |
| AudioMixer.ApplyKeepsOk | zyngine/zynthian_engine_audio_mixer.py:431-439 | binding a real controller keeps every table one the engine can hold |
| AudioMixer.PutKeepsOk | zyngine/zynthian_engine_audio_mixer.py:439 | assignment of a real controller keeps a table the engine can hold |
| AudioMixer.SoloCleared | zyngine/zynthian_engine_audio_mixer.py:254-258 | the first n strips with their solo controller off and the rest unchanged |
| AudioMixer.SoloLeavesLastChannel | zyngine/zynthian_engine_audio_mixer.py:253-258 | as written, clearing the main bus solo leaves the last channel's solo controller on |
| AudioMixer.SoloClearsAll | zyngine/zynthian_engine_audio_mixer.py:253-258 | corrected, clearing the main bus solo turns off every channel's solo controller |
| AudioPlayer.NotifyIsFold | zynlibs/zynaudioplayer/player.c:195-270 | the eight comparisons of send_notifications are one step folded over the fields in source order |
| AudioPlayer.ValueOfEncoding | zynlibs/zynaudioplayer/player.c:199-270 | ValueOf: the callback gets the loop flag as 1 or 0 and every field other than position and gain as a whole number |
| AudioPlayer.ChangedMeansDifferent | zynlibs/zynaudioplayer/player.c:199-270 | Changed: a field counts as changed only when its value differs from the shadow, and for every field but position and gain exactly then; the pseudo-kind "all" never counts |
| AudioPlayer.CatchUpSettles | zynlibs/zynaudioplayer/player.c:200-264 | CatchUp: a field copied into the shadow holds the current value and no longer counts as changed |
| AudioPlayer.NotifyStepSpec | zynlibs/zynaudioplayer/player.c:199-206 | NotifyStep: one comparison changes the result exactly when its field is selected and changed; it keeps the earlier reports, adds at most one (its own field with the current value), and leaves a selected field caught up |
| AudioPlayer.TransportSentSpec | zynlibs/zynaudioplayer/player.c:195-206 | the transport notification TransportSent describes is exactly send_notifications(NOTIFY_TRANSPORT): Notify's shadow, and Notify's reports after the earlier ones |
| AudioPlayer.NotifyReportsBound | zynlibs/zynaudioplayer/player.c:195-270 | Notify: at most one report per field; a call for one field reports only that field, at most once |
| AudioPlayer.ReportsLength | zynlibs/zynaudioplayer/player.c:195-270 | the reference list holds at most one report per compared field |
| AudioPlayer.ReportsOfOne | zynlibs/zynaudioplayer/player.c:195-270 | for one selected field the reference list over distinct fields holds at most one report, and only when that field is compared |
| AudioPlayer.CatchUpValue | zynlibs/zynaudioplayer/player.c:195-270 | copying one field into the shadow changes no other shadow field |
| AudioPlayer.ChangedByValue | zynlibs/zynaudioplayer/player.c:195-270 | whether a field counts as changed depends only on that field of the shadow, and an equal value never counts |
| AudioPlayer.NotifyOverShadow | zynlibs/zynaudioplayer/player.c:195-270 | after the comparisons each shadow field is the current value if selected and changed, else as before |
| AudioPlayer.NotifyOverReports | zynlibs/zynaudioplayer/player.c:195-270 | the reports accumulated are the reference list taken against the original shadow |
| AudioPlayer.ReportsMembers | zynlibs/zynaudioplayer/player.c:195-270 | a notification is in the reference list exactly when its field is selected and changed, with the current value |
| AudioPlayer.InNotifyOrder | zynlibs/zynaudioplayer/player.c:195-270 | every field except the pseudo-kind "all" is compared |
| AudioPlayer.NotifyOrderDistinct | zynlibs/zynaudioplayer/player.c:195-270 | each field is compared once |
| AudioPlayer.NotifyReportsAreReference | zynlibs/zynaudioplayer/player.c:195-270 | send_notifications reports the reference list against the original shadow |
| AudioPlayer.NotifyShadow | zynlibs/zynaudioplayer/player.c:195-270 | each shadow field becomes the current value exactly when it was selected and changed |
| AudioPlayer.NotifySpec | zynlibs/zynaudioplayer/player.c:195-270 | send_notifications reports exactly the selected fields past their threshold (position 0.1 s, gain 0.01, the rest any change) with their current values |
| AudioPlayer.NotifyCatchesUp | zynlibs/zynaudioplayer/player.c:195-270 | a second call with nothing changed reports nothing |
| AudioPlayer.NotifySmallGainChangeSilent | zynlibs/zynaudioplayer/player.c:217-225 | a gain change below 0.01 is neither reported nor copied into the shadow |
| AudioPlayer.PositionTarget | zynlibs/zynaudioplayer/player.c:555-558 | the frame set_position stores is below the converted length and is the truncated target when that is in range |
| AudioPlayer.SeekTarget | zynlibs/zynaudioplayer/player.c:337-339 | the file frame a seek goes to: the transport frame itself for ratio 0 or 1, otherwise the frame divided by the ratio truncated (the largest whole frame not above the quotient) |
| AudioPlayer.Advance | zynlibs/zynaudioplayer/player.c:703-705 | the position advanced by the drained frames wraps to stay below the converted length, congruent to the sum, and is the sum when that is in range |
| AudioPlayer.AdvanceAsWritten | zynlibs/zynaudioplayer/player.c:703-705 | the wrap as written traps exactly when the converted length is 0 and otherwise agrees with Advance |
| AudioPlayer.EmptyFileRenderTraps | zynlibs/zynaudioplayer/player.c:703-705 | every render of an open empty file reaches the modulo by zero |
| AudioPlayer.SrcRatio | zynlibs/zynaudioplayer/player.c:313 | the conversion ratio is non-negative and scales the file rate to the server rate |
| AudioPlayer.ConvertedFrames | zynlibs/zynaudioplayer/player.c:320-323 | the converted length is the file's frames times the ratio, truncated; the raw frames when the file rate is 0 |
| AudioPlayer.StatusAfterRead | zynlibs/zynaudioplayer/player.c:370-385 | a full block keeps loading; a short one loops when looping is on, else idles |
| AudioPlayer.ShortReadIsDiscarded | zynlibs/zynaudioplayer/player.c:370-411 | as written, the last short block is never written to the rings because its read already moved the status off LOADING |
| AudioPlayer.WriteGuardAsWritten | zynlibs/zynaudioplayer/player.c:411 | the guard as written admits only the LOADING status, never LOOPING, IDLE or SEEKING |
| AudioPlayer.WriteGuard | zynlibs/zynaudioplayer/player.c:411 | the corrected guard admits everything the written one does, and also the LOOPING and IDLE statuses a short read leaves |
| AudioPlayer.EveryReadBlockIsWritten | zynlibs/zynaudioplayer/player.c:370-411 | with the corrected guard every block read, the last short one included, is written |
| AudioPlayer.StrideSum | zynlibs/zynaudioplayer/player.c:418-429 | the every-other-channel sum is non-negative for non-negative samples and 0 for silence |
| AudioPlayer.StrideSumScales | zynlibs/zynaudioplayer/player.c:418-429 | summing each sample divided by d is the plain sum divided by d |
| AudioPlayer.StrideCountHalf | zynlibs/zynaudioplayer/player.c:419-420 | the even-stride loop runs half the remaining indices |
| AudioPlayer.DownmixRule | zynlibs/zynaudioplayer/player.c:414-437 | mono sends half of each sample to A and B; a chosen track is copied; track -1 mixes the even (A) or odd (B) channels divided by channels / 2 |
| AudioPlayer.DownmixSilence | zynlibs/zynaudioplayer/player.c:414-437 | Downmix: a silent frame gives silence on both outputs, whatever tracks are chosen |
| AudioPlayer.StrideCountOdd | zynlibs/zynaudioplayer/player.c:427-428 | the odd-channel loop runs channels / 2 times for an even channel count |
| AudioPlayer.OddChannelMixIsNotMean | zynlibs/zynaudioplayer/player.c:419-420 | with three equal channels the mix-all divisor gives twice the level |
| AudioPlayer.Firsts | zynlibs/zynaudioplayer/player.c:438-439 | the A samples of a block, one per frame |
| AudioPlayer.Seconds | zynlibs/zynaudioplayer/player.c:438-439 | the B samples of a block, one per frame |
| AudioPlayer.PushFramesWithRoom | zynlibs/zynaudioplayer/player.c:438-439 | with room in both rings, A receives every A sample and B every B sample, in order |
| AudioPlayer.WaitReleasedByOneRingDesyncs | zynlibs/zynaudioplayer/player.c:404-439 | the writer's wait ends once ring B has room even if ring A is full; B then receives the block and A nothing |
| AudioPlayer.PushFrame | zynlibs/zynaudioplayer/player.c:438-439 | one frame write: nothing is written while ring B is full, even if A has room, and A never gains a sample unless B does |
| AudioPlayer.PushFrames | zynlibs/zynaudioplayer/player.c:430-440 | a block written while ring B is full leaves both rings as they were |
| AudioPlayer.WriterWaits | zynlibs/zynaudioplayer/player.c:404-408 | the writer's wait as written ends as soon as either ring has room for the block |
| AudioPlayer.PushFramesBounded | zynlibs/zynaudioplayer/player.c:438-439 | the rings never exceed their capacity |
| AudioPlayer.Demux | zynlibs/zynaudioplayer/player.c:411-444 | one downmixed frame per file frame of the block |
| AudioPlayer.MixTracks | zynlibs/zynaudioplayer/player.c:418-429 | the stride loop sums exactly the samples StrideSum names |
| AudioPlayer.DemuxFrame | zynlibs/zynaudioplayer/player.c:414-437 | the frame loop's body computes the downmix of one frame |
| AudioPlayer.ClassifyMidi | zynlibs/zynaudioplayer/player.c:734-751 | note-off for the triggering note (0x80, or 0x90 with velocity 0); any other 0x90 is a note-on of that note; 0xE0 a bend of data1 + 128 data2, below 0x4000 for 7-bit data |
| AudioPlayer.MidiApply | zynlibs/zynaudioplayer/player.c:731-751 | one event: messages other than note-off, note-on and pitch-bend change nothing; only pitch-bend moves the bend; the last note becomes the old one, 0 or the event's note; the position only moves by a rewind that empties the rings and requests a seek |
| AudioPlayer.MidiFold | zynlibs/zynaudioplayer/player.c:731-751 | a sequence of events without note-off, note-on or pitch-bend commands changes nothing; the position is kept or rewound to 0 with a seek pending |
| AudioPlayer.MidiSentTransportOnly | zynlibs/zynaudioplayer/player.c:733-746 | MIDI events only add reports after the earlier ones, and each is a transport report of STOPPED, STARTING or STOPPING |
| AudioPlayer.ZeroVelocityOtherNoteRetriggers | zynlibs/zynaudioplayer/player.c:735-746 | a 0x90 with velocity 0 for a note other than the triggering one retriggers playback from that note |
| AudioPlayer.MidiFoldKeepsBend | zynlibs/zynaudioplayer/player.c:731-751 | events without a pitch-bend command leave the bend unchanged |
| AudioPlayer.MidiFoldNoteOrigin | zynlibs/zynaudioplayer/player.c:731-751 | the last note played is the old one, 0, or the note of one of the events |
| AudioPlayer.Output | zynlibs/zynaudioplayer/player.c:698-725 | an output period keeps its length |
| AudioPlayer.FadeShape | zynlibs/zynaudioplayer/player.c:709-712 | the soft mute starts at full level and falls strictly towards silence without reaching it; no fade means unit factor |
| AudioPlayer.Fade | zynlibs/zynaudioplayer/player.c:709-712 | the soft-mute factor is 1 without a fade and at the first sample, and between 0 and 1 within the drained frames |
| AudioPlayer.CopyInto | zynlibs/zynaudioplayer/player.c:693-694 | the drained samples land at the head of the port buffer, the rest unchanged |
| AudioPlayer.ScalePrefix | zynlibs/zynaudioplayer/player.c:698-702 | the drained samples are multiplied by the gain, the rest unchanged |
| AudioPlayer.FadePrefix | zynlibs/zynaudioplayer/player.c:709-712 | the drained samples are multiplied by 1 - k / count, the rest unchanged |
| AudioPlayer.ZeroFrom | zynlibs/zynaudioplayer/player.c:724-725 | the samples after the drained ones are silenced |
| AudioPlayer.FinishOutput | zynlibs/zynaudioplayer/player.c:698-725 | gain, optional fade and silence give exactly the period Output describes |
| AudioPlayer.PlanPeriod | zynlibs/zynaudioplayer/player.c:687-707 | STARTING becomes PLAYING once no seek is pending; PLAYING and STOPPING drain up to one period from A and as much of B; end of file needs an idle reader and an empty ring and fades; STOPPING fades |
| AudioPlayer.DemuxStep | zynlibs/zynaudioplayer/player.c:411-444 | one more demuxed frame is one more push onto the rings |
| AudioPlayer.DemuxInto | zynlibs/zynaudioplayer/player.c:411-444 | the frame loop writes every frame of the block to the rings, B first, within capacity |
| AudioPlayer.Player.constructor | zynlibs/zynaudioplayer/player.c:823-839 | the state init leaves (Initialised): closed, idle, stopped, no loop, position 0, SRC_SINC_FASTEST, gain 1, tracks 0, buffer 48000 x 5, empty rings, no callback, nothing reported |
| AudioPlayer.Player.Duration | zynlibs/zynaudioplayer/player.c:542-547 | the duration is never negative |
| AudioPlayer.Player.Position | zynlibs/zynaudioplayer/player.c:570-575 | get_position: 0 with no file open; never negative while the inverse ratio is not |
| AudioPlayer.Player.PlaybackState | zynlibs/zynaudioplayer/player.c:610-615 | get_playback_state: STOPPED with no file open |
| AudioPlayer.Player.Samplerate | zynlibs/zynaudioplayer/player.c:617-622 | get_samplerate: the server rate with no file open |
| AudioPlayer.Player.Channels | zynlibs/zynaudioplayer/player.c:624-629 | get_channels: 0 with no file open, at least 1 for an open file |
| AudioPlayer.Player.FileFrames | zynlibs/zynaudioplayer/player.c:631-636 | get_frames: 0 with no file open |
| AudioPlayer.Player.Format | zynlibs/zynaudioplayer/player.c:638-643 | get_format: 0 with no file open |
| AudioPlayer.Player.Filename | zynlibs/zynaudioplayer/player.c:535-540 | get_filename: empty with no file open |
| AudioPlayer.Player.SrcQuality | zynlibs/zynaudioplayer/player.c:905-910 | get_src_quality: SRC_SINC_FASTEST (2) with no file open |
| AudioPlayer.Player.Gain | zynlibs/zynaudioplayer/player.c:922-927 | get_gain: 0 with no file open |
| AudioPlayer.Player.TrackA | zynlibs/zynaudioplayer/player.c:957-962 | get_track_a: 0 with no file open, below the channel count for an open file |
| AudioPlayer.Player.TrackB | zynlibs/zynaudioplayer/player.c:964-969 | get_track_b: 0 with no file open, below the channel count for an open file |
| AudioPlayer.Player.IsLoop | zynlibs/zynaudioplayer/player.c:589-594 | is_loop: true only for an open file |
| AudioPlayer.Player.NotifyField | zynlibs/zynaudioplayer/player.c:195-270 | one comparison updates the shadow as NotifyStep does and reports to the callback only when one is set |
| AudioPlayer.Player.CopyToShadow | zynlibs/zynaudioplayer/player.c:195-270 | the shadow of one field is caught up; the debug shadow lives in the library |
| AudioPlayer.Player.SendNotifications | zynlibs/zynaudioplayer/player.c:195-270 | Notified: nothing unless the file is open; otherwise the shadow becomes Notify's and the callback, when set, receives Notify's reports after the earlier ones |
| AudioPlayer.Player.NotifyPlayback | zynlibs/zynaudioplayer/player.c:199-233 | the transport, position, gain and loop comparisons in order |
| AudioPlayer.Player.NotifySettings | zynlibs/zynaudioplayer/player.c:235-269 | the track, quality and debug comparisons in order |
| AudioPlayer.Player.StopPlayback | zynlibs/zynaudioplayer/player.c:603-608 | any state but STOPPED becomes STOPPING; with a file open the shadow and the callback's reports become those of one transport notification for the new state (TransportSent), nothing is sent otherwise |
| AudioPlayer.Player.StartPlayback | zynlibs/zynaudioplayer/player.c:596-601 | an open file that is not PLAYING becomes STARTING, otherwise the state is kept; with a file open one transport notification for the resulting state is sent (TransportSent), nothing otherwise |
| AudioPlayer.Player.TransportNotified | zynlibs/zynaudioplayer/player.c:596-608 | for an open file, the notification stop_playback and start_playback send as SentAs/TransportSent state it is the one Notified states for NOTIFY_TRANSPORT, in both directions |
| AudioPlayer.Player.SetPosition | zynlibs/zynaudioplayer/player.c:549-568 | for an open file the frame of SeekFrame (time clamped to the duration, converted, clamped to the last frame) with a seek requested and both rings emptied; otherwise nothing changes |
| AudioPlayer.Player.EnableLoop | zynlibs/zynaudioplayer/player.c:577-587 | the flag is set; LOOPING is armed only when the file is not open and the reader is idle; then the loop notification as Notified describes |
| AudioPlayer.Player.SetSrcQuality | zynlibs/zynaudioplayer/player.c:894-903 | accepted exactly for an open file and a quality up to SRC_LINEAR, then the quality notification as Notified describes; refused with shadow and reports unchanged |
| AudioPlayer.Player.SetGain | zynlibs/zynaudioplayer/player.c:912-920 | accepted only for an open file and a gain in 0..2, then the gain notification as Notified describes; otherwise gain, shadow and reports unchanged |
| AudioPlayer.Player.SetTrackA | zynlibs/zynaudioplayer/player.c:929-941 | for an open file a track below the channel count is taken (0 for mono), then a re-seek to the frame of the current position with both rings emptied, and the track-A notification as Notified describes; nothing changes for a closed file |
| AudioPlayer.Player.SetTrackB | zynlibs/zynaudioplayer/player.c:943-955 | as set_track_a, for output B: the track, the re-seek to the current position with emptied rings, the track-B notification |
| AudioPlayer.Player.Reseek | zynlibs/zynaudioplayer/player.c:939-940 | set_position(get_position()) then send_notifications: the frame SeekFrame gives for the position before, a seek pending, both rings emptied, and the notification as Notified describes |
| AudioPlayer.Player.SetBufferSize | zynlibs/zynaudioplayer/player.c:971-975 | only while no file is open |
| AudioPlayer.Player.SetBufferCount | zynlibs/zynaudioplayer/player.c:984-988 | only while no file is open and for a count above 1 |
| AudioPlayer.Player.OpenFile | zynlibs/zynaudioplayer/player.c:284-329 | a failed open, or no channels, closes the player and keeps the transport, the callback, the shadows, the ratio and its inverse, the converted length and the ring size; a successful one clears the callback, unsets the transport and position shadows, rewinds, requests a seek, sizes the rings, and sets the ratio, its inverse 1 / ratio when the ratio is not 0, and the converted length |
| AudioPlayer.Player.ResetForFile | zynlibs/zynaudioplayer/player.c:298-308 | the file's format, a cleared callback, unset shadows, position 0, a seek pending, empty rings of buffer size x count |
| AudioPlayer.Player.SetupConversion | zynlibs/zynaudioplayer/player.c:310-324 | the ratio, its inverse when the ratio is non-zero, an inverse of 0 for a file rate of 0 (where the source divides by infinity), no pitch shift, the bend centred, the converted length |
| AudioPlayer.Player.Unload | zynlibs/zynaudioplayer/player.c:516-525 | nothing when closed; otherwise stopped, closed and the filename cleared; an open file's reader exit rewinds, clears the callback and releases the rings; only an open file notifies: stop_playback's transport report (StopSent) through the callback set before the exit path, nothing otherwise |
| AudioPlayer.Player.ReaderExit | zynlibs/zynaudioplayer/player.c:450-465 | STOPPED, position 0, no callback, rings released |
| AudioPlayer.Player.Load | zynlibs/zynaudioplayer/player.c:479-514 | succeeds exactly when the thread starts and the file opens with a channel; the settings (gain, loop, quality, buffer size and count) kept, tracks 0, the play state the unloads leave; on success the name, the callback, a pending seek from frame 0, empty rings and the conversion set up (Opened); on failure closed, with the name cleared after a thread failure and kept after a failed open; the only reports are the opening unload's (StopSent), and a successful open then unsets the transport and position shadows |
| AudioPlayer.Player.LoadClosed | zynlibs/zynaudioplayer/player.c:484-513 | on a closed player: nothing reported, the play state kept when the thread starts and stopped otherwise, the name cleared after a thread failure, and on success Opened with the transport and position shadows unset |
| AudioPlayer.Player.OpenAndInstall | zynlibs/zynaudioplayer/player.c:499-505 | the wait for the open phase, then the callback installed exactly when the file opened: success exactly for an open result with a channel, then Opened; the shadows changed only by a successful open |
| AudioPlayer.Player.BeginBlock | zynlibs/zynaudioplayer/player.c:332-357 | a pending seek empties the rings, rederives the ratio with the pitch shift, seeks to SeekTarget of the position under that ratio and sets the inverse ratio when the ratio is not 0; a loop restarts from frame 0; both move to LOADING with fresh counters; the inverse ratio is kept in every other case, and without a seek or loop nothing changes |
| AudioPlayer.Player.ReadBlock | zynlibs/zynaudioplayer/player.c:358-402 | the request size, the status after the read, end of input on a short read, and the frames produced with or without conversion |
| AudioPlayer.Player.WriteBlock | zynlibs/zynaudioplayer/player.c:404-444 | the block reaches the rings only under the guard, as DemuxInto writes it |
| AudioPlayer.Player.RenderAudio | zynlibs/zynaudioplayer/player.c:679-725 | one period: the drained samples through gain and fade, the rest silenced, the position wrapped, a fade stopping playback and end of file re-cueing to frame 0 |
| AudioPlayer.Player.Drain | zynlibs/zynaudioplayer/player.c:692-697 | the drained samples are copied out and consumed from the rings |
| AudioPlayer.Player.EndPeriod | zynlibs/zynaudioplayer/player.c:703-718 | the position advances with wrap; a fade stops playback and end of file re-cues with a seek |
| AudioPlayer.Player.HandleMidiEvent | zynlibs/zynaudioplayer/player.c:733-751 | one MIDI event changes the transport as MidiApply describes and sends the transport notifications EventSent describes: stop_playback's for a note-off, stop_playback's and then start_playback's for a note-on, none otherwise |
| AudioPlayer.Player.NoteOff | zynlibs/zynaudioplayer/player.c:735-739 | stop, no pitch shift, no note; stop_playback's transport notification for the stopped state is sent |
| AudioPlayer.Player.NoteOn | zynlibs/zynaudioplayer/player.c:740-746 | stop, shift by 60 - note, rewind with a seek and start; two transport notifications in order: stop_playback's for the stopped state, then start_playback's for STARTING |
| AudioPlayer.Player.Restart | zynlibs/zynaudioplayer/player.c:744-745 | rewound, rings emptied, a seek pending, STARTING; start_playback's transport notification for STARTING is sent |
| AudioPlayer.Player.HandleMidi | zynlibs/zynaudioplayer/player.c:727-775 | the events in arrival order: the transport is MidiFold of them and the notifications are MidiSent of them, each event's after those of the events before it |
| AudioPlayer.Player.Render | zynlibs/zynaudioplayer/player.c:679-777 | nothing for a player without an open file (no output, no notification); for an open file each port is the drained ring prefix scaled by the gain and the fade, the rest silenced, the transport is the period's end state with the MIDI events folded over it (MidiFold), and the notifications are those MidiSent gives for the events from that end state; only the transport, the shadow, the reports and the two ports change |
| AudioPlayer.ClosedPlayerReportsDefaults | zynlibs/zynaudioplayer/player.c:535-643 | with no file open every getter reports its default |
| AudioPlayer.PositionRoundTrip | zynlibs/zynaudioplayer/player.c:549-575 | re-seeking to the reported position lands on the current frame when no pitch shift is in effect |
| AudioPlayer.FirstFree | zynlibs/zynaudioplayer/player.c:812-817 | an index found is an empty slot at or after the start |
| AudioPlayer.FirstFreeIsLeast | zynlibs/zynaudioplayer/player.c:812-817 | the first empty slot is the least one, and none means every slot is taken |
| AudioPlayer.OccupiedUpdate | zynlibs/zynaudioplayer/player.c:666-672 | filling an empty slot adds one to the occupied count; emptying an occupied one removes one |
| AudioPlayer.OccupiedBound | zynlibs/zynaudioplayer/player.c:1033-1039 | the occupied count is at most the table size, and 0 exactly when every slot is empty |
| AudioPlayer.Library.constructor | zynlibs/zynaudioplayer/player.c:92-95 | an empty table, server rate 44100, debug off |
| AudioPlayer.Library.GetPlayer | zynlibs/zynaudioplayer/player.c:102-106 | only handles 0..15 reach the table |
| AudioPlayer.Library.GetPlayerAsWritten | zynlibs/zynaudioplayer/player.c:102-106 | the guard as written lets handle 16 through, one past the table, and rejects exactly the others outside 0..16 |
| AudioPlayer.Library.GetPlayerAgrees | zynlibs/zynaudioplayer/player.c:102-106 | apart from handle 16 the guard as written and the corrected one agree |
| AudioPlayer.Library.Init | zynlibs/zynaudioplayer/player.c:809-885 | the first empty slot gets a new player in the state init leaves (Initialised: closed, stopped, gain 1, no loop, position 0, SRC_SINC_FASTEST, tracks 0, buffer 48000 x 5), the server rate is stored and the index returned; -1 with the table and the server rate unchanged when the table is full or the server client fails |
| AudioPlayer.Library.RemovePlayer | zynlibs/zynaudioplayer/player.c:648-676 | the player is unloaded and every slot holding it cleared; other slots unchanged |
| AudioPlayer.Library.PlayerCount | zynlibs/zynaudioplayer/player.c:1033-1039 | corrected, the number of occupied slots |
| AudioPlayer.Library.PlayerCountAsWritten | zynlibs/zynaudioplayer/player.c:1033-1039 | as written, always 16 |
| AudioPlayer.FirstFreeUnique | zynlibs/zynaudioplayer/player.c:812-817 | an empty slot preceded only by taken ones is the one found |
| AudioPlayer.PlayerCountAsWrittenOverstates | zynlibs/zynaudioplayer/player.c:1033-1039 | with an empty table the count as written still reports sixteen |
| Sequencer.Survivors | zynlibs/zynseq/pattern.cpp:61-81 | addEvent keeps at most the events it had |
| Sequencer.SurvivorsSpec | zynlibs/zynseq/pattern.cpp:61-81 | addEvent keeps exactly the events it does not replace: those that do not overlap the new span or differ in command or first value |
| Sequencer.FirstReplacedSpec | zynlibs/zynseq/pattern.cpp:58-72 | the stutter settings come from the earliest replaced event, and from none exactly when nothing is replaced |
| Sequencer.InsertIndex | zynlibs/zynseq/pattern.cpp:83-88 | the new event goes before the first event with a strictly greater position and after every other |
| Sequencer.SurvivorsSorted | zynlibs/zynseq/pattern.cpp:61-81 | dropping events keeps the position order |
| Sequencer.AddedSorted | zynlibs/zynseq/pattern.cpp:56-94 | addEvent keeps the events in position order |
| Sequencer.AddedContents | zynlibs/zynseq/pattern.cpp:56-94 | after addEvent the pattern holds the new event and exactly the old events it did not replace, one more than the survivors |
| Sequencer.EnclosingNoteSurvives | zynlibs/zynseq/pattern.cpp:67 | a same-note event that encloses the new span is not replaced: both remain |
| Sequencer.FindEvent | zynlibs/zynseq/pattern.cpp:106-117 | the first event at the position with this command and first value, none exactly when there is no such event |
| Sequencer.DeletedSorted | zynlibs/zynseq/pattern.cpp:106-117 | deleteEvent keeps the position order |
| Sequencer.DeletedOne | zynlibs/zynseq/pattern.cpp:106-117 | deleteEvent removes exactly one occurrence of the event it finds, and nothing when it finds none |
| Sequencer.FirstProgramChange | zynlibs/zynseq/pattern.cpp:290-301 | the first program change at a step, none exactly when there is none |
| Sequencer.ClearedHasNone | zynlibs/zynseq/pattern.cpp:279-288 | removing the only program change at a step leaves none there |
| Sequencer.RemovedOnlyProgram | zynlibs/zynseq/pattern.cpp:279-288 | erasing the step's only program change leaves no program change at that step |
| Sequencer.ProgramChangeReplaces | zynlibs/zynseq/pattern.cpp:270-277 | addProgramChange leaves exactly one program change at the step, the new program |
| Sequencer.Transposed | zynlibs/zynseq/pattern.cpp:458-488 | transpose keeps the number of events |
| Sequencer.TransposedSpec | zynlibs/zynseq/pattern.cpp:458-488 | all or nothing: when every note fits each NOTE_ON moves by the offset into 0..127, otherwise nothing changes; positions, commands, lengths and order are kept |
| Sequencer.TransposeRoundTrip | zynlibs/zynseq/pattern.cpp:458-488 | transposing back undoes an accepted transpose |
| Sequencer.OnNotes | zynlibs/zynseq/pattern.cpp:490-548 | a bulk edit changes every NOTE_ON and only NOTE_ONs |
| Sequencer.WithVelocity | zynlibs/zynseq/pattern.cpp:490-503 | velocity moved by the delta and clamped to 1..127; position and command kept |
| Sequencer.WithStutterCount | zynlibs/zynseq/pattern.cpp:520-533 | stutter count moved by the delta and clamped to 0..255 |
| Sequencer.WithStutterDur | zynlibs/zynseq/pattern.cpp:535-548 | stutter length moved by the delta and clamped to 1..255 |
| Sequencer.OnNotesSorted | zynlibs/zynseq/pattern.cpp:490-548 | edits that keep positions keep the order |
| Sequencer.Lengthened | zynlibs/zynseq/pattern.cpp:505-518 | changeDurationAll keeps the number of events |
| Sequencer.LengthenedSpec | zynlibs/zynseq/pattern.cpp:505-518 | when every note stays positive each note is lengthened and at least 0.1 long; otherwise the events from the first failing note on are untouched |
| Sequencer.ClocksPerStep | zynlibs/zynseq/pattern.cpp:336-341 | at least one clock per step, and exactly PPQN / stepsPerBeat for an accepted step count |
| Sequencer.CutIndex | zynlibs/zynseq/pattern.cpp:385-390 | the first event at or past the new end |
| Sequencer.CutKeepsInRange | zynlibs/zynseq/pattern.cpp:380-391 | on ordered events the cut keeps exactly the events before the new end |
| Sequencer.Saved | zynlibs/zynseq/pattern.cpp:642-658 | saveSnapshot drops the snapshots after the position, appends the events and points at them, keeping earlier ones |
| Sequencer.BackForward | zynlibs/zynseq/pattern.cpp:660-676 | undo then redo, and redo then undo, return to the same snapshot; the position stays valid |
| Sequencer.SaveThenBack | zynlibs/zynseq/pattern.cpp:642-667 | after a save, undo returns to the snapshot current before it and there is nothing to redo |
| Sequencer.MaxPosition | zynlibs/zynseq/pattern.cpp:597-608 | the largest event position, which some event has |
| Sequencer.LastStepOfSorted | zynlibs/zynseq/pattern.cpp:597-608 | on ordered events the last step is the last event's position |
| Sequencer.Sift | zynlibs/zynseq/pattern.cpp:61-81 | addEvent's first loop keeps the survivors and remembers the first replaced event |
| Sequencer.SiftStep | zynlibs/zynseq/pattern.cpp:61-81 | one more event looked at by the first loop |
| Sequencer.FindInsert | zynlibs/zynseq/pattern.cpp:83-88 | the second loop finds the insertion point |
| Sequencer.AddTo | zynlibs/zynseq/pattern.cpp:56-94 | addEvent on the vector gives Added and the event NewEvent describes |
| Sequencer.DeleteFrom | zynlibs/zynseq/pattern.cpp:106-117 | deleteEvent's loop erases the first matching event |
| Sequencer.EditEach | zynlibs/zynseq/pattern.cpp:490-548 | the bulk-edit loop applies the edit to every NOTE_ON in turn |
| Sequencer.TransposeAll | zynlibs/zynseq/pattern.cpp:458-488 | transpose's range check then its move give Transposed |
| Sequencer.LengthenEach | zynlibs/zynseq/pattern.cpp:505-518 | changeDurationAll's loop, returning at the first note it cannot shorten, gives Lengthened |
| Sequencer.FindCut | zynlibs/zynseq/pattern.cpp:384-390 | setBeatsInPattern's loop finds the cut index |
| Sequencer.LastStep | zynlibs/zynseq/pattern.cpp:597-608 | the largest position, or uint32_t(-1) without events |
| Sequencer.MaxUnique | zynlibs/zynseq/pattern.cpp:597-608 | a position that occurs and bounds all others is the maximum |
| Sequencer.Pattern.constructor | zynlibs/zynseq/pattern.cpp:6-12 | the lengths with setStepsPerBeat applied, no events, a history holding the empty pattern |
| Sequencer.Pattern.ResetSnapshots | zynlibs/zynseq/pattern.cpp:631-640 | the history becomes the current events alone |
| Sequencer.Pattern.AddEvent | zynlibs/zynseq/pattern.cpp:56-94 | the events become Added and the ordered invariant is kept |
| Sequencer.Pattern.DeleteEvent | zynlibs/zynseq/pattern.cpp:106-117 | the events become Deleted and stay ordered |
| Sequencer.Pattern.AddNote | zynlibs/zynseq/pattern.cpp:119-126 | rejected, changing nothing, exactly for a step past the pattern or a note or velocity above 127; otherwise addEvent of a NOTE_ON |
| Sequencer.Pattern.RemoveProgramChange | zynlibs/zynseq/pattern.cpp:279-288 | true exactly when getProgramChange finds a program change; the events become Cleared |
| Sequencer.Pattern.AddProgramChange | zynlibs/zynseq/pattern.cpp:270-277 | rejected, changing nothing, exactly for a step past the pattern or a program above 127; otherwise the step's program change replaced by the new one |
| Sequencer.Pattern.Transpose | zynlibs/zynseq/pattern.cpp:458-488 | the events become Transposed |
| Sequencer.Pattern.EditNotes | zynlibs/zynseq/pattern.cpp:490-548 | the events become OnNotes of the edit |
| Sequencer.Pattern.ChangeVelocityAll | zynlibs/zynseq/pattern.cpp:490-503 | every note's velocity moved and clamped |
| Sequencer.Pattern.ChangeStutterCountAll | zynlibs/zynseq/pattern.cpp:520-533 | every note's stutter count moved and clamped |
| Sequencer.Pattern.ChangeStutterDurAll | zynlibs/zynseq/pattern.cpp:535-548 | every note's stutter length moved and clamped |
| Sequencer.Pattern.ChangeDurationAll | zynlibs/zynseq/pattern.cpp:505-518 | the events become Lengthened |
| Sequencer.Pattern.SetBeatsInPattern | zynlibs/zynseq/pattern.cpp:380-391 | a beat count of 0 ignored; the events at or past the new end dropped |
| Sequencer.Pattern.SetStepsPerBeat | zynlibs/zynseq/pattern.cpp:343-373 | accepted exactly for 1, 2, 3, 4, 6, 8, 12 or 24; a stored count of 0 or above PPQN becomes 4 first; positions are not rescaled |
| Sequencer.Pattern.GetLastStep | zynlibs/zynseq/pattern.cpp:597-608 | the largest event position, or uint32_t(-1) without events |
| Sequencer.Pattern.SaveSnapshot | zynlibs/zynseq/pattern.cpp:642-658 | the history becomes Saved |
| Sequencer.Pattern.Undo | zynlibs/zynseq/pattern.cpp:660-667 | false exactly at the first snapshot; otherwise one back and its events restored |
| Sequencer.Pattern.Redo | zynlibs/zynseq/pattern.cpp:669-676 | false exactly at the last snapshot; otherwise one forward and its events restored |
| Sequencer.Pattern.UndoAll | zynlibs/zynseq/pattern.cpp:678-685 | false exactly at the first snapshot; otherwise the first snapshot restored |
| Sequencer.Pattern.RedoAll | zynlibs/zynseq/pattern.cpp:687-694 | false exactly at the last snapshot; otherwise the last snapshot restored |
| Chain.FlattenProcs | zyngine/zynthian_chain.py:344-375 | the listed processors of a sub-chain are its processors counted with multiplicity |
| Chain.UpToSame | zyngine/zynthian_chain.py:298-375 | sub-chains agreeing on their first slots hold the same processors there |
| Chain.ProcsUpdate | zyngine/zynthian_chain.py:510-538 | rewriting one slot trades its old processors for the new ones |
| Chain.ProcsInsert | zyngine/zynthian_chain.py:384-411 | inserting a slot adds exactly its processors |
| Chain.ProcsDelete | zyngine/zynthian_chain.py:449-479 | dropping a slot removes exactly its processors |
| Chain.InProcs | zyngine/zynthian_chain.py:540-550 | a processor is in a sub-chain exactly when some slot holds it |
| Chain.EmptyProcs | zyngine/zynthian_chain.py:449-486 | a sub-chain without empty slots and without processors has no slots |
| Chain.InsertSlotAdds | zyngine/zynthian_chain.py:384-411 | insertion adds exactly the one processor |
| Chain.InsertSlotShape | zyngine/zynthian_chain.py:394-402 | the first effect opens one slot; series mode inserts a new slot at the clamped index with the others around it in order; parallel mode joins slot index-1 (the last slot for index 0) and keeps the slot count |
| Chain.RemoveFirst | zyngine/zynthian_chain.py:467 | list.remove drops one occurrence when present and nothing otherwise |
| Chain.RemoveAtSpec | zyngine/zynthian_chain.py:466-469 | removing a processor its slot holds takes exactly one occurrence out, and a slot that empties is dropped |
| Chain.SlotFrom | zyngine/zynthian_chain.py:540-550 | the first slot holding the processor, none exactly when no slot does |
| Chain.LastInUpTo | zyngine/zynthian_chain.py:521-528 | the last index of a processor within a slot |
| Chain.LastPosUpTo | zyngine/zynthian_chain.py:521-528 | where the scan leaves a processor: a place that holds it, none exactly when no slot holds it |
| Chain.Swapped | zyngine/zynthian_chain.py:534-535 | a swap keeps the number and sizes of the slots |
| Chain.SwappedSpec | zyngine/zynthian_chain.py:510-538 | a swap keeps the processors and exchanges the two places |
| Chain.SumLengths | zyngine/zynthian_chain.py:330-332 | the accumulation over a sub-chain counts every processor listed |
| Chain.Locate | zyngine/zynthian_chain.py:519-528 | the scan finds the last place of each processor |
| Chain.InsertTyped | zyngine/zynthian_chain.py:384-411 | inserting a processor of the sub-chain's type keeps it typed and adds exactly that processor |
| Chain.RemoveTyped | zyngine/zynthian_chain.py:449-479 | removal keeps the sub-chain typed and takes out one occurrence |
| Chain.SwapTyped | zyngine/zynthian_chain.py:510-538 | a swap keeps the sub-chain typed and its processors |
| Chain.SuffixStep | zyngine/zynthian_chain.py:481-486 | dropping the head of the remaining list drops one occurrence of it |
| Chain.ZynChain.AllProcessorsCounts | zyngine/zynthian_chain.py:344-375 | get_processors lists each processor of the chain as often as it occurs |
| Chain.ZynChain.ListingRaisesWithMidiTool | zyngine/zynthian_chain.py:344-375 | as written, get_processors() raises TypeError exactly when the chain holds a MIDI tool (the MIDI loop rebinds `slot` to a list), and otherwise gives the corrected listing |
| Chain.ZynChain.GetSlotFinds | zyngine/zynthian_chain.py:540-550 | get_slot finds exactly the processors of the chain |
| Chain.ZynChain.SlotCountSums | zyngine/zynthian_chain.py:298-315 | the whole-chain slot count is the two sub-chains' counts plus the synth slot |
| Chain.ZynChain.ProcessorCount | zyngine/zynthian_chain.py:317-342 | the whole-chain count is the length of get_processors's list; the synth place counts at most one |
| Chain.ZynChain.ProcessorCountWhole | zyngine/zynthian_chain.py:317-342 | the whole-chain count is the length of get_processors's list and the sum of the sub-chain and synth counts |
| Chain.ZynChain.GetProcessorCount | zyngine/zynthian_chain.py:317-342 | the loops count what ProcessorCount describes: the whole chain, a sub-chain or a slot, or the synth for slot 0 |
| Chain.ZynChain.IsAudioMeans | zyngine/zynthian_chain.py:277-279 | is_audio holds exactly when audio passes through or the chain holds a processor other than a MIDI tool |
| Chain.ZynChain.IsMidiMeans | zyngine/zynthian_chain.py:281-283 | is_midi holds exactly when MIDI passes through or the chain holds a MIDI tool |
| Chain.ZynChain.InsertProcessor | zyngine/zynthian_chain.py:384-411 | an effect goes into its sub-chain as InsertSlot describes; any other becomes the synth, refused when there is one; on success exactly one processor is added and nothing else changes; after a MIDI tool is added is_midi holds, after any other processor is_audio holds (the sub-chain and synth it does not touch are kept, so the other flag is unchanged) |
| Chain.ZynChain.RemoveProcessor | zyngine/zynthian_chain.py:449-479 | refused, changing nothing, exactly for a processor not in the chain; otherwise exactly one occurrence removed from its slot or the synth cleared |
| Chain.ZynChain.RemoveAllProcessors | zyngine/zynthian_chain.py:481-486 | the chain is left empty, so is_audio and is_midi are left to the pass-through flags |
| Chain.ZynChain.RemoveEach | zyngine/zynthian_chain.py:483-484 | removing a list holding exactly the chain's processors leaves none |
| Chain.ZynChain.RemoveAllProcessorsAsWritten | zyngine/zynthian_chain.py:481-486 | as written, the listing raises before anything is removed exactly when the chain has a MIDI slot; otherwise the chain is left empty |
| Chain.ZynChain.GetSlot | zyngine/zynthian_chain.py:540-550 | for an effect, the slot found is the first slot of its sub-chain holding it, and None means no slot holds it; for any other processor 0 exactly when it is the synth |
| Chain.ZynChain.SwapProcessors | zyngine/zynthian_chain.py:510-538 | only two effects of the same type that are both found are swapped; each goes where the scan last saw the other and the processors are kept |
| Chain.ZynChain.Rearrange | zyngine/zynthian_chain.py:534-535 | the sub-chain of the type becomes the given slots holding the same processors; the chain stays well-typed, its processors are kept and the other sub-chain is unchanged |
| Chain.ZynChain.Reset | zyngine/zynthian_chain.py:76-97 | MIDI input from the router's channel output for a channel below 16, else none; the default outputs and audio ports; every processor removed |
| Chain.ZynChain.constructor | zyngine/zynthian_chain.py:44-74 | an empty chain with the given channel and thru flags, reset |
| ChainManager.AllChans | zyngine/zynthian_chain_manager.py:635 | list(range(16)): the channels 0 to 15 in ascending order |
| ChainManager.DropChan | zyngine/zynthian_chain_manager.py:637-641 | the channel leaves the list when present; an absent channel or None changes nothing and the list stays ascending |
| ChainManager.FreeChans | zyngine/zynthian_chain_manager.py:633-642 | the channels below 16, ascending, that none of the given chains uses |
| ChainManager.NextFreeChan | zyngine/zynthian_chain_manager.py:644-654 | the least free channel from c on, none exactly when there is none |
| ChainManager.ReplaceUnsafe | zyngine/zynthian_chain_manager.py:533 | whitespace, quotes, stars and brackets become '_' and every other character is kept |
| ChainManager.CollapseUnderscores | zyngine/zynthian_chain_manager.py:533 | no two '_' left next to each other; never longer and the first character kept |
| ChainManager.Sanitize | zyngine/zynthian_chain_manager.py:533 | a sanitised stub holds no unsafe character and no run of '_' |
| ChainManager.CollapseKeepsChars | zyngine/zynthian_chain_manager.py:533 | collapsing introduces no character |
| ChainManager.SanitizeChars | zyngine/zynthian_chain_manager.py:533 | collapsing keeps a string free of unsafe characters |
| ChainManager.JackName | zyngine/zynthian_chain_manager.py:542-543 | a "stub-NN" name starts with the stub |
| ChainManager.JackNameNumber | zyngine/zynthian_chain_manager.py:542-543 | the number reads back from the name, so different numbers give different names |
| ChainManager.NextJackName | zyngine/zynthian_chain_manager.py:524-548 | the returned name is "stub-NN" for the least NN from 1 whose name is not among the existing names |
| ChainManager.NextJackNameAsWritten | zyngine/zynthian_chain_manager.py:524-548 | when the processor listing raises, the except branch answers "stub-00"; otherwise the least "stub-NN" from NN = 1 that no existing name takes |
| ChainManager.FallbackNameCollides | zyngine/zynthian_chain_manager.py:544-546 | the fallback "stub-00" is never a name the search gives, and every call that falls back gives the same name |
| ChainManager.NamesWithPrefix | zyngine/zynthian_chain_manager.py:534-538 | the set holds exactly the existing names that start with the stub |
| ChainManager.FirstFreeName | zyngine/zynthian_chain_manager.py:539-543 | the least NN from 1 whose "stub-NN" is not in the set |
| ChainManager.TotalCount | zyngine/zynthian_chain_manager.py:429-447 | the documented total is at least the first chain's count |
| ChainManager.Counts | zyngine/zynthian_chain_manager.py:441-442 | one count per chain, in table order |
| ChainManager.CountAll | zyngine/zynthian_chain_manager.py:439-443 | the loop run to the end adds up every chain's count |
| ChainManager.CountsAt | zyngine/zynthian_chain_manager.py:442 | the i-th count is the i-th chain's get_processor_count |
| ChainManager.CountStep | zyngine/zynthian_chain_manager.py:442 | the running total after one more chain adds that chain's count |
| ChainManager.TotalPrefix | zyngine/zynthian_chain_manager.py:442 | the running total after one more count |
| ChainManager.TotalAppend | zyngine/zynthian_chain_manager.py:442 | appending a count adds it to the total |
| ChainManager.FirstCountMissesLaterChains | zyngine/zynthian_chain_manager.py:439-443 | with processors only in the second chain the loop as written returns 0 and the total is 1 |
| ChainManager.TotalOfFirst | zyngine/zynthian_chain_manager.py:439-443 | the loop as written agrees with the total exactly when every later chain counts 0 |
| ChainManager.TotalZero | zyngine/zynthian_chain_manager.py:429-447 | the total is 0 exactly when every count is 0 |
| ChainManager.KeyedAdd | zyngine/zynthian_chain_manager.py:129-131 | storing a new id keeps the table and its order in step |
| ChainManager.KeyedRemove | zyngine/zynthian_chain_manager.py:160-161 | popping an id keeps the table and its order in step |
| ChainManager.ZynChainManager.constructor | zyngine/zynthian_chain_manager.py:46-67 | sixteen empty channel sets and a table holding only "main", made with audio thru, no channel and active |
| ChainManager.ZynChainManager.AddChain | zyngine/zynthian_chain_manager.py:116-139 | an existing id returns its chain and changes nothing; otherwise a new empty chain is stored, indexed under a channel below 16 and made active |
| ChainManager.ZynChainManager.RemoveChain | zyngine/zynthian_chain_manager.py:141-164 | refused exactly for an unknown id; otherwise the chain leaves the channel index and is reset, and leaves the table unless it is "main" |
| ChainManager.ZynChainManager.Unindex | zyngine/zynthian_chain_manager.py:151-155 | the chain leaves every channel set and a missing entry is ignored |
| ChainManager.ZynChainManager.SetActiveChainById | zyngine/zynthian_chain_manager.py:310-320 | only a known id becomes active; the active id is returned |
| ChainManager.ZynChainManager.GetActiveChain | zyngine/zynthian_chain_manager.py:366-370 | the active chain exactly when the active id names one, else None |
| ChainManager.ZynChainManager.ChanList | zyngine/zynthian_chain_manager.py:636-637 | each chain's channel, in table order |
| ChainManager.ZynChainManager.GetFreeMidiChans | zyngine/zynthian_chain_manager.py:633-642 | exactly the channels below 16, ascending, that no chain uses |
| ChainManager.ZynChainManager.GetNextFreeMidiChan | zyngine/zynthian_chain_manager.py:644-654 | the least channel from c on that no chain uses; None (the raised exception) exactly when every channel from c on is used |
| ChainManager.ZynChainManager.AddProcessor | zyngine/zynthian_chain_manager.py:376-398 | None for an unknown chain or engine type; otherwise the chain's insertion runs, and the processor is returned only when it was inserted and its engine started |
| ChainManager.ZynChainManager.GetProcessorCountAsWritten | zyngine/zynthian_chain_manager.py:429-446 | for no chain id only the first chain is counted, as the early return in the loop does |
| ChainManager.ZynChainManager.GetProcessorCount | zyngine/zynthian_chain_manager.py:429-446 | for no chain id every chain's count is added; for an id its chain's count, 0 for an unknown id |
| ChainManager.RemoveId | zyngine/zynthian_chain_manager.py:160-161 | the order after the pop holds the other ids and stays free of repeats |
| Processor.RunLength | zyngine/zynthian_processor.py:159-170 | the counting loop stops at the first bank that is neither external nor user, or at the end |
| Processor.RunLengthIs | zyngine/zynthian_processor.py:159-170 | the run ends exactly at the first system bank |
| Processor.ExtCount | zyngine/zynthian_processor.py:160-164 | the external banks counted never exceed the banks scanned |
| Processor.MsbTable | zyngine/zynthian_processor.py:157-171 | the three rows partition the bank list: external banks from 0, user banks after them, system banks after the run up to the end |
| Processor.ShiftTable | zyngine/zynthian_processor.py:174-177 | prepending the favourites bank moves every offset by one and keeps the counts |
| Processor.CountBanks | zyngine/zynthian_processor.py:156-171 | the counting loop computes MsbTable |
| Processor.SortedRunCounts | zyngine/zynthian_processor.py:159-170 | in a run with external banks before user banks the first ExtCount banks are the external ones |
| Processor.MsbSelectsKind | zyngine/zynthian_processor.py:670-685 | with external, then user, then other banks, MSB 2, 1 and 0 with an LSB below the count select a bank of that kind |
| Processor.BasePath | zyngine/zynthian_processor.py:763-773 | "chan+1#" in front for a channel below 16, "Main#" for 256, the bare engine path otherwise |
| Processor.BasePathChannel | zyngine/zynthian_processor.py:769-770 | the text before the first '#' reads back as the 1-based channel |
| Processor.Unmarked | zyngine/zynthian_processor.py:311-313 | the favourite marker is dropped from the front of a preset name, any other name is kept |
| Processor.UnmarkMarked | zyngine/zynthian_processor.py:277-278 | unmarking undoes load_preset_list's marking |
| Processor.MarkFavs | zyngine/zynthian_processor.py:276-279 | the same presets with the same ids; a favourite's name gets the marker in front |
| Processor.FindBank | zyngine/zynthian_processor.py:223-236 | the first bank with that name, none exactly when no bank has it |
| Processor.CtrlScreen | zyngine/zynthian_processor.py:588-602 | exactly the non-empty keys that name a defined controller, in order |
| Processor.Titles | zyngine/zynthian_processor.py:533-534 | the titles of the definitions in order |
| Processor.ScreenTable | zyngine/zynthian_processor.py:526-534 | the OrderedDict: each title once, exactly the defined titles, the last definition's controllers |
| Processor.ScreenTableLast | zyngine/zynthian_processor.py:533-534 | a title takes the controllers of its last definition |
| Processor.BuildScreens | zyngine/zynthian_processor.py:532-534 | the loop builds ScreenTable |
| Processor.ZynProcessor.constructor | zyngine/zynthian_processor.py:50-89 | nothing loaded, no bank or preset selected, three empty MSB rows and no screen selected |
| Processor.ZynProcessor.LoadBankList | zyngine/zynthian_processor.py:151-178 | the engine's banks, with the favourites bank in front when the engine shows it and has favourites, which moves each MSB offset up by one |
| Processor.ZynProcessor.SetBank | zyngine/zynthian_processor.py:190-220 | an index past the list or a nameless bank fails and changes nothing; otherwise the bank is selected and the engine's answer returned only when asked for and the bank changed |
| Processor.ZynProcessor.SetBankByName | zyngine/zynthian_processor.py:223-236 | the first bank of that name is selected (index, name, info) and the result is set_bank's for it: the engine's answer when the bank changed and the engine is asked, else False; False and no change when no bank has that name |
| Processor.ZynProcessor.LoadPresetList | zyngine/zynthian_processor.py:267-283 | the favourites when they are shown, else the current bank's presets with favourites marked, and no change when no bank is selected |
| Processor.ZynProcessor.SetPreset | zyngine/zynthian_processor.py:294-356 | an index past the list or a falsy name fails and changes nothing; otherwise the preset is selected with its marker removed, the preload cleared and the engine asked when forced or the preset changed |
| Processor.ZynProcessor.SelectFavBank | zyngine/zynthian_processor.py:316-319 | the favourite's bank is selected by name when it is not the current one |
| Processor.ZynProcessor.SetShowFavPresets | zyngine/zynthian_processor.py:481-492 | the flag is set exactly when asked for and the engine has a favourite |
| Processor.ZynProcessor.ToggleShowFavPresets | zyngine/zynthian_processor.py:500-507 | the flag flips, except that it stays off without favourites; the new flag is returned |
| Processor.ZynProcessor.MidiBankMsb | zyngine/zynthian_processor.py:660-667 | only 0, 1 and 2 are taken |
| Processor.ZynProcessor.MidiBankLsb | zyngine/zynthian_processor.py:670-685 | an LSB below the MSB's count turns favourites off, selects the bank at offset plus LSB and reloads the presets; any other LSB changes nothing |
| Processor.ZynProcessor.InitCtrlScreens | zyngine/zynthian_processor.py:526-542 | the screens rebuilt from the engine's definitions; the first selected when none was, none when there are none |
| Processor.ZynProcessor.GetBasepath | zyngine/zynthian_processor.py:763-773 | for a channel below 16 the prefix before '#' reads back as the 1-based channel |
| StateManager.Zs3Id | zyngine/zynthian_state_manager.py:509 | a formatted id starts with "zs3-" |
| StateManager.Zs3IdNumber | zyngine/zynthian_state_manager.py:497-502 | the number of a formatted id reads back through int(id.split('-')[1]) |
| StateManager.Defined | zyngine/zynthian_state_manager.py:497-502 | exactly the ids whose number parses |
| StateManager.Image | zyngine/zynthian_state_manager.py:497-502 | every parsed number is among the used numbers |
| StateManager.ImageBound | zyngine/zynthian_state_manager.py:497-503 | there are no more used numbers than ids yielding them |
| StateManager.Candidates | zyngine/zynthian_state_manager.py:507 | range(1, m+1) holds exactly 1..m, m numbers |
| StateManager.SubsetCard | zyngine/zynthian_state_manager.py:505-510 | a subset is no larger |
| StateManager.FreeNumber | zyngine/zynthian_state_manager.py:505-510 | the least of 1..bound not in use, none exactly when all are in use |
| StateManager.AlwaysFree | zyngine/zynthian_state_manager.py:505-510 | searching up to one past the count of numbered ids always finds a free number |
| StateManager.SearchMissesOnlyOne | zyngine/zynthian_state_manager.py:505-510 | a table whose only numbered id has number 1 leaves range(1, 2) nothing free |
| StateManager.Zs3SearchMisses | zyngine/zynthian_state_manager.py:505-515 | with just "zs3-1" stored the search as written finds nothing, so zs3_id stays None and upper() raises |
| StateManager.UByte | zyngine/zynthian_state_manager.py:893-895 | a c_ubyte keeps the low eight bits and every byte value as it is |
| StateManager.FlagFor | zyngine/zynthian_state_manager.py:893-901 | a flag list's own entry, otherwise 1 exactly for the listed CC numbers |
| StateManager.FillCcFlags | zyngine/zynthian_state_manager.py:893-901 | the loops fill all 128 bytes with FlagFor |
| StateManager.CcFlag | zyngine/zynthian_state_manager.py:893-901 | as written any 128-long list is read as flags, any other as CC numbers |
| StateManager.Nonzero | zyngine/zynthian_state_manager.py:862 | nonzero(): exactly the CC numbers whose flag is set, ascending |
| StateManager.NonzeroAll | zyngine/zynthian_state_manager.py:862 | with all 128 flags set the saved list is 0..127 |
| StateManager.CloneRestoreLosesCcZero | zyngine/zynthian_state_manager.py:862-901 | saving all 128 CCs enabled and restoring them as written leaves CC 0 disabled |
| StateManager.FixedCcFlag | zyngine/zynthian_state_manager.py:886-901 | a 128-long list is read as flags only when every entry is 0 or 1 |
| StateManager.FixedCloneRoundTrip | zyngine/zynthian_state_manager.py:855-901 | with the corrected reading, saving then restoring any flag array gives it back |
| StateManager.ApplyProfile | zyngine/zynthian_state_manager.py:1149-1154 | every key but MASTER_* is written as ZYNTHIAN_MIDI_<key> and nothing else changes |
| StateManager.PrefixInjective | zyngine/zynthian_state_manager.py:1154 | different keys give different environment names |
| StateManager.ZynStateManager.constructor | zyngine/zynthian_state_manager.py:58-102 | no busy client once initialisation ends, an empty ZS3 table, no learning and no clones |
| StateManager.ZynStateManager.StartBusy | zyngine/zynthian_state_manager.py:136-142 | the client is added to the busy set |
| StateManager.ZynStateManager.EndBusy | zyngine/zynthian_state_manager.py:144-153 | the client leaves the busy set; an absent one is ignored |
| StateManager.ZynStateManager.IsBusy | zyngine/zynthian_state_manager.py:155-163 | a named client is busy exactly when in the set; no name asks whether anyone is |
| StateManager.ZynStateManager.GetZs3Title | zyngine/zynthian_state_manager.py:382-390 | the stored title, or the id itself for an unknown id |
| StateManager.ZynStateManager.SetZs3Title | zyngine/zynthian_state_manager.py:393-395 | only an existing entry is renamed and its other data kept |
| StateManager.ZynStateManager.SaveZs3AsWritten | zyngine/zynthian_state_manager.py:488-521 | without an id the search over 1..n can miss, and then the save fails with the table unchanged |
| StateManager.ZynStateManager.SaveZs3 | zyngine/zynthian_state_manager.py:488-521 | a given id is saved; without one the least unused "zs3-k" is chosen; an existing title is kept, a new one is the upper-cased id |
| StateManager.ZynStateManager.LoadZs3 | zyngine/zynthian_state_manager.py:398-486 | fails exactly for an unknown id; the recorded active chain is re-selected unless single-active-channel mode applies to a ZS3 other than "zs3-0" |
| StateManager.ZynStateManager.DeleteZs3 | zyngine/zynthian_state_manager.py:593-601 | the entry is removed; an unknown id is ignored |
| StateManager.ZynStateManager.SetMidiLearn | zyngine/zynthian_state_manager.py:705-710 | the router's learning mode becomes the argument, with or without a learn target |
| StateManager.ZynStateManager.EnableLearnCc | zyngine/zynthian_state_manager.py:712-721 | from any state: learning the CC for that controller, no program-change learn, router in learn mode; at most one target stays set |
| StateManager.ZynStateManager.DisableLearnCc | zyngine/zynthian_state_manager.py:723-727 | from any state, repeated calls included: no CC target and the router out of learn mode; a program-change target is kept |
| StateManager.ZynStateManager.ToggleLearnCc | zyngine/zynthian_state_manager.py:729-735 | a CC target is cleared with the router out of learn mode; with none, the call of enable_learn_cc without its arguments raises TypeError and nothing changes |
| StateManager.ZynStateManager.EnableLearnPc | zyngine/zynthian_state_manager.py:743-746 | from any state: learning a program change for that ZS3 name, no CC target, router in learn mode |
| StateManager.ZynStateManager.DisableLearnPc | zyngine/zynthian_state_manager.py:748-750 | no program-change target and the router out of learn mode; a CC target is kept |
| StateManager.ZynStateManager.EnableClone | zyngine/zynthian_state_manager.py:871-884 | channels outside 0..15 are ignored; otherwise only that pair changes, and a channel never clones to itself |
| StateManager.ZynStateManager.SetCloneCc | zyngine/zynthian_state_manager.py:886-901 | the pair's 128 bytes are the corrected flags and every other pair is kept |
| StateManager.ZynStateManager.SetMidiProfileState | zyngine/zynthian_state_manager.py:1143-1159 | None changes nothing and returns None; a profile is applied to the environment and True returned |
| EngineConfig.EnvInt | zyngine/zyngine_config.py:78-79 | the default when unset, otherwise int() of the variable, None for the ValueError |
| EngineConfig.SwitchEventType | zyngine/zyngine_config.py:119-133 | only the seven MIDI/CV switch types give an event type, each of the listed codes, and never a UI action type |
| EngineConfig.MidiChannel | zyngine/zyngine_config.py:136-142 | int(chan) - 1 exactly when it is 0..15, else None |
| EngineConfig.MidiNumber | zyngine/zyngine_config.py:155-157 | int(num) exactly when it is 0..127, else None |
| EngineConfig.ClampedValue | zyngine/zyngine_config.py:149-153 | int(val) clamped to 0..127, 0 when it does not parse |
| EngineConfig.SwitchUiActionsSpec | zyngine/zyngine_config.py:108-117 | a switch has the four press kinds exactly when its type is a UI action type; a push switch has only a push action, the others no push action |
| EngineConfig.SwitchMidiEventSpec | zyngine/zyngine_config.py:118-165 | a switch has a MIDI event exactly when its type is a MIDI/CV type and its number is 0..127, with that type, channel 0..15 and value 0..127 |
| EngineConfig.SwitchKindsExclusive | zyngine/zyngine_config.py:108-165 | a switch has UI actions or a MIDI event, never both |
| EngineConfig.SwitchEventRoundTrip | zyngine/zyngine_config.py:135-165 | a MIDI switch configured with channel, number and value in range sends exactly that event |
| EngineConfig.Numbered | zyngine/zyngine_config.py:101-168 | one entry per switch |
| EngineConfig.NumberedAt | zyngine/zyngine_config.py:101-168 | entry k is the one for k + 1 |
| EngineConfig.SwitchActionsList | zyngine/zyngine_config.py:101-167 | one UI action map per switch |
| EngineConfig.SwitchEventsList | zyngine/zyngine_config.py:101-168 | one MIDI event per switch |
| EngineConfig.SwitchListsAt | zyngine/zyngine_config.py:101-168 | entry k of both lists describes switch k + 1 |
| EngineConfig.SensorEventType | zyngine/zyngine_config.py:184-192 | only CC, pitch bend and channel pressure give a sensor event type |
| EngineConfig.ZynsensorSpec | zyngine/zyngine_config.py:180-215 | a sensor has an event exactly when its type is known and its number is 0..127; its channel is 0..15 |
| EngineConfig.SensorRoundTrip | zyngine/zyngine_config.py:194-215 | a sensor configured with channel and number in range sends exactly that event |
| EngineConfig.SensorList | zyngine/zyngine_config.py:229-231 | one event per sensor |
| EngineConfig.SensorListAt | zyngine/zyngine_config.py:229-250 | entry k describes the sensor numbered k + 1 |
| EngineConfig.MasterChannel | zyngine/zyngine_config.py:296-299 | the one-based channel made zero-based and capped at 15 |
| EngineConfig.ChannelHex | zyngine/zyngine_config.py:300-303 | a hex digit exactly for a channel 0..15 |
| EngineConfig.HexDigitValue | zyngine/zyngine_config.py:314 | a hex digit is worth less than 16 |
| EngineConfig.HexCharValue | zyngine/zyngine_config.py:301 | hex(ch)[2] reads back as ch |
| EngineConfig.HexValueBound | zyngine/zyngine_config.py:314 | n hex digits are worth less than 16^n |
| EngineConfig.ParseHex | zyngine/zyngine_config.py:314 | int(s, 16) on plain hex digits: a value exactly for a non-empty string of hex digits (other spellings int accepts are under Left out) |
| EngineConfig.FillChannel | zyngine/zyngine_config.py:314 | replace keeps the length |
| EngineConfig.PadRight6 | zyngine/zyngine_config.py:314 | '{:<06}' keeps the text and pads it with '0' to six characters |
| EngineConfig.HexValueConcat | zyngine/zyngine_config.py:314 | the value of joined hex strings |
| EngineConfig.HexValueSnoc | zyngine/zyngine_config.py:314 | the value after one more digit |
| EngineConfig.ZerosHex | zyngine/zyngine_config.py:314 | a run of '0' is hex and worth 0 |
| EngineConfig.NibbleAt | zyngine/zyngine_config.py:314 | digit i of a hex string is the nibble of its weight |
| EngineConfig.CodeFits | zyngine/zyngine_config.py:312-334 | every change code fits in three bytes |
| EngineConfig.ProgramCodePadded | zyngine/zyngine_config.py:312-322 | a four-character program change pattern leaves the code's last byte zero |
| EngineConfig.CodeChannelNibble | zyngine/zyngine_config.py:312-334 | each '#' of a pattern becomes the master channel's nibble at its position |
| EngineConfig.HexPatternAccepted | zyngine/zyngine_config.py:312-334 | a pattern of hex digits and '#' of the right width always gives a code when there is a master channel |
| EngineConfig.Config.constructor | zyngine/zyngine_config.py:69-91 | 300 ms bold and 2 s long thresholds and nothing configured |
| EngineConfig.Config.ConfigZynswitchTiming | zyngine/zyngine_config.py:72-84 | the thresholds in microseconds and seconds; a bad value stops the assignments where it is read |
| EngineConfig.Config.ConfigCustomSwitches | zyngine/zyngine_config.py:93-168 | the UI actions and the MIDI event of each switch, in order |
| EngineConfig.Config.ConfigZynaptik | zyngine/zyngine_config.py:218-237 | four input sensors when the configuration holds "4xAD", four outputs for "4xDA", none otherwise |
| EngineConfig.Config.ConfigZyntof | zyngine/zyngine_config.py:240-250 | one sensor per configured Zyntof; a count that is not a number fails with the list empty |
| EngineConfig.Config.SetMidiPorts | zyngine/zyngine_config.py:284-293 | the filter rules and the three port lists as read from the environment |
| EngineConfig.Config.SetMasterMidi | zyngine/zyngine_config.py:295-334 | the master channel, change type, bank CC number and four change codes in order; a ValueError keeps the settings from the failing one on |
| EngineConfig.Config.SetMidiConfig | zyngine/zyngine_config.py:284-334 | the port settings always, and the master settings when it runs to the end |
| ZynConf.ReplaceNewlines | zynconf/zynthian_config.py:229 | no newline is left and no carriage return is introduced |
| ZynConf.RemoveCR | zynconf/zynthian_config.py:230 | no carriage return is left and no newline is introduced |
| ZynConf.Escape | zynconf/zynthian_config.py:229-230 | a saved value never spans more than one line |
| ZynConf.Unescape | zyngine/zyngine_config.py:286 | restoring newlines never lengthens the text |
| ZynConf.RemoveCRConcat | zynconf/zynthian_config.py:230 | removing carriage returns works piecewise |
| ZynConf.EscapeCons | zynconf/zynthian_config.py:229-230 | escaping works character by character |
| ZynConf.EscapeHead | zynconf/zynthian_config.py:229-230 | an escaped value starts with its first character, or the backslash of "\n" |
| ZynConf.UnescapeEscape | zynconf/zynthian_config.py:229-230 | reading a saved value back gives the value, when it has no carriage return and no backslash before an 'n' |
| ZynConf.NameEnd | zynconf/zynthian_config.py:223 | the first '=' or whitespace from i on, or the end of the line |
| ZynConf.NameEndAt | zynconf/zynthian_config.py:223 | the scan stops at the first '=' when none of the characters before it is whitespace |
| ZynConf.NameEndIsName | zynconf/zynthian_config.py:223 | the scanned text is a name the pattern can capture |
| ZynConf.ExportedNameSpec | zynconf/zynthian_config.py:223-227 | a line exports n exactly when it reads "export n=" with n free of whitespace and '=' |
| ZynConf.ExportLineName | zynconf/zynthian_config.py:232 | the line written for a plain name is recognised as its export |
| ZynConf.Rewritten | zynconf/zynthian_config.py:224-234 | the first pass keeps the number of lines |
| ZynConf.RewrittenAt | zynconf/zynthian_config.py:224-234 | each line is rewritten on its own |
| ZynConf.Updated | zynconf/zynthian_config.py:233 | only configured variables are collected |
| ZynConf.ToAdd | zynconf/zynthian_config.py:243 | only configured variables are added |
| ZynConf.MarkerRow | zynconf/zynthian_config.py:222-237 | add_row is one before the last marker line and 0 without one |
| ZynConf.AddRow | zynconf/zynthian_config.py:239-240 | a row of 0 becomes the end of the file |
| ZynConf.InsertAt | zynconf/zynthian_config.py:248 | list.insert adds exactly one line |
| ZynConf.InsertPos | zynconf/zynthian_config.py:239-248 | the insertion point lies within the file |
| ZynConf.Block | zynconf/zynthian_config.py:244-248 | one new line per added variable |
| ZynConf.Saved | zynconf/zynthian_config.py:211-253 | the written file holds every line of the original plus one per added variable |
| ZynConf.Escaped | zynconf/zynthian_config.py:231-247 | the environment gets every configured variable |
| ZynConf.ExportsStep | zynconf/zynthian_config.py:224-233 | the lines seen so far export n when an earlier one or this one does |
| ZynConf.MarkerStep | zynconf/zynthian_config.py:236-237 | a marker line moves add_row to the line before it |
| ZynConf.InsertStep | zynconf/zynthian_config.py:248 | one insert at add_row keeps the block of earlier inserts in its place |
| ZynConf.UpdatedSpec | zynconf/zynthian_config.py:224-233 | the updated set holds exactly the configured variables some line exports |
| ZynConf.EscapedOnAdd | zynconf/zynthian_config.py:231 | setting one more variable adds exactly its escaped value |
| ZynConf.NamesStep | zynconf/zynthian_config.py:244 | one more name in the order adds it to the set |
| ZynConf.PassStep | zynconf/zynthian_config.py:224-237 | one more line extends the rewritten lines, the updated set and add_row by that line alone |
| ZynConf.RewritePass | zynconf/zynthian_config.py:221-237 | the first pass rewrites the lines, collects the exported configured variables and add_row, and sets their environment values |
| ZynConf.BlockStep | zynconf/zynthian_config.py:248 | inserting one more variable's line extends the block by it |
| ZynConf.AppendFresh | zynconf/zynthian_config.py:244 | a name not yet visited keeps the order free of repeats |
| ZynConf.SetOrder | zynconf/zynthian_config.py:243-244 | iterating over the set visits each variable to add exactly once |
| ZynConf.InsertPass | zynconf/zynthian_config.py:244-248 | the second pass puts the new lines at add_row, in order from the end and reversed otherwise |
| ZynConf.MarkerRowLast | zynconf/zynthian_config.py:236-237 | add_row is one above the last marker line |
| ZynConf.MarkerRowNone | zynconf/zynthian_config.py:222-237 | without a marker line add_row stays 0 |
| ZynConf.InsertPosNoMarker | zynconf/zynthian_config.py:239-240 | without a marker line the new lines are appended |
| ZynConf.InsertPosMarker | zynconf/zynthian_config.py:236-240 | the new lines go one above the last marker, except a marker on the second line, whose row 0 is taken for none |
| ZynConf.BlockAt | zynconf/zynthian_config.py:244-248 | where each added variable sits in the block |
| ZynConf.SavedLine | zynconf/zynthian_config.py:211-253 | each original line stays in place or moves down past the block, rewritten on its own |
| ZynConf.SavedAdded | zynconf/zynthian_config.py:242-248 | each added variable gets its export line inside the block |
| ZynConf.SavedExportsAll | zynconf/zynthian_config.py:211-253 | the file written holds the export line of every configured variable |
| ZynConf.RewriteTwice | zynconf/zynthian_config.py:224-234 | rewriting a rewritten line changes nothing |
| ZynConf.RewrittenFixed | zynconf/zynthian_config.py:224-234 | lines that are already rewritten pass unchanged |
| ZynConf.SavedLineFixed | zynconf/zynthian_config.py:211-253 | every line save_config writes is left as it is by a second save of the same values |
| ZynConf.SavedFindsAll | zynconf/zynthian_config.py:211-253 | a second save finds every configured variable already exported |
| ZynConf.SavedNothingAdded | zynconf/zynthian_config.py:239-253 | with nothing to add only the lines are rewritten |
| ZynConf.SaveIdempotent | zynconf/zynthian_config.py:211-253 | saving the same values twice: the second save adds nothing and writes the file unchanged |
| ZynConf.SaveConfig | zynconf/zynthian_config.py:211-255 | a file that cannot be read stops it; otherwise the file is Saved for the order the new variables are visited in and every variable is set escaped in the environment |
| ZynConf.FirstWithPrefix | zynconf/zynthian_config.py:280-283 | the rest of the first line with the prefix, none exactly when no line has it |
| ZynConf.FirstWithPrefixAt | zynconf/zynthian_config.py:280-283 | the match is the first line with the prefix |
| ZynConf.PortList | zynconf/zynthian_config.py:280-283 | at least one port, none holding a comma or a newline |
| ZynConf.JoinAvoidsInverse | zynconf/zynthian_config.py:283 | a character missing from the joined text is missing from every port |
| ZynConf.DisabledMidiInPorts | zynconf/zynthian_config.py:278-288 | the ports of the DISABLED_IN line, and none exactly when there is no such line |
| ZynConf.EnabledMidiOutPorts | zynconf/zynthian_config.py:291-301 | the ports of the ENABLED_OUT line, ["ttymidi:MIDI_out"] without one |
| ZynConf.EnabledMidiFbPorts | zynconf/zynthian_config.py:304-314 | the ports of the ENABLED_FB line, and none exactly when there is no such line |
| ZynConf.PortLine | zynconf/zynthian_config.py:280-283 | a port list line holds no newline |
| ZynConf.PortsLines | zynconf/zynthian_config.py:278-314 | the ports text holds three lines, one per list |
| ZynConf.PortListAt | zynconf/zynthian_config.py:280-283 | a port list is read back from the first line holding its key |
| ZynConf.OtherKey | zynconf/zynthian_config.py:280-307 | a line for one key is not taken for another |
| ZynConf.ReadDisabledIn | zynconf/zynthian_config.py:278-288 | the disabled inputs read back from the text written for them |
| ZynConf.ReadEnabledOut | zynconf/zynthian_config.py:291-301 | the enabled outputs read back from the text written for them |
| ZynConf.ReadEnabledFb | zynconf/zynthian_config.py:304-314 | the feedback ports read back from the text written for them |
| ZynConf.PortsRoundTrip | zynconf/zynthian_config.py:278-314 | the three port lists read back from the text written for them, when each is non-empty |
| ZynConf.SplitOnce | zynconf/zynthian_config.py:521 | split(' ', 1): the text before the first separator and the rest, or the whole text when there is none |
| ZynConf.JackdStep | zynconf/zynthian_config.py:519-524 | an item with a space sets its option, an item without one is skipped |
| ZynConf.AnyDefinesStep | zynconf/zynthian_config.py:519-524 | some item defines the key when an earlier one or the last one does |
| ZynConf.GetJackdOptions | zynconf/zynthian_config.py:517-526 | the options JACKD_OPTIONS defines |
| ZynConf.JackdKeys | zynconf/zynthian_config.py:517-526 | an option is defined exactly when some item with a space starts with its key |
| ZynConf.JackdLastWins | zynconf/zynthian_config.py:517-526 | an option's value comes from the last item that defines it |
| ZynConf.FirstValue | zynconf/zynthian_config.py:324-327 | the text, or a list's first item; none exactly for the empty list |
| ZynConf.MidiParams | zynconf/zynthian_config.py:321-327 | exactly the ZYNTHIAN_MIDI parameters with a value to save |
| ZynConf.CollectMidiParams | zynconf/zynthian_config.py:321-327 | the MIDI parameters and their values; None exactly when one holds an empty list, the IndexError |
| ZynConf.ParamDict.constructor | zynconf/zynthian_config.py:317 | the parameters as posted |
| ZynConf.ParamDict.DeleteKeys | zynconf/zynthian_config.py:331-332 | exactly the given keys are deleted |
| ZynConf.UpdateMidiProfile | zynconf/zynthian_config.py:317-332 | an IndexError or an unreadable file changes nothing; otherwise the MIDI parameters are saved as save_config does and deleted from the caller's parameters |
| ZynConf.MidiRemoved | zynconf/zynthian_config.py:317-332 | the parameters keep every non-MIDI entry and lose every MIDI one |

## Left out

- Threads in player.c are not modelled: thread creation and joining, the `usleep` waits in `load` and in the reader, the cancellation handshake and real-time deadlines. One reader step and one render step are atomic sequential operations.
- libsndfile (`sf_open`, `sf_readf_float`, `sf_seek`), libsamplerate (`src_process`) and the JACK ring-buffer internals are foreign libraries. Frames read, frames generated, the resample ratio and the pitch factor `pow(1.059463094359, pitch_shift)` are inputs. The ring buffers are bounded FIFOs of frames.
- Samples, gain, fade and times are real numbers: float and double rounding is not modelled.
- Integer widths in player.c and pattern.cpp are not modelled in general. The places where the source relies on them are written out: -1 stored in the uint8_t `last_play_state` is 255, and getLastStep returns -1 as a uint32_t.
- OSC is not modelled: the OSC thread, client registration and OSC sends in player.c, the GUI and the Aeolus engine are network I/O.
- JACK client and port registration in player.c `init` are collapsed into one success flag. `on_jack_samplerate` and the debug logging are not modelled.
- Several player.c calls only report what the library holds, or do nothing: `save` (a stub), `get_file_duration`, `get_file_info`, `get_jack_client_name`, `enable_debug`, `is_debug`, `get_buffer_size` and `get_buffer_count`. They are not modelled.
- The `ENABLE_MIDI` controller branch of the render callback is not modelled. Note on, note off and pitch bend are.
- pattern.cpp `addEvent` erases with `erase(it) - 1`. When the first element is erased this steps before `begin()`, which is undefined in C++. The model treats the loop as the filter it is meant to be.
- PPQN and the default `addEvent` arguments come from zynseq headers that are not part of this model. They are fixed at zynseq's values.
- Positions scaled by `fScale` are not rounded as floats are.
- Note-level getters and setters of pattern.cpp (note velocity, duration, stutter, controls) are not modelled. Neither are raw addresses and copy construction.
- The chain's graph rebuild, jackname dictionary, `replace_processor`, `move_processor`, clone and note-range settings and `get_state` are not modelled: they rebuild routing through zynautoconnect or serialise to JSON.
- Chain manager operations that start and stop engines, route audio and MIDI, or read and write snapshots are not modelled (`start_engine`, `stop_unused_engines`, the chain audio/MIDI routing getters and setters, `get_state`/`set_state`). `add_processor` takes whether the engine started as a parameter.
- Snapshot and ZS3 restore in the state manager keeps only the active-chain choice of `load_zs3`. The per-chain note ranges, processor states and MIDI routing it restores go through `lib_zyncore` and the chain manager and are not modelled. The same holds for what `save_zs3` records beyond the title and the active chain.
- `lib_zynmixer` is the `lib` field of the mixer: the values last written. What it answers when read is a parameter.
- The mixer's level meters, OSC clients and the signals it sends are not modelled.
- The side effects of a controller's `set_value` are not modelled: the mixer records the value.
- Signal callbacks that register or unregister while they are being called are not modelled. The dispatch thread is one call of `Dispatch`.
- Aeolus `preset_exists` and `save_preset` pass `bank_info[1]`, an int, as the bank key. They are not modelled.
- Aeolus `set_extended_config` writes the channel on the chain; the model returns those settings as a list.
- The setBfree configuration template, the `.pgm` file reading, the synthesiser process, `get_name`, `get_path`, `get_chan_name`, `get_extended_config`/`set_extended_config` and the tonewheel configuration are not modelled: they format display strings or copy settings to and from files.
- EngineConfig: the numeric MIDI options at the head of `set_midi_config` (fine tuning, single active channel and the other flags) are not modelled.
- EngineConfig: the module-level try/except is not modelled. The globals start at the values the constructor gives.
- EngineConfig: the number of switches is a parameter, because it comes from the wiring layout.
- EngineConfig: the default ZYNTHIAN_MIDI_PORTS text is represented by the three lists it parses to.
- PyText.ParseInt accepts optional whitespace, a sign and ASCII digits. Python's underscores and Unicode digits are not modelled.
- ParseHex (EngineConfig.ParseHex): takes non-empty runs of hex digits only; int(…, 16) also accepts surrounding whitespace, a leading sign, a "0x" prefix and single '_' between digits, and those spellings are rejected here instead of being parsed.
- Whitespace, digits and case conversion are ASCII only.
- zynconf: `load_config`, `update_sys` and the network and service helpers run shell commands or read files; they are not modelled.
- zynconf: a configuration file is given as its lines, and the environment values written are returned as a map.
- zynconf: the order in which Python iterates over a set is not modelled. `save_config` is proved for every order.
- ZynConf.DisabledMidiInPorts returns the empty list where the source returns the empty string, which names no port.
- Reading and writing the keybinding YAML file is not modelled: `load` is given the parsed table.
- The keybinding `modifiers` dictionary is not modelled, because lookups never read it.
- GUI: building, showing and hiding views, the ALSA mixer and preset restoring are not modelled.
- GUI: `getattr` dispatch to the other CUIA handlers and the exit flag and thread are not modelled.
- GUI: the KeyError for an unknown screen name is not modelled: screens are names.
- GUI: the clock (`monotonic()`) is a `now` parameter and the queue timeout is a call of `Tick`.
- GUI: what the push handler returns is a parameter. The `zynswitch_push` call made before the IndexError of an out-of-range switch index is not modelled.
- Chain.ZynChain.RemoveAllProcessors: follows the corrected listing; as written, the listing raises for a chain with a MIDI tool and nothing is removed, which RemoveAllProcessorsAsWritten models.
- Chain.ZynChain.Reset: follows the corrected listing; as written, for a chain with a MIDI tool it sets the routing lists and then raises before any processor is removed.
- Chain.ZynChain.RemoveEach: is given the corrected listing; as written, that listing raises for a chain with a MIDI tool.
- Chain.ZynChain.ProcessorCountWhole: counts over the corrected listing, which as written raises for a chain with a MIDI tool.
- ChainManager.ZynChainManager.RemoveChain: removes the chain's processors through the corrected listing; as written, for a chain with a MIDI tool the chain is dropped from its MIDI channel's list and then the reset raises, so the chain stays in the table.
- ChainManager.NextJackName: is given the names of the corrected listing; as written, the listing raises for a chain with a MIDI tool and the name falls back to "stub-00", which NextJackNameAsWritten models.
- AudioPlayer.PositionTarget: stores frame 0 for a negative target and for the target `frames - 1` of an empty file; converting either to the unsigned frame counter (player.c:555-558) is undefined behaviour in C, so no value is promised there by the source.
- player.c:281 divides the buffer size by `sf_info.channels` before `sf_open` has filled it: a new instance reads an uninitialised field there (init, player.c:815, does not set it), and a reload reads the previous file's count. The value is overwritten before use at the seek and loop heads (player.c:347, 355), which is where the model computes it (`Player.BeginBlock`, for an open file with at least one channel); the read itself is not modelled.
- AudioPlayer.Player.OpenFile: on a failed open the file information is left unstated, because the reader zeroes its format (player.c:273) and sf_open fills it from a file outside this model.
- AudioPlayer.SeekTarget: a negative quotient (possible only with a negative pitch-shift factor) converted to size_t at player.c:339 is undefined behaviour in C; the model seeks to frame 0 there.
- Logging is not modelled anywhere.

## Findings

Each row names a lemma that exhibits the behaviour as written, and the corrected member that the rest of the model uses or a lemma proving the intended property of it.

| source | as written | input that shows it | evidently intended | confidence | as-written member | corrected member |
|---|---|---|---|---|---|---|
| zyngine/zynthian_chain_manager.py:438-443 | `get_processor_count(None, ...)` returns inside the loop, so only the first chain is counted (`GetProcessorCountAsWritten`) | two chains, processors only in the second: as written 0, the total is 1 | add up every chain's count (`CountAll`) | high, not executed | ChainManager.FirstCountMissesLaterChains | ChainManager.ZynChainManager.GetProcessorCount |
| zyngine/zynthian_state_manager.py:505-515 | `save_zs3()` searches `range(1, len(used_ids) + 1)`, which can find no free number; `zs3_id` then stays None and `None.upper()` raises (`SaveZs3AsWritten`) | a table holding only "zs3-1" | search one number further, where a free number always exists (`AlwaysFree`) | high, not executed | StateManager.Zs3SearchMisses | StateManager.ZynStateManager.SaveZs3 |
| zyngine/zynthian_state_manager.py:886-901 | `set_clone_cc` reads every 128-long list as flags (`CcFlag`), but `get_clone_state` saves the list of enabled CC numbers | all 128 CCs enabled: the state saves [0..127], and restoring it sets CC 0 to 0 (disabled) and the others to their numbers | read a 128-long list as flags only when every entry is 0 or 1, so that saving and restoring round-trips (`FixedCloneRoundTrip`) | medium, not executed | StateManager.CloneRestoreLosesCcZero | StateManager.FixedCcFlag |
| zyngine/zynthian_engine_audio_mixer.py:253-258 | clearing the main bus solo loops over `range(0, MAX_NUM_CHANNELS - 1)` (`SetSoloAsWritten`) | solo on the last channel, then solo off on the main bus: the last channel stays soloed | clear every channel's solo (`SoloClearsAll`) | high, not executed | AudioMixer.SoloLeavesLastChannel | AudioMixer.ZynMixer.SetSolo |
| zyngine/zynthian_signal_manager.py:96-99 | `register` checks `signal <= last_signal` and `subsignal <= last_subsignal` against a table of `last_signal` by `last_subsignal` lists (`Register`) | signal 13 or subsignal 10: the guard passes and the append raises IndexError | bounds exclusive, so a callback is appended exactly when its list exists | medium, not executed | SignalManager.GuardAdmitsLastSignal | SignalManager.ZynSignalManager.RegisterInRange |
| zyngine/zynthian_engine_aeolus.py:558-570 | `send_controller_value` compares `c[0]` of each name in `swell_ctrls + ["Sustain"]`, so "Sustain" is compared as "S" and the Sustain control falls through to the stop encoding (`SendControllerValueAsWritten`) | the Sustain control, whose graph path is None | compare the whole symbol and send Sustain as its own CC (`SustainSentDirectly`) | high, not executed | Aeolus.SustainReachesStopEncoding | Aeolus.SendControllerValue |
| zyngine/zynthian_engine_aeolus.py:329-340 | `set_midi_chans` takes the keyboard from `keyboard_order` by the layer's position, not its division (`ChanWordAsWritten`) | layers Manual I and Pedals: the pedal channel gets word 0x7011 (keyboard 1) instead of 0x5003 (keyboard 3) | index `keyboard_order` by the layer's division | medium, not executed | Aeolus.PedalsGetSwellKeyboard | Aeolus.ChanWord |
| zyngui/zynthian_gui_keybinding.py:176-181 | the any-modifier fallback looks up `map[keycode]` with the keycode itself, while `bind_key` stores the key as the string f"{keycode}" (`KeyActionAsWritten`) | `bind_key(50, None, a)` then `get_key_action(50, 0)` with an integer keycode: None | look the keycode up as the string bind_key writes (`KeyAction`) | low, not executed | KeyBinding.AnyModifierBindingLost | KeyBinding.LookupAfterBindAny |
| zynlibs/zynaudioplayer/player.c:102-106 | `get_player` rejects only `player_handle > MAX_PLAYERS` (`GetPlayerAsWritten`) | handle 16 reads `g_players[16]`, one past the table | reject `player_handle >= MAX_PLAYERS` (`GetPlayerAgrees`) | high, not executed | AudioPlayer.Library.GetPlayerAsWritten | AudioPlayer.Library.GetPlayer |
| zynlibs/zynaudioplayer/player.c:1033-1039 | `get_player_count` tests `g_players`, the array, instead of `g_players[i]` (`PlayerCountAsWritten`) | an empty table: as written 16 | count the occupied slots | high, not executed | AudioPlayer.PlayerCountAsWrittenOverstates | AudioPlayer.Library.PlayerCount |
| zynlibs/zynaudioplayer/player.c:703-705 | the position wraps with `%= frames` whenever it is at least `frames` (`AdvanceAsWritten`) | an open file of 0 frames: every render reaches a modulo by zero | wrap only a non-empty file | medium, not executed | AudioPlayer.EmptyFileRenderTraps | AudioPlayer.Advance |
| zynlibs/zynaudioplayer/player.c:370-411 | a short read moves the status off LOADING before the write loop, whose guard requires LOADING (`WriteGuardAsWritten`) | the last block of a file without loop: it is read and then dropped | write every block that was read, unless a seek is pending (`WriteGuard`) | medium, not executed | AudioPlayer.ShortReadIsDiscarded | AudioPlayer.EveryReadBlockIsWritten |
| zyngine/zynthian_chain.py:354-362 | `get_processors(slot=None)` loops `for slot in self.midi_slots`, rebinding its own `slot` parameter to a list, so the later `len(processors) > slot` compares an int with a list and raises TypeError (`GetProcessorsAsWritten`) | a chain holding one MIDI tool: every listing raises, so `remove_all_processors`, `reset` and `get_next_jackname` fail or fall back | a loop variable of its own, so that the call returns every processor of the chain in slot order | high, not executed | Chain.ZynChain.ListingRaisesWithMidiTool | Chain.ZynChain.AllProcessorsCounts |

=== FILE: aeolus.dfy ===
/**
 * The Aeolus pipe-organ engine: the MIDI channel configuration it sends to
 * the synthesiser, the two-byte stop-toggle encoding on CC 98, the staged
 * set-up (keyboard layout, then temperament) carried by the bank list, the
 * preset lookup and the engine-specific snapshot configuration.
 *
 * The OSC and MIDI output, the synthesiser process and the processors'
 * controller objects are outside this model: each operation returns what it
 * would send or store.
 */
module Aeolus {
  import opened Wrappers
  import opened PyText

  /** The controller number that carries stop toggles. */
  const STOP_CC_NUM: nat := 98

  /** keyboard_order: the aeolus keyboard number of each division (0 = III, 1 = II, 2 = I, 3 = pedals). */
  const KEYBOARD_ORDER: seq<nat> := [2, 1, 0, 3]

  /** The names of the four divisions, indexed by a layer's aeolus_chan. */
  const DIVISION_NAMES: seq<string> := ["Manual I", "Manual II", "Manual III", "Pedals"]

  /** The swell controls, which are sent as plain controller changes. */
  const SWELL_SYMBOLS: seq<string> := ["Swell", "Trem Freq", "Trem Amp"]

  /** keyboard_config_names, in its insertion order. */
  const KEYBOARD_CONFIGS: seq<(int, string)> := [
    (15, "Manual I+II+III+Pedals"),
    (11, "Manual I+II+Pedals"),
    (9, "Manual I+Pedals"),
    (7, "Manual I+II+III"),
    (3, "Manual I+II"),
    (1, "Manual I")
  ]

  /** temperament_names, in its insertion order. */
  const TEMPERAMENTS: seq<(int, string)> := [
    (5, "Equally Tempered"),
    (4, "Well Tempered"),
    (1, "Meantone 1/4"),
    (2, "Werckmeister III"),
    (3, "Kimberger III"),
    (6, "Vogel/Ahrend"),
    (7, "Vallotti"),
    (8, "Kellner"),
    (9, "Lehman"),
    (10, "Pure C/F/G"),
    (0, "Pythagorean")
  ]

  /** A division of the organ, the value of a processor's aeolus_chan. */
  type Division = d: int | 0 <= d < 4

  /** What the engine knows of one of its processors. */
  datatype Layer = Layer(midiChan: int, aeolusChan: Division)

  /** A bank_info tuple: (uri, index, title). */
  datatype BankInfo = BankInfo(uri: string, index: int, title: string)

  /** A stored preset; name is None when the stored entry has no "name" key. The stop values are not part of this model. */
  datatype Preset = Preset(name: Option<string>)

  /** One MIDI control change: channel, controller number, value. */
  datatype ControlChange = ControlChange(chan: int, cc: int, value: int)

  /** A controller of the engine: symbol, MIDI channel and CC, value and, for stops, the graph path [group, button]. */
  datatype Control = Control(symbol: string, midiChan: int, midiCc: int, value: int, graphPath: Option<(nat, nat)>)

  /** What send_controller_value does. */
  datatype SendResult =
    | Sent(messages: seq<ControlChange>)
    | TypeError   // a control without a graph path reaches the stop encoding

  /** The engine-specific part of a snapshot. An absent key is None; a key holding null is Some(None). */
  datatype ExtendedConfig = ExtendedConfig(
    keyboard: Option<Option<int>>,
    temperament: Option<Option<int>>,
    tuningTemp: Option<Option<int>>,
    processors: Option<seq<int>>)

  /** What set_extended_config stores on the chain of the i-th processor. */
  datatype ChainSetting = ChainSetting(aeolusChan: int, mixerCleared: bool)

  // ---------------------------------------------------------------------------
  // MIDI channel configuration
  // ---------------------------------------------------------------------------

  /** The word that makes aeolus keyboard `keyboard` listen on a channel. */
  function KeyboardWord(keyboard: nat): (w: bv16)
    requires keyboard < 4
    ensures w & 0xF == keyboard as bv16
    ensures w & 0x5000 == 0x5000
    ensures (w & 0x2000 != 0) <==> keyboard < 2
    ensures keyboard < 2 ==> (w >> 4) & 0xF == keyboard as bv16
  {
    var k := keyboard as bv16;
    var v := 0x5000 | k;
    if k < 2 then v | (0x2000 + (k << 4)) else v
  }

  /** The index of the first layer from `from` on that listens on `chan`. */
  function FirstOn(layers: seq<Layer>, chan: int, from: nat): (r: Option<nat>)
    ensures r.Some? ==> (from <= r.value < |layers| && layers[r.value].midiChan == chan
      && forall k :: from <= k < r.value ==> layers[k].midiChan != chan)
    ensures r.None? ==> forall k :: from <= k < |layers| ==> layers[k].midiChan != chan
    decreases |layers| - from
  {
    if from >= |layers| then None
    else if layers[from].midiChan == chan then Some(from)
    else FirstOn(layers, chan, from + 1)
  }

  /**
   * The configuration word for one channel as set_midi_chans computes it:
   * the first layer on the channel picks keyboard_order by its position in
   * the layer list. A fifth layer raises IndexError (None).
   */
  function ChanWordAsWritten(layers: seq<Layer>, chan: int): Option<bv16>
  {
    match FirstOn(layers, chan, 0)
    case None => Some(0)
    case Some(i) => if i < 4 then Some(KeyboardWord(KEYBOARD_ORDER[i])) else None
  }

  /**
   * The configuration word for one channel: zero when no layer listens on it,
   * otherwise the word for the keyboard of the first such layer's division.
   */
  function ChanWord(layers: seq<Layer>, chan: int): (w: bv16)
    ensures w == 0 <==> forall k :: 0 <= k < |layers| ==> layers[k].midiChan != chan
    ensures FirstOn(layers, chan, 0).Some? ==>
      w & 0xF == KEYBOARD_ORDER[layers[FirstOn(layers, chan, 0).value].aeolusChan] as bv16
  {
    match FirstOn(layers, chan, 0)
    case None => 0
    case Some(i) => KeyboardWord(KEYBOARD_ORDER[layers[i].aeolusChan])
  }

  /** When the layers are the divisions in order, the position is the division and the two agree. */
  lemma AsWrittenAgreesInOrder(layers: seq<Layer>, chan: int)
    requires |layers| <= 4
    requires forall i :: 0 <= i < |layers| ==> layers[i].aeolusChan == i
    ensures ChanWordAsWritten(layers, chan) == Some(ChanWord(layers, chan))
  {
  }

  /**
   * With keyboard configuration 9 (Manual I + Pedals) the pedal layer is the
   * second layer, so the channel it listens on is given to keyboard 1, the
   * Manual II swell keyboard, instead of keyboard 3.
   */
  lemma PedalsGetSwellKeyboard()
    ensures ChanWordAsWritten([Layer(0, 0), Layer(1, 3)], 1) == Some(0x7011)
    ensures ChanWord([Layer(0, 0), Layer(1, 3)], 1) == 0x5003
  {
    assert FirstOn([Layer(0, 0), Layer(1, 3)], 1, 0) == Some(1);
  }

  /** The inner loop of set_midi_chans: the word for one channel. */
  method ChanWordOf(layers: seq<Layer>, chan: int) returns (w: bv16)
    ensures w == ChanWord(layers, chan)
  {
    w := 0;
    var i := 0;
    while i < |layers|
      invariant i <= |layers|
      invariant FirstOn(layers, chan, 0) == FirstOn(layers, chan, i)
    {
      if layers[i].midiChan == chan {
        w := KeyboardWord(KEYBOARD_ORDER[layers[i].aeolusChan]);
        return;
      }
      i := i + 1;
    }
  }

  // ---------------------------------------------------------------------------
  // Controller values
  // ---------------------------------------------------------------------------

  /** The first CC 98 byte of a stop toggle as a bit string: "01", then mm ("10" on, "01" off), "0", the group in three digits. */
  function StopHead(on: bool, group: nat): string
  {
    "01" + (if on then "10" else "01") + "0" + FormatBin(group, 3)
  }

  /** The second byte as a bit string: "000" and the button in five digits. */
  function StopTail(button: nat): string
  {
    "000" + FormatBin(button, 5)
  }

  /** The two CC 98 data bytes of a stop toggle, each bit string read back as a binary number. */
  function StopBytes(on: bool, group: nat, button: nat): (nat, nat)
  {
    (BinValue(StopHead(on, group)), BinValue(StopTail(button)))
  }

  lemma MarkerValues()
    ensures BinValue("01100") == 12 && BinValue("01010") == 10 && BinValue("000") == 0
    ensures Pow2(3) == 8 && Pow2(5) == 32
  {
    assert "01100"[..4] == "0110" && "0110"[..3] == "011" && "011"[..2] == "01" && "01"[..1] == "0";
    assert "01010"[..4] == "0101" && "0101"[..3] == "010" && "010"[..2] == "01";
    assert "000"[..2] == "00" && "00"[..1] == "0";
  }

  /**
   * For groups below 8 and buttons below 32 the first byte is 0b01mm0ggg and
   * the second the button number.
   */
  lemma StopBytesValue(on: bool, group: nat, button: nat)
    requires group < 8 && button < 32
    ensures StopBytes(on, group, button) == (64 + (if on then 32 else 16) + group, button)
  {
    MarkerValues();
    var mm := if on then "10" else "01";
    assert "01" + mm + "0" == (if on then "01100" else "01010");
    FormatBinValue(group, 3);
    FormatBinValue(button, 5);
    BinValueConcat("01" + mm + "0", FormatBin(group, 3));
    BinValueConcat("000", FormatBin(button, 5));
  }

  /** Reading the bytes back: bit 5 of the first is the on flag, bit 4 the off flag, its low bits the group, the second the button. */
  lemma StopBytesDecode(on: bool, group: nat, button: nat)
    requires group < 8 && button < 32
    ensures var (v1, v2) := StopBytes(on, group, button);
      v1 / 64 == 1 && ((v1 / 32) % 2 == 1 <==> on) && ((v1 / 16) % 2 == 1 <==> !on)
      && (v1 / 8) % 2 == 0 && v1 % 8 == group && v2 == button
  {
    StopBytesValue(on, group, button);
    ByteFields(64 + (if on then 32 else 16) + group, on, group);
  }

  lemma ByteFields(v: int, on: bool, group: nat)
    requires group < 8 && v == 64 + (if on then 32 else 16) + group
    ensures v / 64 == 1 && ((v / 32) % 2 == 1 <==> on) && ((v / 16) % 2 == 1 <==> !on)
      && (v / 8) % 2 == 0 && v % 8 == group
  {
    if on {
      assert v / 32 == 3 && v / 16 == 6 && v / 8 == 12;
    } else {
      assert v / 32 == 2 && v / 16 == 5 && v / 8 == 10;
    }
  }

  /**
   * send_controller_value with the symbols it tests against a control's own
   * symbol: a match sends the control's CC with its value, anything else is
   * a stop and sends the two CC 98 bytes.
   */
  function SendWith(direct: seq<string>, z: Control): SendResult
  {
    if z.symbol in direct then Sent([ControlChange(z.midiChan, z.midiCc, z.value)])
    else match z.graphPath
      case None => TypeError
      case Some((group, button)) =>
        var (v1, v2) := StopBytes(z.value != 0, group, button);
        Sent([ControlChange(z.midiChan, STOP_CC_NUM, v1), ControlChange(z.midiChan, STOP_CC_NUM, v2)])
  }

  /**
   * As written the loop runs over the swell control rows plus the string
   * "Sustain", and compares the symbol with the first element of each: for
   * "Sustain" that is the letter "S".
   */
  function SendControllerValueAsWritten(z: Control): SendResult
  {
    SendWith(SWELL_SYMBOLS + ["S"], z)
  }

  /** The Sustain control of every division: CC 64, no graph path. */
  function SustainControl(chan: int, value: int): Control
  {
    Control("Sustain", chan, 64, value, None)
  }

  /** As written, the Sustain pedal is not recognised and fails in the stop encoding. */
  lemma SustainReachesStopEncoding(chan: int, value: int)
    ensures SendControllerValueAsWritten(SustainControl(chan, value)) == TypeError
  {
    assert "Sustain" != "Swell" && "Sustain" != "Trem Freq" && "Sustain" != "Trem Amp" && "Sustain" != "S";
  }

  /** send_controller_value comparing against the whole symbol "Sustain". */
  function SendControllerValue(z: Control): (r: SendResult)
    ensures z.symbol in SWELL_SYMBOLS + ["Sustain"] ==> r == Sent([ControlChange(z.midiChan, z.midiCc, z.value)])
    ensures z.symbol !in SWELL_SYMBOLS + ["Sustain"] && z.graphPath.Some? ==>
      r == Sent([ControlChange(z.midiChan, STOP_CC_NUM, StopBytes(z.value != 0, z.graphPath.value.0, z.graphPath.value.1).0),
                 ControlChange(z.midiChan, STOP_CC_NUM, StopBytes(z.value != 0, z.graphPath.value.0, z.graphPath.value.1).1)])
    ensures r.TypeError? <==> z.symbol !in SWELL_SYMBOLS + ["Sustain"] && z.graphPath.None?
  {
    SendWith(SWELL_SYMBOLS + ["Sustain"], z)
  }

  /** The Sustain pedal is sent as its own controller change. */
  lemma SustainSentDirectly(chan: int, value: int)
    ensures SendControllerValue(SustainControl(chan, value)) == Sent([ControlChange(chan, 64, value)])
  {
    assert "Sustain" in SWELL_SYMBOLS + ["Sustain"];
  }

  // ---------------------------------------------------------------------------
  // Staged set-up
  // ---------------------------------------------------------------------------

  /** The value stored under `key` in a list of pairs, if any. */
  function Lookup(pairs: seq<(int, string)>, key: int): (r: Option<string>)
    ensures r.Some? ==> exists i :: 0 <= i < |pairs| && pairs[i] == (key, r.value)
    ensures r.None? <==> forall i :: 0 <= i < |pairs| ==> pairs[i].0 != key
  {
    if pairs == [] then None
    else if pairs[0].0 == key then Some(pairs[0].1)
    else Lookup(pairs[1..], key)
  }

  /** One bank entry per pair, as (title, key, title). */
  function PairBanks(pairs: seq<(int, string)>): (r: seq<BankInfo>)
    ensures |r| == |pairs|
    ensures forall i :: 0 <= i < |r| ==> r[i] == BankInfo(pairs[i].1, pairs[i].0, pairs[i].1)
  {
    seq(|pairs|, i requires 0 <= i < |pairs| => BankInfo(pairs[i].1, pairs[i].0, pairs[i].1))
  }

  /** 1 << i for the bit positions of a keyboard configuration. */
  const BIT_VALUES: seq<nat> := [1, 2, 4, 8]

  /** Whether bit `i` of `config` is set, as `config & 1 << i` tests it (floor division, as Python's bits of a negative int). */
  predicate HasBit(config: int, i: nat)
    requires i < 4
  {
    (config / BIT_VALUES[i]) % 2 == 1
  }

  /** The divisions from `i` to 3 that a keyboard configuration asks for, in order. */
  function Wanted(config: int, i: nat): seq<Division>
    decreases 4 - i
  {
    if i >= 4 then []
    else (if HasBit(config, i) then [i as Division] else []) + Wanted(config, i + 1)
  }

  /**
   * The layers set_bank adds for the divisions from `i` on, taking MIDI
   * channels from `free` in order and stopping when none is left.
   */
  function Extras(config: int, i: nat, free: seq<int>): seq<Layer>
    decreases 4 - i
  {
    if i >= 4 then []
    else if HasBit(config, i) then
      (if free == [] then [] else [Layer(free[0], i)] + Extras(config, i + 1, free[1..]))
    else Extras(config, i + 1, free)
  }

  /**
   * One turn of the loop that adds the layers: what is left to add after
   * division i. A wanted division with no free channel left is where
   * get_next_free_midi_chan raises, keeping the layers added so far.
   */
  lemma ExtrasStep(config: int, i: nat, rest: seq<int>, added: seq<Layer>, total: seq<Layer>)
    requires 1 <= i < 4 && added + Extras(config, i, rest) == total
    ensures HasBit(config, i) && rest == [] ==> added == total && |Wanted(config, i)| > |rest|
    ensures HasBit(config, i) && rest != [] ==>
      && (added + [Layer(rest[0], i)]) + Extras(config, i + 1, rest[1..]) == total
      && (|Wanted(config, i)| > |rest| <==> |Wanted(config, i + 1)| > |rest[1..]|)
    ensures !HasBit(config, i) ==> added + Extras(config, i + 1, rest) == total && Wanted(config, i) == Wanted(config, i + 1)
  {
    if HasBit(config, i) && rest == [] {
      assert added + [] == added;
    }
  }

  /** The k-th added layer is the k-th wanted division on the k-th free channel, as long as both last. */
  lemma {:induction false} ExtrasSpec(config: int, i: nat, free: seq<int>)
    ensures var e, w := Extras(config, i, free), Wanted(config, i);
      |e| == (if |w| < |free| then |w| else |free|)
      && forall k :: 0 <= k < |e| ==> e[k] == Layer(free[k], w[k])
    decreases 4 - i
  {
    if i < 4 {
      if HasBit(config, i) {
        if free != [] {
          ExtrasSpec(config, i + 1, free[1..]);
        }
      } else {
        ExtrasSpec(config, i + 1, free);
      }
    }
  }

  /** The divisions from 1 on, bit by bit. */
  lemma WantedFromOne(config: int)
    ensures Wanted(config, 1) == (if (config / 2) % 2 == 1 then [1 as Division] else [])
      + (if (config / 4) % 2 == 1 then [2 as Division] else [])
      + (if (config / 8) % 2 == 1 then [3 as Division] else [])
  {
    assert Wanted(config, 4) == [];
  }

  /** The divisions a keyboard configuration plays: Manual I and those its bits 1 to 3 ask for. */
  function Divisions(config: int): seq<Division>
  {
    [0] + Wanted(config, 1)
  }

  /** The divisions each title of keyboard_config_names spells out. */
  const TITLED_DIVISIONS: seq<seq<Division>> := [[0, 1, 2, 3], [0, 1, 3], [0, 3], [0, 1, 2], [0, 1], [0]]

  /** The divisions of each listed keyboard configuration are those its title names. */
  lemma ConfigDivisions(k: nat)
    requires k < |KEYBOARD_CONFIGS|
    ensures Divisions(KEYBOARD_CONFIGS[k].0) == TITLED_DIVISIONS[k]
  {
    var c := KEYBOARD_CONFIGS[k].0;
    WantedFromOne(c);
    if k == 0 {
      assert c == 15;
    } else if k == 1 {
      assert c == 11;
    } else if k == 2 {
      assert c == 9;
    } else if k == 3 {
      assert c == 7;
    } else if k == 4 {
      assert c == 3;
    } else {
      assert c == 1;
    }
  }

  /** The stage of the set-up the engine is in. */
  datatype Stage = ChooseKeyboards | ChooseTemperament | Configured(keyboards: int, temperament: int)

  function StageOf(keyboardConfig: Option<int>, temperament: Option<int>): Stage
  {
    if keyboardConfig.None? then ChooseKeyboards
    else if temperament.None? then ChooseTemperament
    else Configured(keyboardConfig.value, temperament.value)
  }

  /** The bank list of a stage: keyboard layouts, then temperaments, then General and the layer's division. */
  function BankList(stage: Stage, layer: Layer): (r: seq<BankInfo>)
    ensures stage.ChooseKeyboards? ==> r == PairBanks(KEYBOARD_CONFIGS)
    ensures stage.ChooseTemperament? ==> r == PairBanks(TEMPERAMENTS)
    ensures stage.Configured? ==> (|r| == 2 && r[0].title == "General" && r[1].title == DIVISION_NAMES[layer.aeolusChan]
      && r[0].index == 0 && r[1].index == 1)
  {
    match stage
    case ChooseKeyboards => PairBanks(KEYBOARD_CONFIGS)
    case ChooseTemperament => PairBanks(TEMPERAMENTS)
    case Configured(_, _) =>
      var name := DIVISION_NAMES[layer.aeolusChan];
      [BankInfo("General", 0, "General"), BankInfo(name, 1, name)]
  }

  /** The engine name. */
  const ENGINE_NAME: string := "Aeolus"

  /** get_name: the engine name and the layer's division. */
  function LayerName(layer: Layer): string
  {
    ENGINE_NAME + " " + DIVISION_NAMES[layer.aeolusChan]
  }

  /** get_path for a stage; None when the temperament has no name (KeyError). */
  function PathOf(stage: Stage, layer: Layer): (r: Option<string>)
    ensures stage.ChooseKeyboards? ==> r == Some(ENGINE_NAME + "/Keyboards")
    ensures stage.ChooseTemperament? ==> r == Some(ENGINE_NAME + "/Temperament")
    ensures r.None? <==> stage.Configured? && forall i :: 0 <= i < |TEMPERAMENTS| ==> TEMPERAMENTS[i].0 != stage.temperament
  {
    match stage
    case ChooseKeyboards => Some(ENGINE_NAME + "/Keyboards")
    case ChooseTemperament => Some(ENGINE_NAME + "/Temperament")
    case Configured(_, t) =>
      match Lookup(TEMPERAMENTS, t)
      case None => None
      case Some(name) => Some(LayerName(layer) + "/" + name)
  }

  /** Every temperament offered gives a path once chosen. */
  lemma OfferedTemperamentsHavePaths(layer: Layer, kc: int, k: nat)
    requires k < |BankList(ChooseTemperament, layer)|
    ensures PathOf(Configured(kc, BankList(ChooseTemperament, layer)[k].index), layer).Some?
  {
    var t := BankList(ChooseTemperament, layer)[k].index;
    assert TEMPERAMENTS[k].0 == t;
  }

  // ---------------------------------------------------------------------------
  // Presets
  // ---------------------------------------------------------------------------

  /**
   * The index of the first preset named `name` from `from` on. A preset
   * without a name raises KeyError, which ends the search with None.
   */
  function FindPreset(list: seq<Preset>, name: string, from: nat): (r: Option<nat>)
    ensures r.Some? ==> (from <= r.value < |list| && list[r.value].name == Some(name)
      && forall j :: from <= j < r.value ==> list[j].name.Some? && list[j].name != Some(name))
    ensures (forall j :: from <= j < |list| ==> list[j].name.Some?) ==>
      (r.None? <==> forall j :: from <= j < |list| ==> list[j].name != Some(name))
    decreases |list| - from
  {
    if from >= |list| then None
    else match list[from].name
      case None => None
      case Some(n) => if n == name then Some(from) else FindPreset(list, name, from + 1)
  }

  /** The engine-specific configuration as get_extended_config builds it. */
  function ExtendedConfigOf(keyboardConfig: Option<int>, temperament: Option<int>, layers: seq<Layer>): ExtendedConfig
  {
    ExtendedConfig(Some(keyboardConfig), Some(temperament), None,
      Some(seq(|layers|, i requires 0 <= i < |layers| => layers[i].aeolusChan as int)))
  }

  /** The keyboard configuration set_extended_config stores: the "keyboard" entry, or 15 when absent. */
  function KeyboardOf(x: ExtendedConfig): Option<int>
  {
    if x.keyboard.Some? then x.keyboard.value else Some(15)
  }

  /** The temperament set_extended_config stores: "temperament", else the legacy "tuning_temp", else unchanged. */
  function TemperamentOf(x: ExtendedConfig, current: Option<int>): Option<int>
  {
    if x.temperament.Some? then x.temperament.value
    else if x.tuningTemp.Some? then x.tuningTemp.value
    else current
  }

  /** The setting for the chain of the i-th processor: the listed division, or i when the list lacks it. */
  function ChainSettingOf(x: ExtendedConfig, i: nat): ChainSetting
  {
    var chan := if x.processors.Some? && i < |x.processors.value| then x.processors.value[i] else i;
    ChainSetting(chan, i > 0)
  }

  /** Restoring what get_extended_config saved gives back the set-up and each processor's division. */
  lemma ExtendedConfigRoundTrip(keyboardConfig: Option<int>, temperament: Option<int>, current: Option<int>, layers: seq<Layer>)
    ensures var x := ExtendedConfigOf(keyboardConfig, temperament, layers);
      KeyboardOf(x) == keyboardConfig && TemperamentOf(x, current) == temperament
      && forall i :: 0 <= i < |layers| ==> ChainSettingOf(x, i).aeolusChan == layers[i].aeolusChan
  {
  }

  /** A legacy snapshot without keyboard entry restores four keyboards. */
  lemma LegacyConfigHasFourKeyboards(x: ExtendedConfig)
    requires x.keyboard.None?
    ensures KeyboardOf(x) == Some(15) && Divisions(15) == [0, 1, 2, 3]
  {
    ConfigDivisions(0);
  }

  // ---------------------------------------------------------------------------
  // The engine
  // ---------------------------------------------------------------------------

  class AeolusEngine {
    var keyboardConfig: Option<int>
    var temperament: Option<int>
    var layers: seq<Layer>
    var presets: map<string, seq<Preset>>

    /** A new engine: nothing chosen yet, no layers, the presets read from the user's preset file. */
    constructor (stored: map<string, seq<Preset>>)
      ensures keyboardConfig == None && temperament == None && layers == [] && presets == stored
    {
      keyboardConfig := None;
      temperament := None;
      layers := [];
      presets := stored;
    }

    function Stage(): Stage
      reads this
    {
      StageOf(keyboardConfig, temperament)
    }

    /** get_bank_list for a layer of this engine. */
    function GetBankList(layer: Layer): (r: seq<BankInfo>)
      reads this
      ensures r == BankList(Stage(), layer)
    {
      BankList(Stage(), layer)
    }

    /** get_path for a layer of this engine. */
    function GetPath(layer: Layer): (r: Option<string>)
      reads this
      ensures r == PathOf(Stage(), layer)
    {
      PathOf(Stage(), layer)
    }

    /** set_midi_chans: the sixteen channel words, channel 0 first. */
    method SetMidiChans() returns (config: seq<bv16>)
      ensures |config| == 16
      ensures forall c :: 0 <= c < 16 ==> config[c] == ChanWord(layers, c)
    {
      config := [];
      var chan := 0;
      while chan < 16
        invariant chan <= 16 && |config| == chan
        invariant forall c :: 0 <= c < chan ==> config[c] == ChanWord(layers, c)
      {
        var w := ChanWordOf(layers, chan);
        config := config + [w];
        chan := chan + 1;
      }
    }

    /**
     * The loop of set_bank that adds a layer for each further division the
     * configuration asks for. When no free channel is left for a wanted
     * division, get_next_free_midi_chan raises "No available free MIDI
     * channels!" (its answer is never None, so the `break` is never taken):
     * `raised` is set and the layers added before stay.
     */
    method AddExtraLayers(config: int, free: seq<int>) returns (raised: bool)
      modifies this
      ensures layers == old(layers) + Extras(config, 1, free)
      ensures raised <==> |Wanted(config, 1)| > |free|
      ensures keyboardConfig == old(keyboardConfig) && temperament == old(temperament) && presets == old(presets)
    {
      var i := 1;
      var rest := free;
      ghost var added: seq<Layer> := [];
      while i < 4
        invariant 1 <= i <= 4
        invariant layers == old(layers) + added
        invariant added + Extras(config, i, rest) == Extras(config, 1, free)
        invariant |Wanted(config, 1)| > |free| <==> |Wanted(config, i)| > |rest|
        invariant keyboardConfig == old(keyboardConfig) && temperament == old(temperament) && presets == old(presets)
      {
        ExtrasStep(config, i, rest, added, Extras(config, 1, free));
        if HasBit(config, i) {
          if rest == [] {
            return true;
          }
          layers := layers + [Layer(rest[0], i)];
          added := added + [Layer(rest[0], i)];
          rest := rest[1..];
        }
        i := i + 1;
      }
      return false;
    }

    /**
     * set_bank. The first call stores the keyboard configuration, the second
     * the temperament, both answering None; afterwards, with no synthesiser
     * running and a single layer, a layer is added per further division,
     * each on the next channel of `free` (the free channels from the first
     * layer's channel on, ascending), and the answer is True. When the
     * channels run out the exception propagates: `raised` is set, there is
     * no answer, and the layers added before stay.
     */
    method SetBank(bank: BankInfo, running: bool, free: seq<int>) returns (r: Option<bool>, raised: bool)
      modifies this
      ensures old(Stage()).ChooseKeyboards? ==>
        r.None? && !raised && keyboardConfig == Some(bank.index) && temperament == old(temperament) && layers == old(layers)
      ensures old(Stage()).ChooseTemperament? ==>
        r.None? && !raised && keyboardConfig == old(keyboardConfig) && temperament == Some(bank.index) && layers == old(layers)
      ensures old(Stage()).Configured? ==>
        && keyboardConfig == old(keyboardConfig) && temperament == old(temperament)
        && (raised <==> !running && |old(layers)| <= 1 && |Wanted(old(keyboardConfig).value, 1)| > |free|)
        && (r == if raised then None else Some(true))
        && layers == old(layers) + (if !running && |old(layers)| <= 1 then Extras(old(keyboardConfig).value, 1, free) else [])
      ensures presets == old(presets)
    {
      raised := false;
      if keyboardConfig.None? {
        keyboardConfig := Some(bank.index);
        return None, false;
      } else if temperament.None? {
        temperament := Some(bank.index);
        return None, false;
      }
      if !running && |layers| <= 1 {
        raised := AddExtraLayers(keyboardConfig.value, free);
        if raised {
          return None, true;
        }
      }
      return Some(true), false;
    }

    /** get_preset_index: the index of the first preset of `bank` named `name`, None when the bank does not exist. */
    method GetPresetIndex(bank: string, name: string) returns (r: Option<nat>)
      ensures bank !in presets ==> r.None?
      ensures bank in presets ==> r == FindPreset(presets[bank], name, 0)
    {
      if bank !in presets {
        return None;
      }
      var list := presets[bank];
      var i := 0;
      while i < |list|
        invariant i <= |list|
        invariant FindPreset(list, name, 0) == FindPreset(list, name, i)
      {
        match list[i].name {
          case None =>
            return None;
          case Some(n) =>
            if n == name {
              return Some(i);
            }
        }
        i := i + 1;
      }
      return None;
    }

    /** get_extended_config. */
    function GetExtendedConfig(): (x: ExtendedConfig)
      reads this
      ensures KeyboardOf(x) == keyboardConfig && TemperamentOf(x, None) == temperament
      ensures x.processors.Some? && |x.processors.value| == |layers|
    {
      ExtendedConfigOf(keyboardConfig, temperament, layers)
    }

    /** set_extended_config: stores the set-up and returns what it sets on each processor's chain. */
    method SetExtendedConfig(x: ExtendedConfig) returns (chains: seq<ChainSetting>)
      modifies this
      ensures keyboardConfig == KeyboardOf(x) && temperament == TemperamentOf(x, old(temperament))
      ensures layers == old(layers) && presets == old(presets)
      ensures |chains| == |layers| && forall i :: 0 <= i < |chains| ==> chains[i] == ChainSettingOf(x, i)
    {
      if x.temperament.Some? {
        temperament := x.temperament.value;
      } else if x.tuningTemp.Some? {
        temperament := x.tuningTemp.value;
      }
      if x.keyboard.Some? {
        keyboardConfig := x.keyboard.value;
      } else {
        keyboardConfig := Some(15);
      }
      chains := [];
      var i := 0;
      while i < |layers|
        invariant i <= |layers| && |chains| == i
        invariant forall j :: 0 <= j < i ==> chains[j] == ChainSettingOf(x, j)
      {
        var chan := if x.processors.Some? && i < |x.processors.value| then x.processors.value[i] else i;
        chains := chains + [ChainSetting(chan, i > 0)];
        i := i + 1;
      }
    }
  }
}

=== FILE: audio_mixer.dfy ===
/**
 * The audio mixer engine: one strip of six controllers (level, balance,
 * mute, solo, mono, phase) per mixer channel plus the main bus, the
 * per-MIDI-channel tables of learned CC bindings, and the snapshot state
 * it saves and restores.
 *
 * The mixer library behind the engine is represented by the values last
 * written to it (`lib`); what it answers when asked is a parameter.
 */
module AudioMixer {
  import opened Wrappers
  import opened PyText

  /** The number of MIDI channels, and so of learn tables. */
  const MIDI_CHANS: nat := 16

  datatype Symbol = Level | Balance | Mute | Solo | Mono | Phase

  /** The controllers of a strip, in the order the strip dictionary lists them. */
  const SYMBOLS: seq<Symbol> := [Level, Balance, Mute, Solo, Mono, Phase]

  function SymbolName(s: Symbol): string
  {
    match s
    case Level => "level"
    case Balance => "balance"
    case Mute => "mute"
    case Solo => "solo"
    case Mono => "mono"
    case Phase => "phase"
  }

  /** The controller a symbol names in a strip dictionary; None is the KeyError. */
  function SymbolOf(name: string): (r: Option<Symbol>)
    ensures r.Some? ==> SymbolName(r.value) == name
  {
    if name == "level" then Some(Level)
    else if name == "balance" then Some(Balance)
    else if name == "mute" then Some(Mute)
    else if name == "solo" then Some(Solo)
    else if name == "mono" then Some(Mono)
    else if name == "phase" then Some(Phase)
    else None
  }

  /** Where a controller comes in the strip's order. */
  function SymbolIndex(s: Symbol): (i: nat)
    ensures i < |SYMBOLS| && SYMBOLS[i] == s
  {
    match s
    case Level => 0
    case Balance => 1
    case Mute => 2
    case Solo => 3
    case Mono => 4
    case Phase => 5
  }

  /** Every controller is found again under its own name, so names are distinct. */
  lemma SymbolNames()
    ensures forall s :: SymbolOf(SymbolName(s)) == Some(s)
    ensures forall s, t :: SymbolName(s) == SymbolName(t) ==> s == t
    ensures forall i, j :: 0 <= i < j < |SYMBOLS| ==> SymbolName(SYMBOLS[i]) != SymbolName(SYMBOLS[j])
  {
    assert SymbolOf(SymbolName(Level)) == Some(Level);
    assert SymbolOf(SymbolName(Balance)) == Some(Balance);
    assert SymbolOf(SymbolName(Mute)) == Some(Mute);
    assert SymbolOf(SymbolName(Solo)) == Some(Solo);
    assert SymbolOf(SymbolName(Mono)) == Some(Mono);
    assert SymbolOf(SymbolName(Phase)) == Some(Phase);
  }

  /** value_default of each controller: 0.8 for the fader, 0 for the rest. */
  function Default(s: Symbol): real
  {
    if s == Level then 0.8 else 0.0
  }

  /** The values of one strip's controllers. Toggles hold 0 or 1. */
  datatype Strip = Strip(level: real, balance: real, mute: real, solo: real, mono: real, phase: real)
  {
    function Get(s: Symbol): real
    {
      match s
      case Level => level
      case Balance => balance
      case Mute => mute
      case Solo => solo
      case Mono => mono
      case Phase => phase
    }

    function Set(s: Symbol, v: real): (r: Strip)
      ensures r.Get(s) == v
      ensures forall t :: t != s ==> r.Get(t) == Get(t)
    {
      match s
      case Level => this.(level := v)
      case Balance => this.(balance := v)
      case Mute => this.(mute := v)
      case Solo => this.(solo := v)
      case Mono => this.(mono := v)
      case Phase => this.(phase := v)
    }
  }

  function Defaults(): (r: Strip)
    ensures forall s :: r.Get(s) == Default(s)
  {
    Strip(0.8, 0.0, 0.0, 0.0, 0.0, 0.0)
  }

  /** A controller of the mixer, named by its graph path [strip, symbol]. */
  datatype Ctrl = Ctrl(strip: nat, symbol: Symbol)

  /** learned_cc[chan][cc] = zctrl, as (chan, cc, zctrl). */
  type Binding = (nat, int, Ctrl)

  /**
   * A channel number at or above the channel count addresses the main bus,
   * which is the strip after the last channel.
   */
  function Clamp(channel: nat, maxChannels: nat): (r: nat)
    ensures r <= maxChannels
    ensures channel < maxChannels ==> r == channel
    ensures channel >= maxChannels ==> r == maxChannels
  {
    if channel >= maxChannels then maxChannels else channel
  }

  // ---------------------------------------------------------------------
  // Learn tables: one {cc: controller} dictionary per MIDI channel, kept
  // as its items in insertion order.
  // ---------------------------------------------------------------------

  type Table = seq<(int, Ctrl)>

  predicate DistinctKeys(t: Table)
  {
    forall i, j :: 0 <= i < j < |t| ==> t[i].0 != t[j].0
  }

  /** A table the engine can hold: a dictionary whose controllers are real strips. */
  predicate TableOk(t: Table, maxChannels: nat)
  {
    DistinctKeys(t) && forall i :: 0 <= i < |t| ==> t[i].1.strip <= maxChannels
  }

  /** d.get(cc) */
  function Lookup(t: Table, cc: int): (r: Option<Ctrl>)
    ensures r.None? <==> forall i :: 0 <= i < |t| ==> t[i].0 != cc
    ensures r.Some? ==> exists i :: 0 <= i < |t| && t[i] == (cc, r.value)
  {
    if t == [] then None
    else
      var last := t[|t| - 1];
      var r := Lookup(t[..|t| - 1], cc);
      if r.Some? then r else if last.0 == cc then Some(last.1) else None
  }

  /** d[cc] = z: a known key keeps its place and takes the new value, a new key goes last. */
  function Put(t: Table, cc: int, z: Ctrl): (r: Table)
    ensures Lookup(t, cc).None? ==> r == t + [(cc, z)]
    ensures Lookup(t, cc).Some? ==> |r| == |t| && forall i :: 0 <= i < |t| ==> r[i].0 == t[i].0
    ensures DistinctKeys(t) ==> DistinctKeys(r)
    ensures Lookup(r, cc) == Some(z)
    ensures forall k :: k != cc ==> Lookup(r, k) == Lookup(t, k)
  {
    if Lookup(t, cc).None? then t + [(cc, z)]
    else
      var r := seq(|t|, i requires 0 <= i < |t| => if t[i].0 == cc then (cc, z) else t[i]);
      assert forall k :: k != cc ==> Lookup(r, k) == Lookup(t, k) by {
        PutOthers(t, r, cc);
      }
      r
  }

  lemma {:induction false} PutOthers(t: Table, r: Table, cc: int)
    requires |r| == |t|
    requires forall i :: 0 <= i < |t| ==> r[i].0 == t[i].0 && (t[i].0 != cc ==> r[i] == t[i])
    ensures forall k :: k != cc ==> Lookup(r, k) == Lookup(t, k)
    decreases |t|
  {
    if t != [] {
      PutOthers(t[..|t| - 1], r[..|r| - 1], cc);
    }
  }

  /** The items of a table without the one at index i (dict.pop of its key). */
  function RemoveAt(t: Table, i: nat): (r: Table)
    requires i < |t|
    ensures |r| == |t| - 1
    ensures forall j :: 0 <= j < i ==> r[j] == t[j]
    ensures forall j :: i <= j < |r| ==> r[j] == t[j + 1]
  {
    t[..i] + t[i + 1..]
  }

  /** The 16 empty dictionaries of a fresh or fully unlearned mixer. */
  function EmptyTables(): (r: seq<Table>)
    ensures |r| == MIDI_CHANS && forall c :: 0 <= c < MIDI_CHANS ==> r[c] == []
  {
    seq(MIDI_CHANS, c => [])
  }

  /** The first index in a table, from i on, that binds the controller. */
  function IndexOfCtrl(t: Table, z: Ctrl, i: nat): (r: Option<nat>)
    requires i <= |t|
    ensures r.None? <==> forall j :: i <= j < |t| ==> t[j].1 != z
    ensures r.Some? ==> i <= r.value < |t| && t[r.value].1 == z && forall j :: i <= j < r.value ==> t[j].1 != z
    decreases |t| - i
  {
    if i == |t| then None else if t[i].1 == z then Some(i) else IndexOfCtrl(t, z, i + 1)
  }

  /**
   * The first binding of a controller, scanning the channels from c upwards
   * and each table in insertion order: (channel, index in its table).
   */
  function FirstMapping(tables: seq<Table>, z: Ctrl, c: nat): (r: Option<(nat, nat)>)
    requires c <= |tables|
    ensures r.None? <==> forall d, j :: c <= d < |tables| && 0 <= j < |tables[d]| ==> tables[d][j].1 != z
    ensures r.Some? ==> c <= r.value.0 < |tables| && r.value.1 < |tables[r.value.0]|
    ensures r.Some? ==> tables[r.value.0][r.value.1].1 == z
    ensures r.Some? ==> forall d, j :: c <= d < r.value.0 && 0 <= j < |tables[d]| ==> tables[d][j].1 != z
    ensures r.Some? ==> forall j :: 0 <= j < r.value.1 ==> tables[r.value.0][j].1 != z
    decreases |tables| - c
  {
    if c == |tables| then None
    else
      match IndexOfCtrl(tables[c], z, 0)
      case Some(i) => Some((c, i))
      case None => FirstMapping(tables, z, c + 1)
  }

  /** How many bindings of a controller the first n tables hold. */
  function Bindings(tables: seq<Table>, z: Ctrl, n: nat): nat
    requires n <= |tables|
  {
    if n == 0 then 0 else Bindings(tables, z, n - 1) + TableBindings(tables[n - 1], z)
  }

  function TableBindings(t: Table, z: Ctrl): nat
  {
    if t == [] then 0 else TableBindings(t[..|t| - 1], z) + (if t[|t| - 1].1 == z then 1 else 0)
  }

  lemma {:induction false} TableBindingsRemove(t: Table, i: nat, z: Ctrl)
    requires i < |t|
    ensures TableBindings(t, z) == TableBindings(RemoveAt(t, i), z) + (if t[i].1 == z then 1 else 0)
    decreases |t|
  {
    var r := RemoveAt(t, i);
    if i < |t| - 1 {
      assert r[..|r| - 1] == RemoveAt(t[..|t| - 1], i);
      TableBindingsRemove(t[..|t| - 1], i, z);
    } else {
      assert r == t[..|t| - 1];
    }
  }

  lemma {:induction false} BindingsUpdate(tables: seq<Table>, c: nat, t: Table, z: Ctrl, n: nat)
    requires c < |tables| && n <= |tables|
    ensures Bindings(tables[c := t], z, n) ==
      Bindings(tables, z, n) + (if c < n then TableBindings(t, z) - TableBindings(tables[c], z) else 0)
    decreases n
  {
    if n > 0 {
      BindingsUpdate(tables, c, t, z, n - 1);
    }
  }

  /** Unlearning a bound controller drops exactly one of its bindings. */
  lemma UnlearnDropsOne(tables: seq<Table>, z: Ctrl)
    requires FirstMapping(tables, z, 0).Some?
    ensures var (c, i) := FirstMapping(tables, z, 0).value;
      Bindings(tables[c := RemoveAt(tables[c], i)], z, |tables|) == Bindings(tables, z, |tables|) - 1
  {
    var (c, i) := FirstMapping(tables, z, 0).value;
    TableBindingsRemove(tables[c], i, z);
    BindingsUpdate(tables, c, RemoveAt(tables[c], i), z, |tables|);
    BindingsPositive(tables, c, z, |tables|);
  }

  lemma {:induction false} BindingsPositive(tables: seq<Table>, c: nat, z: Ctrl, n: nat)
    requires c < n <= |tables|
    ensures Bindings(tables, z, n) >= TableBindings(tables[c], z)
    decreases n
  {
    if c < n - 1 {
      BindingsPositive(tables, c, z, n - 1);
    }
  }

  /** The scan shared by get_learned_cc and midi_unlearn: channels, then each table's items. */
  method FindFirst(tables: seq<Table>, z: Ctrl) returns (r: Option<(nat, nat)>)
    ensures r == FirstMapping(tables, z, 0)
  {
    var c := 0;
    while c < |tables|
      invariant c <= |tables|
      invariant FirstMapping(tables, z, 0) == FirstMapping(tables, z, c)
    {
      var t := tables[c];
      var i := 0;
      while i < |t|
        invariant i <= |t|
        invariant IndexOfCtrl(t, z, 0) == IndexOfCtrl(t, z, i)
      {
        if t[i].1 == z {
          return Some((c, i));
        }
        i := i + 1;
      }
      c := c + 1;
    }
    return None;
  }

  /** The controllers bound to a CC on the first n MIDI channels, in channel order. */
  function Forwarded(tables: seq<Table>, cc: int, n: nat): (r: seq<Ctrl>)
    requires n <= |tables|
    ensures |r| <= n
    ensures forall z :: z in r <==> exists c :: 0 <= c < n && Lookup(tables[c], cc) == Some(z)
  {
    if n == 0 then []
    else
      var before := Forwarded(tables, cc, n - 1);
      match Lookup(tables[n - 1], cc)
      case Some(z) => before + [z]
      case None => before
  }

  method CollectTargets(tables: seq<Table>, cc: int) returns (targets: seq<Ctrl>)
    ensures targets == Forwarded(tables, cc, |tables|)
  {
    targets := [];
    var c := 0;
    while c < |tables|
      invariant c <= |tables|
      invariant targets == Forwarded(tables, cc, c)
    {
      var found := Lookup(tables[c], cc);
      if found.Some? {
        targets := targets + [found.value];
      }
      c := c + 1;
    }
  }

  // ---------------------------------------------------------------------
  // Snapshot state.
  // ---------------------------------------------------------------------

  /** A graph path as saved: [strip index, symbol name]. */
  datatype GraphPath = GraphPath(strip: int, symbol: string)

  /**
   * The state dictionary: per strip key, the values of its controllers by
   * symbol name, and the optional "midi_learn" dictionary as its items
   * in order, "chan,cc" to graph path.
   */
  datatype MixerState = MixerState(strips: map<string, map<string, real>>, midiLearn: Option<seq<(string, GraphPath)>>)

  /** 'chan_{:02d}' for a channel strip, 'main' for the main bus. */
  function StripKey(c: nat, maxChannels: nat): string
  {
    if c < maxChannels then "chan_" + Pad2(c) else "main"
  }

  /** No two strips share a key. */
  lemma StripKeysDistinct(maxChannels: nat)
    ensures forall c: nat, d: nat :: c <= maxChannels && d <= maxChannels && StripKey(c, maxChannels) == StripKey(d, maxChannels) ==> c == d
  {
    forall c: nat, d: nat | c <= maxChannels && d <= maxChannels && StripKey(c, maxChannels) == StripKey(d, maxChannels)
      ensures c == d
    {
      var kc, kd := StripKey(c, maxChannels), StripKey(d, maxChannels);
      if c < maxChannels && d < maxChannels {
        assert kc[5..] == Pad2(c) && kd[5..] == Pad2(d);
        Pad2Value(c);
        Pad2Value(d);
      }
    }
  }

  /** The off-default values among the first k controllers of a strip, by name. */
  function OffDefault(s: Strip, k: nat): (r: map<string, real>)
    requires k <= |SYMBOLS|
    ensures forall j :: 0 <= j < k ==> (SymbolName(SYMBOLS[j]) in r <==> s.Get(SYMBOLS[j]) != Default(SYMBOLS[j]))
    ensures forall j :: 0 <= j < k && SymbolName(SYMBOLS[j]) in r ==> r[SymbolName(SYMBOLS[j])] == s.Get(SYMBOLS[j])
    ensures forall j :: k <= j < |SYMBOLS| ==> SymbolName(SYMBOLS[j]) !in r
  {
    if k == 0 then map[]
    else
      var before := OffDefault(s, k - 1);
      var sym := SYMBOLS[k - 1];
      SymbolNames();
      if s.Get(sym) != Default(sym) then before[SymbolName(sym) := s.Get(sym)] else before
  }

  /** The key of every strip, in strip order. */
  function StripKeys(maxChannels: nat): (r: seq<string>)
    ensures |r| == maxChannels + 1
    ensures forall c :: 0 <= c <= maxChannels ==> r[c] == StripKey(c, maxChannels)
    ensures forall c, d :: 0 <= c < d < |r| ==> r[c] != r[d]
  {
    StripKeysDistinct(maxChannels);
    seq(maxChannels + 1, c requires 0 <= c <= maxChannels => StripKey(c, maxChannels))
  }

  /** The first n strips listed under distinct keys: a key for each strip with an off-default value. */
  function Listing(values: seq<Strip>, keys: seq<string>, n: nat): (r: map<string, map<string, real>>)
    requires n <= |values| == |keys|
    requires forall c, d :: 0 <= c < d < |keys| ==> keys[c] != keys[d]
    ensures forall c :: 0 <= c < n ==> (keys[c] in r <==> OffDefault(values[c], 6) != map[])
    ensures forall c :: 0 <= c < n && keys[c] in r ==> r[keys[c]] == OffDefault(values[c], 6)
    ensures forall c :: n <= c < |keys| ==> keys[c] !in r
  {
    if n == 0 then map[]
    else
      var before := Listing(values, keys, n - 1);
      var m := OffDefault(values[n - 1], 6);
      if m != map[] then before[keys[n - 1] := m] else before
  }

  /** The strips part of the state: 'chan_NN' or 'main' for each strip with an off-default value. */
  function StripsState(values: seq<Strip>, maxChannels: nat): (r: map<string, map<string, real>>)
    requires |values| == maxChannels + 1
    ensures forall c :: 0 <= c <= maxChannels ==> (StripKey(c, maxChannels) in r <==> OffDefault(values[c], 6) != map[])
    ensures forall c :: 0 <= c <= maxChannels && StripKey(c, maxChannels) in r ==> r[StripKey(c, maxChannels)] == OffDefault(values[c], 6)
  {
    var keys := StripKeys(maxChannels);
    var r := Listing(values, keys, maxChannels + 1);
    assert forall c :: 0 <= c <= maxChannels ==> StripKey(c, maxChannels) == keys[c];
    r
  }

  /** f"{chan},{cc}" */
  function LearnKey(c: nat, cc: int): string
  {
    DecStr(c) + "," + IntStr(cc)
  }

  function PathOf(z: Ctrl): GraphPath
  {
    GraphPath(z.strip, SymbolName(z.symbol))
  }

  function ChanEntries(c: nat, t: Table): (r: seq<(string, GraphPath)>)
    ensures |r| == |t|
    ensures forall i :: 0 <= i < |t| ==> r[i] == (LearnKey(c, t[i].0), PathOf(t[i].1))
  {
    seq(|t|, i requires 0 <= i < |t| => (LearnKey(c, t[i].0), PathOf(t[i].1)))
  }

  /** The "midi_learn" items for the first n MIDI channels. */
  function Entries(tables: seq<Table>, n: nat): seq<(string, GraphPath)>
    requires n <= |tables|
  {
    if n == 0 then [] else Entries(tables, n - 1) + ChanEntries(n - 1, tables[n - 1])
  }

  /** get_state: the off-default values by strip key, and every learned binding. */
  function StateOf(values: seq<Strip>, tables: seq<Table>, maxChannels: nat): MixerState
    requires |values| == maxChannels + 1 && |tables| == MIDI_CHANS
  {
    MixerState(StripsState(values, maxChannels), Some(Entries(tables, MIDI_CHANS)))
  }

  /** A Python list index: in range, or counted from the end when negative. */
  function PyIndex(i: int, len: nat): (r: Option<nat>)
    ensures r.Some? ==> r.value < len
    ensures 0 <= i < len ==> r == Some(i)
  {
    if 0 <= i < len then Some(i) else if -(len as int) <= i < 0 then Some(len + i) else None
  }

  /** `chan, cc = ml.split(',')` then int() of each; None for any ValueError. */
  function ParseKey(key: string): Option<(int, int)>
  {
    var parts := Split(key, ',');
    if |parts| != 2 then None
    else
      match (ParseInt(parts[0]), ParseInt(parts[1]))
      case (Some(c), Some(cc)) => Some((c, cc))
      case _ => None
  }

  /** self.zctrls[graph_path[0]][graph_path[1]]; None for the IndexError or KeyError. */
  function ParsePath(gp: GraphPath, maxChannels: nat): (r: Option<Ctrl>)
    ensures r.Some? ==> r.value.strip <= maxChannels
  {
    match (PyIndex(gp.strip, maxChannels + 1), SymbolOf(gp.symbol))
    case (Some(s), Some(sym)) => Some(Ctrl(s, sym))
    case _ => None
  }

  /**
   * One "midi_learn" item of a state being restored: the key must split
   * into two ints, the channel must index the 16 tables and the graph path
   * a controller; any failure is logged and the item skipped (None).
   */
  function ParseLearn(item: (string, GraphPath), maxChannels: nat): (r: Option<Binding>)
    ensures r.Some? ==> r.value.0 < MIDI_CHANS && r.value.2.strip <= maxChannels
  {
    match (ParseKey(item.0), ParsePath(item.1, maxChannels))
    case (Some((c, cc)), Some(z)) =>
      (match PyIndex(c, MIDI_CHANS)
       case Some(ci) => Some((ci, cc, z))
       case None => None)
    case _ => None
  }

  lemma ParseKeyOf(c: nat, cc: int)
    ensures ParseKey(LearnKey(c, cc)) == Some((c, cc))
  {
    SplitPair(DecStr(c), IntStr(cc), ',');
    assert LearnKey(c, cc) == DecStr(c) + [','] + IntStr(cc);
    ParseDecStr(c);
    ParseIntStr(cc);
  }

  lemma ParsePathOf(z: Ctrl, maxChannels: nat)
    requires z.strip <= maxChannels
    ensures ParsePath(PathOf(z), maxChannels) == Some(z)
  {
    SymbolNames();
  }

  /** A saved binding parses back to itself. */
  lemma ParseLearnKey(c: nat, cc: int, z: Ctrl, maxChannels: nat)
    requires c < MIDI_CHANS && z.strip <= maxChannels
    ensures ParseLearn((LearnKey(c, cc), PathOf(z)), maxChannels) == Some((c, cc, z))
  {
    ParseKeyOf(c, cc);
    ParsePathOf(z, maxChannels);
  }

  /** The items parsed one by one. */
  function Parsed(items: seq<(string, GraphPath)>, maxChannels: nat): (r: seq<Option<Binding>>)
    ensures |r| == |items|
    ensures forall i :: 0 <= i < |items| ==> r[i] == ParseLearn(items[i], maxChannels)
  {
    MapItems(items, Parser(maxChannels))
  }

  function Parser(maxChannels: nat): ((string, GraphPath)) -> Option<Binding>
  {
    item => ParseLearn(item, maxChannels)
  }

  function MapItems(items: seq<(string, GraphPath)>, f: ((string, GraphPath)) -> Option<Binding>): (r: seq<Option<Binding>>)
    ensures |r| == |items|
    ensures forall i :: 0 <= i < |items| ==> r[i] == f(items[i])
  {
    seq(|items|, i requires 0 <= i < |items| => f(items[i]))
  }

  /** learned_cc[chan][cc] = zctrl for a parsed item; nothing for one that failed. */
  function Apply(tables: seq<Table>, p: Option<Binding>): (r: seq<Table>)
    requires |tables| == MIDI_CHANS
    ensures |r| == MIDI_CHANS
  {
    match p
    case Some((c, cc, z)) => if c < MIDI_CHANS then tables[c := Put(tables[c], cc, z)] else tables
    case None => tables
  }

  /** Applying the parsed items one after another to the tables. */
  function Replay(tables: seq<Table>, ps: seq<Option<Binding>>): (r: seq<Table>)
    requires |tables| == MIDI_CHANS
    ensures |r| == MIDI_CHANS
  {
    if ps == [] then tables else Apply(Replay(tables, ps[..|ps| - 1]), ps[|ps| - 1])
  }

  lemma {:induction false} ReplayAppend(tables: seq<Table>, a: seq<Option<Binding>>, b: seq<Option<Binding>>)
    requires |tables| == MIDI_CHANS
    ensures Replay(tables, a + b) == Replay(Replay(tables, a), b)
    decreases |b|
  {
    if b == [] {
      assert a + b == a;
    } else {
      assert (a + b)[..|a + b| - 1] == a + b[..|b| - 1];
      ReplayAppend(tables, a, b[..|b| - 1]);
    }
  }

  /** The bindings of one table as parsed items. */
  function ChanBindings(c: nat, t: Table): (r: seq<Option<Binding>>)
    ensures |r| == |t|
    ensures forall i :: 0 <= i < |t| ==> r[i] == Some((c, t[i].0, t[i].1))
  {
    seq(|t|, i requires 0 <= i < |t| => Some((c, t[i].0, t[i].1)))
  }

  /** The bindings of the first n tables as parsed items, channel by channel. */
  function LearnedItems(tables: seq<Table>, n: nat): seq<Option<Binding>>
    requires n <= |tables|
  {
    if n == 0 then [] else LearnedItems(tables, n - 1) + ChanBindings(n - 1, tables[n - 1])
  }

  /** The saved "midi_learn" items parse back to the bindings they were made from. */
  lemma ParsedEntries(tables: seq<Table>, maxChannels: nat)
    requires |tables| == MIDI_CHANS
    requires forall c :: 0 <= c < MIDI_CHANS ==> TableOk(tables[c], maxChannels)
    ensures Parsed(Entries(tables, MIDI_CHANS), maxChannels) == LearnedItems(tables, MIDI_CHANS)
  {
    forall c | 0 <= c < MIDI_CHANS
      ensures MapItems(ChanEntries(c, tables[c]), Parser(maxChannels)) == ChanBindings(c, tables[c])
    {
      ParsedChannel(c, tables[c], maxChannels);
    }
    MapEntries(tables, MIDI_CHANS, Parser(maxChannels));
  }

  lemma {:induction false} MapEntries(tables: seq<Table>, n: nat, f: ((string, GraphPath)) -> Option<Binding>)
    requires n <= |tables|
    requires forall c :: 0 <= c < n ==> MapItems(ChanEntries(c, tables[c]), f) == ChanBindings(c, tables[c])
    ensures MapItems(Entries(tables, n), f) == LearnedItems(tables, n)
    decreases n
  {
    if n > 0 {
      MapEntries(tables, n - 1, f);
      MapAppend(Entries(tables, n - 1), ChanEntries(n - 1, tables[n - 1]), f);
    } else {
      assert MapItems([], f) == [];
    }
  }

  lemma MapAppend(a: seq<(string, GraphPath)>, b: seq<(string, GraphPath)>, f: ((string, GraphPath)) -> Option<Binding>)
    ensures MapItems(a + b, f) == MapItems(a, f) + MapItems(b, f)
  {
    var l, r := MapItems(a + b, f), MapItems(a, f) + MapItems(b, f);
    forall i | 0 <= i < |l|
      ensures l[i] == r[i]
    {
      if i < |a| {
        assert (a + b)[i] == a[i];
      } else {
        assert (a + b)[i] == b[i - |a|];
      }
    }
  }

  lemma ParsedChannel(c: nat, t: Table, maxChannels: nat)
    requires c < MIDI_CHANS && TableOk(t, maxChannels)
    ensures Parsed(ChanEntries(c, t), maxChannels) == ChanBindings(c, t)
  {
    var b := ChanEntries(c, t);
    forall i | 0 <= i < |b|
      ensures ParseLearn(b[i], maxChannels) == Some((c, t[i].0, t[i].1))
    {
      ParseLearnKey(c, t[i].0, t[i].1, maxChannels);
    }
  }

  /** Replaying one table's bindings into its empty slot rebuilds the table. */
  lemma {:induction false} ReplayChannel(tables: seq<Table>, c: nat, t: Table, k: nat)
    requires |tables| == MIDI_CHANS && c < MIDI_CHANS && tables[c] == []
    requires DistinctKeys(t) && k <= |t|
    ensures Replay(tables, ChanBindings(c, t[..k])) == tables[c := t[..k]]
    decreases k
  {
    if k == 0 {
      assert ChanBindings(c, t[..0]) == [];
      assert tables[c := t[..0]] == tables;
    } else {
      var e := t[k - 1];
      var pre := t[..k - 1];
      assert t[..k] == pre + [e];
      assert Lookup(pre, e.0).None? by {
        forall i | 0 <= i < |pre|
          ensures pre[i].0 != e.0
        {
          assert pre[i] == t[i];
        }
      }
      assert Put(pre, e.0, e.1) == t[..k];
      var ps := ChanBindings(c, t[..k]);
      assert ps[..|ps| - 1] == ChanBindings(c, pre);
      assert ps[|ps| - 1] == Some((c, e.0, e.1));
      ReplayChannel(tables, c, t, k - 1);
      var before := tables[c := pre];
      assert Replay(tables, ps) == Apply(before, Some((c, e.0, e.1)));
      assert before[c := Put(before[c], e.0, e.1)] == tables[c := t[..k]];
    }
  }

  /** Replaying the bindings of the first n tables into empty tables restores those tables. */
  lemma {:induction false} ReplayLearned(tables: seq<Table>, n: nat)
    requires |tables| == MIDI_CHANS && n <= MIDI_CHANS
    requires forall c :: 0 <= c < MIDI_CHANS ==> DistinctKeys(tables[c])
    ensures Replay(EmptyTables(), LearnedItems(tables, n)) == tables[..n] + EmptyTables()[n..]
    decreases n
  {
    if n == 0 {
      assert tables[..0] + EmptyTables()[0..] == EmptyTables();
    } else {
      ReplayLearned(tables, n - 1);
      var mid := tables[..n - 1] + EmptyTables()[n - 1..];
      ReplayAppend(EmptyTables(), LearnedItems(tables, n - 1), ChanBindings(n - 1, tables[n - 1]));
      var t := tables[n - 1];
      assert t[..|t|] == t;
      ExtendPrefix(tables, n);
      ReplayChannel(mid, n - 1, t, |t|);
    }
  }

  lemma ExtendPrefix(tables: seq<Table>, n: nat)
    requires |tables| == MIDI_CHANS && 1 <= n <= MIDI_CHANS
    ensures (tables[..n - 1] + EmptyTables()[n - 1..])[n - 1] == []
    ensures (tables[..n - 1] + EmptyTables()[n - 1..])[n - 1 := tables[n - 1]] == tables[..n] + EmptyTables()[n..]
  {
  }

  /** The value a controller takes on set_state: the listed value, else its default when full. */
  function RestoreValue(cur: real, entry: Option<map<string, real>>, s: Symbol, full: bool): real
  {
    if entry.Some? && SymbolName(s) in entry.value then entry.value[SymbolName(s)]
    else if full then Default(s)
    else cur
  }

  /** The first k controllers of a strip restored. */
  function RestoredUpTo(cur: Strip, entry: Option<map<string, real>>, full: bool, k: nat): (r: Strip)
    requires k <= |SYMBOLS|
    ensures forall j :: 0 <= j < k ==> r.Get(SYMBOLS[j]) == RestoreValue(cur.Get(SYMBOLS[j]), entry, SYMBOLS[j], full)
    ensures forall j :: k <= j < |SYMBOLS| ==> r.Get(SYMBOLS[j]) == cur.Get(SYMBOLS[j])
  {
    if k == 0 then cur
    else
      var s := SYMBOLS[k - 1];
      RestoredUpTo(cur, entry, full, k - 1).Set(s, RestoreValue(cur.Get(s), entry, s, full))
  }

  /** A strip restored: each controller takes its RestoreValue. */
  function Restored(cur: Strip, entry: Option<map<string, real>>, full: bool): (r: Strip)
    ensures forall s :: r.Get(s) == RestoreValue(cur.Get(s), entry, s, full)
  {
    Strip(RestoreValue(cur.level, entry, Level, full), RestoreValue(cur.balance, entry, Balance, full),
          RestoreValue(cur.mute, entry, Mute, full), RestoreValue(cur.solo, entry, Solo, full),
          RestoreValue(cur.mono, entry, Mono, full), RestoreValue(cur.phase, entry, Phase, full))
  }

  /** Restoring the controllers one by one in the strip's order restores the strip. */
  lemma RestoredAll(cur: Strip, entry: Option<map<string, real>>, full: bool)
    ensures RestoredUpTo(cur, entry, full, |SYMBOLS|) == Restored(cur, entry, full)
  {
    var r := RestoredUpTo(cur, entry, full, |SYMBOLS|);
    assert r.Get(SYMBOLS[0]) == r.level && r.Get(SYMBOLS[1]) == r.balance && r.Get(SYMBOLS[2]) == r.mute;
    assert r.Get(SYMBOLS[3]) == r.solo && r.Get(SYMBOLS[4]) == r.mono && r.Get(SYMBOLS[5]) == r.phase;
  }

  /** state.get(key) for a strip */
  function EntryOf(st: MixerState, c: nat, maxChannels: nat): Option<map<string, real>>
  {
    var key := StripKey(c, maxChannels);
    if key in st.strips then Some(st.strips[key]) else None
  }

  /** set_state over the strips: every strip restored from its entry. */
  function RestoredStrips(cur: seq<Strip>, st: MixerState, full: bool, maxChannels: nat): (r: seq<Strip>)
    ensures |r| == |cur|
    ensures forall c :: 0 <= c < |cur| ==> r[c] == Restored(cur[c], EntryOf(st, c, maxChannels), full)
  {
    seq(|cur|, c requires 0 <= c < |cur| => Restored(cur[c], EntryOf(st, c, maxChannels), full))
  }

  /** The off-default listing of a strip restores it in full, from any starting values. */
  lemma RestoreOffDefault(s: Strip, cur: Strip)
    ensures Restored(cur, if OffDefault(s, 6) == map[] then None else Some(OffDefault(s, 6)), true) == s
  {
    OffDefaultOf(s, Level);
    OffDefaultOf(s, Balance);
    OffDefaultOf(s, Mute);
    OffDefaultOf(s, Solo);
    OffDefaultOf(s, Mono);
    OffDefaultOf(s, Phase);
  }

  /** A controller is listed in the strip's state exactly when off its default, with its value. */
  lemma OffDefaultOf(s: Strip, sym: Symbol)
    ensures SymbolName(sym) in OffDefault(s, 6) <==> s.Get(sym) != Default(sym)
    ensures SymbolName(sym) in OffDefault(s, 6) ==> OffDefault(s, 6)[SymbolName(sym)] == s.Get(sym)
  {
    var j := SymbolIndex(sym);
    assert SYMBOLS[j] == sym;
  }

  /**
   * Restoring a saved state in full gives back every controller value and
   * every learned binding, whatever the mixer held before.
   */
  lemma StateRoundTrip(values: seq<Strip>, tables: seq<Table>, cur: seq<Strip>, maxChannels: nat)
    requires |values| == maxChannels + 1 && |cur| == maxChannels + 1 && |tables| == MIDI_CHANS
    requires forall c :: 0 <= c < MIDI_CHANS ==> TableOk(tables[c], maxChannels)
    ensures RestoredStrips(cur, StateOf(values, tables, maxChannels), true, maxChannels) == values
    ensures Replay(EmptyTables(), Parsed(StateOf(values, tables, maxChannels).midiLearn.value, maxChannels)) == tables
  {
    var st := StateOf(values, tables, maxChannels);
    var r := RestoredStrips(cur, st, true, maxChannels);
    forall c | 0 <= c < |cur|
      ensures r[c] == values[c]
    {
      RestoreOffDefault(values[c], cur[c]);
    }
    ParsedEntries(tables, maxChannels);
    ReplayLearned(tables, MIDI_CHANS);
    assert tables[..MIDI_CHANS] + EmptyTables()[MIDI_CHANS..] == tables;
  }

  /** The state dictionary built by the nested loops of get_state. */
  method BuildState(values: seq<Strip>, tables: seq<Table>, maxChannels: nat) returns (st: MixerState)
    requires |values| == maxChannels + 1 && |tables| == MIDI_CHANS
    ensures st == StateOf(values, tables, maxChannels)
  {
    var strips := BuildStrips(values, maxChannels);
    var learn := BuildLearn(tables);
    st := MixerState(strips, Some(learn));
  }

  /** The strip loop of get_state: for each strip, its off-default controllers in order. */
  method BuildStrips(values: seq<Strip>, maxChannels: nat) returns (strips: map<string, map<string, real>>)
    requires |values| == maxChannels + 1
    ensures strips == Listing(values, StripKeys(maxChannels), maxChannels + 1)
  {
    var keys := StripKeys(maxChannels);
    strips := map[];
    var c := 0;
    while c <= maxChannels
      invariant c <= maxChannels + 1
      invariant strips == Listing(values, keys, c)
    {
      var chanState := ChanState(values[c]);
      if chanState != map[] {
        strips := strips[keys[c] := chanState];
      }
      c := c + 1;
    }
  }

  /** The symbol loop of get_state: the strip's controllers that are off their default. */
  method ChanState(s: Strip) returns (chanState: map<string, real>)
    ensures chanState == OffDefault(s, |SYMBOLS|)
  {
    chanState := map[];
    var k := 0;
    while k < |SYMBOLS|
      invariant k <= |SYMBOLS|
      invariant chanState == OffDefault(s, k)
    {
      var sym := SYMBOLS[k];
      if s.Get(sym) != Default(sym) {
        chanState := chanState[SymbolName(sym) := s.Get(sym)];
      }
      k := k + 1;
    }
  }

  /** The "midi_learn" loop of get_state: each channel's bindings in insertion order. */
  method BuildLearn(tables: seq<Table>) returns (learn: seq<(string, GraphPath)>)
    requires |tables| == MIDI_CHANS
    ensures learn == Entries(tables, MIDI_CHANS)
  {
    learn := [];
    var ch := 0;
    while ch < MIDI_CHANS
      invariant ch <= MIDI_CHANS
      invariant learn == Entries(tables, ch)
    {
      var items := ChanItems(ch, tables[ch]);
      learn := learn + items;
      ch := ch + 1;
    }
  }

  /** The inner loop of the "midi_learn" listing: one channel's items in insertion order. */
  method ChanItems(ch: nat, t: Table) returns (items: seq<(string, GraphPath)>)
    ensures items == ChanEntries(ch, t)
  {
    items := [];
    var i := 0;
    while i < |t|
      invariant i <= |t|
      invariant items == ChanEntries(ch, t[..i])
    {
      var item := (LearnKey(ch, t[i].0), PathOf(t[i].1));
      assert ChanEntries(ch, t[..i + 1]) == ChanEntries(ch, t[..i]) + [item];
      items := items + [item];
      i := i + 1;
    }
    assert t[..i] == t;
  }

  /** The strip loop of set_state. */
  method RestoreStrips(cur: seq<Strip>, st: MixerState, full: bool, maxChannels: nat) returns (r: seq<Strip>)
    ensures r == RestoredStrips(cur, st, full, maxChannels)
  {
    r := [];
    var c := 0;
    while c < |cur|
      invariant c <= |cur|
      invariant r == RestoredStrips(cur, st, full, maxChannels)[..c]
    {
      var s := RestoreStrip(cur[c], EntryOf(st, c, maxChannels), full);
      r := r + [s];
      c := c + 1;
    }
  }

  /** The controller loop of set_state for one strip. */
  method RestoreStrip(cur: Strip, entry: Option<map<string, real>>, full: bool) returns (s: Strip)
    ensures s == Restored(cur, entry, full)
  {
    s := cur;
    var k := 0;
    while k < |SYMBOLS|
      invariant k <= |SYMBOLS|
      invariant s == RestoredUpTo(cur, entry, full, k)
    {
      var sym := SYMBOLS[k];
      s := s.Set(sym, RestoreValue(cur.Get(sym), entry, sym, full));
      k := k + 1;
    }
    RestoredAll(cur, entry, full);
  }

  /** The "midi_learn" loop of set_state, after every table was emptied. */
  method ReplayItems(items: seq<(string, GraphPath)>, maxChannels: nat) returns (tables: seq<Table>)
    ensures tables == Replay(EmptyTables(), Parsed(items, maxChannels))
  {
    ghost var ps := Parsed(items, maxChannels);
    tables := EmptyTables();
    var i := 0;
    while i < |items|
      invariant i <= |items|
      invariant tables == Replay(EmptyTables(), ps[..i])
    {
      assert ps[..i + 1][..i] == ps[..i];
      tables := Apply(tables, ParseLearn(items[i], maxChannels));
      i := i + 1;
    }
    assert ps[..i] == ps;
  }

  /**
   * The mixer engine's own state: the controller values of every strip
   * (channels 0 .. maxChannels - 1 and the main bus at maxChannels), what was
   * last written to the mixer library, the learn tables and the learn mode.
   */
  class ZynMixer {
    const maxChannels: nat
    var values: seq<Strip>
    var lib: seq<Strip>
    var learnedCc: seq<Table>
    var midiLearnCtrl: Option<Ctrl>
    var hasLearnCb: bool

    ghost predicate Valid()
      reads this
    {
      |values| == maxChannels + 1 && |lib| == maxChannels + 1 && |learnedCc| == MIDI_CHANS &&
      (forall c :: 0 <= c < MIDI_CHANS ==> TableOk(learnedCc[c], maxChannels)) &&
      (midiLearnCtrl.Some? ==> midiLearnCtrl.value.strip <= maxChannels)
    }

    /**
     * A mixer of `channels` channels plus the main bus; each controller
     * starts at the value the library reports for it.
     */
    constructor (channels: nat, libValues: seq<Strip>)
      requires |libValues| == channels + 1
      ensures Valid()
      ensures maxChannels == channels && values == libValues && lib == libValues
      ensures learnedCc == EmptyTables() && midiLearnCtrl == None && !hasLearnCb
    {
      maxChannels := channels;
      values := libValues;
      lib := libValues;
      learnedCc := EmptyTables();
      midiLearnCtrl := None;
      hasLearnCb := false;
    }

    /**
     * set_level, set_balance, set_mute, set_phase and set_mono: nothing for a
     * None channel; otherwise the channel is clamped to the main bus, the
     * library takes the value and, when `update`, so does the controller.
     */
    method SetParam(sym: Symbol, channel: Option<nat>, v: real, update: bool)
      requires Valid() && sym != Solo
      modifies this
      ensures Valid()
      ensures channel.None? ==> values == old(values) && lib == old(lib)
      ensures channel.Some? ==> var s := Clamp(channel.value, maxChannels);
        lib == old(lib)[s := old(lib)[s].Set(sym, v)] &&
        values == (if update then old(values)[s := old(values)[s].Set(sym, v)] else old(values))
      ensures learnedCc == old(learnedCc) && midiLearnCtrl == old(midiLearnCtrl) && hasLearnCb == old(hasLearnCb)
    {
      if channel.None? {
        return;
      }
      var s := Clamp(channel.value, maxChannels);
      lib := lib[s := lib[s].Set(sym, v)];
      if update {
        values := values[s := values[s].Set(sym, v)];
      }
    }

    /**
     * set_solo as written: after a channel's solo the main bus controller
     * shows the library's main solo (`mainSolo`); clearing the main bus solo
     * clears the controllers of channels 0 .. maxChannels - 2 only.
     */
    method SetSoloAsWritten(channel: Option<nat>, solo: real, update: bool, mainSolo: real)
      requires Valid()
      modifies this
      ensures Valid()
      ensures channel.None? ==> values == old(values) && lib == old(lib)
      ensures channel.Some? ==> lib == old(lib)[Clamp(channel.value, maxChannels) := old(lib)[Clamp(channel.value, maxChannels)].(solo := solo)]
      ensures channel.Some? && update ==> values == SoloShown(old(values), Clamp(channel.value, maxChannels), solo, mainSolo, maxChannels - 1)
      ensures !update ==> values == old(values)
      ensures learnedCc == old(learnedCc) && midiLearnCtrl == old(midiLearnCtrl) && hasLearnCb == old(hasLearnCb)
    {
      if channel.None? {
        return;
      }
      var s := Clamp(channel.value, maxChannels);
      lib := lib[s := lib[s].(solo := solo)];
      if update {
        values := values[s := values[s].(solo := solo)];
      }
      if s < maxChannels {
        if update {
          values := values[maxChannels := values[maxChannels].(solo := mainSolo)];
        }
      } else if solo == 0.0 && update {
        var v := values;
        var i := 0;
        while i < maxChannels - 1
          invariant |v| == maxChannels + 1
          invariant i <= if maxChannels == 0 then 0 else maxChannels - 1
          invariant v == SoloCleared(values, i)
        {
          v := v[i := v[i].(solo := 0.0)];
          i := i + 1;
        }
        values := v;
      }
    }

    /**
     * set_solo: as above, except that clearing the main bus solo clears the
     * solo controller of every channel.
     */
    method SetSolo(channel: Option<nat>, solo: real, update: bool, mainSolo: real)
      requires Valid()
      modifies this
      ensures Valid()
      ensures channel.None? ==> values == old(values) && lib == old(lib)
      ensures channel.Some? ==> lib == old(lib)[Clamp(channel.value, maxChannels) := old(lib)[Clamp(channel.value, maxChannels)].(solo := solo)]
      ensures channel.Some? && update ==> values == SoloShown(old(values), Clamp(channel.value, maxChannels), solo, mainSolo, maxChannels)
      ensures !update ==> values == old(values)
      ensures learnedCc == old(learnedCc) && midiLearnCtrl == old(midiLearnCtrl) && hasLearnCb == old(hasLearnCb)
    {
      if channel.None? {
        return;
      }
      var s := Clamp(channel.value, maxChannels);
      lib := lib[s := lib[s].(solo := solo)];
      if update {
        values := values[s := values[s].(solo := solo)];
      }
      if s < maxChannels {
        if update {
          values := values[maxChannels := values[maxChannels].(solo := mainSolo)];
        }
      } else if solo == 0.0 && update {
        var v := values;
        var i := 0;
        while i < maxChannels
          invariant |v| == maxChannels + 1
          invariant i <= maxChannels
          invariant v == SoloCleared(values, i)
        {
          v := v[i := v[i].(solo := 0.0)];
          i := i + 1;
        }
        values := v;
      }
    }

    /** reset: every controller of the (clamped) strip back to its default, which is sent to the library. */
    method Reset(strip: Option<nat>)
      requires Valid()
      modifies this
      ensures Valid()
      ensures strip.None? ==> values == old(values) && lib == old(lib)
      ensures strip.Some? ==> var s := Clamp(strip.value, maxChannels);
        values == old(values)[s := Defaults()] && lib == old(lib)[s := Defaults()]
      ensures learnedCc == old(learnedCc) && midiLearnCtrl == old(midiLearnCtrl) && hasLearnCb == old(hasLearnCb)
    {
      if strip.None? {
        return;
      }
      var s := Clamp(strip.value, maxChannels);
      values := values[s := Defaults()];
      lib := lib[s := Defaults()];
    }

    /** reset_state: every strip reset. */
    method ResetState()
      requires Valid()
      modifies this
      ensures Valid()
      ensures forall c :: 0 <= c <= maxChannels ==> values[c] == Defaults() && lib[c] == Defaults()
      ensures learnedCc == old(learnedCc) && midiLearnCtrl == old(midiLearnCtrl) && hasLearnCb == old(hasLearnCb)
    {
      var c := 0;
      while c <= maxChannels
        invariant Valid() && c <= maxChannels + 1
        invariant forall d :: 0 <= d < c ==> values[d] == Defaults() && lib[d] == Defaults()
        invariant learnedCc == old(learnedCc) && midiLearnCtrl == old(midiLearnCtrl) && hasLearnCb == old(hasLearnCb)
      {
        Reset(Some(c));
        c := c + 1;
      }
    }

    /** get_learned_cc: [chan, cc] of the first binding of the controller, else None. */
    method GetLearnedCc(z: Ctrl) returns (r: Option<(nat, int)>)
      requires Valid()
      ensures r.None? <==> forall c, i :: 0 <= c < MIDI_CHANS && 0 <= i < |learnedCc[c]| ==> learnedCc[c][i].1 != z
      ensures r.Some? ==> r.value.0 < MIDI_CHANS && Lookup(learnedCc[r.value.0], r.value.1) == Some(z)
      ensures r.Some? ==> forall c, i :: 0 <= c < r.value.0 && 0 <= i < |learnedCc[c]| ==> learnedCc[c][i].1 != z
      ensures r.Some? ==> exists i :: 0 <= i < |learnedCc[r.value.0]| && learnedCc[r.value.0][i] == (r.value.1, z)
                                      && forall j :: 0 <= j < i ==> learnedCc[r.value.0][j].1 != z
    {
      var f := FindFirst(learnedCc, z);
      if f.None? {
        return None;
      }
      var (c, i) := f.value;
      var t := learnedCc[c];
      LookupDistinct(t, i);
      assert t[i] == (t[i].0, z) && forall j :: 0 <= j < i ==> t[j].1 != z;
      return Some((c, t[i].0));
    }

    /** midi_unlearn: the first binding of the controller, and only it, is dropped. */
    method MidiUnlearn(z: Ctrl)
      requires Valid()
      modifies this
      ensures Valid()
      ensures FirstMapping(old(learnedCc), z, 0).None? ==> learnedCc == old(learnedCc)
      ensures FirstMapping(old(learnedCc), z, 0).Some? ==> var (c, i) := FirstMapping(old(learnedCc), z, 0).value;
        learnedCc == old(learnedCc)[c := RemoveAt(old(learnedCc)[c], i)]
      ensures values == old(values) && lib == old(lib) && midiLearnCtrl == old(midiLearnCtrl) && hasLearnCb == old(hasLearnCb)
    {
      var f := FindFirst(learnedCc, z);
      if f.Some? {
        var (c, i) := f.value;
        var t := RemoveAt(learnedCc[c], i);
        assert TableOk(t, maxChannels) by {
          forall a, b | 0 <= a < b < |t|
            ensures t[a].0 != t[b].0
          {
            var a', b' := if a < i then a else a + 1, if b < i then b else b + 1;
            assert t[a] == learnedCc[c][a'] && t[b] == learnedCc[c][b'];
          }
        }
        learnedCc := learnedCc[c := t];
      }
    }

    /** midi_unlearn_chan: midi_unlearn for each controller of the strip, in order. */
    method MidiUnlearnChan(strip: nat)
      requires Valid() && strip <= maxChannels
      modifies this
      ensures Valid()
      ensures learnedCc == UnlearnEach(old(learnedCc), strip, |SYMBOLS|)
      ensures values == old(values) && lib == old(lib) && midiLearnCtrl == old(midiLearnCtrl) && hasLearnCb == old(hasLearnCb)
    {
      var k := 0;
      while k < |SYMBOLS|
        invariant Valid() && k <= |SYMBOLS|
        invariant learnedCc == UnlearnEach(old(learnedCc), strip, k)
        invariant values == old(values) && lib == old(lib) && midiLearnCtrl == old(midiLearnCtrl) && hasLearnCb == old(hasLearnCb)
      {
        MidiUnlearn(Ctrl(strip, SYMBOLS[k]));
        k := k + 1;
      }
    }

    /** midi_unlearn_all: 16 empty tables. */
    method MidiUnlearnAll()
      requires Valid()
      modifies this
      ensures Valid()
      ensures learnedCc == EmptyTables()
      ensures values == old(values) && lib == old(lib) && midiLearnCtrl == old(midiLearnCtrl) && hasLearnCb == old(hasLearnCb)
    {
      learnedCc := EmptyTables();
    }

    method EnableMidiLearn(z: Ctrl)
      requires Valid() && z.strip <= maxChannels
      modifies this
      ensures Valid() && midiLearnCtrl == Some(z)
      ensures values == old(values) && lib == old(lib) && learnedCc == old(learnedCc) && hasLearnCb == old(hasLearnCb)
    {
      midiLearnCtrl := Some(z);
    }

    /** disable_midi_learn: learn mode off; says whether the learn callback is called. */
    method DisableMidiLearn() returns (notify: bool)
      requires Valid()
      modifies this
      ensures Valid() && midiLearnCtrl == None && notify == hasLearnCb
      ensures values == old(values) && lib == old(lib) && learnedCc == old(learnedCc) && hasLearnCb == old(hasLearnCb)
    {
      midiLearnCtrl := None;
      notify := hasLearnCb;
    }

    method SetMidiLearnCb(present: bool)
      requires Valid()
      modifies this
      ensures Valid() && hasLearnCb == present
      ensures values == old(values) && lib == old(lib) && learnedCc == old(learnedCc) && midiLearnCtrl == old(midiLearnCtrl)
    {
      hasLearnCb := present;
    }

    /**
     * midi_control_change: in learn mode the CC on this channel is bound to
     * the learning controller and learn mode ends; otherwise the value goes
     * to the controller bound to this CC on each of the 16 channels, in
     * channel order (`targets`).
     */
    method MidiControlChange(chan: nat, cc: int) returns (targets: seq<Ctrl>, notify: bool)
      requires Valid() && (midiLearnCtrl.Some? ==> chan < MIDI_CHANS)
      modifies this
      ensures Valid()
      ensures old(midiLearnCtrl).Some? ==>
        learnedCc == Apply(old(learnedCc), Some((chan, cc, old(midiLearnCtrl).value))) &&
        midiLearnCtrl == None && targets == [] && notify == hasLearnCb
      ensures old(midiLearnCtrl).None? ==>
        learnedCc == old(learnedCc) && midiLearnCtrl == None && targets == Forwarded(learnedCc, cc, MIDI_CHANS) && !notify
      ensures values == old(values) && lib == old(lib) && hasLearnCb == old(hasLearnCb)
    {
      if midiLearnCtrl.Some? {
        var b := Some((chan, cc, midiLearnCtrl.value));
        ApplyKeepsOk(learnedCc, b, maxChannels);
        learnedCc := Apply(learnedCc, b);
        midiLearnCtrl := None;
        notify := hasLearnCb;
        targets := [];
      } else {
        targets := CollectTargets(learnedCc, cc);
        notify := false;
      }
    }

    /** get_state: the off-default values by strip key and the learned bindings. */
    method GetState() returns (st: MixerState)
      requires Valid()
      ensures st == StateOf(values, learnedCc, maxChannels)
    {
      st := BuildState(values, learnedCc, maxChannels);
    }

    /**
     * set_state: every controller takes its listed value or, when `full`,
     * its default, and so does the library; a "midi_learn" entry replaces
     * every learned binding by the ones it lists that parse.
     */
    method SetState(st: MixerState, full: bool)
      requires Valid()
      modifies this
      ensures Valid()
      ensures values == RestoredStrips(old(values), st, full, maxChannels)
      ensures lib == RestoredStrips(old(lib), st, full, maxChannels)
      ensures st.midiLearn.None? ==> learnedCc == old(learnedCc)
      ensures st.midiLearn.Some? ==> learnedCc == Replay(EmptyTables(), Parsed(st.midiLearn.value, maxChannels))
      ensures midiLearnCtrl == old(midiLearnCtrl) && hasLearnCb == old(hasLearnCb)
    {
      values := RestoreStrips(values, st, full, maxChannels);
      lib := RestoreStrips(lib, st, full, maxChannels);
      if st.midiLearn.Some? {
        var t := ReplayItems(st.midiLearn.value, maxChannels);
        ReplayKeepsTables(Parsed(st.midiLearn.value, maxChannels), maxChannels);
        learnedCc := t;
      }
    }
  }

  /** A key found in a table of distinct keys is bound to what that index holds. */
  lemma LookupDistinct(t: Table, i: nat)
    requires DistinctKeys(t) && i < |t|
    ensures Lookup(t, t[i].0) == Some(t[i].1)
  {
    var r := Lookup(t, t[i].0);
    var j :| 0 <= j < |t| && t[j] == (t[i].0, r.value);
    assert j == i;
  }

  /** Replayed items only ever produce tables the engine can hold. */
  lemma {:induction false} ReplayKeepsTables(ps: seq<Option<Binding>>, maxChannels: nat)
    requires forall i :: 0 <= i < |ps| && ps[i].Some? ==> ps[i].value.2.strip <= maxChannels
    ensures forall c :: 0 <= c < MIDI_CHANS ==> TableOk(Replay(EmptyTables(), ps)[c], maxChannels)
    decreases |ps|
  {
    if ps != [] {
      var pre := ps[..|ps| - 1];
      assert forall i :: 0 <= i < |pre| ==> pre[i] == ps[i];
      ReplayKeepsTables(pre, maxChannels);
      var before := Replay(EmptyTables(), pre);
      ApplyKeepsOk(before, ps[|ps| - 1], maxChannels);
    }
  }

  /** Binding a real controller keeps every table one the engine can hold. */
  lemma ApplyKeepsOk(tables: seq<Table>, p: Option<Binding>, maxChannels: nat)
    requires |tables| == MIDI_CHANS && forall c :: 0 <= c < MIDI_CHANS ==> TableOk(tables[c], maxChannels)
    requires p.Some? ==> p.value.2.strip <= maxChannels
    ensures forall c :: 0 <= c < MIDI_CHANS ==> TableOk(Apply(tables, p)[c], maxChannels)
  {
    if p.Some? && p.value.0 < MIDI_CHANS {
      PutKeepsOk(tables[p.value.0], p.value.1, p.value.2, maxChannels);
    }
  }

  lemma PutKeepsOk(t: Table, cc: int, z: Ctrl, maxChannels: nat)
    requires TableOk(t, maxChannels) && z.strip <= maxChannels
    ensures TableOk(Put(t, cc, z), maxChannels)
  {
    var r := Put(t, cc, z);
    forall i | 0 <= i < |r|
      ensures r[i].1.strip <= maxChannels
    {
      if Lookup(t, cc).Some? {
        assert r[i] == (if t[i].0 == cc then (cc, z) else t[i]);
      }
    }
  }

  /** The controller values after set_solo with update: the strip's own, then the main bus or the cleared channels. */
  function SoloShown(values: seq<Strip>, s: nat, solo: real, mainSolo: real, cleared: int): seq<Strip>
    requires s < |values| && |values| >= 1
  {
    var own := values[s := values[s].(solo := solo)];
    if s < |values| - 1 then own[|values| - 1 := own[|values| - 1].(solo := mainSolo)]
    else if solo == 0.0 then SoloCleared(own, if cleared < 0 then 0 else if cleared > |values| then |values| else cleared)
    else own
  }

  /** The first n strips with their solo controller off. */
  function SoloCleared(values: seq<Strip>, n: nat): (r: seq<Strip>)
    requires n <= |values|
    ensures |r| == |values|
    ensures forall c :: 0 <= c < n ==> r[c] == values[c].(solo := 0.0)
    ensures forall c :: n <= c < |values| ==> r[c] == values[c]
  {
    seq(|values|, c requires 0 <= c < |values| => if c < n then values[c].(solo := 0.0) else values[c])
  }

  /** Clearing the main bus solo as written leaves the last channel's solo controller on. */
  lemma SoloLeavesLastChannel(values: seq<Strip>, mainSolo: real)
    requires |values| >= 2 && values[|values| - 2].solo == 1.0
    ensures SoloShown(values, |values| - 1, 0.0, mainSolo, |values| - 2)[|values| - 2].solo == 1.0
  {
  }

  /** Clearing the main bus solo, corrected, turns off every strip's solo controller. */
  lemma SoloClearsAll(values: seq<Strip>, mainSolo: real)
    requires |values| >= 1
    ensures var r := SoloShown(values, |values| - 1, 0.0, mainSolo, |values| - 1);
      forall c :: 0 <= c < |values| ==> r[c].solo == 0.0
  {
  }

  /** The bindings left after unlearning the first k controllers of a strip, in order. */
  function UnlearnEach(tables: seq<Table>, strip: nat, k: nat): (r: seq<Table>)
    requires k <= |SYMBOLS|
    ensures |r| == |tables|
  {
    if k == 0 then tables
    else
      var before := UnlearnEach(tables, strip, k - 1);
      match FirstMapping(before, Ctrl(strip, SYMBOLS[k - 1]), 0)
      case Some((c, i)) => before[c := RemoveAt(before[c], i)]
      case None => before
  }
}

=== FILE: audio_player.dfy ===
/**
 * The audio file player library (zynaudioplayer): a table of up to sixteen
 * player instances. Each instance has a file-open state, a file-reader state
 * machine that fills two bounded FIFOs (the A and B ring buffers), a render
 * step driven by the audio server that drains them, MIDI triggers, and a
 * change-notification shadow.
 *
 * Threads are not modelled: one reader step and one render step are atomic
 * sequential operations. The sound-file reader, the samplerate converter and
 * the ring-buffer internals are foreign: frames read, frames generated and
 * sample data are inputs. Samples, gain and time are real numbers.
 */
module AudioPlayer {
  import opened Wrappers

  const MAX_PLAYERS: nat := 16
  /** libsamplerate converter kinds the library uses */
  const SRC_SINC_FASTEST: nat := 2
  const SRC_LINEAR: nat := 4
  const DEFAULT_BUFFER_SIZE: nat := 48000
  const DEFAULT_BUFFER_COUNT: nat := 5
  const PITCH_BEND_CENTRE: nat := 0x2000
  /** -1 stored in the uint8_t last_play_state */
  const UNSET_PLAY_STATE: nat := 255

  newtype byte = x: int | 0 <= x < 256

  datatype FileState = Closed | Opening | Open
  datatype ReadStatus = Idle | Seeking | Loading | Looping
  datatype PlayState = Stopped | Starting | Playing | Stopping

  function PlayStateCode(s: PlayState): nat
  {
    match s
    case Stopped => 0
    case Starting => 1
    case Playing => 2
    case Stopping => 3
  }

  /** What the sound-file library reports about an opened file. */
  datatype SoundInfo = SoundInfo(channels: int, samplerate: nat, frames: nat, format: int)

  function Abs(x: real): real { if x < 0.0 then -x else x }

  function Min(x: nat, y: nat): nat { if x < y then x else y }

  // ---------------------------------------------------------------------------
  // Change notifications
  // ---------------------------------------------------------------------------

  datatype NotifyKind = NotifyAll | NotifyTransport | NotifyPosition | NotifyGain
                      | NotifyLoop | NotifyTrackA | NotifyTrackB | NotifyQuality | NotifyDebug

  /** One invocation of the client's callback. */
  datatype Notification = Notification(kind: NotifyKind, value: real)

  /** The values send_notifications compares, or the shadow copies it keeps of them. */
  datatype Observed = Observed(playState: nat, position: real, gain: real, loop: bool,
                               trackA: int, trackB: int, quality: nat, debug: nat)

  predicate Selected(param: NotifyKind, kind: NotifyKind)
  {
    param == NotifyAll || param == kind
  }

  /** The value of field `kind`, as the float handed to the callback. */
  function ValueOf(kind: NotifyKind, o: Observed): real
  {
    match kind
    case NotifyTransport => o.playState as real
    case NotifyPosition => o.position
    case NotifyGain => o.gain
    case NotifyLoop => if o.loop then 1.0 else 0.0
    case NotifyTrackA => o.trackA as real
    case NotifyTrackB => o.trackB as real
    case NotifyQuality => o.quality as real
    case NotifyDebug => o.debug as real
    case NotifyAll => 0.0
  }

  /**
   * Whether field `kind` of `cur` has moved far enough from the shadow to be
   * reported: the position by at least 0.1 s, the gain by at least 0.01, every
   * other field by any amount.
   */
  predicate Changed(kind: NotifyKind, cur: Observed, last: Observed)
  {
    match kind
    case NotifyPosition => Abs(cur.position - last.position) >= 0.1
    case NotifyGain => Abs(cur.gain - last.gain) >= 0.01
    case NotifyAll => false
    case _ => ValueOf(kind, cur) != ValueOf(kind, last)
  }

  /** The shadow with field `kind` copied from `cur`. */
  function CatchUp(kind: NotifyKind, cur: Observed, last: Observed): Observed
  {
    match kind
    case NotifyTransport => last.(playState := cur.playState)
    case NotifyPosition => last.(position := cur.position)
    case NotifyGain => last.(gain := cur.gain)
    case NotifyLoop => last.(loop := cur.loop)
    case NotifyTrackA => last.(trackA := cur.trackA)
    case NotifyTrackB => last.(trackB := cur.trackB)
    case NotifyQuality => last.(quality := cur.quality)
    case NotifyDebug => last.(debug := cur.debug)
    case NotifyAll => last
  }

  datatype NotifyResult = NotifyResult(shadow: Observed, reports: seq<Notification>)

  /** One comparison: a selected, changed field is copied to the shadow and reported. */
  function NotifyStep(param: NotifyKind, kind: NotifyKind, cur: Observed, acc: NotifyResult): NotifyResult
  {
    if Selected(param, kind) && Changed(kind, cur, acc.shadow) then
      NotifyResult(CatchUp(kind, cur, acc.shadow), acc.reports + [Notification(kind, ValueOf(kind, cur))])
    else
      acc
  }

  /** The fields send_notifications compares, in the order it compares them. */
  const NotifyOrder: seq<NotifyKind> := [NotifyTransport, NotifyPosition, NotifyGain, NotifyLoop,
                                         NotifyTrackA, NotifyTrackB, NotifyQuality, NotifyDebug]

  function NotifyOver(param: NotifyKind, cur: Observed, acc: NotifyResult, ks: seq<NotifyKind>): NotifyResult
    decreases |ks|
  {
    if ks == [] then acc else NotifyOver(param, cur, NotifyStep(param, ks[0], cur, acc), ks[1..])
  }

  /** send_notifications against the shadow `last`: the new shadow and the callback invocations. */
  function Notify(param: NotifyKind, cur: Observed, last: Observed): NotifyResult
  {
    var r1 := NotifyStep(param, NotifyTransport, cur, NotifyResult(last, []));
    var r2 := NotifyStep(param, NotifyPosition, cur, r1);
    var r3 := NotifyStep(param, NotifyGain, cur, r2);
    var r4 := NotifyStep(param, NotifyLoop, cur, r3);
    var r5 := NotifyStep(param, NotifyTrackA, cur, r4);
    var r6 := NotifyStep(param, NotifyTrackB, cur, r5);
    var r7 := NotifyStep(param, NotifyQuality, cur, r6);
    NotifyStep(param, NotifyDebug, cur, r7)
  }

  /** The eight comparisons are NotifyStep folded over NotifyOrder. */
  lemma NotifyIsFold(param: NotifyKind, cur: Observed, last: Observed)
    ensures Notify(param, cur, last) == NotifyOver(param, cur, NotifyResult(last, []), NotifyOrder)
  {
  }

  /** The callback receives the loop flag as 1 or 0 and every field but the position and the gain as a whole number. */
  lemma ValueOfEncoding(kind: NotifyKind, o: Observed)
    ensures kind == NotifyLoop ==> (ValueOf(kind, o) == 1.0 <==> o.loop) && (ValueOf(kind, o) == 0.0 <==> !o.loop)
    ensures kind != NotifyPosition && kind != NotifyGain ==> ValueOf(kind, o) == ValueOf(kind, o).Floor as real
  {
  }

  /**
   * A field counts as changed only when its value differs from the shadow;
   * for every field but the position and the gain, exactly then.
   */
  lemma ChangedMeansDifferent(kind: NotifyKind, cur: Observed, last: Observed)
    ensures Changed(kind, cur, last) ==> kind != NotifyAll && ValueOf(kind, cur) != ValueOf(kind, last)
    ensures kind != NotifyPosition && kind != NotifyGain && kind != NotifyAll ==>
      (Changed(kind, cur, last) <==> ValueOf(kind, cur) != ValueOf(kind, last))
  {
  }

  /** A field copied into the shadow holds the current value and no longer counts as changed. */
  lemma CatchUpSettles(kind: NotifyKind, cur: Observed, last: Observed)
    ensures ValueOf(kind, CatchUp(kind, cur, last)) == ValueOf(kind, cur)
    ensures !Changed(kind, cur, CatchUp(kind, cur, last))
  {
  }

  /**
   * One comparison changes the result exactly when its field is selected and
   * changed; it keeps the earlier reports and adds at most one, for its own
   * field with the current value; afterwards a selected field has caught up.
   */
  lemma NotifyStepSpec(param: NotifyKind, kind: NotifyKind, cur: Observed, acc: NotifyResult)
    ensures var r := NotifyStep(param, kind, cur, acc);
      && (r != acc <==> Selected(param, kind) && Changed(kind, cur, acc.shadow))
      && (Selected(param, kind) ==> !Changed(kind, cur, r.shadow))
      && |acc.reports| <= |r.reports| <= |acc.reports| + 1 && r.reports[..|acc.reports|] == acc.reports
      && forall n :: n in r.reports[|acc.reports|..] ==> n == Notification(kind, ValueOf(kind, cur))
  {
    var r := NotifyStep(param, kind, cur, acc);
    if Selected(param, kind) && Changed(kind, cur, acc.shadow) {
      CatchUpSettles(kind, cur, acc.shadow);
      assert |r.reports| == |acc.reports| + 1;
    }
  }

  /** A call for one field reports at most that field, once; a call for all reports at most one per field. */
  lemma NotifyReportsBound(param: NotifyKind, cur: Observed, last: Observed)
    ensures |Notify(param, cur, last).reports| <= |NotifyOrder|
    ensures param != NotifyAll ==>
      |Notify(param, cur, last).reports| <= 1 && forall n :: n in Notify(param, cur, last).reports ==> n.kind == param
  {
    NotifySpec(param, cur, last, NotifyTransport);
    NotifyReportsAreReference(param, cur, last);
    ReportsLength(param, cur, last, NotifyOrder);
    if param != NotifyAll {
      NotifyOrderDistinct();
      ReportsOfOne(param, cur, last, NotifyOrder);
    }
  }

  /** The reference list has at most one report per field compared. */
  lemma {:induction false} ReportsLength(param: NotifyKind, cur: Observed, last: Observed, ks: seq<NotifyKind>)
    ensures |Reports(param, cur, last, ks)| <= |ks|
    decreases |ks|
  {
    if ks != [] {
      ReportsLength(param, cur, last, ks[1..]);
    }
  }

  /** For one selected field, the reference list over distinct fields holds at most one report. */
  lemma {:induction false} ReportsOfOne(param: NotifyKind, cur: Observed, last: Observed, ks: seq<NotifyKind>)
    requires param != NotifyAll && Distinct(ks)
    ensures |Reports(param, cur, last, ks)| <= 1
    ensures |Reports(param, cur, last, ks)| == 1 ==> param in ks
    decreases |ks|
  {
    if ks != [] {
      DistinctTail(ks);
      ReportsOfOne(param, cur, last, ks[1..]);
      if Selected(param, ks[0]) {
        assert ks[0] == param;
        assert param !in ks[1..];
      }
    }
  }

  /**
   * The reference definition of what gets reported: every selected field
   * that differs from the ORIGINAL shadow beyond its threshold, in order.
   */
  function Reports(param: NotifyKind, cur: Observed, last: Observed, ks: seq<NotifyKind>): seq<Notification>
    decreases |ks|
  {
    if ks == [] then []
    else
      (if Selected(param, ks[0]) && Changed(ks[0], cur, last) then [Notification(ks[0], ValueOf(ks[0], cur))] else [])
      + Reports(param, cur, last, ks[1..])
  }

  predicate Distinct(ks: seq<NotifyKind>)
  {
    forall i, j :: 0 <= i < j < |ks| ==> ks[i] != ks[j]
  }

  /** Copying one field into the shadow changes no other field. */
  lemma CatchUpValue(kind: NotifyKind, cur: Observed, s: Observed, other: NotifyKind)
    ensures ValueOf(other, CatchUp(kind, cur, s)) == if other == kind then ValueOf(kind, cur) else ValueOf(other, s)
  {
  }

  /** Whether a field has changed depends only on that field of the shadow. */
  lemma ChangedByValue(kind: NotifyKind, cur: Observed, s1: Observed, s2: Observed)
    requires ValueOf(kind, s1) == ValueOf(kind, s2)
    ensures Changed(kind, cur, s1) == Changed(kind, cur, s2)
    ensures ValueOf(kind, s1) == ValueOf(kind, cur) ==> !Changed(kind, cur, s1)
  {
  }

  lemma DistinctTail(ks: seq<NotifyKind>)
    requires Distinct(ks) && ks != []
    ensures Distinct(ks[1..]) && ks[0] !in ks[1..]
  {
    forall j | 0 <= j < |ks| - 1
      ensures ks[1..][j] != ks[0]
    {
      assert ks[1..][j] == ks[j + 1];
    }
  }

  /** Each shadow field ends up as the current value if it was selected and changed, else as before. */
  lemma {:induction false} NotifyOverShadow(param: NotifyKind, cur: Observed, acc: NotifyResult, ks: seq<NotifyKind>, kind: NotifyKind)
    requires Distinct(ks)
    ensures ValueOf(kind, NotifyOver(param, cur, acc, ks).shadow) ==
      if kind in ks && Selected(param, kind) && Changed(kind, cur, acc.shadow) then ValueOf(kind, cur) else ValueOf(kind, acc.shadow)
    decreases |ks|
  {
    if ks != [] {
      var acc1 := NotifyStep(param, ks[0], cur, acc);
      DistinctTail(ks);
      NotifyOverShadow(param, cur, acc1, ks[1..], kind);
      CatchUpValue(ks[0], cur, acc.shadow, kind);
      if kind != ks[0] {
        assert ValueOf(kind, acc1.shadow) == ValueOf(kind, acc.shadow);
        ChangedByValue(kind, cur, acc1.shadow, acc.shadow);
        assert kind in ks <==> kind in ks[1..];
      }
    }
  }

  /**
   * The accumulated reports equal the reference definition taken against the
   * original shadow, because each comparison only updates its own field.
   */
  lemma {:induction false} NotifyOverReports(param: NotifyKind, cur: Observed, acc: NotifyResult, ks: seq<NotifyKind>, base: Observed)
    requires Distinct(ks)
    requires forall k :: k in ks ==> ValueOf(k, acc.shadow) == ValueOf(k, base)
    ensures NotifyOver(param, cur, acc, ks).reports == acc.reports + Reports(param, cur, base, ks)
    decreases |ks|
  {
    if ks != [] {
      var acc1 := NotifyStep(param, ks[0], cur, acc);
      DistinctTail(ks);
      ChangedByValue(ks[0], cur, acc.shadow, base);
      forall k | k in ks[1..]
        ensures ValueOf(k, acc1.shadow) == ValueOf(k, base)
      {
        CatchUpValue(ks[0], cur, acc.shadow, k);
      }
      NotifyOverReports(param, cur, acc1, ks[1..], base);
      var head := if Selected(param, ks[0]) && Changed(ks[0], cur, base) then [Notification(ks[0], ValueOf(ks[0], cur))] else [];
      assert acc1.reports == acc.reports + head;
      assert acc.reports + head + Reports(param, cur, base, ks[1..]) == acc.reports + (head + Reports(param, cur, base, ks[1..]));
    }
  }

  /** A notification is in the reference list exactly when its field is selected and changed, with the current value. */
  lemma {:induction false} ReportsMembers(param: NotifyKind, cur: Observed, last: Observed, ks: seq<NotifyKind>, n: Notification)
    ensures n in Reports(param, cur, last, ks) <==>
      n.kind in ks && Selected(param, n.kind) && Changed(n.kind, cur, last) && n.value == ValueOf(n.kind, cur)
    decreases |ks|
  {
    if ks != [] {
      ReportsMembers(param, cur, last, ks[1..], n);
      assert n.kind in ks <==> n.kind == ks[0] || n.kind in ks[1..];
    }
  }

  /** Every field but the pseudo-kind "all" is compared. */
  lemma InNotifyOrder(kind: NotifyKind)
    ensures kind in NotifyOrder <==> kind != NotifyAll
  {
  }

  lemma NotifyOrderDistinct()
    ensures Distinct(NotifyOrder) && NotifyAll !in NotifyOrder
  {
  }

  /** The reports of send_notifications are the reference list against the original shadow. */
  lemma NotifyReportsAreReference(param: NotifyKind, cur: Observed, last: Observed)
    ensures Notify(param, cur, last).reports == Reports(param, cur, last, NotifyOrder)
  {
    NotifyIsFold(param, cur, last);
    NotifyOrderDistinct();
    NotifyOverReports(param, cur, NotifyResult(last, []), NotifyOrder, last);
  }

  /** Each shadow field becomes the current value exactly when it was selected and changed. */
  lemma NotifyShadow(param: NotifyKind, cur: Observed, last: Observed, kind: NotifyKind)
    requires kind != NotifyAll
    ensures ValueOf(kind, Notify(param, cur, last).shadow) ==
      if Selected(param, kind) && Changed(kind, cur, last) then ValueOf(kind, cur) else ValueOf(kind, last)
  {
    NotifyIsFold(param, cur, last);
    NotifyOrderDistinct();
    NotifyOverShadow(param, cur, NotifyResult(last, []), NotifyOrder, kind);
  }

  /**
   * send_notifications reports exactly the selected fields that moved past
   * their threshold, with their current values, and the shadow of each field
   * is the current value if it was reported and the old one otherwise.
   */
  lemma NotifySpec(param: NotifyKind, cur: Observed, last: Observed, kind: NotifyKind)
    requires kind != NotifyAll
    ensures forall n :: n in Notify(param, cur, last).reports <==>
      n.kind != NotifyAll && Selected(param, n.kind) && Changed(n.kind, cur, last) && n.value == ValueOf(n.kind, cur)
    ensures ValueOf(kind, Notify(param, cur, last).shadow) ==
      if Selected(param, kind) && Changed(kind, cur, last) then ValueOf(kind, cur) else ValueOf(kind, last)
  {
    NotifyReportsAreReference(param, cur, last);
    NotifyShadow(param, cur, last, kind);
    forall n: Notification
      ensures n in Reports(param, cur, last, NotifyOrder) <==>
        n.kind != NotifyAll && Selected(param, n.kind) && Changed(n.kind, cur, last) && n.value == ValueOf(n.kind, cur)
    {
      ReportsMembers(param, cur, last, NotifyOrder, n);
      InNotifyOrder(n.kind);
    }
  }

  /** A second call with nothing changed reports nothing: the shadow has caught up. */
  lemma NotifyCatchesUp(param: NotifyKind, cur: Observed, last: Observed)
    ensures Notify(param, cur, Notify(param, cur, last).shadow).reports == []
  {
    var s1 := Notify(param, cur, last).shadow;
    var r2 := Notify(param, cur, s1).reports;
    if r2 != [] {
      var n := r2[0];
      NotifySpec(param, cur, s1, NotifyTransport);
      assert n in r2;
      NotifySpec(param, cur, last, n.kind);
      if Selected(param, n.kind) && Changed(n.kind, cur, last) {
        ChangedByValue(n.kind, cur, s1, cur);
      } else {
        ChangedByValue(n.kind, cur, s1, last);
      }
      assert false;
    }
  }

  /** A gain change below 0.01 is neither reported nor copied into the shadow. */
  lemma NotifySmallGainChangeSilent(param: NotifyKind, cur: Observed, last: Observed)
    requires Abs(cur.gain - last.gain) < 0.01
    ensures Notify(param, cur, last).shadow.gain == last.gain
    ensures forall n :: n in Notify(param, cur, last).reports ==> n.kind != NotifyGain
  {
    NotifySpec(param, cur, last, NotifyGain);
  }

  /**
   * One send_notifications(NOTIFY_TRANSPORT) while the play state has code
   * `state`, its report appended to those already in `acc` (what
   * stop_playback and start_playback send): when the state differs from its
   * shadow, the shadow catches up and the new state is reported; otherwise
   * nothing changes.
   */
  function TransportSent(state: nat, acc: NotifyResult): NotifyResult
  {
    if state != acc.shadow.playState then
      NotifyResult(acc.shadow.(playState := state),
                   acc.reports + [Notification(NotifyTransport, state as real)])
    else acc
  }

  /** TransportSent is send_notifications for NOTIFY_TRANSPORT: Notify's shadow, and its reports after those of `acc`. */
  lemma TransportSentSpec(cur: Observed, acc: NotifyResult)
    ensures var n := Notify(NotifyTransport, cur, acc.shadow);
      TransportSent(cur.playState, acc) == NotifyResult(n.shadow, acc.reports + n.reports)
  {
    var last := acc.shadow;
    var r1 := NotifyStep(NotifyTransport, NotifyTransport, cur, NotifyResult(last, []));
    assert Notify(NotifyTransport, cur, last) == r1;
  }

  /** What a transport notification adds depends only on the shadow; it follows the reports already made. */
  lemma TransportSentShift(state: nat, acc: NotifyResult)
    ensures var t := TransportSent(state, NotifyResult(acc.shadow, []));
      TransportSent(state, acc) == NotifyResult(t.shadow, acc.reports + t.reports)
  {
  }

  /** Two batches of reports, each made when a callback is set, are one batch made when it is set. */
  /**
   * The file frame the reader seeks to for transport frame `pos` under the
   * conversion ratio `ratio`: the frame divided by the ratio, truncated to a
   * size_t; the frame itself when the ratio is 0. A negative quotient, which
   * a negative pitch-shift factor could give, is undefined behaviour in C and
   * taken as 0 here.
   */
  function SeekTarget(pos: nat, ratio: real): (f: nat)
    ensures ratio == 0.0 ==> f == pos
    ensures ratio > 0.0 ==> f as real <= pos as real / ratio < f as real + 1.0
    ensures ratio == 1.0 ==> f == pos
  {
    if ratio == 0.0 then pos
    else if pos as real / ratio < 0.0 then 0
    else (pos as real / ratio).Floor
  }

  /** What stop_playback sends for an open file left in play state `s`: the transport moves to STOPPED or STOPPING. */
  function StopSent(s: PlayState, shadow: Observed): NotifyResult
  {
    TransportSent(PlayStateCode(if s == Stopped then Stopped else Stopping), NotifyResult(shadow, []))
  }

  lemma LogAppend(base: seq<Notification>, a: seq<Notification>, b: seq<Notification>, on: bool)
    ensures base + (if on then a else []) + (if on then b else []) == base + (if on then a + b else [])
  {
    if on {
      assert base + a + b == base + (a + b);
    } else {
      assert base + [] + [] == base;
    }
  }

  // ---------------------------------------------------------------------------
  // Position arithmetic
  // ---------------------------------------------------------------------------

  /**
   * The frame set_position stores for a converted frame target `x`: clamped to
   * the last frame, truncated to a whole frame. A target that would not fit an
   * unsigned frame counter (negative, or the last frame of an empty file) is
   * undefined in the source and stored as 0 here.
   */
  function PositionTarget(x: real, frames: nat): (r: nat)
    ensures frames > 0 ==> r < frames
    ensures 0.0 <= x < frames as real ==> r == x.Floor
  {
    var clamped := if x >= frames as real then frames as real - 1.0 else x;
    if clamped < 0.0 then 0 else clamped.Floor
  }

  /**
   * Advance of play_pos_frames by the frames drained in one render call, with
   * the wrap at the end of the file; an empty file keeps position 0 (the
   * source divides by zero there, see AdvanceAsWritten).
   */
  function Advance(pos: nat, count: nat, frames: nat): (r: nat)
    ensures frames > 0 ==> r < frames && r % frames == (pos + count) % frames
    ensures pos + count < frames ==> r == pos + count
  {
    var p := pos + count;
    if p >= frames then (if frames == 0 then 0 else p % frames) else p
  }

  /** The wrap as written: `%= frames` also when frames is 0, which traps (None). */
  function AdvanceAsWritten(pos: nat, count: nat, frames: nat): (r: Option<nat>)
    ensures r.None? <==> frames == 0
    ensures r.Some? ==> r.value == Advance(pos, count, frames)
  {
    var p := pos + count;
    if p >= frames then (if frames == 0 then None else Some(p % frames)) else Some(p)
  }

  /** Every render of an open empty file reaches the division by zero, playing or not. */
  lemma EmptyFileRenderTraps(pos: nat, count: nat)
    ensures AdvanceAsWritten(pos, count, 0) == None
  {
  }

  /**
   * The samplerate conversion ratio, server rate over file rate. For a file
   * rate of 0 the source's float division gives infinity, which is non-zero,
   * so the source then stores an inverse ratio of 1/infinity = 0; the model
   * keeps the ratio itself at 0 (no real infinity) and SetupConversion
   * stores that inverse of 0 explicitly.
   */
  function SrcRatio(serverRate: nat, fileRate: nat): (r: real)
    ensures r >= 0.0
    ensures fileRate > 0 ==> r * fileRate as real == serverRate as real
  {
    if fileRate == 0 then 0.0 else serverRate as real / fileRate as real
  }

  /** The length of the file in output frames: the file's frames times the ratio, truncated. */
  function ConvertedFrames(info: SoundInfo, ratio: real): (r: nat)
    requires ratio >= 0.0
    ensures info.samplerate == 0 ==> r == info.frames
    ensures info.samplerate > 0 ==> r as real <= info.frames as real * ratio < r as real + 1.0
  {
    if info.samplerate != 0 then MulNonNeg(info.frames as real, ratio); (info.frames as real * ratio).Floor else info.frames
  }

  lemma MulNonNeg(x: real, y: real)
    requires x >= 0.0 && y >= 0.0
    ensures x * y >= 0.0
  {
  }

  // ---------------------------------------------------------------------------
  // File reader: status machine and downmix
  // ---------------------------------------------------------------------------

  /** Thread-local state of the file reader loop. */
  datatype ReaderLocals = ReaderLocals(ratio: real, maxFrames: int, unusedFrames: int, endOfInput: bool)

  /** Read status after a block read: a full block keeps loading, a short one loops or idles. */
  function StatusAfterRead(full: bool, loop: bool): (s: ReadStatus)
    ensures s != Seeking
    ensures s == Loading <==> full
    ensures s == Looping <==> !full && loop
    ensures s == Idle <==> !full && !loop
  {
    if full then Loading else if loop then Looping else Idle
  }

  /** The demux guard as written: only a block read while still LOADING is written. */
  predicate WriteGuardAsWritten(open: FileState, status: ReadStatus)
    ensures WriteGuardAsWritten(open, status) ==> status != Looping && status != Idle && status != Seeking
  {
    open == Open && status == Loading
  }

  /** A short read has already moved the status off LOADING, so its frames are discarded. */
  lemma ShortReadIsDiscarded(loop: bool)
    ensures !WriteGuardAsWritten(Open, StatusAfterRead(false, loop))
  {
  }

  /** The guard the model uses: the block just read is written unless a seek is pending. */
  predicate WriteGuard(open: FileState, status: ReadStatus)
    ensures WriteGuardAsWritten(open, status) ==> WriteGuard(open, status)
    ensures open == Open && (status == Looping || status == Idle) ==> WriteGuard(open, status) && !WriteGuardAsWritten(open, status)
  {
    open == Open && status != Seeking
  }

  /** Every block the reader produces, the last short one included, reaches the demux. */
  lemma EveryReadBlockIsWritten(full: bool, loop: bool)
    ensures WriteGuard(Open, StatusAfterRead(full, loop))
    ensures WriteGuardAsWritten(Open, StatusAfterRead(full, loop)) ==> WriteGuard(Open, StatusAfterRead(full, loop))
  {
  }

  /** frame[i] / d + frame[i + 2] / d + ... over the indices below |frame|. */
  function StrideSum(frame: seq<real>, i: nat, d: real): (r: real)
    requires d > 0.0
    ensures (forall k :: i <= k < |frame| ==> frame[k] >= 0.0) ==> r >= 0.0
    ensures (forall k :: i <= k < |frame| ==> frame[k] == 0.0) ==> r == 0.0
    decreases |frame| - i
  {
    if i >= |frame| then 0.0 else frame[i] / d + StrideSum(frame, i + 2, d)
  }

  /** How many of the indices i, i + 2, ... are below n. */
  function StrideCount(n: nat, i: nat): nat
    decreases n - i
  {
    if i >= n then 0 else 1 + StrideCount(n, i + 2)
  }

  /** One frame of the downmix: the A and B samples written for one file frame. */
  function Downmix(frame: seq<real>, trackA: int, trackB: int): (real, real)
    requires |frame| >= 1 && trackA < |frame| && trackB < |frame|
  {
    if |frame| > 1 then
      var d := (|frame| / 2) as real;
      (if trackA < 0 then StrideSum(frame, 0, d) else frame[trackA],
       if trackB < 0 then StrideSum(frame, 1, d) else frame[trackB])
    else
      (frame[0] / 2.0, frame[0] / 2.0)
  }

  lemma {:induction false} StrideSumScales(frame: seq<real>, i: nat, d: real)
    requires d > 0.0
    ensures StrideSum(frame, i, d) * d == StrideSum(frame, i, 1.0)
    decreases |frame| - i
  {
    if i < |frame| {
      StrideSumScales(frame, i + 2, d);
    }
  }

  lemma {:induction false} StrideCountHalf(n: nat, i: nat)
    requires i <= n && (n - i) % 2 == 0
    ensures StrideCount(n, i) == (n - i) / 2
    decreases n - i
  {
    if i < n {
      StrideCountHalf(n, i + 2);
    }
  }

  /**
   * The downmix rule: a mono file sends half of each sample to A and B, a
   * chosen track is copied, and track -1 sums the even (A) or odd (B) channels
   * divided by channels / 2 in integer division. For an even channel count
   * that divisor is the number of summed channels, so the result is their mean.
   */
  lemma DownmixRule(frame: seq<real>, trackA: int, trackB: int)
    requires |frame| >= 1 && trackA < |frame| && trackB < |frame|
    ensures |frame| == 1 ==> Downmix(frame, trackA, trackB) == (frame[0] / 2.0, frame[0] / 2.0)
    ensures |frame| > 1 && trackA >= 0 ==> Downmix(frame, trackA, trackB).0 == frame[trackA]
    ensures |frame| > 1 && trackB >= 0 ==> Downmix(frame, trackA, trackB).1 == frame[trackB]
    ensures |frame| > 1 && |frame| % 2 == 0 && trackA < 0 ==>
      StrideCount(|frame|, 0) == |frame| / 2 &&
      Downmix(frame, trackA, trackB).0 * (StrideCount(|frame|, 0) as real) == StrideSum(frame, 0, 1.0)
    ensures |frame| > 1 && |frame| % 2 == 0 && trackB < 0 ==>
      StrideCount(|frame|, 1) + 1 == |frame| / 2 + 1 &&
      Downmix(frame, trackA, trackB).1 * ((|frame| / 2) as real) == StrideSum(frame, 1, 1.0)
  {
    if |frame| > 1 && |frame| % 2 == 0 {
      if trackA < 0 {
        DownmixMeanA(frame, trackA, trackB);
      }
      if trackB < 0 {
        DownmixMeanB(frame, trackA, trackB);
      }
    }
  }

  /** Track A at -1 over an even channel count: the sum of the even channels divided by their number. */
  lemma DownmixMeanA(frame: seq<real>, trackA: int, trackB: int)
    requires |frame| > 1 && |frame| % 2 == 0 && trackA < 0 && trackB < |frame|
    ensures StrideCount(|frame|, 0) == |frame| / 2
    ensures Downmix(frame, trackA, trackB).0 * (StrideCount(|frame|, 0) as real) == StrideSum(frame, 0, 1.0)
  {
    var d := (|frame| / 2) as real;
    assert Downmix(frame, trackA, trackB).0 == StrideSum(frame, 0, d);
    StrideSumScales(frame, 0, d);
    StrideCountHalf(|frame|, 0);
  }

  /** Track B at -1 over an even channel count: the sum of the odd channels divided by their number. */
  lemma DownmixMeanB(frame: seq<real>, trackA: int, trackB: int)
    requires |frame| > 1 && |frame| % 2 == 0 && trackB < 0 && trackA < |frame|
    ensures StrideCount(|frame|, 1) + 1 == |frame| / 2 + 1
    ensures Downmix(frame, trackA, trackB).1 * ((|frame| / 2) as real) == StrideSum(frame, 1, 1.0)
  {
    var d := (|frame| / 2) as real;
    assert Downmix(frame, trackA, trackB).1 == StrideSum(frame, 1, d);
    StrideSumScales(frame, 1, d);
    StrideCountOdd(|frame|);
  }

  lemma StrideCountOdd(n: nat)
    requires n >= 2 && n % 2 == 0
    ensures StrideCount(n, 1) == n / 2
  {
    StrideCountHalf(n + 1, 1);
    StrideCountBelow(n, 1);
  }

  /** Counting strides below n or n + 1 agrees when n - i is even. */
  lemma {:induction false} StrideCountBelow(n: nat, i: nat)
    requires i <= n + 1 && (n + 1 - i) % 2 == 0
    ensures StrideCount(n, i) == StrideCount(n + 1, i)
    decreases n + 1 - i
  {
    if i + 2 <= n + 1 {
      StrideCountBelow(n, i + 2);
    }
  }

  /** A silent frame downmixes to silence on both outputs, whatever the tracks. */
  lemma DownmixSilence(frame: seq<real>, trackA: int, trackB: int)
    requires |frame| >= 1 && trackA < |frame| && trackB < |frame|
    requires forall k :: 0 <= k < |frame| ==> frame[k] == 0.0
    ensures Downmix(frame, trackA, trackB) == (0.0, 0.0)
  {
  }

  /** With an odd channel count the mix-all divisor undercounts: three equal channels give twice the level. */
  lemma OddChannelMixIsNotMean()
    ensures Downmix([1.0, 1.0, 1.0], -1, 0).0 == 2.0
  {
    assert StrideSum([1.0, 1.0, 1.0], 4, 1.0) == 0.0;
    assert StrideSum([1.0, 1.0, 1.0], 2, 1.0) == 1.0;
  }

  /** jack_ringbuffer_write of one frame: B first; A gets the bytes B accepted, if it has room. */
  function PushFrame(a: seq<real>, b: seq<real>, cap: nat, sample: (real, real)): (r: (seq<real>, seq<real>))
    ensures |b| >= cap ==> r == (a, b)
    ensures |r.0| > |a| ==> |r.1| > |b|
  {
    if |b| < cap then
      (if |a| < cap then a + [sample.0] else a, b + [sample.1])
    else
      (a, b)
  }

  /** The ring contents after writing the frames of `m` in order. */
  function PushFrames(a: seq<real>, b: seq<real>, cap: nat, m: seq<(real, real)>): (r: (seq<real>, seq<real>))
    ensures |b| >= cap ==> r == (a, b)
    decreases |m|
  {
    if m == [] then (a, b)
    else
      var prev := PushFrames(a, b, cap, m[..|m| - 1]);
      PushFrame(prev.0, prev.1, cap, m[|m| - 1])
  }

  function Firsts(m: seq<(real, real)>): (r: seq<real>)
    ensures |r| == |m|
  {
    if m == [] then [] else Firsts(m[..|m| - 1]) + [m[|m| - 1].0]
  }

  function Seconds(m: seq<(real, real)>): (r: seq<real>)
    ensures |r| == |m|
  {
    if m == [] then [] else Seconds(m[..|m| - 1]) + [m[|m| - 1].1]
  }

  /** With room for every frame in both rings, A receives every A sample and B every B sample, in order. */
  lemma {:induction false} PushFramesWithRoom(a: seq<real>, b: seq<real>, cap: nat, m: seq<(real, real)>)
    requires |a| + |m| <= cap && |b| + |m| <= cap
    ensures PushFrames(a, b, cap, m) == (a + Firsts(m), b + Seconds(m))
  {
    if m != [] {
      var init := m[..|m| - 1];
      var x := m[|m| - 1];
      PushFramesWithRoom(a, b, cap, init);
      var prev := PushFrames(a, b, cap, init);
      assert prev == (a + Firsts(init), b + Seconds(init));
      assert |prev.0| < cap && |prev.1| < cap;
      assert PushFrames(a, b, cap, m) == PushFrame(prev.0, prev.1, cap, x);
      assert a + Firsts(m) == a + Firsts(init) + [x.0];
      assert b + Seconds(m) == b + Seconds(init) + [x.1];
    } else {
      assert a + Firsts(m) == a && b + Seconds(m) == b;
    }
  }

  /** The writer's wait as written: it waits only while BOTH rings lack room for n samples. */
  predicate WriterWaits(a: seq<real>, b: seq<real>, cap: nat, n: nat)
    ensures |a| + n <= cap || |b| + n <= cap ==> !WriterWaits(a, b, cap, n)
    ensures n == 0 && |a| <= cap ==> !WriterWaits(a, b, cap, n)
  {
    cap < |a| + n && cap < |b| + n
  }

  /**
   * Because the wait uses &&, the writer proceeds with a full A ring as soon as
   * B has room; B then receives the block and A nothing, so the rings diverge.
   */
  lemma {:induction false} WaitReleasedByOneRingDesyncs(a: seq<real>, b: seq<real>, cap: nat, m: seq<(real, real)>)
    requires |a| == cap && |b| + |m| <= cap && |m| > 0
    ensures !WriterWaits(a, b, cap, |m|)
    ensures PushFrames(a, b, cap, m) == (a, b + Seconds(m))
  {
    PushFramesFullA(a, b, cap, m);
  }

  lemma {:induction false} PushFramesFullA(a: seq<real>, b: seq<real>, cap: nat, m: seq<(real, real)>)
    requires |a| == cap && |b| + |m| <= cap
    ensures PushFrames(a, b, cap, m) == (a, b + Seconds(m))
  {
    if m != [] {
      PushFramesFullA(a, b, cap, m[..|m| - 1]);
      assert b + Seconds(m) == b + Seconds(m[..|m| - 1]) + [m[|m| - 1].1];
    } else {
      assert b + Seconds(m) == b;
    }
  }

  lemma {:induction false} PushFramesBounded(a: seq<real>, b: seq<real>, cap: nat, m: seq<(real, real)>)
    requires |a| <= cap && |b| <= cap
    ensures |PushFrames(a, b, cap, m).0| <= cap && |PushFrames(a, b, cap, m).1| <= cap
  {
    if m != [] {
      PushFramesBounded(a, b, cap, m[..|m| - 1]);
    }
  }

  lemma FrameFits(f: nat, n: nat, ch: nat)
    requires f < n
    ensures f * ch + ch <= n * ch
  {
    calc {
      f * ch + ch;
      (f + 1) * ch;
    <= { MulMono(f + 1, n, ch); }
      n * ch;
    }
  }

  lemma FrameStep(f: nat, ch: nat)
    ensures (f + 1) * ch == f * ch + ch
  {
  }

  lemma MulMono(x: nat, y: nat, k: nat)
    requires x <= y
    ensures x * k <= y * k
  {
  }

  /** The downmixed frames of a block of `n` interleaved frames of `ch` channels. */
  function Demux(block: seq<real>, n: nat, ch: nat, trackA: int, trackB: int): (m: seq<(real, real)>)
    requires ch >= 1 && trackA < ch && trackB < ch && |block| >= n * ch
    ensures |m| == n
  {
    if n == 0 then []
    else
      FrameFits(n - 1, n, ch);
      Demux(block, n - 1, ch, trackA, trackB) + [Downmix(block[(n - 1) * ch .. (n - 1) * ch + ch], trackA, trackB)]
  }

  /** Sum frame[i] / d over the indices i, i + 2, ... by the downmix's loop. */
  method MixTracks(frame: seq<real>, first: nat, d: real) returns (sum: real)
    requires d > 0.0
    ensures sum == StrideSum(frame, first, d)
  {
    sum := 0.0;
    var track := first;
    while track < |frame|
      invariant track >= first && (track - first) % 2 == 0
      invariant sum + StrideSum(frame, track, d) == StrideSum(frame, first, d)
      decreases |frame| - track
    {
      sum := sum + frame[track] / d;
      track := track + 2;
    }
  }

  /** Demux one frame (zynlibs/zynaudioplayer/player.c, the body of the frame loop). */
  method DemuxFrame(frame: seq<real>, trackA: int, trackB: int) returns (fA: real, fB: real)
    requires |frame| >= 1 && trackA < |frame| && trackB < |frame|
    ensures (fA, fB) == Downmix(frame, trackA, trackB)
  {
    if |frame| > 1 {
      var d := (|frame| / 2) as real;
      if trackA < 0 {
        fA := MixTracks(frame, 0, d);
      } else {
        fA := frame[trackA];
      }
      if trackB < 0 {
        fB := MixTracks(frame, 1, d);
      } else {
        fB := frame[trackB];
      }
    } else {
      fA := frame[0] / 2.0;
      fB := frame[0] / 2.0;
    }
  }

  // ---------------------------------------------------------------------------
  // MIDI triggers
  // ---------------------------------------------------------------------------

  datatype MidiEvent = MidiEvent(status: byte, data1: byte, data2: byte)

  datatype MidiAction = NoteOff | NoteOn(note: byte) | PitchBend(value: nat) | NoAction

  /** The status byte with its channel nibble masked off (status & 0xF0). */
  function Command(ev: MidiEvent): nat
  {
    (ev.status as nat / 16) * 16
  }

  /** What the render callback does with one MIDI event, given the note that last triggered playback. */
  function ClassifyMidi(ev: MidiEvent, lastNote: byte): (a: MidiAction)
    ensures a.NoteOff? <==> (Command(ev) == 0x80 || (Command(ev) == 0x90 && ev.data2 == 0)) && ev.data1 == lastNote
    ensures a.NoteOn? <==> Command(ev) == 0x90 && !(ev.data2 == 0 && ev.data1 == lastNote)
    ensures a.NoteOn? ==> a.note == ev.data1
    ensures a.PitchBend? <==> Command(ev) == 0xE0
    ensures a.PitchBend? ==> a.value == ev.data1 as nat + 128 * ev.data2 as nat
    ensures a.PitchBend? && ev.data1 < 128 && ev.data2 < 128 ==> a.value < 0x4000
  {
    var cmd := Command(ev);
    if (cmd == 0x80 || (cmd == 0x90 && ev.data2 == 0)) && lastNote == ev.data1 then NoteOff
    else if cmd == 0x90 then NoteOn(ev.data1)
    else if cmd == 0xE0 then PitchBend(ev.data1 as nat + 128 * ev.data2 as nat)
    else NoAction
  }

  /**
   * A note-on with velocity 0 (a note-off in MIDI 1.0 running-status form) for
   * a note other than the triggering one falls through to the note-on branch
   * and retriggers playback from that note.
   */
  lemma ZeroVelocityOtherNoteRetriggers(ev: MidiEvent, lastNote: byte)
    requires Command(ev) == 0x90 && ev.data2 == 0 && ev.data1 != lastNote
    ensures ClassifyMidi(ev, lastNote) == NoteOn(ev.data1)
  {
  }

  /** The transport fields a MIDI event can change. */
  datatype TransportView = TransportView(playState: PlayState, readStatus: ReadStatus, playPos: nat,
                                         ringA: seq<real>, ringB: seq<real>,
                                         pitchShift: int, lastNote: byte, pitchBend: nat)

  /**
   * The effect of one event on an open player: note-off stops and clears the
   * shift and note; note-on stops, shifts by 60 - note, seeks to frame 0
   * (emptying the rings) and starts; pitch-bend stores b1 + 128 * b2.
   */
  function MidiApply(v: TransportView, ev: MidiEvent): (r: TransportView)
    ensures Command(ev) != 0x80 && Command(ev) != 0x90 && Command(ev) != 0xE0 ==> r == v
    ensures r.pitchBend != v.pitchBend ==> Command(ev) == 0xE0
    ensures r.lastNote == v.lastNote || r.lastNote == 0 || r.lastNote == ev.data1
    ensures r.playPos == v.playPos || (r.playPos == 0 && r.ringA == [] && r.ringB == [] && r.readStatus == Seeking)
  {
    match ClassifyMidi(ev, v.lastNote)
    case NoteOff =>
      v.(playState := if v.playState == Stopped then Stopped else Stopping, pitchShift := 0, lastNote := 0)
    case NoteOn(n) =>
      v.(playState := Starting, readStatus := Seeking, playPos := 0, ringA := [], ringB := [],
         pitchShift := 60 - n as int, lastNote := n)
    case PitchBend(b) => v.(pitchBend := b)
    case NoAction => v
  }

  function MidiFold(v: TransportView, events: seq<MidiEvent>): (r: TransportView)
    ensures (forall i :: 0 <= i < |events| ==> Command(events[i]) != 0x80 && Command(events[i]) != 0x90 && Command(events[i]) != 0xE0) ==> r == v
    ensures r.playPos == v.playPos || (r.playPos == 0 && r.readStatus == Seeking)
  {
    if events == [] then v else MidiApply(MidiFold(v, events[..|events| - 1]), events[|events| - 1])
  }

  /** Pitch bend is untouched by a sequence with no pitch-bend command. */
  lemma {:induction false} MidiFoldKeepsBend(v: TransportView, events: seq<MidiEvent>)
    requires forall i :: 0 <= i < |events| ==> Command(events[i]) != 0xE0
    ensures MidiFold(v, events).pitchBend == v.pitchBend
  {
    if events != [] {
      MidiFoldKeepsBend(v, events[..|events| - 1]);
    }
  }

  /** The last note played is always the old one, 0, or the note of one of the events. */
  lemma {:induction false} MidiFoldNoteOrigin(v: TransportView, events: seq<MidiEvent>)
    ensures var n := MidiFold(v, events).lastNote;
      n == v.lastNote || n == 0 || exists i :: 0 <= i < |events| && n == events[i].data1
  {
    if events != [] {
      var init := events[..|events| - 1];
      MidiFoldNoteOrigin(v, init);
      var n0 := MidiFold(v, init).lastNote;
      if n0 != v.lastNote && n0 != 0 {
        var i :| 0 <= i < |init| && n0 == init[i].data1;
        assert events[i] == init[i];
      }
    }
  }

  /**
   * The transport notifications one MIDI event sends while the transport
   * is `v`, accumulated onto `acc`: a note-off sends the one of
   * stop_playback; a note-on the one of stop_playback and then, rewound,
   * the one of start_playback; anything else sends nothing.
   */
  function EventSent(v: TransportView, ev: MidiEvent, acc: NotifyResult): NotifyResult
  {
    var stopped := if v.playState == Stopped then Stopped else Stopping;
    match ClassifyMidi(ev, v.lastNote)
    case NoteOff => TransportSent(PlayStateCode(stopped), acc)
    case NoteOn(_) => TransportSent(PlayStateCode(Starting), TransportSent(PlayStateCode(stopped), acc))
    case PitchBend(_) => acc
    case NoAction => acc
  }

  /** The notifications of a sequence of events, each sent while the transport is as the events before it left it. */
  function MidiSent(v: TransportView, events: seq<MidiEvent>, acc: NotifyResult): NotifyResult
    decreases |events|
  {
    if events == [] then acc
    else
      var init := events[..|events| - 1];
      EventSent(MidiFold(v, init), events[|events| - 1], MidiSent(v, init, acc))
  }

  /**
   * What an event sends depends only on the shadow it starts from; its
   * reports follow whatever was reported before.
   */
  lemma EventSentShift(v: TransportView, ev: MidiEvent, acc: NotifyResult)
    ensures var e := EventSent(v, ev, NotifyResult(acc.shadow, []));
      EventSent(v, ev, acc) == NotifyResult(e.shadow, acc.reports + e.reports)
  {
  }

  /**
   * MIDI events send transport notifications only: the reports of
   * `acc` are kept, and each report added is a play state the transport
   * went through.
   */
  lemma {:induction false} MidiSentTransportOnly(v: TransportView, events: seq<MidiEvent>, acc: NotifyResult)
    ensures var r := MidiSent(v, events, acc);
      && |acc.reports| <= |r.reports| && r.reports[..|acc.reports|] == acc.reports
      && forall i :: |acc.reports| <= i < |r.reports| ==>
           r.reports[i].kind == NotifyTransport && r.reports[i].value in {0.0, 1.0, 3.0}
    decreases |events|
  {
    if events != [] {
      var init := events[..|events| - 1];
      MidiSentTransportOnly(v, init, acc);
    }
  }

  /** One event more: the transport it leaves, and its notifications after those of the events before it. */
  lemma MidiSentSnoc(v: TransportView, events: seq<MidiEvent>, i: nat, acc: NotifyResult)
    requires i < |events|
    ensures MidiFold(v, events[..i + 1]) == MidiApply(MidiFold(v, events[..i]), events[i])
    ensures var m := MidiSent(v, events[..i], acc);
      var e := EventSent(MidiFold(v, events[..i]), events[i], NotifyResult(m.shadow, []));
      MidiSent(v, events[..i + 1], acc) == NotifyResult(e.shadow, m.reports + e.reports)
  {
    assert events[..i + 1][..i] == events[..i];
    EventSentShift(MidiFold(v, events[..i]), events[i], MidiSent(v, events[..i], acc));
  }

  // ---------------------------------------------------------------------------
  // The output period of the render step
  // ---------------------------------------------------------------------------

  /** The soft-mute factor at offset k of `count` drained frames: 1 - k / count while fading. */
  function Fade(k: nat, count: nat, fading: bool): (f: real)
    ensures !fading || k == 0 ==> f == 1.0
    ensures k <= count ==> 0.0 <= f <= 1.0
  {
    if fading && count > 0 then
      var q := (k as real) / (count as real);
      assert k <= count ==> 0.0 <= q <= 1.0 by {
        if k < count {
          DivLess(k as real, count as real, count as real);
        }
      }
      1.0 - q
    else
      1.0
  }

  /**
   * An output period after the render step, from the buffer as the ring read
   * left it: the first `count` samples scaled by the gain and the fade, the
   * rest silenced.
   */
  function Output(buf: seq<real>, count: nat, gain: real, fading: bool): (r: seq<real>)
    ensures |r| == |buf|
  {
    seq(|buf|, k requires 0 <= k < |buf| => if k < count then buf[k] * gain * Fade(k, count, fading) else 0.0)
  }

  /**
   * The soft mute starts at full level and falls strictly towards silence
   * without reaching it, and a period that does not fade is the drained
   * samples times the gain.
   */
  lemma FadeShape(count: nat, fading: bool)
    ensures Fade(0, count, fading) == 1.0
    ensures !fading ==> forall k :: 0 <= k < count ==> Fade(k, count, fading) == 1.0
    ensures forall k :: 0 <= k < count ==> 0.0 < Fade(k, count, fading) <= 1.0
    ensures fading ==> forall j, k :: 0 <= j < k < count ==> Fade(k, count, fading) < Fade(j, count, fading)
  {
    if count > 0 {
      forall k | 0 <= k < count
        ensures 0.0 < Fade(k, count, fading)
      {
        FadePositive(k, count, fading);
      }
      forall j, k | 0 <= j < k < count && fading
        ensures Fade(k, count, fading) < Fade(j, count, fading)
      {
        FadeFalls(j, k, count);
      }
    }
  }

  /** Within a period the fade factor stays above silence. */
  lemma FadePositive(k: nat, count: nat, fading: bool)
    requires k < count
    ensures 0.0 < Fade(k, count, fading)
  {
    if fading {
      DivLess(k as real, count as real, count as real);
    }
  }

  /** A later sample of a fading period is quieter than an earlier one. */
  lemma FadeFalls(j: nat, k: nat, count: nat)
    requires j < k < count
    ensures Fade(k, count, true) < Fade(j, count, true)
  {
    DivLess(j as real, k as real, count as real);
  }

  method CopyInto(dst: array<real>, src: seq<real>)
    requires |src| <= dst.Length
    modifies dst
    ensures dst[..] == src + old(dst[..])[|src|..]
  {
    var i := 0;
    while i < |src|
      invariant i <= |src|
      invariant forall k :: 0 <= k < i ==> dst[k] == src[k]
      invariant forall k :: i <= k < dst.Length ==> dst[k] == old(dst[k])
    {
      dst[i] := src[i];
      i := i + 1;
    }
    assert dst[..] == src + old(dst[..])[|src|..];
  }

  method ScalePrefix(a: array<real>, count: nat, gain: real)
    requires count <= a.Length
    modifies a
    ensures forall k :: 0 <= k < count ==> a[k] == old(a[k]) * gain
    ensures forall k :: count <= k < a.Length ==> a[k] == old(a[k])
  {
    var offset := 0;
    while offset < count
      invariant offset <= count
      invariant forall k :: 0 <= k < offset ==> a[k] == old(a[k]) * gain
      invariant forall k :: offset <= k < a.Length ==> a[k] == old(a[k])
    {
      a[offset] := a[offset] * gain;
      offset := offset + 1;
    }
  }

  /** The soft mute: offset k of count is scaled by 1 - k / count. */
  method FadePrefix(a: array<real>, count: nat)
    requires count <= a.Length
    modifies a
    ensures forall k :: 0 <= k < count ==> a[k] == old(a[k]) * Fade(k, count, true)
    ensures forall k :: count <= k < a.Length ==> a[k] == old(a[k])
  {
    var offset := 0;
    while offset < count
      invariant offset <= count
      invariant forall k :: 0 <= k < offset ==> a[k] == old(a[k]) * Fade(k, count, true)
      invariant forall k :: offset <= k < a.Length ==> a[k] == old(a[k])
    {
      a[offset] := a[offset] * (1.0 - (offset as real) / (count as real));
      offset := offset + 1;
    }
  }

  method ZeroFrom(a: array<real>, count: nat)
    requires count <= a.Length
    modifies a
    ensures forall k :: 0 <= k < count ==> a[k] == old(a[k])
    ensures forall k :: count <= k < a.Length ==> a[k] == 0.0
  {
    var offset := count;
    while offset < a.Length
      invariant count <= offset <= a.Length
      invariant forall k :: 0 <= k < count ==> a[k] == old(a[k])
      invariant forall k :: count <= k < offset ==> a[k] == 0.0
    {
      a[offset] := 0.0;
      offset := offset + 1;
    }
  }

  /** Gain, optional soft mute, then silence after the drained samples: one output port's period. */
  method FinishOutput(a: array<real>, count: nat, gain: real, fading: bool)
    requires count <= a.Length
    modifies a
    ensures a[..] == Output(old(a[..]), count, gain, fading)
  {
    ScalePrefix(a, count, gain);
    if fading {
      FadePrefix(a, count);
    }
    ZeroFrom(a, count);
    assert forall k :: 0 <= k < a.Length ==> a[k] == Output(old(a[..]), count, gain, fading)[k];
  }

  /** What one period of on_jack_process decides for an open file. */
  datatype Period = Period(state: PlayState, count: nat, countB: nat, eof: bool, fading: bool)

  /**
   * The decisions of one period: STARTING becomes PLAYING once no seek is
   * pending; PLAYING and STOPPING drain up to one period from ring A and up
   * to that many samples from ring B; the end of the file is an idle reader
   * with ring A drained; STOPPING, or PLAYING at the end of the file, fades.
   */
  function PlanPeriod(playState: PlayState, readStatus: ReadStatus, lenA: nat, lenB: nat, portLen: nat): (p: Period)
    ensures p.countB <= p.count <= portLen && p.count <= lenA && p.countB <= lenB
    ensures p.countB == Min(lenB, p.count)
    ensures p.count > 0 ==> p.state == Playing || p.state == Stopping
    ensures p.eof ==> p.fading && p.count == lenA && readStatus == Idle
    ensures playState == Stopping ==> p.fading
    ensures playState == Stopped ==> p.count == 0 && !p.fading && p.state == Stopped
    ensures (playState == Playing || playState == Stopping) ==> p.count == Min(lenA, portLen)
  {
    var ps := if playState == Starting && readStatus != Seeking then Playing else playState;
    var draining := ps == Playing || ps == Stopping;
    var count := if draining then Min(lenA, portLen) else 0;
    var eof := draining && readStatus == Idle && lenA == count;
    Period(ps, count, Min(lenB, count), eof, ps == Stopping || (ps == Playing && eof))
  }

  /** One more frame of the demux is one more push onto the rings. */
  lemma DemuxStep(block: seq<real>, a0: seq<real>, b0: seq<real>, cap: nat, f: nat, ch: nat, tA: int, tB: int)
    requires ch >= 1 && tA < ch && tB < ch && |block| >= f * ch + ch
    ensures (FrameStep(f, ch);
             var prev := PushFrames(a0, b0, cap, Demux(block, f, ch, tA, tB));
             PushFrames(a0, b0, cap, Demux(block, f + 1, ch, tA, tB))
               == PushFrame(prev.0, prev.1, cap, Downmix(block[f * ch .. f * ch + ch], tA, tB)))
  {
    FrameFits(f, f + 1, ch);
    var m := Demux(block, f + 1, ch, tA, tB);
    assert m[..f] == Demux(block, f, ch, tA, tB);
  }

  /**
   * The demux loop of the reader thread: each of the `produced` frames of the
   * block downmixed to its two tracks and written to the rings, B first.
   */
  method DemuxInto(block: seq<real>, produced: nat, ch: nat, tA: int, tB: int, cap: nat, a0: seq<real>, b0: seq<real>)
    returns (a: seq<real>, b: seq<real>)
    requires ch >= 1 && tA < ch && tB < ch && |block| >= produced * ch
    requires |a0| <= cap && |b0| <= cap
    ensures |a| <= cap && |b| <= cap
    ensures (a, b) == PushFrames(a0, b0, cap, Demux(block, produced, ch, tA, tB))
  {
    a, b := a0, b0;
    var f := 0;
    while f < produced
      invariant f <= produced
      invariant |a| <= cap && |b| <= cap
      invariant (a, b) == PushFrames(a0, b0, cap, Demux(block, f, ch, tA, tB))
    {
      FrameFits(f, produced, ch);
      var sample := f * ch;
      var fA, fB := DemuxFrame(block[sample .. sample + ch], tA, tB);
      DemuxStep(block, a0, b0, cap, f, ch, tA, tB);
      var pushed := PushFrame(a, b, cap, (fA, fB));
      a, b := pushed.0, pushed.1;
      f := f + 1;
    }
  }

  // ---------------------------------------------------------------------------
  // Player instance
  // ---------------------------------------------------------------------------

  class Player {
    const handle: nat
    var fileOpen: FileState
    var readStatus: ReadStatus
    var playState: PlayState
    var loop: bool
    var gain: real
    var trackA: int
    var trackB: int
    var bufferSize: nat
    var bufferCount: nat
    var srcQuality: nat
    // values at the last notification
    /** last_play_state, last_position, ...: the values at the last notification (debug is per library) */
    var last: Observed
    var info: SoundInfo
    var ringA: seq<real>
    var ringB: seq<real>
    var ringCapacity: nat
    var playPos: nat
    var frames: nat
    var filename: string
    var lastNote: byte
    var srcRatio: real
    var srcRatioInv: real
    var pitchShift: int
    var pitchBend: nat
    var hasCallback: bool
    /** The callback invocations made so far, in order. */
    var reported: seq<Notification>

    ghost predicate Valid()
      reads this`ringA, this`ringB, this`ringCapacity, this`fileOpen, this`info, this`trackA, this`trackB, this`frames, this`playPos
    {
      && |ringA| <= ringCapacity && |ringB| <= ringCapacity
      && (fileOpen == Open ==> info.channels >= 1 && trackA < info.channels && trackB < info.channels)
      && (frames > 0 ==> playPos < frames)
    }

    /** The state init leaves a new instance in. */
    ghost predicate Initialised()
      reads this
    {
      && fileOpen == Closed && readStatus == Idle && playState == Stopped && !loop
      && playPos == 0 && srcQuality == SRC_SINC_FASTEST && filename == [] && gain == 1.0
      && trackA == 0 && trackB == 0 && last.trackA == 0 && last.trackB == 0
      && bufferSize == DEFAULT_BUFFER_SIZE && bufferCount == DEFAULT_BUFFER_COUNT
      && frames == 0 && lastNote == 0
      && ringA == [] && ringB == [] && !hasCallback && reported == []
    }

    /** A new instance as init sets it up; fields init leaves unset start at 0. */
    constructor (h: nat)
      ensures Valid() && handle == h && Initialised()
    {
      handle := h;
      fileOpen := Closed;
      readStatus := Idle;
      playState := Stopped;
      loop := false;
      playPos := 0;
      srcQuality := SRC_SINC_FASTEST;
      filename := [];
      gain := 1.0;
      trackA := 0;
      trackB := 0;
      bufferSize := DEFAULT_BUFFER_SIZE;
      bufferCount := DEFAULT_BUFFER_COUNT;
      frames := 0;
      lastNote := 0;
      last := Observed(0, 0.0, 0.0, false, 0, 0, 0, 0);
      info := SoundInfo(0, 0, 0, 0);
      ringA := [];
      ringB := [];
      ringCapacity := 0;
      srcRatio := 0.0;
      srcRatioInv := 0.0;
      pitchShift := 0;
      pitchBend := PITCH_BEND_CENTRE;
      hasCallback := false;
      reported := [];
    }

    // --- getters: defaults when no file is open ---

    function Duration(): (d: real)
      reads this`fileOpen, this`info
      ensures d >= 0.0
    {
      if fileOpen == Open && info.samplerate != 0 then info.frames as real / info.samplerate as real else 0.0
    }

    function Position(): (p: real)
      reads this`fileOpen, this`info, this`srcRatioInv, this`playPos
      ensures fileOpen != Open ==> p == 0.0
      ensures srcRatioInv >= 0.0 ==> p >= 0.0
    {
      if fileOpen == Open && info.samplerate != 0 then srcRatioInv * (playPos as real) / (info.samplerate as real) else 0.0
    }

    /** The frame set_position seeks to for a time in seconds: the time clamped to the duration, converted to output frames. */
    function SeekFrame(time: real): nat
      reads this`fileOpen, this`info, this`srcRatio, this`frames
    {
      PositionTarget(srcRatio * (if time >= Duration() then Duration() else time) * info.samplerate as real, frames)
    }

    function PlaybackState(): (s: PlayState)
      reads this
      ensures fileOpen != Open ==> s == Stopped
    {
      if fileOpen == Open then playState else Stopped
    }

    function Samplerate(lib: Library): (r: nat)
      reads this, lib
      ensures fileOpen != Open ==> r == lib.samplerate
    {
      if fileOpen == Open then info.samplerate else lib.samplerate
    }

    function Channels(): (c: int)
      reads this
      ensures Valid() && fileOpen == Open ==> c >= 1
      ensures fileOpen != Open ==> c == 0
    {
      if fileOpen == Open then info.channels else 0
    }

    function FileFrames(): (n: nat)
      reads this
      ensures fileOpen != Open ==> n == 0
    {
      if fileOpen == Open then info.frames else 0
    }

    function Format(): (f: int)
      reads this
      ensures fileOpen != Open ==> f == 0
    {
      if fileOpen == Open then info.format else 0
    }

    function Filename(): (f: string)
      reads this
      ensures fileOpen != Open ==> f == []
    {
      if fileOpen == Open then filename else []
    }

    function SrcQuality(): (q: nat)
      reads this
      ensures fileOpen != Open ==> q == SRC_SINC_FASTEST
    {
      if fileOpen == Open then srcQuality else SRC_SINC_FASTEST
    }

    function Gain(): (g: real)
      reads this
      ensures fileOpen != Open ==> g == 0.0
    {
      if fileOpen == Open then gain else 0.0
    }

    function TrackA(): (t: int)
      reads this
      ensures Valid() && fileOpen == Open ==> t < Channels()
      ensures fileOpen != Open ==> t == 0
    {
      if fileOpen == Open then trackA else 0
    }

    function TrackB(): (t: int)
      reads this
      ensures Valid() && fileOpen == Open ==> t < Channels()
      ensures fileOpen != Open ==> t == 0
    {
      if fileOpen == Open then trackB else 0
    }

    function IsLoop(): (b: bool)
      reads this
      ensures b ==> fileOpen == Open
    {
      fileOpen == Open && loop
    }

    function Current(lib: Library): Observed
      reads this`playState, this`fileOpen, this`info, this`srcRatioInv, this`playPos, this`gain, this`loop, this`trackA, this`trackB, this`srcQuality, lib`debug
    {
      Observed(PlayStateCode(playState), Position(), gain, loop, trackA, trackB, srcQuality, lib.debug)
    }

    function Shadow(lib: Library): Observed
      reads this`last, lib`lastDebug
    {
      last.(debug := lib.lastDebug)
    }

    function View(): TransportView
      reads this`playState, this`readStatus, this`playPos, this`ringA, this`ringB, this`pitchShift, this`lastNote, this`pitchBend
    {
      TransportView(playState, readStatus, playPos, ringA, ringB, pitchShift, lastNote, pitchBend)
    }

    /**
     * One comparison of send_notifications: field `kind`, when selected and
     * changed beyond its threshold, is copied to its shadow and, when a
     * callback is set, reported to it.
     */
    method NotifyField(lib: Library, param: NotifyKind, kind: NotifyKind,
                       ghost cur: Observed, ghost base: seq<Notification>, ghost acc: NotifyResult)
      requires Current(lib) == cur && Shadow(lib) == acc.shadow && reported == base + (if hasCallback then acc.reports else [])
      modifies this`last, this`reported, lib`lastDebug
      ensures Shadow(lib) == NotifyStep(param, kind, cur, acc).shadow
      ensures reported == base + (if hasCallback then NotifyStep(param, kind, cur, acc).reports else [])
    {
      var now := Current(lib);
      if (param == NotifyAll || param == kind) && Changed(kind, now, Shadow(lib)) {
        CopyToShadow(lib, kind, now);
        if hasCallback {
          assert base + (acc.reports + [Notification(kind, ValueOf(kind, now))])
              == base + acc.reports + [Notification(kind, ValueOf(kind, now))];
          reported := reported + [Notification(kind, ValueOf(kind, now))];
        }
      }
    }

    /** The shadow update of one comparison: the debug shadow lives in the library, the others here. */
    method CopyToShadow(lib: Library, kind: NotifyKind, now: Observed)
      requires now.debug == lib.debug
      modifies this`last, lib`lastDebug
      ensures Shadow(lib) == CatchUp(kind, now, old(Shadow(lib)))
    {
      if kind == NotifyDebug {
        lib.lastDebug := lib.debug;
      } else {
        last := CatchUp(kind, now, last);
      }
    }

    /**
     * send_notifications: nothing unless the file is open; otherwise the
     * comparisons of NotifyField, field by field in the order of NotifyOrder.
     */
    method SendNotifications(lib: Library, param: NotifyKind)
      modifies this`last, this`reported, lib`lastDebug
      ensures Notified(lib, param, old(Shadow(lib)), old(reported))
    {
      if fileOpen != Open {
        return;
      }
      ghost var cur := Current(lib);
      ghost var before := Shadow(lib);
      ghost var acc := NotifyResult(before, []);
      ghost var base := reported;
      NotifyPlayback(lib, param, cur, base, acc);
      acc := NotifyStep(param, NotifyLoop, cur, NotifyStep(param, NotifyGain, cur,
               NotifyStep(param, NotifyPosition, cur, NotifyStep(param, NotifyTransport, cur, acc))));
      NotifySettings(lib, param, cur, base, acc);
      acc := NotifyStep(param, NotifyDebug, cur, NotifyStep(param, NotifyQuality, cur,
               NotifyStep(param, NotifyTrackB, cur, NotifyStep(param, NotifyTrackA, cur, acc))));
      assert acc == Notify(param, cur, before);
      assert Current(lib) == cur;
    }

    /**
     * What send_notifications(param) leaves when it runs on the current
     * values, starting from the shadow `before` and the reports `base`:
     * nothing changes for a file that is not open.
     */
    ghost predicate Notified(lib: Library, param: NotifyKind, before: Observed, base: seq<Notification>)
      reads this`fileOpen, this`last, this`reported, this`hasCallback, lib`lastDebug, lib`debug
      reads this`playState, this`info, this`srcRatioInv, this`playPos, this`gain, this`loop, this`trackA, this`trackB, this`srcQuality
    {
      if fileOpen != Open then Shadow(lib) == before && reported == base
      else
        var n := Notify(param, Current(lib), before);
        Shadow(lib) == n.shadow && reported == base + (if hasCallback then n.reports else [])
    }

    /** The first four comparisons of send_notifications: transport, position, gain, loop. */
    method NotifyPlayback(lib: Library, param: NotifyKind, ghost cur: Observed, ghost base: seq<Notification>, ghost acc: NotifyResult)
      requires Current(lib) == cur && Shadow(lib) == acc.shadow && reported == base + (if hasCallback then acc.reports else [])
      modifies this`last, this`reported, lib`lastDebug
      ensures var r := NotifyStep(param, NotifyLoop, cur, NotifyStep(param, NotifyGain, cur,
                         NotifyStep(param, NotifyPosition, cur, NotifyStep(param, NotifyTransport, cur, acc))));
        Shadow(lib) == r.shadow && reported == base + (if hasCallback then r.reports else [])
    {
      ghost var a := acc;
      NotifyField(lib, param, NotifyTransport, cur, base, a);
      a := NotifyStep(param, NotifyTransport, cur, a);
      NotifyField(lib, param, NotifyPosition, cur, base, a);
      a := NotifyStep(param, NotifyPosition, cur, a);
      NotifyField(lib, param, NotifyGain, cur, base, a);
      a := NotifyStep(param, NotifyGain, cur, a);
      NotifyField(lib, param, NotifyLoop, cur, base, a);
    }

    /** The last four comparisons of send_notifications: both tracks, the converter quality, the debug flag. */
    method NotifySettings(lib: Library, param: NotifyKind, ghost cur: Observed, ghost base: seq<Notification>, ghost acc: NotifyResult)
      requires Current(lib) == cur && Shadow(lib) == acc.shadow && reported == base + (if hasCallback then acc.reports else [])
      modifies this`last, this`reported, lib`lastDebug
      ensures var r := NotifyStep(param, NotifyDebug, cur, NotifyStep(param, NotifyQuality, cur,
                         NotifyStep(param, NotifyTrackB, cur, NotifyStep(param, NotifyTrackA, cur, acc))));
        Shadow(lib) == r.shadow && reported == base + (if hasCallback then r.reports else [])
    {
      ghost var a := acc;
      NotifyField(lib, param, NotifyTrackA, cur, base, a);
      a := NotifyStep(param, NotifyTrackA, cur, a);
      NotifyField(lib, param, NotifyTrackB, cur, base, a);
      a := NotifyStep(param, NotifyTrackB, cur, a);
      NotifyField(lib, param, NotifyQuality, cur, base, a);
      a := NotifyStep(param, NotifyQuality, cur, a);
      NotifyField(lib, param, NotifyDebug, cur, base, a);
    }

    /**
     * stop_playback: any state but STOPPED becomes STOPPING, then the
     * transport notification for the new state (TransportSent; see
     * TransportNotified for its agreement with Notified).
     */
    method StopPlayback(lib: Library)
      requires Valid()
      modifies this`playState, this`last, this`reported, lib`lastDebug
      ensures Valid()
      ensures playState == if old(playState) == Stopped then Stopped else Stopping
      ensures fileOpen != Open ==> Shadow(lib) == old(Shadow(lib)) && reported == old(reported)
      ensures fileOpen == Open ==> SentAs(lib, TransportSent(PlayStateCode(playState), NotifyResult(old(Shadow(lib)), [])), old(reported))
    {
      if playState != Stopped {
        playState := Stopping;
      }
      SendNotifications(lib, NotifyTransport);
      TransportSentSpec(Current(lib), NotifyResult(old(Shadow(lib)), []));
    }

    /**
     * start_playback: an open file that is not PLAYING becomes STARTING,
     * then the transport notification for the resulting state.
     */
    method StartPlayback(lib: Library)
      requires Valid()
      modifies this`playState, this`last, this`reported, lib`lastDebug
      ensures Valid()
      ensures playState == if fileOpen == Open && old(playState) != Playing then Starting else old(playState)
      ensures fileOpen != Open ==> Shadow(lib) == old(Shadow(lib)) && reported == old(reported)
      ensures fileOpen == Open ==> SentAs(lib, TransportSent(PlayStateCode(playState), NotifyResult(old(Shadow(lib)), [])), old(reported))
    {
      if fileOpen == Open && playState != Playing {
        playState := Starting;
      }
      SendNotifications(lib, NotifyTransport);
      TransportSentSpec(Current(lib), NotifyResult(old(Shadow(lib)), []));
    }

    /**
     * set_position: for an open file, clamp the time to the duration, convert
     * it to a frame clamped to the last frame, and request a seek (emptying
     * both rings).
     */
    method SetPosition(time: real)
      requires Valid()
      modifies this`playPos, this`readStatus, this`ringA, this`ringB
      ensures Valid()
      ensures fileOpen != Open ==> playPos == old(playPos) && readStatus == old(readStatus)
                                   && ringA == old(ringA) && ringB == old(ringB)
      ensures fileOpen == Open ==>
        && playPos == SeekFrame(time)
        && readStatus == Seeking && ringA == [] && ringB == []
    {
      if fileOpen != Open {
        return;
      }
      playPos := SeekFrame(time);
      readStatus := Seeking;
      ringB := [];
      ringA := [];
    }

    /** enable_loop: sets the flag; arms LOOPING only when the file is NOT open and the reader is idle. */
    method EnableLoop(lib: Library, enable: bool)
      requires Valid()
      modifies this`loop, this`readStatus, this`last, this`reported, lib`lastDebug
      ensures Valid() && loop == enable
      ensures readStatus == if fileOpen != Open && enable && old(readStatus) == Idle then Looping else old(readStatus)
      ensures Notified(lib, NotifyLoop, old(Shadow(lib)), old(reported))
    {
      loop := enable;
      if fileOpen != Open && enable && readStatus == Idle {
        readStatus := Looping;
      }
      SendNotifications(lib, NotifyLoop);
    }

    /** set_src_quality: only for an open file and a quality up to SRC_LINEAR. */
    method SetSrcQuality(lib: Library, quality: nat) returns (ok: bool)
      requires Valid()
      modifies this`srcQuality, this`last, this`reported, lib`lastDebug
      ensures Valid()
      ensures ok <==> fileOpen == Open && quality <= SRC_LINEAR
      ensures srcQuality == if ok then quality else old(srcQuality)
      ensures ok ==> Notified(lib, NotifyQuality, old(Shadow(lib)), old(reported))
      ensures !ok ==> Shadow(lib) == old(Shadow(lib)) && reported == old(reported)
    {
      if fileOpen != Open {
        return false;
      }
      if quality > SRC_LINEAR {
        return false;
      }
      srcQuality := quality;
      SendNotifications(lib, NotifyQuality);
      return true;
    }

    /** set_gain: only for an open file and 0 <= gain <= 2. */
    method SetGain(lib: Library, g: real)
      requires Valid()
      modifies this`gain, this`last, this`reported, lib`lastDebug
      ensures Valid()
      ensures gain == if fileOpen == Open && 0.0 <= g <= 2.0 then g else old(gain)
      ensures fileOpen == Open && 0.0 <= g <= 2.0 ==> Notified(lib, NotifyGain, old(Shadow(lib)), old(reported))
      ensures !(fileOpen == Open && 0.0 <= g <= 2.0) ==> Shadow(lib) == old(Shadow(lib)) && reported == old(reported)
    {
      if fileOpen == Open && 0.0 <= g <= 2.0 {
        gain := g;
        SendNotifications(lib, NotifyGain);
      }
    }

    /**
     * set_track_a: for an open file and a track below the channel count, the
     * track (0 for a mono file); then re-seek to the current position.
     */
    method SetTrackA(lib: Library, track: int)
      requires Valid()
      modifies this`trackA, this`playPos, this`readStatus, this`ringA, this`ringB,
               this`last, this`reported, lib`lastDebug
      ensures Valid()
      ensures trackA == if fileOpen == Open && track < info.channels then (if info.channels == 1 then 0 else track) else old(trackA)
      ensures fileOpen != Open ==> playPos == old(playPos) && readStatus == old(readStatus) && ringA == old(ringA) && ringB == old(ringB)
      ensures fileOpen == Open ==>
        && playPos == SeekFrame(old(Position()))
        && readStatus == Seeking && ringA == [] && ringB == []
      ensures Notified(lib, NotifyTrackA, old(Shadow(lib)), old(reported))
    {
      if fileOpen != Open {
        return;
      }
      if track < info.channels {
        trackA := if info.channels == 1 then 0 else track;
      }
      Reseek(lib, NotifyTrackA);
    }

    /** set_track_b: as set_track_a, for the B output. */
    method SetTrackB(lib: Library, track: int)
      requires Valid()
      modifies this`trackB, this`playPos, this`readStatus, this`ringA, this`ringB,
               this`last, this`reported, lib`lastDebug
      ensures Valid()
      ensures trackB == if fileOpen == Open && track < info.channels then (if info.channels == 1 then 0 else track) else old(trackB)
      ensures fileOpen != Open ==> playPos == old(playPos) && readStatus == old(readStatus) && ringA == old(ringA) && ringB == old(ringB)
      ensures fileOpen == Open ==>
        && playPos == SeekFrame(old(Position()))
        && readStatus == Seeking && ringA == [] && ringB == []
      ensures Notified(lib, NotifyTrackB, old(Shadow(lib)), old(reported))
    {
      if fileOpen != Open {
        return;
      }
      if track < info.channels {
        trackB := if info.channels == 1 then 0 else track;
      }
      Reseek(lib, NotifyTrackB);
    }

    /** The tail of set_track_a and set_track_b: set_position(get_position()), then send_notifications. */
    method Reseek(lib: Library, param: NotifyKind)
      requires Valid() && fileOpen == Open
      modifies this`playPos, this`readStatus, this`ringA, this`ringB, this`last, this`reported, lib`lastDebug
      ensures Valid()
      ensures playPos == SeekFrame(old(Position())) && readStatus == Seeking && ringA == [] && ringB == []
      ensures Notified(lib, param, old(Shadow(lib)), old(reported))
    {
      var now := Position();
      SetPosition(now);
      SendNotifications(lib, param);
    }

    /** set_buffer_size: only while no file is open. */
    method SetBufferSize(size: nat)
      modifies this`bufferSize
      ensures bufferSize == if fileOpen == Closed then size else old(bufferSize)
    {
      if fileOpen == Closed {
        bufferSize := size;
      }
    }

    /** set_buffer_count: only while no file is open, and only a count above 1. */
    method SetBufferCount(count: nat)
      modifies this`bufferCount
      ensures bufferCount == if fileOpen == Closed && count > 1 then count else old(bufferCount)
    {
      if fileOpen == Closed && count > 1 {
        bufferCount := count;
      }
    }

    /**
     * The open phase of the file reader thread. A failed open (or a file with
     * no channels) closes the player; a successful one clears the callback,
     * unsets the shadows of transport and position, rewinds, requests a seek,
     * sizes the rings, derives the samplerate ratio and the converted length,
     * and marks the file open. Returns the reader's thread-local state.
     */
    method OpenFile(lib: Library, openResult: Option<SoundInfo>) returns (r: ReaderLocals)
      requires Valid() && fileOpen == Opening && trackA == 0 && trackB == 0
      modifies this`fileOpen, this`info, this`hasCallback, this`last, this`playPos, this`readStatus,
               this`ringCapacity, this`ringA, this`ringB, this`srcRatio, this`srcRatioInv,
               this`pitchShift, this`pitchBend, this`frames
      ensures Valid()
      ensures openResult.None? || openResult.value.channels < 1 ==>
        && fileOpen == Closed && View() == old(View())
        && hasCallback == old(hasCallback) && last == old(last) && srcRatio == old(srcRatio)
        && srcRatioInv == old(srcRatioInv) && frames == old(frames) && ringCapacity == old(ringCapacity)
      ensures openResult.Some? && openResult.value.channels >= 1 ==>
        && fileOpen == Open && info == openResult.value && !hasCallback
        && last == old(last).(playState := UNSET_PLAY_STATE, position := -1.0)
        && playPos == 0 && readStatus == Seeking && ringA == [] && ringB == []
        && ringCapacity == bufferSize * bufferCount
        && pitchShift == 0 && pitchBend == PITCH_BEND_CENTRE
        && srcRatio == SrcRatio(lib.samplerate, info.samplerate)
        && (srcRatio != 0.0 ==> srcRatioInv == 1.0 / srcRatio)
        && frames == ConvertedFrames(info, srcRatio)
        && r.ratio == srcRatio
    {
      r := ReaderLocals(srcRatio, 0, 0, false);
      if openResult.None? || openResult.value.channels < 1 {
        fileOpen := Closed;
        return;
      }
      ResetForFile(openResult.value);
      SetupConversion(lib);
      fileOpen := Open;
      r := ReaderLocals(srcRatio, 0, 0, false);
    }

    /** The first half of a successful open: the file's format, a cleared callback, unset shadows, rewound and empty. */
    method ResetForFile(i: SoundInfo)
      modifies this`info, this`hasCallback, this`last, this`playPos, this`readStatus,
               this`ringCapacity, this`ringA, this`ringB
      ensures info == i && !hasCallback && last == old(last).(playState := UNSET_PLAY_STATE, position := -1.0)
      ensures playPos == 0 && readStatus == Seeking && ringA == [] && ringB == []
      ensures ringCapacity == bufferSize * bufferCount
    {
      info := i;
      hasCallback := false;
      last := last.(playState := UNSET_PLAY_STATE, position := -1.0);
      playPos := 0;
      readStatus := Seeking;
      ringCapacity := bufferSize * bufferCount;
      ringA := [];
      ringB := [];
    }

    /** The second half of a successful open: the samplerate ratio, its inverse, no pitch change, the converted length. */
    method SetupConversion(lib: Library)
      modifies this`srcRatio, this`srcRatioInv, this`pitchShift, this`pitchBend, this`frames
      ensures srcRatio == SrcRatio(lib.samplerate, info.samplerate)
      ensures srcRatio != 0.0 ==> srcRatioInv == 1.0 / srcRatio
      ensures info.samplerate == 0 ==> srcRatioInv == 0.0
      ensures info.samplerate != 0 && srcRatio == 0.0 ==> srcRatioInv == old(srcRatioInv)
      ensures pitchShift == 0 && pitchBend == PITCH_BEND_CENTRE
      ensures frames == ConvertedFrames(info, srcRatio)
    {
      srcRatio := SrcRatio(lib.samplerate, info.samplerate);
      if info.samplerate == 0 {
        srcRatioInv := 0.0;
      } else if srcRatio != 0.0 {
        srcRatioInv := 1.0 / srcRatio;
      }
      pitchShift := 0;
      pitchBend := PITCH_BEND_CENTRE;
      frames := ConvertedFrames(info, srcRatio);
    }

    /**
     * unload: nothing unless a file is open or opening; otherwise stop, close,
     * and (for an open file) let the reader thread run its exit path: STOPPED,
     * position 0, callback cleared, rings released. Only an open file's
     * stop_playback notifies, through the callback set before the exit path.
     */
    method Unload(lib: Library)
      requires Valid()
      modifies this`playState, this`fileOpen, this`playPos, this`hasCallback, this`ringA, this`ringB,
               this`filename, this`last, this`reported, lib`lastDebug
      ensures Valid()
      ensures old(fileOpen) == Closed ==> View() == old(View()) && filename == old(filename)
      ensures fileOpen == Closed
      ensures old(fileOpen) == Open ==> playState == Stopped && playPos == 0 && !hasCallback && ringA == [] && ringB == []
      ensures old(fileOpen) == Opening ==> playState == (if old(playState) == Stopped then Stopped else Stopping)
      ensures old(fileOpen) != Closed ==> filename == []
      ensures old(fileOpen) != Open ==> Shadow(lib) == old(Shadow(lib)) && reported == old(reported)
      ensures old(fileOpen) == Open ==> var t := StopSent(old(playState), old(Shadow(lib)));
        Shadow(lib) == t.shadow && reported == old(reported) + (if old(hasCallback) then t.reports else [])
    {
      if fileOpen == Closed {
        return;
      }
      var wasOpen := fileOpen == Open;
      StopPlayback(lib);
      fileOpen := Closed;
      if wasOpen {
        ReaderExit();
      }
      filename := [];
    }

    /** The exit path of the reader thread: STOPPED, rewound, no callback, rings released. */
    method ReaderExit()
      requires Valid() && fileOpen != Open
      modifies this`playState, this`playPos, this`hasCallback, this`ringA, this`ringB
      ensures Valid()
      ensures playState == Stopped && playPos == 0 && !hasCallback && ringA == [] && ringB == []
    {
      playState := Stopped;
      playPos := 0;
      hasCallback := false;
      ringA := [];
      ringB := [];
    }

    /**
     * load: unload, reset both tracks to 0, mark the file opening, start the
     * reader thread (a failure unloads and returns false), wait for its open
     * phase, and on success install the callback. Returns whether the file is
     * open. The settings (gain, loop, converter quality, buffer size and
     * count) are kept; the only notification is the opening unload's.
     */
    method Load(lib: Library, name: string, threadStarted: bool, openResult: Option<SoundInfo>, callback: bool)
      returns (ok: bool, r: ReaderLocals)
      requires Valid()
      modifies this`playState, this`fileOpen, this`playPos, this`hasCallback, this`ringA, this`ringB,
               this`filename, this`last, this`reported, this`info, this`readStatus, this`ringCapacity,
               this`srcRatio, this`srcRatioInv, this`pitchShift, this`pitchBend, this`frames,
               this`trackA, this`trackB, lib`lastDebug
      ensures Valid()
      ensures ok <==> fileOpen == Open
      ensures ok <==> threadStarted && openResult.Some? && openResult.value.channels >= 1
      ensures gain == old(gain) && loop == old(loop) && srcQuality == old(srcQuality)
              && bufferSize == old(bufferSize) && bufferCount == old(bufferCount)
      ensures trackA == 0 && trackB == 0
      ensures playState == if old(fileOpen) == Open then Stopped
                           else if old(fileOpen) == Closed && threadStarted then old(playState)
                           else if old(playState) == Stopped then Stopped else Stopping
      ensures ok ==> Opened(lib, name, openResult.value, callback)
      ensures !ok ==> fileOpen == Closed
      ensures !threadStarted ==> filename == []
      ensures threadStarted && !ok ==> filename == name
      ensures var u := if old(fileOpen) == Open then StopSent(old(playState), old(Shadow(lib)))
                       else NotifyResult(old(Shadow(lib)), []);
        && reported == old(reported) + (if old(fileOpen) == Open && old(hasCallback) then u.reports else [])
        && Shadow(lib) == if ok then u.shadow.(playState := UNSET_PLAY_STATE, position := -1.0) else u.shadow
    {
      Unload(lib);
      ok, r := LoadClosed(lib, name, threadStarted, openResult, callback);
    }

    /** The state a successful load leaves: the file open and rewound with a seek pending, the conversion set up. */
    ghost predicate Opened(lib: Library, name: string, i: SoundInfo, callback: bool)
      reads this, lib
    {
      && filename == name && hasCallback == callback
      && info == i && playPos == 0 && readStatus == Seeking
      && ringA == [] && ringB == [] && ringCapacity == bufferSize * bufferCount
      && srcRatio == SrcRatio(lib.samplerate, info.samplerate)
      && (srcRatio != 0.0 ==> srcRatioInv == 1.0 / srcRatio)
      && frames == ConvertedFrames(info, srcRatio)
      && pitchShift == 0 && pitchBend == PITCH_BEND_CENTRE
    }

    /** load after its opening unload, on a closed player: nothing is reported, and a successful open unsets two shadows. */
    method LoadClosed(lib: Library, name: string, threadStarted: bool, openResult: Option<SoundInfo>, callback: bool)
      returns (ok: bool, r: ReaderLocals)
      requires Valid() && fileOpen == Closed
      modifies this`playState, this`fileOpen, this`playPos, this`hasCallback, this`ringA, this`ringB,
               this`filename, this`last, this`reported, this`info, this`readStatus, this`ringCapacity,
               this`srcRatio, this`srcRatioInv, this`pitchShift, this`pitchBend, this`frames,
               this`trackA, this`trackB, lib`lastDebug
      ensures Valid()
      ensures ok <==> fileOpen == Open
      ensures ok <==> threadStarted && openResult.Some? && openResult.value.channels >= 1
      ensures trackA == 0 && trackB == 0
      ensures playState == if threadStarted then old(playState)
                           else if old(playState) == Stopped then Stopped else Stopping
      ensures ok ==> Opened(lib, name, openResult.value, callback)
      ensures !ok ==> fileOpen == Closed
      ensures !threadStarted ==> filename == []
      ensures threadStarted && !ok ==> filename == name
      ensures reported == old(reported)
      ensures Shadow(lib) == if ok then old(Shadow(lib)).(playState := UNSET_PLAY_STATE, position := -1.0) else old(Shadow(lib))
    {
      trackA := 0;
      trackB := 0;
      filename := name;
      fileOpen := Opening;
      r := ReaderLocals(srcRatio, 0, 0, false);
      if !threadStarted {
        Unload(lib);
        return false, r;
      }
      ok, r := OpenAndInstall(lib, name, openResult, callback);
    }

    /** The reader's open phase, then the callback installed when the file opened. */
    method OpenAndInstall(lib: Library, ghost name: string, openResult: Option<SoundInfo>, callback: bool)
      returns (ok: bool, r: ReaderLocals)
      requires Valid() && fileOpen == Opening && trackA == 0 && trackB == 0 && filename == name
      modifies this`fileOpen, this`info, this`hasCallback, this`last, this`playPos, this`readStatus,
               this`ringCapacity, this`ringA, this`ringB, this`srcRatio, this`srcRatioInv,
               this`pitchShift, this`pitchBend, this`frames
      ensures Valid()
      ensures ok <==> fileOpen == Open
      ensures ok <==> openResult.Some? && openResult.value.channels >= 1
      ensures ok ==> Opened(lib, name, openResult.value, callback)
      ensures !ok ==> fileOpen == Closed
      ensures last == if ok then old(last).(playState := UNSET_PLAY_STATE, position := -1.0) else old(last)
    {
      r := OpenFile(lib, openResult);
      if fileOpen != Closed {
        hasCallback := callback;
      }
      ok := fileOpen == Open;
    }

    // --- the file reader loop body ---

    /**
     * The head of one reader iteration: a pending seek empties both rings,
     * rederives the ratio with the pitch-shift factor (pow(1.059463094359,
     * pitch_shift), an input here) and moves to LOADING with the carried-over
     * input reset; a pending loop does the same from frame 0 without touching
     * the rings. Returns the new locals and the frame the file is sought to.
     */
    method BeginBlock(r: ReaderLocals, shiftFactor: real) returns (r': ReaderLocals, seekTo: Option<nat>)
      requires Valid() && fileOpen == Open
      modifies this`ringA, this`ringB, this`readStatus, this`srcRatioInv
      ensures Valid()
      ensures old(readStatus) in {Seeking, Looping} ==>
        readStatus == Loading && r'.maxFrames == bufferSize / info.channels && r'.unusedFrames == 0 && !r'.endOfInput
      ensures old(readStatus) == Seeking ==> ringA == [] && ringB == [] && r'.ratio == srcRatio * shiftFactor
      ensures old(readStatus) == Seeking ==> seekTo == Some(SeekTarget(playPos, r'.ratio))
      ensures old(readStatus) == Seeking && r'.ratio != 0.0 ==> srcRatioInv == 1.0 / r'.ratio
      ensures old(readStatus) != Seeking || r'.ratio == 0.0 ==> srcRatioInv == old(srcRatioInv)
      ensures old(readStatus) == Looping ==> ringA == old(ringA) && ringB == old(ringB) && r'.ratio == r.ratio && seekTo == Some(0)
      ensures old(readStatus) !in {Seeking, Looping} ==>
        readStatus == old(readStatus) && r' == r && seekTo == None && ringA == old(ringA) && ringB == old(ringB)
    {
      r' := r;
      seekTo := None;
      if readStatus == Seeking {
        ringA := [];
        ringB := [];
        var ratio := srcRatio * shiftFactor;
        if ratio != 0.0 {
          srcRatioInv := 1.0 / ratio;
        }
        seekTo := Some(SeekTarget(playPos, ratio));
        readStatus := Loading;
        r' := ReaderLocals(ratio, bufferSize / info.channels, 0, false);
      } else if readStatus == Looping {
        seekTo := Some(0);
        readStatus := Loading;
        r' := r.(maxFrames := bufferSize / info.channels, unusedFrames := 0, endOfInput := false);
      }
    }

    /**
     * The LOADING branch: request a block (the whole buffer without
     * conversion, else the buffer less the carried-over input), compare what
     * the file delivered with the request, and with conversion take the
     * converter's output count and carry its unused input over. Returns the
     * frames ready for the demux.
     */
    method ReadBlock(r: ReaderLocals, framesRead: nat, generated: nat, used: nat) returns (r': ReaderLocals, produced: nat)
      requires Valid() && fileOpen == Open && readStatus == Loading
      modifies this`readStatus
      ensures Valid()
      ensures var request := if r.ratio == 1.0 then r.maxFrames else bufferSize / info.channels - r.unusedFrames;
        && readStatus == StatusAfterRead(framesRead == request, loop)
        && r'.maxFrames == request
        && r'.endOfInput == (framesRead != request)
        && (r.ratio == 1.0 ==> produced == framesRead && r'.unusedFrames == r.unusedFrames)
        && (r.ratio != 1.0 ==> produced == generated && r'.unusedFrames == request - used)
        && r'.ratio == r.ratio
    {
      var request := if r.ratio == 1.0 then r.maxFrames else bufferSize / info.channels - r.unusedFrames;
      r' := r.(maxFrames := request);
      if framesRead == request {
        r' := r'.(endOfInput := false);
      } else if loop {
        readStatus := Looping;
        r' := r'.(endOfInput := true);
      } else {
        readStatus := Idle;
        r' := r'.(endOfInput := true);
      }
      produced := framesRead;
      if r.ratio != 1.0 {
        produced := generated;
        r' := r'.(unusedFrames := request - used);
      }
    }

    /**
     * The demux of a block of `produced` interleaved frames into the rings,
     * run once the writer's wait is over: each frame is downmixed and written
     * B first, then A with the bytes B accepted. The block is skipped when a
     * seek is pending (see WriteGuardAsWritten for the guard as written).
     */
    method WriteBlock(block: seq<real>, produced: nat)
      requires Valid() && |block| >= produced * info.channels
      modifies this`ringA, this`ringB
      ensures Valid()
      ensures !WriteGuard(fileOpen, readStatus) ==> ringA == old(ringA) && ringB == old(ringB)
      ensures WriteGuard(fileOpen, readStatus) ==>
        (ringA, ringB) == PushFrames(old(ringA), old(ringB), ringCapacity,
                                     Demux(block, produced, info.channels, trackA, trackB))
    {
      if !WriteGuard(fileOpen, readStatus) {
        return;
      }
      ringA, ringB := DemuxInto(block, produced, info.channels, trackA, trackB, ringCapacity, ringA, ringB);
    }

    // --- the render callback ---

    /**
     * The audio part of on_jack_process for an open file: the decisions of
     * PlanPeriod, the drained samples copied out, each port finished by
     * Output, the position advanced with wrap, a fade stopping playback and
     * the end of the file re-cued to frame 0 with a seek.
     */
    method RenderAudio(outA: array<real>, outB: array<real>)
      requires Valid() && fileOpen == Open && outA.Length == outB.Length && outA != outB
      modifies this`playState, this`readStatus, this`playPos, this`ringA, this`ringB, outA, outB
      ensures Valid()
      ensures var p := PlanPeriod(old(playState), old(readStatus), |old(ringA)|, |old(ringB)|, outA.Length);
        && ringA == old(ringA)[p.count..] && ringB == old(ringB)[p.countB..]
        && outA[..] == Output(old(ringA)[..p.count] + old(outA[..])[p.count..], p.count, gain, p.fading)
        && outB[..] == Output(old(ringB)[..p.countB] + old(outB[..])[p.countB..], p.count, gain, p.fading)
        && playState == (if p.fading then Stopped else p.state)
        && playPos == (if p.eof then 0 else Advance(old(playPos), p.count, frames))
        && readStatus == (if p.eof then Seeking else old(readStatus))
    {
      var p := PlanPeriod(playState, readStatus, |ringA|, |ringB|, outA.Length);
      playState := p.state;
      Drain(outA, outB, p.count);
      FinishOutput(outA, p.count, gain, p.fading);
      FinishOutput(outB, p.count, gain, p.fading);
      EndPeriod(p.count, p.eof, p.fading);
    }

    /**
     * `count` samples from ring A and as many as ring B holds, up to that
     * count, copied to the head of the output ports and consumed.
     */
    method Drain(outA: array<real>, outB: array<real>, count: nat)
      requires Valid() && outA.Length == outB.Length && outA != outB
      requires count <= |ringA| && count <= outA.Length
      modifies this`ringA, this`ringB, outA, outB
      ensures Valid()
      ensures ringA == old(ringA)[count..] && ringB == old(ringB)[Min(|old(ringB)|, count)..]
      ensures outA[..] == old(ringA)[..count] + old(outA[..])[count..]
      ensures outB[..] == old(ringB)[..Min(|old(ringB)|, count)] + old(outB[..])[Min(|old(ringB)|, count)..]
    {
      var countB := Min(|ringB|, count);
      CopyInto(outA, ringA[..count]);
      CopyInto(outB, ringB[..countB]);
      ringA := ringA[count..];
      ringB := ringB[countB..];
    }

    /**
     * The end of a period: the position advances by `count` with wrap; a
     * fade stops playback, and the end of the file re-cues to frame 0 with a seek.
     */
    method EndPeriod(count: nat, eof: bool, fading: bool)
      requires Valid() && (eof ==> fading)
      modifies this`playState, this`playPos, this`readStatus
      ensures Valid()
      ensures playState == (if fading then Stopped else old(playState))
      ensures playPos == (if eof then 0 else Advance(old(playPos), count, frames))
      ensures readStatus == (if eof then Seeking else old(readStatus))
    {
      playPos := Advance(playPos, count, frames);
      if fading {
        playState := Stopped;
        if eof {
          playPos := 0;
          readStatus := Seeking;
        }
      }
    }

    /** The shadow is that of `r`, and its reports follow `base` when a callback is set. */
    ghost predicate SentAs(lib: Library, r: NotifyResult, base: seq<Notification>)
      reads this`last, this`reported, this`hasCallback, lib`lastDebug
    {
      Shadow(lib) == r.shadow && reported == base + (if hasCallback then r.reports else [])
    }

    /**
     * For an open file, the transport notification SentAs/TransportSent
     * describes is the one send_notifications(NOTIFY_TRANSPORT) leaves, as
     * Notified states it.
     */
    lemma TransportNotified(lib: Library, before: Observed, base: seq<Notification>)
      requires fileOpen == Open
      ensures Notified(lib, NotifyTransport, before, base) <==>
        SentAs(lib, TransportSent(PlayStateCode(playState), NotifyResult(before, [])), base)
    {
      TransportSentSpec(Current(lib), NotifyResult(before, []));
    }

    /** The MIDI part of on_jack_process for one event (note-off, note-on, pitch-bend). */
    method HandleMidiEvent(lib: Library, ev: MidiEvent)
      requires Valid() && fileOpen == Open
      modifies this`playState, this`readStatus, this`playPos, this`ringA, this`ringB,
               this`pitchShift, this`lastNote, this`pitchBend,
               this`last, this`reported, lib`lastDebug
      ensures Valid() && fileOpen == Open
      ensures View() == MidiApply(old(View()), ev)
      ensures SentAs(lib, EventSent(old(View()), ev, NotifyResult(old(Shadow(lib)), [])), old(reported))
    {
      match ClassifyMidi(ev, lastNote)
      case NoteOff =>
        NoteOff(lib);
      case NoteOn(note) =>
        NoteOn(lib, note);
      case PitchBend(b) =>
        pitchBend := b;
      case NoAction =>
    }

    /** Note-off of the playing note: stop, no pitch shift, no note, and stop_playback's notification. */
    method NoteOff(lib: Library)
      requires Valid() && fileOpen == Open
      modifies this`playState, this`pitchShift, this`lastNote, this`last, this`reported, lib`lastDebug
      ensures Valid()
      ensures View() == old(View()).(playState := if old(playState) == Stopped then Stopped else Stopping,
                                     pitchShift := 0, lastNote := 0)
      ensures SentAs(lib, TransportSent(PlayStateCode(playState), NotifyResult(old(Shadow(lib)), [])), old(reported))
    {
      StopPlayback(lib);
      pitchShift := 0;
      lastNote := 0;
    }

    /**
     * Note-on: stop, shift by the distance from middle C, rewind and start.
     * Two transport notifications go out: stop_playback's against the
     * stopped transport, then start_playback's against the restarted one.
     */
    method NoteOn(lib: Library, note: byte)
      requires Valid() && fileOpen == Open
      modifies this`playState, this`readStatus, this`playPos, this`ringA, this`ringB,
               this`pitchShift, this`lastNote, this`last, this`reported, lib`lastDebug
      ensures Valid()
      ensures View() == old(View()).(playState := Starting, readStatus := Seeking, playPos := 0, ringA := [], ringB := [],
                                     pitchShift := 60 - note as int, lastNote := note)
      ensures SentAs(lib, TransportSent(PlayStateCode(Starting),
                                        TransportSent(PlayStateCode(if old(playState) == Stopped then Stopped else Stopping),
                                                      NotifyResult(old(Shadow(lib)), []))),
                     old(reported))
    {
      ghost var r0, s0 := reported, Shadow(lib);
      StopPlayback(lib);
      ghost var first := TransportSent(PlayStateCode(playState), NotifyResult(s0, []));
      pitchShift := 60 - note as int;
      Restart(lib);
      TransportSentShift(PlayStateCode(Starting), first);
      LogAppend(r0, first.reports, TransportSent(PlayStateCode(Starting), NotifyResult(first.shadow, [])).reports, hasCallback);
      lastNote := note;
    }

    /** set_position(0) then start_playback: rewound, rings emptied, a seek pending, STARTING, and start_playback's notification. */
    method Restart(lib: Library)
      requires Valid() && fileOpen == Open && playState != Playing
      modifies this`playState, this`readStatus, this`playPos, this`ringA, this`ringB, this`last, this`reported, lib`lastDebug
      ensures Valid()
      ensures playState == Starting && readStatus == Seeking && playPos == 0 && ringA == [] && ringB == []
      ensures SentAs(lib, TransportSent(PlayStateCode(playState), NotifyResult(old(Shadow(lib)), [])), old(reported))
    {
      SetPosition(0.0);
      assert playPos == SeekFrame(0.0) == 0;
      StartPlayback(lib);
    }

    /** The MIDI loop of on_jack_process: the events in arrival order, and the notifications MidiSent describes. */
    method HandleMidi(lib: Library, events: seq<MidiEvent>)
      requires Valid() && fileOpen == Open
      modifies this`playState, this`readStatus, this`playPos, this`ringA, this`ringB,
               this`pitchShift, this`lastNote, this`pitchBend,
               this`last, this`reported, lib`lastDebug
      ensures Valid() && fileOpen == Open
      ensures View() == MidiFold(old(View()), events)
      ensures SentAs(lib, MidiSent(old(View()), events, NotifyResult(old(Shadow(lib)), [])), old(reported))
    {
      ghost var v0 := View();
      ghost var acc0 := NotifyResult(Shadow(lib), []);
      ghost var base := reported;
      var i := 0;
      while i < |events|
        invariant i <= |events|
        invariant Valid() && fileOpen == Open
        invariant View() == MidiFold(v0, events[..i])
        invariant SentAs(lib, MidiSent(v0, events[..i], acc0), base)
      {
        ghost var m := MidiSent(v0, events[..i], acc0);
        ghost var e := EventSent(MidiFold(v0, events[..i]), events[i], NotifyResult(m.shadow, []));
        HandleMidiEvent(lib, events[i]);
        MidiSentSnoc(v0, events, i, acc0);
        LogAppend(base, m.reports, e.reports, hasCallback);
        i := i + 1;
      }
      assert events[..i] == events;
    }

    /**
     * on_jack_process: nothing for a player without an open file; otherwise
     * audio, then MIDI, the MIDI events sending the transport notifications
     * MidiSent describes against the transport the audio part left.
     */
    method Render(lib: Library, outA: array<real>, outB: array<real>, events: seq<MidiEvent>)
      requires Valid() && outA.Length == outB.Length && outA != outB
      modifies this`playState, this`readStatus, this`playPos, this`ringA, this`ringB,
               this`pitchShift, this`lastNote, this`pitchBend, this`last, this`reported,
               outA, outB, lib`lastDebug
      ensures Valid() && fileOpen == old(fileOpen)
      ensures old(fileOpen) != Open ==>
        && View() == old(View()) && outA[..] == old(outA[..]) && outB[..] == old(outB[..])
        && Shadow(lib) == old(Shadow(lib)) && reported == old(reported)
      ensures old(fileOpen) == Open ==>
        var p := PlanPeriod(old(playState), old(readStatus), |old(ringA)|, |old(ringB)|, outA.Length);
        var w := old(View()).(playState := if p.fading then Stopped else p.state,
                              readStatus := if p.eof then Seeking else old(readStatus),
                              playPos := if p.eof then 0 else Advance(old(playPos), p.count, old(frames)),
                              ringA := old(ringA)[p.count..], ringB := old(ringB)[p.countB..]);
        && outA[..] == Output(old(ringA)[..p.count] + old(outA[..])[p.count..], p.count, old(gain), p.fading)
        && outB[..] == Output(old(ringB)[..p.countB] + old(outB[..])[p.countB..], p.count, old(gain), p.fading)
        && View() == MidiFold(w, events)
        && SentAs(lib, MidiSent(w, events, NotifyResult(old(Shadow(lib)), [])), old(reported))
    {
      if fileOpen != Open {
        return;
      }
      ghost var p := PlanPeriod(playState, readStatus, |ringA|, |ringB|, outA.Length);
      ghost var v, s0, r0 := View(), Shadow(lib), reported;
      RenderAudio(outA, outB);
      ghost var w := View();
      assert w == v.(playState := if p.fading then Stopped else p.state,
                     readStatus := if p.eof then Seeking else v.readStatus,
                     playPos := if p.eof then 0 else Advance(v.playPos, p.count, frames),
                     ringA := v.ringA[p.count..], ringB := v.ringB[p.countB..]);
      assert Shadow(lib) == s0 && reported == r0;
      ghost var a := outA[..];
      ghost var b := outB[..];
      HandleMidi(lib, events);
      assert outA[..] == a && outB[..] == b;
    }
  }

  /** With no file open, every getter reports its default. */
  lemma ClosedPlayerReportsDefaults(p: Player, lib: Library)
    requires p.fileOpen != Open
    ensures p.PlaybackState() == Stopped && p.Samplerate(lib) == lib.samplerate
    ensures p.Channels() == 0 && p.FileFrames() == 0 && p.Format() == 0 && p.Filename() == []
    ensures p.SrcQuality() == SRC_SINC_FASTEST && p.Gain() == 0.0 && p.TrackA() == 0 && p.TrackB() == 0
    ensures p.Duration() == 0.0 && p.Position() == 0.0 && !p.IsLoop()
  {
  }

  /**
   * Re-seeking to the reported position (as set_track_a and set_track_b do)
   * lands on the current frame when the stored inverse ratio is the inverse
   * of the ratio, i.e. when no pitch shift is in effect.
   */
  lemma {:induction false} PositionRoundTrip(pos: nat, frames: nat, ratio: real, samplerate: nat, fileFrames: nat)
    requires ratio > 0.0 && samplerate > 0 && pos < frames
    requires frames as real <= fileFrames as real * ratio
    ensures var time := (1.0 / ratio) * (pos as real) / (samplerate as real);
      var duration := fileFrames as real / samplerate as real;
      time < duration && PositionTarget(ratio * time * samplerate as real, frames) == pos
  {
    var sr := samplerate as real;
    var p := pos as real;
    var inv := 1.0 / ratio;
    var time := inv * p / sr;
    assert inv * ratio == 1.0;
    DivMulCancel(inv * p, sr);
    assert ratio * time * sr == p by {
      calc {
        ratio * time * sr;
        { MulAssoc(ratio, time, sr); }
        ratio * (time * sr);
        ratio * (inv * p);
        { MulAssoc(ratio, inv, p); }
        (ratio * inv) * p;
        p;
      }
    }
    assert inv * p < fileFrames as real by {
      MulLessLeft(inv, p, fileFrames as real * ratio);
      MulAssoc(inv, fileFrames as real, ratio);
      assert inv * (fileFrames as real * ratio) == fileFrames as real * (inv * ratio);
    }
    DivLess(inv * p, fileFrames as real, sr);
  }

  lemma DivMulCancel(x: real, d: real)
    requires d > 0.0
    ensures x / d * d == x
  {
  }

  lemma MulAssoc(x: real, y: real, z: real)
    ensures x * y * z == x * (y * z)
  {
  }

  lemma MulLessLeft(k: real, x: real, y: real)
    requires k > 0.0 && x < y
    ensures k * x < k * y
  {
  }

  lemma DivLess(x: real, y: real, d: real)
    requires x < y && d > 0.0
    ensures x / d < y / d
  {
  }

  // ---------------------------------------------------------------------------
  // The player table
  // ---------------------------------------------------------------------------

  /** Index of the first empty slot. */
  function FirstFree(s: seq<Player?>, from: nat): (r: Option<nat>)
    ensures r.Some? ==> from <= r.value < |s| && s[r.value] == null
    decreases |s| - from
  {
    if from >= |s| then None
    else if s[from] == null then Some(from)
    else FirstFree(s, from + 1)
  }

  /** FirstFree finds the least empty slot, and finds none only when every slot is taken. */
  lemma {:induction false} FirstFreeIsLeast(s: seq<Player?>, from: nat)
    ensures FirstFree(s, from).Some? ==>
      var i := FirstFree(s, from).value;
      from <= i < |s| && s[i] == null && forall j :: from <= j < i ==> s[j] != null
    ensures FirstFree(s, from).None? ==> forall j :: from <= j < |s| ==> s[j] != null
    decreases |s| - from
  {
    if from < |s| && s[from] != null {
      FirstFreeIsLeast(s, from + 1);
    }
  }

  /** The number of occupied slots. */
  function Occupied(s: seq<Player?>): nat
  {
    if s == [] then 0 else Occupied(s[..|s| - 1]) + (if s[|s| - 1] != null then 1 else 0)
  }

  /** Filling an empty slot adds one to the occupied count; emptying an occupied one removes one. */
  lemma {:induction false} OccupiedUpdate(s: seq<Player?>, i: nat, p: Player?)
    requires i < |s|
    ensures Occupied(s[i := p]) + (if s[i] != null then 1 else 0) == Occupied(s) + (if p != null then 1 else 0)
  {
    if i < |s| - 1 {
      OccupiedUpdate(s[..|s| - 1], i, p);
      assert s[i := p][..|s| - 1] == s[..|s| - 1][i := p];
    } else {
      assert s[i := p][..|s| - 1] == s[..|s| - 1];
    }
  }

  lemma {:induction false} OccupiedBound(s: seq<Player?>)
    ensures Occupied(s) <= |s|
    ensures Occupied(s) == 0 <==> forall j :: 0 <= j < |s| ==> s[j] == null
  {
    if s != [] {
      OccupiedBound(s[..|s| - 1]);
      assert forall j :: 0 <= j < |s| - 1 ==> s[..|s| - 1][j] == s[j];
    }
  }

  datatype Lookup = Rejected | Slot(p: Player?) | PastTable

  /** The library's global state: the player table, the server samplerate and the debug flag. */
  class Library {
    var players: array<Player?>
    var samplerate: nat
    var debug: nat
    var lastDebug: nat

    ghost predicate Valid()
      reads this
    {
      players.Length == MAX_PLAYERS
    }

    constructor ()
      ensures Valid() && fresh(players)
      ensures forall i :: 0 <= i < players.Length ==> players[i] == null
      ensures samplerate == 44100 && debug == 0 && lastDebug == 0
    {
      players := new Player?[MAX_PLAYERS](_ => null);
      samplerate := 44100;
      debug := 0;
      lastDebug := 0;
    }

    /** get_player with the bound it evidently intends: only handles 0..15 reach the table. */
    function GetPlayer(handle: int): (p: Player?)
      requires Valid()
      reads this, players
      ensures p != null ==> 0 <= handle < MAX_PLAYERS && p == players[handle]
      ensures 0 <= handle < MAX_PLAYERS ==> p == players[handle]
    {
      if 0 <= handle < MAX_PLAYERS then players[handle] else null
    }

    /** get_player as written: the guard `handle > MAX_PLAYERS` lets 16 through, one past the table. */
    function GetPlayerAsWritten(handle: int): (r: Lookup)
      requires Valid()
      reads this, players
      ensures r.PastTable? <==> handle == MAX_PLAYERS
      ensures r.Rejected? <==> handle < 0 || handle > MAX_PLAYERS
    {
      if handle > MAX_PLAYERS || handle < 0 then Rejected
      else if handle < players.Length then Slot(players[handle])
      else PastTable
    }

    /** Apart from handle 16, the guard as written and the intended one agree. */
    lemma GetPlayerAgrees(handle: int)
      requires Valid() && handle != MAX_PLAYERS
      ensures GetPlayerAsWritten(handle).Slot? ==> GetPlayerAsWritten(handle).p == GetPlayer(handle)
      ensures GetPlayerAsWritten(handle).Rejected? ==> GetPlayer(handle) == null
    {
    }

    /**
     * init: take the first empty slot with a new player in its initial state
     * and return its index; -1 when all sixteen are taken or the audio server
     * client cannot be set up (the slot then stays empty).
     */
    method Init(jackOk: bool, jackRate: nat) returns (handle: int)
      requires Valid()
      modifies players, this`samplerate
      ensures Valid() && players == old(players)
      ensures FirstFree(old(players[..]), 0).None? || !jackOk ==>
        handle == -1 && players[..] == old(players[..]) && samplerate == old(samplerate)
      ensures FirstFree(old(players[..]), 0).Some? && jackOk ==>
        && handle == FirstFree(old(players[..]), 0).value
        && players[..] == old(players[..])[handle := players[handle]]
        && players[handle] != null && fresh(players[handle])
        && players[handle].Valid() && players[handle].Initialised()
        && players[handle].handle == handle
        && samplerate == jackRate
    {
      var h := 0;
      while h < MAX_PLAYERS && players[h] != null
        invariant h <= MAX_PLAYERS
        invariant forall j :: 0 <= j < h ==> players[j] != null
      {
        h := h + 1;
      }
      FirstFreeIsLeast(players[..], 0);
      if h == MAX_PLAYERS {
        return -1;
      }
      assert FirstFree(players[..], 0) == Some(h) by {
        FirstFreeUnique(players[..], h);
      }
      var p := new Player(h);
      if !jackOk {
        return -1;
      }
      players[h] := p;
      samplerate := jackRate;
      handle := h;
    }

    /**
     * remove_player: unload the player and clear every slot holding it. When
     * no player is left the library's end() runs remove_player over every
     * slot, which finds them all empty and does nothing.
     */
    method RemovePlayer(handle: int)
      requires Valid()
      requires GetPlayer(handle) != null ==> GetPlayer(handle).Valid()
      modifies players, this`lastDebug, GetPlayer(handle)
      ensures Valid() && players == old(players)
      ensures old(GetPlayer(handle)) == null ==> players[..] == old(players[..])
      ensures old(GetPlayer(handle)) != null ==>
        && old(GetPlayer(handle)).fileOpen == Closed
        && forall i :: 0 <= i < MAX_PLAYERS ==>
             players[i] == (if old(players[i]) == old(GetPlayer(handle)) then null else old(players[i]))
    {
      var p := GetPlayer(handle);
      if p == null {
        return;
      }
      p.Unload(this);
      var count := 0;
      var i := 0;
      while i < MAX_PLAYERS
        invariant i <= MAX_PLAYERS && p.fileOpen == Closed
        invariant forall j :: 0 <= j < i ==> players[j] == (if old(players[j]) == p then null else old(players[j]))
        invariant forall j :: i <= j < MAX_PLAYERS ==> players[j] == old(players[j])
      {
        if players[i] == p {
          players[i] := null;
        }
        if players[i] != null {
          count := count + 1;
        }
        i := i + 1;
      }
    }

    /** get_player_count with the test it evidently intends: the number of occupied slots. */
    method PlayerCount() returns (count: nat)
      requires Valid()
      ensures count == Occupied(players[..])
    {
      count := 0;
      var i := 0;
      while i < MAX_PLAYERS
        invariant i <= MAX_PLAYERS
        invariant count == Occupied(players[..i])
      {
        assert players[..i + 1][..i] == players[..i];
        if players[i] != null {
          count := count + 1;
        }
        i := i + 1;
      }
      assert players[..i] == players[..];
    }

    /**
     * get_player_count as written: the loop tests the table itself, which is
     * never NULL, instead of the slot, so every slot is counted.
     */
    method PlayerCountAsWritten() returns (count: nat)
      requires Valid()
      ensures count == MAX_PLAYERS
    {
      count := 0;
      var i := 0;
      while i < MAX_PLAYERS
        invariant i <= MAX_PLAYERS && count == i
      {
        count := count + 1;
        i := i + 1;
      }
    }
  }

  lemma FirstFreeUnique(s: seq<Player?>, h: nat)
    requires h < |s| && s[h] == null && forall j :: 0 <= j < h ==> s[j] != null
    ensures FirstFree(s, 0) == Some(h)
  {
    FirstFreeIsLeast(s, 0);
    if FirstFree(s, 0).Some? {
      var i := FirstFree(s, 0).value;
      assert !(i < h);
      assert !(h < i);
    }
  }

  /** With an empty table the count as written still reports sixteen players. */
  lemma PlayerCountAsWrittenOverstates(s: seq<Player?>)
    requires |s| == MAX_PLAYERS && forall j :: 0 <= j < |s| ==> s[j] == null
    ensures Occupied(s) == 0 != MAX_PLAYERS
  {
    OccupiedBound(s);
  }
}

=== FILE: chain.dfy ===
/**
 * A zynthian chain (zyngine/zynthian_chain.py): a MIDI sub-chain and an
 * audio sub-chain, each a list of slots holding parallel processors, and at
 * most one synth/generator processor between them.
 */
module Chain {
  import opened Wrappers
  import opened PyText

  /** The processor type strings; every type other than the two effect types goes to the synth slot. */
  datatype ProcType = MidiTool | AudioEffect | OtherType(name: string)

  /** A processor, compared by identity as Python objects are; `id` stands for that identity. */
  datatype Processor = Processor(id: nat, ptype: ProcType)

  predicate IsFx(t: ProcType) { t.MidiTool? || t.AudioEffect? }

  const CHAIN_MODE_SERIES: nat := 0
  const CHAIN_MODE_PARALLEL: nat := 1

  type Slots = seq<seq<Processor>>

  // Multiset regrouping steps, each proved element by element.

  lemma Regroup(a: multiset<Processor>, b: multiset<Processor>, c: multiset<Processor>, d: multiset<Processor>, e: multiset<Processor>)
    requires a + b == c + d
    ensures (a + e) + b == (c + e) + d
  {
    assert forall x :: ((a + e) + b)[x] == (a + b)[x] + e[x];
  }

  lemma RegroupInsert(a: multiset<Processor>, b: multiset<Processor>, c: multiset<Processor>, e: multiset<Processor>)
    requires a == b + c
    ensures a + e == (b + e) + c
  {
    assert forall x :: (a + e)[x] == ((b + e) + c)[x];
  }

  lemma RegroupDelete(a: multiset<Processor>, b: multiset<Processor>, c: multiset<Processor>, e: multiset<Processor>)
    requires a + b == c
    ensures (a + e) + b == c + e
  {
    assert forall x :: ((a + e) + b)[x] == (a + b)[x] + e[x];
  }

  lemma CancelAdd(a: multiset<Processor>, b: multiset<Processor>, c: multiset<Processor>, p: Processor)
    requires a + b == c + (b + multiset{p})
    ensures a == c + multiset{p}
  {
    forall x ensures a[x] == (c + multiset{p})[x] {
      assert (a + b)[x] == (c + (b + multiset{p}))[x];
    }
  }

  lemma CancelRemove(a: multiset<Processor>, b: multiset<Processor>, c: multiset<Processor>, p: Processor)
    requires a + b == c + (b - multiset{p}) && p in b
    ensures a == c - multiset{p}
  {
    forall x ensures a[x] == (c - multiset{p})[x] {
      assert (a + b)[x] == (c + (b - multiset{p}))[x];
    }
  }

  lemma CancelSingle(a: multiset<Processor>, c: multiset<Processor>, p: Processor)
    requires a + multiset{p} == c
    ensures a == c - multiset{p}
  {
    forall x ensures a[x] == (c - multiset{p})[x] {
      assert (a + multiset{p})[x] == c[x];
    }
  }

  /** Writing q at index j of a slot trades one occurrence of u[j] for one of q. */
  lemma CancelUpdate(a: multiset<Processor>, c: multiset<Processor>, u: seq<Processor>, j: nat, q: Processor)
    requires j < |u| && a + multiset(u) == c + multiset(u[j := q])
    ensures a + multiset{u[j]} == c + multiset{q}
  {
    assert multiset(u[j := q]) == multiset(u) - multiset{u[j]} + multiset{q};
    forall x ensures (a + multiset{u[j]})[x] == (c + multiset{q})[x] {
      assert (a + multiset(u))[x] == (c + multiset(u[j := q]))[x];
    }
  }

  lemma SwapCancels(r: multiset<Processor>, a: multiset<Processor>, s: multiset<Processor>, p1: Processor, p2: Processor)
    requires a + multiset{p1} == s + multiset{p2} && r + multiset{p2} == a + multiset{p1}
    ensures r == s
  {
    forall x ensures r[x] == s[x] {
      assert (a + multiset{p1})[x] == (s + multiset{p2})[x];
      assert (r + multiset{p2})[x] == (a + multiset{p1})[x];
    }
  }

  /** The processors of the first n slots of a sub-chain, in order. */
  function FlattenUpTo(slots: Slots, n: nat): seq<Processor>
    requires n <= |slots|
  {
    if n == 0 then [] else FlattenUpTo(slots, n - 1) + slots[n - 1]
  }

  /** The processors of a sub-chain, slot by slot. */
  function Flatten(slots: Slots): seq<Processor>
  {
    FlattenUpTo(slots, |slots|)
  }

  /** The processors of the first n slots, counted with multiplicity. */
  function ProcsUpTo(slots: Slots, n: nat): multiset<Processor>
    requires n <= |slots|
  {
    if n == 0 then multiset{} else ProcsUpTo(slots, n - 1) + multiset(slots[n - 1])
  }

  /** The processors of a sub-chain, counted with multiplicity. */
  function Procs(slots: Slots): multiset<Processor>
  {
    ProcsUpTo(slots, |slots|)
  }

  lemma {:induction false} FlattenProcs(slots: Slots, n: nat)
    requires n <= |slots|
    ensures multiset(FlattenUpTo(slots, n)) == ProcsUpTo(slots, n)
  {
    if n > 0 {
      FlattenProcs(slots, n - 1);
    }
  }

  /** Sub-chains that agree on their first n slots hold the same processors there. */
  lemma {:induction false} UpToSame(a: Slots, b: Slots, n: nat)
    requires n <= |a| && n <= |b| && a[..n] == b[..n]
    ensures ProcsUpTo(a, n) == ProcsUpTo(b, n)
  {
    if n > 0 {
      assert a[n - 1] == a[..n][n - 1] == b[..n][n - 1] == b[n - 1];
      assert a[..n - 1] == a[..n][..n - 1];
      assert b[..n - 1] == b[..n][..n - 1];
      UpToSame(a, b, n - 1);
    }
  }

  lemma {:induction false} UpToUpdate(slots: Slots, i: nat, t: seq<Processor>, n: nat)
    requires i < n <= |slots|
    ensures ProcsUpTo(slots[i := t], n) + multiset(slots[i]) == ProcsUpTo(slots, n) + multiset(t)
  {
    var r := slots[i := t];
    if n - 1 == i {
      assert r[..i] == slots[..i];
      UpToSame(slots, r, i);
    } else {
      UpToUpdate(slots, i, t, n - 1);
      assert r[n - 1] == slots[n - 1];
      Regroup(ProcsUpTo(r, n - 1), multiset(slots[i]), ProcsUpTo(slots, n - 1), multiset(t), multiset(slots[n - 1]));
    }
  }

  /** Replacing one slot's contents. */
  lemma ProcsUpdate(slots: Slots, i: nat, t: seq<Processor>)
    requires i < |slots|
    ensures Procs(slots[i := t]) + multiset(slots[i]) == Procs(slots) + multiset(t)
  {
    UpToUpdate(slots, i, t, |slots|);
  }

  lemma {:induction false} UpToInsert(slots: Slots, s: nat, t: seq<Processor>, n: nat)
    requires s <= n <= |slots|
    ensures ProcsUpTo(slots[..s] + [t] + slots[s..], n + 1) == ProcsUpTo(slots, n) + multiset(t)
  {
    var r := slots[..s] + [t] + slots[s..];
    if n == s {
      assert r[..s] == slots[..s];
      UpToSame(slots, r, s);
      assert r[s] == t;
    } else {
      UpToInsert(slots, s, t, n - 1);
      assert r[n] == slots[n - 1];
      RegroupInsert(ProcsUpTo(r, n), ProcsUpTo(slots, n - 1), multiset(t), multiset(slots[n - 1]));
    }
  }

  /** Inserting a slot. */
  lemma ProcsInsert(slots: Slots, s: nat, t: seq<Processor>)
    requires s <= |slots|
    ensures Procs(slots[..s] + [t] + slots[s..]) == Procs(slots) + multiset(t)
  {
    UpToInsert(slots, s, t, |slots|);
  }

  lemma {:induction false} UpToDelete(slots: Slots, i: nat, n: nat)
    requires i < n <= |slots|
    ensures ProcsUpTo(slots[..i] + slots[i + 1..], n - 1) + multiset(slots[i]) == ProcsUpTo(slots, n)
  {
    var r := slots[..i] + slots[i + 1..];
    if n - 1 == i {
      assert r[..i] == slots[..i];
      UpToSame(slots, r, i);
    } else {
      UpToDelete(slots, i, n - 1);
      assert r[n - 2] == slots[n - 1];
      RegroupDelete(ProcsUpTo(r, n - 2), multiset(slots[i]), ProcsUpTo(slots, n - 1), multiset(slots[n - 1]));
    }
  }

  /** Dropping a slot. */
  lemma ProcsDelete(slots: Slots, i: nat)
    requires i < |slots|
    ensures Procs(slots[..i] + slots[i + 1..]) + multiset(slots[i]) == Procs(slots)
  {
    UpToDelete(slots, i, |slots|);
  }

  lemma {:induction false} InProcsUpTo(slots: Slots, p: Processor, n: nat)
    requires n <= |slots|
    ensures p in ProcsUpTo(slots, n) <==> exists i :: 0 <= i < n && p in slots[i]
  {
    if n > 0 {
      InProcsUpTo(slots, p, n - 1);
    }
  }

  /** A processor is in a sub-chain exactly when some slot holds it. */
  lemma InProcs(slots: Slots, p: Processor)
    ensures p in Procs(slots) <==> exists i :: 0 <= i < |slots| && p in slots[i]
  {
    InProcsUpTo(slots, p, |slots|);
  }

  /** No slot is empty: removal drops a slot once its last processor goes. */
  predicate NoEmptySlot(slots: Slots)
  {
    forall i :: 0 <= i < |slots| ==> slots[i] != []
  }

  /** A sub-chain without empty slots and without processors has no slots. */
  lemma EmptyProcs(slots: Slots)
    requires NoEmptySlot(slots) && Procs(slots) == multiset{}
    ensures slots == []
  {
    if slots != [] {
      InProcs(slots, slots[0][0]);
    }
  }

  /** The slot index insert_processor uses once the sub-chain has slots: the requested one, clamped. */
  function InsertIndex(slots: Slots, slot: Option<nat>): nat
  {
    if slot.None? || slot.value > |slots| then |slots| else slot.value
  }

  /**
   * insert_processor for an effect: the first processor opens one slot;
   * otherwise series mode inserts a new slot at the clamped index while
   * parallel mode joins slot index-1 (Python's index -1, the last slot,
   * when the index is 0).
   */
  function InsertSlot(slots: Slots, p: Processor, mode: nat, slot: Option<nat>): Slots
  {
    if |slots| == 0 then [[p]]
    else
      var s := InsertIndex(slots, slot);
      if mode == CHAIN_MODE_SERIES then slots[..s] + [[p]] + slots[s..]
      else
        var k := if s == 0 then |slots| - 1 else s - 1;
        slots[k := slots[k] + [p]]
  }

  /** Insertion adds exactly the one processor. */
  lemma InsertSlotAdds(slots: Slots, p: Processor, mode: nat, slot: Option<nat>)
    ensures Procs(InsertSlot(slots, p, mode, slot)) == Procs(slots) + multiset{p}
  {
    if |slots| == 0 {
      assert Procs([[p]]) == ProcsUpTo([[p]], 0) + multiset([p]);
      assert multiset([p]) == multiset{p};
    } else {
      var s := InsertIndex(slots, slot);
      if mode == CHAIN_MODE_SERIES {
        ProcsInsert(slots, s, [p]);
      } else {
        var k := if s == 0 then |slots| - 1 else s - 1;
        ProcsUpdate(slots, k, slots[k] + [p]);
        assert multiset(slots[k] + [p]) == multiset(slots[k]) + multiset{p};
        CancelAdd(Procs(slots[k := slots[k] + [p]]), multiset(slots[k]), Procs(slots), p);
      }
    }
  }

  /**
   * In series mode the new slot lands at the clamped index with the other
   * slots around it in order; in parallel mode the slot count stays and only
   * the joined slot grows, by the processor at its end.
   */
  /** Insertion always leaves at least one slot. */
  lemma InsertSlotNonEmpty(slots: Slots, p: Processor, mode: nat, slot: Option<nat>)
    ensures |InsertSlot(slots, p, mode, slot)| > 0
  {
    InsertSlotShape(slots, p, mode, slot);
  }

  lemma InsertSlotShape(slots: Slots, p: Processor, mode: nat, slot: Option<nat>)
    ensures var r := InsertSlot(slots, p, mode, slot);
      && (NoEmptySlot(slots) ==> NoEmptySlot(r))
      && (|slots| == 0 ==> r == [[p]])
      && (|slots| > 0 && mode != CHAIN_MODE_SERIES ==>
            var k := if InsertIndex(slots, slot) == 0 then |slots| - 1 else InsertIndex(slots, slot) - 1;
            |r| == |slots| && r[k] == slots[k] + [p] && forall i :: 0 <= i < |r| && i != k ==> r[i] == slots[i])
      && (|slots| > 0 && mode == CHAIN_MODE_SERIES ==>
            var s := InsertIndex(slots, slot);
            |r| == |slots| + 1 && r[s] == [p] && r[..s] == slots[..s] && r[s + 1..] == slots[s..])
  {
  }

  /** list.remove(p): the first occurrence dropped. */
  function RemoveFirst(s: seq<Processor>, p: Processor): (r: seq<Processor>)
    ensures p in s ==> multiset(r) == multiset(s) - multiset{p}
    ensures p !in s ==> r == s
  {
    if s == [] then []
    else
      assert s == [s[0]] + s[1..];
      if s[0] == p then s[1..] else [s[0]] + RemoveFirst(s[1..], p)
  }

  /** remove_processor for an effect in slot i: removed from the slot, the slot dropped when it empties. */
  function RemoveAt(slots: Slots, i: nat, p: Processor): Slots
    requires i < |slots|
  {
    var t := RemoveFirst(slots[i], p);
    if t == [] then slots[..i] + slots[i + 1..] else slots[i := t]
  }

  /** Removing a processor its slot holds takes exactly one occurrence out of the sub-chain. */
  lemma RemoveAtSpec(slots: Slots, i: nat, p: Processor)
    requires i < |slots| && p in slots[i]
    ensures Procs(RemoveAt(slots, i, p)) == Procs(slots) - multiset{p}
    ensures NoEmptySlot(slots) ==> NoEmptySlot(RemoveAt(slots, i, p))
  {
    var t := RemoveFirst(slots[i], p);
    if t == [] {
      ProcsDelete(slots, i);
      assert multiset(slots[i]) == multiset{p} by {
        assert multiset(slots[i]) - multiset{p} == multiset{};
        assert forall x :: multiset(slots[i])[x] == multiset{p}[x];
      }
      CancelSingle(Procs(slots[..i] + slots[i + 1..]), Procs(slots), p);
    } else {
      ProcsUpdate(slots, i, t);
      CancelRemove(Procs(slots[i := t]), multiset(slots[i]), Procs(slots), p);
    }
  }

  /** get_slot's scan of a sub-chain from slot k: the first slot holding the processor. */
  function SlotFrom(slots: Slots, p: Processor, k: nat): (r: Option<nat>)
    ensures r.None? <==> forall i :: k <= i < |slots| ==> p !in slots[i]
    ensures r.Some? ==> k <= r.value < |slots| && p in slots[r.value] && forall j :: k <= j < r.value ==> p !in slots[j]
    decreases |slots| - k
  {
    if k >= |slots| then None
    else if p in slots[k] then Some(k)
    else SlotFrom(slots, p, k + 1)
  }

  /** get_slot for an effect. */
  function SlotOf(slots: Slots, p: Processor): Option<nat>
  {
    SlotFrom(slots, p, 0)
  }

  /** The last index of a processor among the first m entries of a slot. */
  function LastInUpTo(slot: seq<Processor>, p: Processor, m: nat): (r: Option<nat>)
    requires m <= |slot|
    ensures r.Some? ==> r.value < m && slot[r.value] == p && forall j :: r.value < j < m ==> slot[j] != p
    ensures r.None? <==> forall j :: 0 <= j < m ==> slot[j] != p
  {
    if m == 0 then None
    else if slot[m - 1] == p then Some(m - 1)
    else LastInUpTo(slot, p, m - 1)
  }

  /** Where swap_processors's scan of the first n slots leaves a processor: its last (slot, index) in scan order. */
  function LastPosUpTo(slots: Slots, p: Processor, n: nat): (r: Option<(nat, nat)>)
    requires n <= |slots|
    ensures r.Some? ==> r.value.0 < n && r.value.1 < |slots[r.value.0]| && slots[r.value.0][r.value.1] == p
    ensures r.None? <==> forall i :: 0 <= i < n ==> p !in slots[i]
  {
    if n == 0 then None
    else
      var l := LastInUpTo(slots[n - 1], p, |slots[n - 1]|);
      if l.Some? then Some((n - 1, l.value)) else LastPosUpTo(slots, p, n - 1)
  }

  function LastPos(slots: Slots, p: Processor): Option<(nat, nat)>
  {
    LastPosUpTo(slots, p, |slots|)
  }

  /** swap_processors on found positions: each processor written where the other was. */
  function Swapped(slots: Slots, pos1: (nat, nat), pos2: (nat, nat), p1: Processor, p2: Processor): (r: Slots)
    requires pos1.0 < |slots| && pos1.1 < |slots[pos1.0]|
    requires pos2.0 < |slots| && pos2.1 < |slots[pos2.0]|
    ensures |r| == |slots| && forall i :: 0 <= i < |slots| ==> |r[i]| == |slots[i]|
  {
    var a := slots[pos1.0 := slots[pos1.0][pos1.1 := p2]];
    a[pos2.0 := a[pos2.0][pos2.1 := p1]]
  }

  /** A swap keeps the slot shape and the processors and exchanges the two places. */
  lemma SwappedSpec(slots: Slots, pos1: (nat, nat), pos2: (nat, nat), p1: Processor, p2: Processor)
    requires pos1.0 < |slots| && pos1.1 < |slots[pos1.0]| && slots[pos1.0][pos1.1] == p1
    requires pos2.0 < |slots| && pos2.1 < |slots[pos2.0]| && slots[pos2.0][pos2.1] == p2
    ensures var r := Swapped(slots, pos1, pos2, p1, p2);
      && Procs(r) == Procs(slots)
      && (NoEmptySlot(slots) ==> NoEmptySlot(r))
      && r[pos1.0][pos1.1] == (if pos1 == pos2 then p1 else p2) && r[pos2.0][pos2.1] == p1
  {
    var t1 := slots[pos1.0][pos1.1 := p2];
    var a := slots[pos1.0 := t1];
    ProcsUpdate(slots, pos1.0, t1);
    CancelUpdate(Procs(a), Procs(slots), slots[pos1.0], pos1.1, p2);
    assert a[pos2.0][pos2.1] == p2;
    var t2 := a[pos2.0][pos2.1 := p1];
    var r := a[pos2.0 := t2];
    ProcsUpdate(a, pos2.0, t2);
    CancelUpdate(Procs(r), Procs(a), a[pos2.0], pos2.1, p1);
    SwapCancels(Procs(r), Procs(a), Procs(slots), p1, p2);
  }

  // ---------------------------------------------------------------------------
  // The loops of the queries and of swap_processors
  // ---------------------------------------------------------------------------

  /** get_processor_count's accumulation over a sub-chain. */
  method SumLengths(slots: Slots) returns (n: nat)
    ensures n == |Flatten(slots)|
  {
    n := 0;
    var i := 0;
    while i < |slots|
      invariant i <= |slots|
      invariant n == |FlattenUpTo(slots, i)|
    {
      n := n + |slots[i]|;
      i := i + 1;
    }
  }

  /** swap_processors's scan of one sub-chain for both processors. */
  method Locate(slots: Slots, p1: Processor, p2: Processor) returns (pos1: Option<(nat, nat)>, pos2: Option<(nat, nat)>)
    ensures pos1 == LastPos(slots, p1) && pos2 == LastPos(slots, p2)
  {
    pos1, pos2 := None, None;
    var s := 0;
    while s < |slots|
      invariant s <= |slots|
      invariant pos1 == LastPosUpTo(slots, p1, s) && pos2 == LastPosUpTo(slots, p2, s)
    {
      var slot := slots[s];
      var u := 0;
      while u < |slot|
        invariant u <= |slot|
        invariant pos1 == (var l := LastInUpTo(slot, p1, u); if l.Some? then Some((s, l.value)) else LastPosUpTo(slots, p1, s))
        invariant pos2 == (var l := LastInUpTo(slot, p2, u); if l.Some? then Some((s, l.value)) else LastPosUpTo(slots, p2, s))
      {
        if p1 == slot[u] {
          pos1 := Some((s, u));
        }
        if p2 == slot[u] {
          pos2 := Some((s, u));
        }
        u := u + 1;
      }
      s := s + 1;
    }
  }

  /** A sub-chain whose processors all have type t and whose slots are all occupied. */
  ghost predicate TypedSlots(slots: Slots, t: ProcType)
  {
    NoEmptySlot(slots) && forall x :: x in Procs(slots) ==> x.ptype == t
  }

  /** Inserting a processor of the sub-chain's type keeps it typed and adds exactly that processor. */
  lemma InsertTyped(slots: Slots, t: ProcType, p: Processor, mode: nat, slot: Option<nat>)
    requires TypedSlots(slots, t) && p.ptype == t
    ensures TypedSlots(InsertSlot(slots, p, mode, slot), t)
    ensures Procs(InsertSlot(slots, p, mode, slot)) == Procs(slots) + multiset{p}
  {
    InsertSlotAdds(slots, p, mode, slot);
    InsertSlotShape(slots, p, mode, slot);
  }

  /** Removing a processor from the slot holding it keeps the sub-chain typed and takes out one occurrence. */
  lemma RemoveTyped(slots: Slots, t: ProcType, i: nat, p: Processor)
    requires TypedSlots(slots, t) && i < |slots| && p in slots[i]
    ensures TypedSlots(RemoveAt(slots, i, p), t)
    ensures Procs(RemoveAt(slots, i, p)) == Procs(slots) - multiset{p}
  {
    RemoveAtSpec(slots, i, p);
  }

  /** A swap keeps the sub-chain typed. */
  lemma SwapTyped(slots: Slots, t: ProcType, pos1: (nat, nat), pos2: (nat, nat), p1: Processor, p2: Processor)
    requires TypedSlots(slots, t)
    requires pos1.0 < |slots| && pos1.1 < |slots[pos1.0]| && slots[pos1.0][pos1.1] == p1
    requires pos2.0 < |slots| && pos2.1 < |slots[pos2.0]| && slots[pos2.0][pos2.1] == p2
    ensures TypedSlots(Swapped(slots, pos1, pos2, p1, p2), t)
    ensures Procs(Swapped(slots, pos1, pos2, p1, p2)) == Procs(slots)
  {
    SwappedSpec(slots, pos1, pos2, p1, p2);
  }

  /** The synth slot as a multiset. */
  function SynthProcs(synth: Option<Processor>): multiset<Processor>
  {
    if synth.Some? then multiset{synth.value} else multiset{}
  }

  lemma AddFirst(m: multiset<Processor>, m': multiset<Processor>, s: multiset<Processor>, a: multiset<Processor>, p: Processor)
    requires m' == m + multiset{p}
    ensures m' + s + a == (m + s + a) + multiset{p}
  {
    assert forall x :: (m' + s + a)[x] == ((m + s + a) + multiset{p})[x];
  }

  lemma AddLast(m: multiset<Processor>, s: multiset<Processor>, a: multiset<Processor>, a': multiset<Processor>, p: Processor)
    requires a' == a + multiset{p}
    ensures m + s + a' == (m + s + a) + multiset{p}
  {
    assert forall x :: (m + s + a')[x] == ((m + s + a) + multiset{p})[x];
  }

  lemma AddMiddle(m: multiset<Processor>, s: multiset<Processor>, s': multiset<Processor>, a: multiset<Processor>, p: Processor)
    requires s' == s + multiset{p}
    ensures m + s' + a == (m + s + a) + multiset{p}
  {
    assert forall x :: (m + s' + a)[x] == ((m + s + a) + multiset{p})[x];
  }

  lemma RemoveMiddle(m: multiset<Processor>, s: multiset<Processor>, s': multiset<Processor>, a: multiset<Processor>, p: Processor)
    requires s' == s - multiset{p} && p in s
    ensures m + s' + a == (m + s + a) - multiset{p}
  {
    assert forall x :: (m + s' + a)[x] == ((m + s + a) - multiset{p})[x];
  }

  lemma EmptyParts(m: multiset<Processor>, s: multiset<Processor>, a: multiset<Processor>)
    requires m + s + a == multiset{}
    ensures m == multiset{} && s == multiset{} && a == multiset{}
  {
    assert forall x :: (m + s + a)[x] == 0;
  }

  /** Dropping the head of a suffix drops one occurrence of it. */
  lemma SuffixStep(all: seq<Processor>, i: nat)
    requires i < |all|
    ensures all[i] in multiset(all[i..])
    ensures multiset(all[i..]) - multiset{all[i]} == multiset(all[i + 1..])
  {
    assert all[i..] == [all[i]] + all[i + 1..];
  }

  lemma RemoveFirstOf(m: multiset<Processor>, m': multiset<Processor>, s: multiset<Processor>, a: multiset<Processor>, p: Processor)
    requires m' == m - multiset{p} && p in m
    ensures m' + s + a == (m + s + a) - multiset{p}
  {
    assert forall x :: (m' + s + a)[x] == ((m + s + a) - multiset{p})[x];
  }

  lemma RemoveLastOf(m: multiset<Processor>, s: multiset<Processor>, a: multiset<Processor>, a': multiset<Processor>, p: Processor)
    requires a' == a - multiset{p} && p in a
    ensures m + s + a' == (m + s + a) - multiset{p}
  {
    assert forall x :: (m + s + a')[x] == ((m + s + a) - multiset{p})[x];
  }

  // ---------------------------------------------------------------------------
  // The chain
  // ---------------------------------------------------------------------------

  class ZynChain {
    const midiChan: Option<nat>
    var midiSlots: Slots
    var audioSlots: Slots
    var synth: Option<Processor>
    var midiIn: seq<string>
    var midiOut: seq<string>
    var audioIn: seq<string>
    var audioOut: seq<string>
    var midiThru: bool
    var audioThru: bool

    /** Every processor sits in the place its type selects, and no slot is empty. */
    ghost predicate Valid()
      reads this`midiSlots, this`audioSlots, this`synth
    {
      && TypedSlots(midiSlots, MidiTool) && TypedSlots(audioSlots, AudioEffect)
      && (synth.Some? ==> !IsFx(synth.value.ptype))
    }

    /** slot_map[type]. */
    function SlotsOf(t: ProcType): Slots
      requires IsFx(t)
      reads this`midiSlots, this`audioSlots
    {
      if t.MidiTool? then midiSlots else audioSlots
    }

    /** get_processors(): the MIDI sub-chain, the synth, then the audio sub-chain. */
    function AllProcessors(): seq<Processor>
      reads this`midiSlots, this`audioSlots, this`synth
    {
      Flatten(midiSlots) + (if synth.Some? then [synth.value] else []) + Flatten(audioSlots)
    }

    /** The processors of the chain, counted with multiplicity. */
    function AllProcs(): multiset<Processor>
      reads this`midiSlots, this`audioSlots, this`synth
    {
      Procs(midiSlots) + SynthProcs(synth) + Procs(audioSlots)
    }

    /** get_processors lists each processor of the chain as often as it occurs. */
    lemma AllProcessorsCounts()
      ensures multiset(AllProcessors()) == AllProcs()
    {
      FlattenProcs(midiSlots, |midiSlots|);
      FlattenProcs(audioSlots, |audioSlots|);
    }

    /**
     * get_processors() as written: its loop over the MIDI slots rebinds the
     * parameter `slot` to the last MIDI slot, so the test `slot is not None`
     * after it holds and `len(processors) > slot` compares an int with a
     * list, which raises TypeError (None here). A chain without MIDI slots
     * gets the list AllProcessors describes.
     */
    function GetProcessorsAsWritten(): Option<seq<Processor>>
      reads this`midiSlots, this`audioSlots, this`synth
    {
      if |midiSlots| > 0 then None else Some(AllProcessors())
    }

    /**
     * As written, listing a chain raises exactly when the chain holds a MIDI
     * tool, and otherwise agrees with the corrected listing.
     */
    lemma ListingRaisesWithMidiTool()
      requires Valid()
      ensures GetProcessorsAsWritten().None? <==> exists p :: p in AllProcs() && p.ptype == MidiTool
      ensures GetProcessorsAsWritten().Some? ==> GetProcessorsAsWritten().value == AllProcessors()
    {
      if |midiSlots| > 0 {
        InProcs(midiSlots, midiSlots[0][0]);
        assert midiSlots[0][0] in AllProcs();
      }
    }

    /**
     * remove_all_processors as written: the listing raises before anything is
     * removed when the chain has a MIDI slot; otherwise every processor goes.
     */
    method RemoveAllProcessorsAsWritten() returns (raised: bool)
      requires Valid()
      modifies this`midiSlots, this`audioSlots, this`synth
      ensures Valid()
      ensures raised <==> old(GetProcessorsAsWritten()).None?
      ensures raised ==> midiSlots == old(midiSlots) && audioSlots == old(audioSlots) && synth == old(synth)
      ensures !raised ==> midiSlots == [] && audioSlots == [] && synth.None?
    {
      if GetProcessorsAsWritten().None? {
        return true;
      }
      RemoveAllProcessors();
      return false;
    }

    /**
     * get_slot: for an effect, the first slot of its sub-chain that holds it;
     * 0 for the synth; None when absent.
     */
    function GetSlot(p: Processor): (r: Option<nat>)
      reads this`midiSlots, this`audioSlots, this`synth
      ensures IsFx(p.ptype) && r.Some? ==>
        r.value < |SlotsOf(p.ptype)| && p in SlotsOf(p.ptype)[r.value]
        && forall j :: 0 <= j < r.value ==> p !in SlotsOf(p.ptype)[j]
      ensures IsFx(p.ptype) && r.None? ==> forall j :: 0 <= j < |SlotsOf(p.ptype)| ==> p !in SlotsOf(p.ptype)[j]
      ensures !IsFx(p.ptype) ==> r == (if synth == Some(p) then Some(0) else None)
    {
      if IsFx(p.ptype) then SlotOf(SlotsOf(p.ptype), p)
      else if synth == Some(p) then Some(0)
      else None
    }

    /** get_slot finds exactly the processors of the chain. */
    lemma GetSlotFinds(p: Processor)
      requires Valid()
      ensures GetSlot(p).Some? <==> p in AllProcs()
    {
      InProcs(midiSlots, p);
      InProcs(audioSlots, p);
    }

    /** get_slot_count: both sub-chains plus the synth, one sub-chain, or the synth slot. */
    function GetSlotCount(t: Option<ProcType>): nat
      reads this`midiSlots, this`audioSlots, this`synth
    {
      if t.None? then |midiSlots| + |audioSlots| + (if synth.Some? then 1 else 0)
      else if IsFx(t.value) then |SlotsOf(t.value)|
      else if synth.Some? then 1 else 0
    }

    /** The whole-chain slot count is the sum over the three kinds of place. */
    lemma SlotCountSums(other: ProcType)
      requires !IsFx(other)
      ensures GetSlotCount(None) == GetSlotCount(Some(MidiTool)) + GetSlotCount(Some(AudioEffect)) + GetSlotCount(Some(other))
    {
    }

    /**
     * What get_processor_count counts: the whole chain, a whole sub-chain or
     * one of its slots, or the synth for slot 0; a slot given without a type
     * counts nothing.
     */
    function ProcessorCount(t: Option<ProcType>, slot: Option<nat>): (n: nat)
      reads this`midiSlots, this`audioSlots, this`synth
      ensures t.None? && slot.None? ==> n == |AllProcessors()|
      ensures t.Some? && !IsFx(t.value) ==> n <= 1
    {
      if t.None? then (if slot.None? then AllProcessorsCounts(); |AllProcs()| else 0)
      else if IsFx(t.value) then
        (if slot.None? then |Procs(SlotsOf(t.value))|
         else if slot.value < |SlotsOf(t.value)| then |SlotsOf(t.value)[slot.value]| else 0)
      else if slot == Some(0) && synth.Some? then 1 else 0
    }

    /** The whole-chain count is the length of get_processors's list, and the sub-chain counts add up to it. */
    lemma ProcessorCountWhole(other: ProcType)
      requires !IsFx(other)
      ensures ProcessorCount(None, None) == |AllProcessors()|
      ensures ProcessorCount(None, None) ==
              ProcessorCount(Some(MidiTool), None) + ProcessorCount(Some(AudioEffect), None) + ProcessorCount(Some(other), Some(0))
    {
      AllProcessorsCounts();
    }

    /** get_processor_count, by its loops over the slots. */
    method GetProcessorCount(t: Option<ProcType>, slot: Option<nat>) returns (n: nat)
      ensures n == ProcessorCount(t, slot)
    {
      FlattenProcs(midiSlots, |midiSlots|);
      FlattenProcs(audioSlots, |audioSlots|);
      n := 0;
      if t.None? {
        if slot.None? {
          var m := SumLengths(midiSlots);
          var a := SumLengths(audioSlots);
          n := m + a;
          if synth.Some? {
            n := n + 1;
          }
        }
      } else if IsFx(t.value) {
        var slots := SlotsOf(t.value);
        if slot.None? {
          n := SumLengths(slots);
        } else if slot.value < |slots| {
          n := |slots[slot.value]|;
        }
      } else if slot == Some(0) && synth.Some? {
        n := 1;
      }
    }

    /** is_audio */
    predicate IsAudio()
      reads this`audioThru, this`audioSlots, this`synth
    {
      audioThru || |audioSlots| > 0 || synth.Some?
    }

    /** is_midi */
    predicate IsMidi()
      reads this`midiThru, this`midiSlots
    {
      midiThru || |midiSlots| > 0
    }

    /**
     * is_audio holds exactly for a chain that passes audio through or holds
     * a processor other than a MIDI tool (an audio effect or the synth).
     */
    lemma IsAudioMeans()
      requires Valid()
      ensures IsAudio() <==> audioThru || exists p :: p in AllProcs() && p.ptype != MidiTool
    {
      if |audioSlots| > 0 {
        var q := audioSlots[0][0];
        InProcs(audioSlots, q);
        assert q in AllProcs() && q.ptype == AudioEffect;
      }
      if p :| p in AllProcs() && p.ptype != MidiTool {
        if p in Procs(audioSlots) {
          InProcs(audioSlots, p);
        }
      }
    }

    /** is_midi holds exactly for a chain that passes MIDI through or holds a MIDI tool. */
    lemma IsMidiMeans()
      requires Valid()
      ensures IsMidi() <==> midiThru || exists p :: p in AllProcs() && p.ptype == MidiTool
    {
      if |midiSlots| > 0 {
        var q := midiSlots[0][0];
        InProcs(midiSlots, q);
        assert q in AllProcs() && q.ptype == MidiTool;
      }
      if p :| p in AllProcs() && p.ptype == MidiTool {
        if p in Procs(midiSlots) {
          InProcs(midiSlots, p);
        }
      }
    }

    /**
     * insert_processor: an effect goes into its sub-chain (see InsertSlot);
     * any other processor becomes the synth, refused when there is one.
     */
    method InsertProcessor(p: Processor, mode: nat, slot: Option<nat>) returns (ok: bool)
      requires Valid()
      modifies this`midiSlots, this`audioSlots, this`synth
      ensures Valid()
      ensures ok <==> IsFx(p.ptype) || old(synth).None?
      ensures IsFx(p.ptype) ==> SlotsOf(p.ptype) == InsertSlot(old(SlotsOf(p.ptype)), p, mode, slot)
      ensures p.ptype != MidiTool ==> midiSlots == old(midiSlots)
      ensures p.ptype != AudioEffect ==> audioSlots == old(audioSlots)
      ensures synth == if ok && !IsFx(p.ptype) then Some(p) else old(synth)
      ensures ok ==> AllProcs() == old(AllProcs()) + multiset{p}
      ensures ok && p.ptype == MidiTool ==> IsMidi()
      ensures ok && p.ptype != MidiTool ==> IsAudio()
    {
      if IsFx(p.ptype) {
        InsertEffect(p, mode, slot);
      } else {
        if synth.Some? {
          return false;
        }
        AddMiddle(Procs(midiSlots), SynthProcs(None), SynthProcs(Some(p)), Procs(audioSlots), p);
        synth := Some(p);
      }
      return true;
    }

    /** The effect branch of insert_processor: the effect joins its sub-chain, which is then not empty. */
    method InsertEffect(p: Processor, mode: nat, slot: Option<nat>)
      requires Valid() && IsFx(p.ptype)
      modifies this`midiSlots, this`audioSlots
      ensures Valid()
      ensures SlotsOf(p.ptype) == InsertSlot(old(SlotsOf(p.ptype)), p, mode, slot) && |SlotsOf(p.ptype)| > 0
      ensures p.ptype != MidiTool ==> midiSlots == old(midiSlots)
      ensures p.ptype != AudioEffect ==> audioSlots == old(audioSlots)
      ensures AllProcs() == old(AllProcs()) + multiset{p}
    {
      InsertSlotNonEmpty(SlotsOf(p.ptype), p, mode, slot);
      if p.ptype.MidiTool? {
        var m := InsertSlot(midiSlots, p, mode, slot);
        InsertTyped(midiSlots, MidiTool, p, mode, slot);
        AddFirst(Procs(midiSlots), Procs(m), SynthProcs(synth), Procs(audioSlots), p);
        midiSlots := m;
      } else {
        var a := InsertSlot(audioSlots, p, mode, slot);
        InsertTyped(audioSlots, AudioEffect, p, mode, slot);
        AddLast(Procs(midiSlots), SynthProcs(synth), Procs(audioSlots), Procs(a), p);
        audioSlots := a;
      }
    }

    /**
     * remove_processor: refused for a processor get_slot does not find;
     * the synth is cleared, an effect removed from its slot (see RemoveAt).
     */
    method RemoveProcessor(p: Processor) returns (ok: bool)
      requires Valid()
      modifies this`midiSlots, this`audioSlots, this`synth
      ensures Valid()
      ensures ok <==> old(GetSlot(p)).Some?
      ensures ok <==> old(p in AllProcs())
      ensures ok ==> AllProcs() == old(AllProcs()) - multiset{p}
      ensures !ok ==> midiSlots == old(midiSlots) && audioSlots == old(audioSlots) && synth == old(synth)
      ensures ok && IsFx(p.ptype) ==> SlotsOf(p.ptype) == RemoveAt(old(SlotsOf(p.ptype)), old(GetSlot(p)).value, p)
      ensures ok && !IsFx(p.ptype) ==> synth.None?
      ensures p.ptype != MidiTool ==> midiSlots == old(midiSlots)
      ensures p.ptype != AudioEffect ==> audioSlots == old(audioSlots)
    {
      GetSlotFinds(p);
      var slot := GetSlot(p);
      if slot.None? {
        return false;
      }
      if synth == Some(p) {
        RemoveMiddle(Procs(midiSlots), SynthProcs(synth), SynthProcs(None), Procs(audioSlots), p);
        synth := None;
      } else if p.ptype.MidiTool? {
        var m := RemoveAt(midiSlots, slot.value, p);
        RemoveTyped(midiSlots, MidiTool, slot.value, p);
        RemoveFirstOf(Procs(midiSlots), Procs(m), SynthProcs(synth), Procs(audioSlots), p);
        midiSlots := m;
      } else {
        var a := RemoveAt(audioSlots, slot.value, p);
        RemoveTyped(audioSlots, AudioEffect, slot.value, p);
        RemoveLastOf(Procs(midiSlots), SynthProcs(synth), Procs(audioSlots), Procs(a), p);
        audioSlots := a;
      }
      return true;
    }

    /** remove_all_processors: every processor get_processors lists is removed in turn, which empties the chain. */
    method RemoveAllProcessors()
      requires Valid()
      modifies this`midiSlots, this`audioSlots, this`synth
      ensures Valid()
      ensures midiSlots == [] && audioSlots == [] && synth.None?
      ensures IsAudio() == audioThru && IsMidi() == midiThru
    {
      var all := AllProcessors();
      AllProcessorsCounts();
      RemoveEach(all);
      EmptyParts(Procs(midiSlots), SynthProcs(synth), Procs(audioSlots));
      EmptyProcs(midiSlots);
      EmptyProcs(audioSlots);
    }

    /** remove_all_processors's loop: removing a list holding exactly the chain's processors leaves none. */
    method RemoveEach(all: seq<Processor>)
      requires Valid() && AllProcs() == multiset(all)
      modifies this`midiSlots, this`audioSlots, this`synth
      ensures Valid() && AllProcs() == multiset{}
    {
      var i := 0;
      while i < |all|
        invariant i <= |all|
        invariant Valid()
        invariant AllProcs() == multiset(all[i..])
      {
        SuffixStep(all, i);
        var _ := RemoveProcessor(all[i]);
        i := i + 1;
      }
    }

    /**
     * swap_processors: only two effects of the same type, both found, are
     * swapped; each goes where the scan last saw the other.
     */
    method SwapProcessors(p1: Processor, p2: Processor) returns (ok: bool)
      requires Valid()
      modifies this`midiSlots, this`audioSlots
      ensures Valid()
      ensures ok <==> p1.ptype == p2.ptype && IsFx(p1.ptype)
                      && old(LastPos(SlotsOf(p1.ptype), p1)).Some? && old(LastPos(SlotsOf(p1.ptype), p2)).Some?
      ensures ok ==> SlotsOf(p1.ptype) == Swapped(old(SlotsOf(p1.ptype)), old(LastPos(SlotsOf(p1.ptype), p1)).value,
                                                  old(LastPos(SlotsOf(p1.ptype), p2)).value, p1, p2)
      ensures AllProcs() == old(AllProcs())
      ensures p1.ptype != MidiTool || !ok ==> midiSlots == old(midiSlots)
      ensures p1.ptype != AudioEffect || !ok ==> audioSlots == old(audioSlots)
    {
      if p1.ptype != p2.ptype || !IsFx(p1.ptype) {
        return false;
      }
      var pos1, pos2 := Locate(SlotsOf(p1.ptype), p1, p2);
      if pos1.None? || pos2.None? {
        return false;
      }
      var slots := SlotsOf(p1.ptype);
      SwapTyped(slots, p1.ptype, pos1.value, pos2.value, p1, p2);
      Rearrange(p1.ptype, Swapped(slots, pos1.value, pos2.value, p1, p2));
      return true;
    }

    /** Replaces a sub-chain by a rearrangement of the same processors. */
    method Rearrange(t: ProcType, slots: Slots)
      requires Valid() && IsFx(t)
      requires TypedSlots(slots, t) && Procs(slots) == Procs(SlotsOf(t))
      modifies this`midiSlots, this`audioSlots
      ensures Valid()
      ensures SlotsOf(t) == slots
      ensures AllProcs() == old(AllProcs())
      ensures t != MidiTool ==> midiSlots == old(midiSlots)
      ensures t != AudioEffect ==> audioSlots == old(audioSlots)
    {
      if t.MidiTool? {
        midiSlots := slots;
      } else {
        audioSlots := slots;
      }
    }

    /**
     * reset: MIDI input from the router's channel output for a channel below
     * 16 (none otherwise), the default MIDI outputs and audio ports, and
     * every processor removed.
     */
    method Reset()
      requires Valid()
      modifies this`midiIn, this`midiOut, this`audioIn, this`audioOut, this`midiSlots, this`audioSlots, this`synth
      ensures Valid()
      ensures midiIn == if midiChan.Some? && midiChan.value < 16 then ["ZynMidiRouter:ch" + DecStr(midiChan.value) + "_out"] else []
      ensures midiOut == ["MIDI-OUT", "NET-OUT"] && audioIn == ["system"] && audioOut == ["mixer"]
      ensures midiSlots == [] && audioSlots == [] && synth.None?
    {
      if midiChan.Some? && midiChan.value < 16 {
        midiIn := ["ZynMidiRouter:ch" + DecStr(midiChan.value) + "_out"];
      } else {
        midiIn := [];
      }
      midiOut := ["MIDI-OUT", "NET-OUT"];
      audioIn := ["system"];
      audioOut := ["mixer"];
      RemoveAllProcessors();
    }

    /** zynthian_chain(midi_chan, enable_midi_thru, enable_audio_thru): an empty chain, reset. */
    constructor (chan: Option<nat>, enableMidiThru: bool, enableAudioThru: bool)
      ensures Valid() && midiChan == chan && midiThru == enableMidiThru && audioThru == enableAudioThru
      ensures midiSlots == [] && audioSlots == [] && synth.None?
      ensures midiIn == if chan.Some? && chan.value < 16 then ["ZynMidiRouter:ch" + DecStr(chan.value) + "_out"] else []
    {
      midiChan := chan;
      midiThru := enableMidiThru;
      audioThru := enableAudioThru;
      midiSlots := [];
      audioSlots := [];
      synth := None;
      midiIn, midiOut, audioIn, audioOut := [], [], [], [];
      new;
      Reset();
    }
  }

}

=== FILE: chain_manager.dfy ===
/**
 * The chain manager (zyngine/zynthian_chain_manager.py): the table of chains
 * by id, kept in insertion order as a Python dict is, the index of chains by
 * MIDI channel, and the active chain id.
 */
module ChainManager {
  import opened Wrappers
  import opened PyText
  import opened Chain

  // ---------------------------------------------------------------------------
  // Free MIDI channels
  // ---------------------------------------------------------------------------

  /** list(range(16)) */
  function AllChans(): (r: seq<nat>)
    ensures |r| == 16 && forall i :: 0 <= i < 16 ==> r[i] == i
    ensures Increasing(r)
    ensures forall c :: c in r ==> c < 16
    ensures forall c: nat :: c < 16 ==> c in r
  {
    var r: seq<nat> := seq(16, i requires 0 <= i => i as nat);
    assert forall i :: 0 <= i < |r| ==> r[i] < 16;
    forall c: nat | c < 16
      ensures c in r
    {
      assert r[c] == c;
    }
    r
  }

  predicate Increasing(s: seq<nat>)
  {
    forall i, j :: 0 <= i < j < |s| ==> s[i] < s[j]
  }

  /** free_chans.remove(c) inside try/except: the first occurrence goes, an absent value or None is ignored. */
  method DropChan(free: seq<nat>, c: Option<nat>) returns (r: seq<nat>)
    requires Increasing(free)
    ensures Increasing(r)
    ensures forall x :: x in r <==> x in free && c != Some(x)
  {
    if c.None? || c.value !in free {
      return free;
    }
    var i := 0;
    while free[i] != c.value
      invariant i < |free| && c.value in free[i..]
      decreases |free| - i
    {
      i := i + 1;
    }
    r := free[..i] + free[i + 1..];
    forall x ensures x in r <==> x in free && c != Some(x) {
      if x in free && x != c.value {
        var k :| 0 <= k < |free| && free[k] == x;
        if k < i {
          assert r[k] == x;
        } else {
          assert k > i && r[k - 1] == x;
        }
      }
    }
  }

  /** get_free_midi_chans's loop: each chain's channel dropped from list(range(16)) in turn. */
  method FreeChans(chans: seq<Option<nat>>) returns (free: seq<nat>)
    ensures Increasing(free)
    ensures forall c: nat :: c in free <==> c < 16 && Some(c) !in chans
  {
    free := AllChans();
    var i := 0;
    while i < |chans|
      invariant i <= |chans|
      invariant Increasing(free)
      invariant forall c: nat :: c in free <==> c < 16 && Some(c) !in chans[..i]
    {
      free := DropChan(free, chans[i]);
      assert chans[..i + 1] == chans[..i] + [chans[i]];
      i := i + 1;
    }
    assert chans[..i] == chans;
  }

  /** get_next_free_midi_chan: the least free channel from c on, None for the exception raised when there is none. */
  method NextFreeChan(free: seq<nat>, c: nat) returns (r: Option<nat>)
    ensures r.Some? ==> c <= r.value < 16 && r.value in free && forall k :: c <= k < r.value ==> k !in free
    ensures r.None? ==> forall k :: c <= k < 16 ==> k !in free
  {
    var i := c;
    while i < 16
      invariant c <= i
      invariant forall k :: c <= k < i ==> k !in free
    {
      if i in free {
        return Some(i);
      }
      i := i + 1;
    }
    return None;
  }

  // ---------------------------------------------------------------------------
  // Jack names
  // ---------------------------------------------------------------------------

  /** The characters get_next_jackname replaces by '_': whitespace, quote, star and brackets. */
  predicate IsUnsafe(c: char)
  {
    IsSpace(c) || c == '\'' || c == '*' || c == '(' || c == ')' || c == '[' || c == ']'
  }

  function ReplaceUnsafe(s: string): (r: string)
    ensures |r| == |s|
    ensures forall i :: 0 <= i < |s| ==> r[i] == if IsUnsafe(s[i]) then '_' else s[i]
  {
    seq(|s|, i requires 0 <= i < |s| => if IsUnsafe(s[i]) then '_' else s[i])
  }

  /** A run of two or more '_' shrunk to one, scanning from the left. */
  function CollapseUnderscores(s: string): (r: string)
    ensures forall i :: 0 <= i < |r| - 1 ==> !(r[i] == '_' && r[i + 1] == '_')
    ensures |r| <= |s| && (s != [] ==> r != [] && r[0] == s[0])
  {
    if |s| < 2 then s
    else if s[0] == '_' && s[1] == '_' then CollapseUnderscores(s[1..])
    else [s[0]] + CollapseUnderscores(s[1..])
  }

  /** The sanitising of a jack name stub. */
  function Sanitize(s: string): (r: string)
    ensures forall i :: 0 <= i < |r| ==> !IsUnsafe(r[i]) || r[i] == '_'
    ensures forall i :: 0 <= i < |r| - 1 ==> !(r[i] == '_' && r[i + 1] == '_')
  {
    SanitizeChars(ReplaceUnsafe(s));
    CollapseUnderscores(ReplaceUnsafe(s))
  }

  lemma {:induction false} CollapseKeepsChars(s: string, c: char)
    requires c in CollapseUnderscores(s)
    ensures c in s
    decreases |s|
  {
    if |s| >= 2 {
      if s[0] == '_' && s[1] == '_' {
        CollapseKeepsChars(s[1..], c);
      } else if c != s[0] {
        CollapseKeepsChars(s[1..], c);
      }
    }
  }

  lemma SanitizeChars(s: string)
    requires forall i :: 0 <= i < |s| ==> !IsUnsafe(s[i]) || s[i] == '_'
    ensures forall i :: 0 <= i < |CollapseUnderscores(s)| ==> !IsUnsafe(CollapseUnderscores(s)[i]) || CollapseUnderscores(s)[i] == '_'
  {
    var r := CollapseUnderscores(s);
    forall i | 0 <= i < |r|
      ensures !IsUnsafe(r[i]) || r[i] == '_'
    {
      CollapseKeepsChars(s, r[i]);
    }
  }

  /** "{}-{:02d}".format(stub, n) */
  function JackName(stub: string, n: nat): (r: string)
    ensures StartsWith(r, stub)
  {
    stub + "-" + Pad2(n)
  }

  /** The number a jack name built from the stub ends in, -1 for any other string. */
  function JackNumber(stub: string, name: string): int
  {
    if StartsWith(name, stub) && |name| > |stub| && AllDigits(name[|stub| + 1..]) then DigitsValue(name[|stub| + 1..]) else -1
  }

  /** The number reads back from the name, so different numbers give different names. */
  lemma JackNameNumber(stub: string, n: nat)
    ensures JackNumber(stub, JackName(stub, n)) == n
  {
    var r := JackName(stub, n);
    assert r[|stub| + 1..] == Pad2(n);
    Pad2Value(n);
  }

  /**
   * get_next_jackname after sanitising: the names of the existing processors
   * that start with the stub are collected, then the first "stub-NN" from
   * NN = 1 on that is not among them is returned.
   */
  method NextJackName(stub: string, existing: seq<string>) returns (r: string, ghost n: nat)
    ensures n >= 1 && r == JackName(stub, n) && r !in existing
    ensures forall k :: 1 <= k < n ==> JackName(stub, k) in existing
  {
    var names := NamesWithPrefix(stub, existing);
    r, n := FirstFreeName(stub, names);
  }

  /**
   * get_next_jackname as written: the existing names come from
   * get_processors(), which raises for any chain with a MIDI slot (see
   * ZynChain.GetProcessorsAsWritten); `listed` is None then, and the except
   * branch answers "stub-00" whatever names exist.
   */
  method NextJackNameAsWritten(stub: string, listed: Option<seq<string>>) returns (r: string, ghost n: nat)
    ensures r == JackName(stub, n)
    ensures listed.None? ==> n == 0
    ensures listed.Some? ==> n >= 1 && r !in listed.value
    ensures listed.Some? ==> forall k :: 1 <= k < n ==> JackName(stub, k) in listed.value
  {
    if listed.None? {
      return JackName(stub, 0), 0;
    }
    r, n := NextJackName(stub, listed.value);
  }

  /**
   * The fallback name is never one the search gives, and it is the same on
   * every call: two processors named while a MIDI slot exists share it.
   */
  lemma FallbackNameCollides(stub: string, n: nat)
    requires n >= 1
    ensures JackName(stub, 0) != JackName(stub, n)
  {
    JackNameNumber(stub, 0);
    JackNameNumber(stub, n);
  }

  /** The set of existing names that start with the stub. */
  method NamesWithPrefix(stub: string, existing: seq<string>) returns (names: set<string>)
    ensures forall x :: x in names <==> x in existing && StartsWith(x, stub)
  {
    names := {};
    var j := 0;
    while j < |existing|
      invariant j <= |existing|
      invariant forall x :: x in names <==> x in existing[..j] && StartsWith(x, stub)
    {
      if StartsWith(existing[j], stub) {
        names := names + {existing[j]};
      }
      assert existing[..j + 1] == existing[..j] + [existing[j]];
      j := j + 1;
    }
    assert existing[..j] == existing;
  }

  /** The first "stub-NN" from NN = 1 on that is not among the names. */
  method FirstFreeName(stub: string, names: set<string>) returns (r: string, ghost n: nat)
    ensures n >= 1 && r == JackName(stub, n) && r !in names
    ensures forall k :: 1 <= k < n ==> JackName(stub, k) in names
  {
    var i := 1;
    ghost var seen: set<string> := {};
    while JackName(stub, i) in names
      invariant i >= 1 && seen <= names
      invariant forall k :: 1 <= k < i ==> JackName(stub, k) in names
      invariant forall x :: x in seen ==> JackNumber(stub, x) < i
      decreases names - seen
    {
      JackNameNumber(stub, i);
      seen := seen + {JackName(stub, i)};
      i := i + 1;
    }
    r, n := JackName(stub, i), i;
  }

  // ---------------------------------------------------------------------------
  // Processor counts over several chains
  // ---------------------------------------------------------------------------

  /** get_processor_count(None, ...) as written: the loop returns after adding the first chain's count. */
  function FirstCountAsWritten(counts: seq<nat>): nat
  {
    if |counts| == 0 then 0 else counts[0]
  }

  /** The count over all chains that the method documents. */
  function TotalCount(counts: seq<nat>): (r: nat)
    ensures |counts| > 0 ==> r >= counts[0]
  {
    if |counts| == 0 then 0 else counts[0] + TotalCount(counts[1..])
  }

  /** The count of each chain named by ids, in order. */
  ghost function Counts(chains: map<string, ZynChain>, ids: seq<string>, t: Option<ProcType>, slot: Option<nat>): (r: seq<nat>)
    requires forall i :: 0 <= i < |ids| ==> ids[i] in chains
    reads chains.Values
    ensures |r| == |ids|
  {
    if ids == [] then [] else Counts(chains, ids[..|ids| - 1], t, slot) + [chains[ids[|ids| - 1]].ProcessorCount(t, slot)]
  }

  /** The loop of get_processor_count(None, ...) run to the end: every chain's count added up. */
  method CountAll(chains: map<string, ZynChain>, ids: seq<string>, t: Option<ProcType>, slot: Option<nat>) returns (n: nat)
    requires forall i :: 0 <= i < |ids| ==> ids[i] in chains
    ensures n == TotalCount(Counts(chains, ids, t, slot))
  {
    ghost var counts := Counts(chains, ids, t, slot);
    n := 0;
    var i := 0;
    while i < |ids|
      invariant i <= |ids|
      invariant n == TotalCount(counts[..i])
    {
      var k := chains[ids[i]].ProcessorCount(t, slot);
      CountStep(chains, ids, counts, i, t, slot);
      n := n + k;
      i := i + 1;
    }
    assert counts[..i] == counts;
  }

  /** The i-th count is the i-th chain's. */
  lemma {:induction false} CountsAt(chains: map<string, ZynChain>, ids: seq<string>, i: nat, t: Option<ProcType>, slot: Option<nat>)
    requires i < |ids| && forall j :: 0 <= j < |ids| ==> ids[j] in chains
    ensures Counts(chains, ids, t, slot)[i] == chains[ids[i]].ProcessorCount(t, slot)
    decreases |ids|
  {
    if i < |ids| - 1 {
      CountsAt(chains, ids[..|ids| - 1], i, t, slot);
    }
  }

  /** The running total after one more chain. */
  lemma CountStep(chains: map<string, ZynChain>, ids: seq<string>, counts: seq<nat>, i: nat, t: Option<ProcType>, slot: Option<nat>)
    requires i < |ids| && forall j :: 0 <= j < |ids| ==> ids[j] in chains
    requires counts == Counts(chains, ids, t, slot)
    ensures TotalCount(counts[..i + 1]) == TotalCount(counts[..i]) + chains[ids[i]].ProcessorCount(t, slot)
  {
    CountsAt(chains, ids, i, t, slot);
    TotalPrefix(counts, i);
  }

  /** The running total after one more count. */
  lemma TotalPrefix(counts: seq<nat>, i: nat)
    requires i < |counts|
    ensures TotalCount(counts[..i + 1]) == TotalCount(counts[..i]) + counts[i]
  {
    assert counts[..i + 1] == counts[..i] + [counts[i]];
    TotalAppend(counts[..i], counts[i]);
  }

  /** Adding one more chain's count to the running total. */
  lemma {:induction false} TotalAppend(counts: seq<nat>, k: nat)
    ensures TotalCount(counts + [k]) == TotalCount(counts) + k
  {
    if |counts| > 0 {
      assert (counts + [k])[1..] == counts[1..] + [k];
      TotalAppend(counts[1..], k);
    }
  }

  /** With processors only in the second chain the whole-table count comes out 0. */
  lemma FirstCountMissesLaterChains()
    ensures FirstCountAsWritten([0, 1]) == 0 && TotalCount([0, 1]) == 1
  {
  }

  /** The two agree exactly when the later chains are empty of processors. */
  lemma {:induction false} TotalOfFirst(counts: seq<nat>)
    ensures TotalCount(counts) == FirstCountAsWritten(counts) <==> forall i :: 1 <= i < |counts| ==> counts[i] == 0
  {
    if |counts| > 0 {
      TotalZero(counts[1..]);
      assert forall i :: 1 <= i < |counts| ==> counts[i] == counts[1..][i - 1];
    }
  }

  lemma {:induction false} TotalZero(counts: seq<nat>)
    ensures TotalCount(counts) == 0 <==> forall i :: 0 <= i < |counts| ==> counts[i] == 0
  {
    if |counts| > 0 {
      TotalZero(counts[1..]);
      assert forall i :: 1 <= i < |counts| ==> counts[i] == counts[1..][i - 1];
    }
  }

  // ---------------------------------------------------------------------------
  // The manager
  // ---------------------------------------------------------------------------

  /** The ids of a table and its insertion order name the same chains, each once. */
  ghost predicate Keyed(chains: map<string, ZynChain>, order: seq<string>)
  {
    && (forall id :: id in chains <==> id in order)
    && (forall i, j :: 0 <= i < j < |order| ==> order[i] != order[j])
  }

  lemma KeyedAdd(chains: map<string, ZynChain>, order: seq<string>, id: string, chain: ZynChain)
    requires Keyed(chains, order) && id !in chains
    ensures Keyed(chains[id := chain], order + [id])
  {
  }

  lemma KeyedRemove(chains: map<string, ZynChain>, order: seq<string>, id: string)
    requires Keyed(chains, order)
    ensures Keyed(chains - {id}, RemoveId(order, id))
  {
  }

  class ZynChainManager {
    var chains: map<string, ZynChain>
    /** The keys of `chains` in insertion order. */
    var order: seq<string>
    var activeChain: Option<string>
    /** midi_chan_2_chain: the chains of each of the 16 MIDI channels. */
    var chanIndex: seq<set<ZynChain>>

    /**
     * The table and its order hold the same ids, a chain is indexed only
     * under its own channel, and "main" is present. The chains themselves
     * are shared with the callers of add_chain, so their own well-formedness
     * is asked of the callers of the operations that change a chain.
     */
    ghost predicate Valid()
      reads this`chains, this`order, this`chanIndex
    {
      && |chanIndex| == 16
      && Keyed(chains, order)
      && (forall c, x :: 0 <= c < 16 && x in chanIndex[c] ==> x.midiChan == Some(c))
      && "main" in chains
    }

    /** zynthian_chain_manager(): an empty table, then add_chain("main", enable_audio_thru=True). */
    constructor ()
      ensures Valid()
      ensures order == ["main"] && activeChain == Some("main")
      ensures chains["main"].Valid() && chains["main"].midiChan.None? && chains["main"].audioThru && !chains["main"].midiThru
      ensures forall c :: 0 <= c < 16 ==> chanIndex[c] == {}
    {
      var main := new ZynChain(None, false, true);
      chains := map["main" := main];
      order := ["main"];
      activeChain := Some("main");
      chanIndex := seq(16, _ => {});
    }

    /**
     * add_chain: an existing id returns its chain and changes nothing;
     * otherwise a new empty chain is stored, indexed under its channel when
     * that is below 16, and made active.
     */
    method AddChain(id: string, chan: Option<nat>, midiThru: bool, audioThru: bool) returns (chain: ZynChain)
      requires Valid()
      modifies this`chains, this`order, this`chanIndex, this`activeChain
      ensures Valid()
      ensures old(id in chains) ==> chain == old(chains[id]) && chains == old(chains) && order == old(order)
                                    && activeChain == old(activeChain) && chanIndex == old(chanIndex)
      ensures !old(id in chains) ==>
        && fresh(chain) && chain.Valid() && chain.midiChan == chan
        && chain.midiSlots == [] && chain.audioSlots == [] && chain.synth.None?
        && chains == old(chains)[id := chain] && order == old(order) + [id] && activeChain == Some(id)
        && forall c :: 0 <= c < 16 ==> chanIndex[c] == if chan == Some(c) then old(chanIndex[c]) + {chain} else old(chanIndex[c])
    {
      if id in chains {
        return chains[id];
      }
      chain := new ZynChain(chan, midiThru, audioThru);
      KeyedAdd(chains, order, id, chain);
      chains := chains[id := chain];
      order := order + [id];
      if chan.Some? && chan.value < 16 {
        chanIndex := chanIndex[chan.value := chanIndex[chan.value] + {chain}];
      }
      activeChain := Some(id);
    }

    /**
     * remove_chain: an unknown id is refused; otherwise the chain leaves the
     * channel index and is reset, and it leaves the table unless it is "main".
     */
    method RemoveChain(id: string) returns (ok: bool)
      requires Valid()
      requires id in chains ==> chains[id].Valid()
      modifies this`chains, this`order, this`chanIndex, if id in chains then {chains[id]} else {}
      ensures Valid()
      ensures ok <==> old(id in chains)
      ensures !ok ==> chains == old(chains) && order == old(order) && chanIndex == old(chanIndex)
      ensures ok ==> var chain := old(chains[id]);
        && chain.Valid() && chain.midiSlots == [] && chain.audioSlots == [] && chain.synth.None?
        && (forall c :: 0 <= c < 16 ==> chanIndex[c] == old(chanIndex[c]) - {chain})
        && (id == "main" ==> chains == old(chains) && order == old(order))
        && (id != "main" ==> chains == old(chains) - {id} && order == RemoveId(old(order), id))
    {
      if id !in chains {
        return false;
      }
      var chain := chains[id];
      Unindex(chain);
      chain.Reset();
      if id != "main" {
        KeyedRemove(chains, order, id);
        chains := chains - {id};
        order := RemoveId(order, id);
      }
      return true;
    }

    /** midi_chan_2_chain[midi_chan].remove(chain) inside try/except: a missing entry is ignored. */
    method Unindex(chain: ZynChain)
      requires Valid()
      modifies this`chanIndex
      ensures Valid()
      ensures forall c :: 0 <= c < 16 ==> chanIndex[c] == old(chanIndex[c]) - {chain}
    {
      if chain.midiChan.Some? && chain.midiChan.value < 16 {
        var c := chain.midiChan.value;
        chanIndex := chanIndex[c := chanIndex[c] - {chain}];
      }
    }

    /** set_active_chain_by_id: only a known id becomes active; the active id is returned. */
    method SetActiveChainById(id: string) returns (active: Option<string>)
      modifies this`activeChain
      ensures activeChain == if id in chains then Some(id) else old(activeChain)
      ensures active == activeChain
    {
      if id in chains {
        activeChain := Some(id);
      }
      return activeChain;
    }

    /** get_active_chain: None when the active id names no chain. */
    function GetActiveChain(): (r: Option<ZynChain>)
      reads this`activeChain, this`chains
      ensures r.Some? <==> activeChain.Some? && activeChain.value in chains
      ensures r.Some? ==> r.value == chains[activeChain.value]
    {
      if activeChain.Some? && activeChain.value in chains then Some(chains[activeChain.value]) else None
    }

    /** The channel of each chain, in table order. */
    function ChanList(): (r: seq<Option<nat>>)
      requires Valid()
      reads this`chains, this`order, this`chanIndex
      ensures |r| == |order| && forall k :: 0 <= k < |order| ==> r[k] == chains[order[k]].midiChan
    {
      var o, m := order, chains;
      seq(|o|, k requires 0 <= k < |o| && o[k] in m => m[o[k]].midiChan)
    }

    /** get_free_midi_chans: the channels 0..15, ascending, that no chain uses. */
    method GetFreeMidiChans() returns (free: seq<nat>)
      requires Valid()
      ensures Increasing(free)
      ensures forall c: nat :: c in free <==> c < 16 && forall id :: id in chains ==> chains[id].midiChan != Some(c)
    {
      var chans := ChanList();
      free := FreeChans(chans);
      forall c: nat | c < 16 && c !in free
        ensures exists id :: id in chains && chains[id].midiChan == Some(c)
      {
        assert Some(c) in chans;
        var k :| 0 <= k < |chans| && chans[k] == Some(c);
        assert order[k] in chains;
      }
    }

    /** get_next_free_midi_chan: the least free channel from c on, None where no channel is free. */
    method GetNextFreeMidiChan(c: nat) returns (r: Option<nat>)
      requires Valid()
      ensures r.Some? ==> c <= r.value < 16 && forall id :: id in chains ==> chains[id].midiChan != Some(r.value)
      ensures r.Some? ==> forall k :: c <= k < r.value ==> exists id :: id in chains && chains[id].midiChan == Some(k)
      ensures r.None? ==> forall k :: c <= k < 16 ==> exists id :: id in chains && chains[id].midiChan == Some(k)
    {
      var free := GetFreeMidiChans();
      r := NextFreeChan(free, c);
    }

    /**
     * add_processor: None for an unknown chain id or engine type; otherwise
     * the processor is inserted, and returned when insertion succeeded and its
     * engine started. A processor whose engine failed to start stays inserted.
     */
    method AddProcessor(id: string, engType: string, engines: set<string>, p: Processor, mode: nat, slot: Option<nat>,
                        engineStarts: bool) returns (r: Option<Processor>)
      requires id in chains ==> chains[id].Valid()
      modifies if id in chains then {chains[id]} else {}
      ensures id in chains ==> chains[id].Valid()
      ensures id !in chains || engType !in engines ==> r.None?
      ensures r.Some? ==> r.value == p && p in chains[id].AllProcs()
      ensures id in chains && engType in engines ==>
        var ok := IsFx(p.ptype) || old(chains[id].synth).None?;
        (r.Some? <==> ok && engineStarts) && (ok ==> chains[id].AllProcs() == old(chains[id].AllProcs()) + multiset{p})
    {
      if id !in chains || engType !in engines {
        return None;
      }
      var chain := chains[id];
      var ok := chain.InsertProcessor(p, mode, slot);
      if ok && engineStarts {
        return Some(p);
      }
      return None;
    }

    /** get_processor_count as written: for no chain id only the first chain is counted. */
    method GetProcessorCountAsWritten(id: Option<string>, t: Option<ProcType>, slot: Option<nat>) returns (n: nat)
      requires Valid()
      ensures id.None? ==> n == FirstCountAsWritten(Counts(chains, order, t, slot))
      ensures id.Some? ==> n == if id.value in chains then chains[id.value].ProcessorCount(t, slot) else 0
    {
      if id.None? {
        assert "main" in order;
        CountsAt(chains, order, 0, t, slot);
        n := chains[order[0]].GetProcessorCount(t, slot);
        return n;
      }
      if id.value !in chains {
        return 0;
      }
      n := chains[id.value].GetProcessorCount(t, slot);
    }

    /** get_processor_count as documented: for no chain id every chain is counted. */
    method GetProcessorCount(id: Option<string>, t: Option<ProcType>, slot: Option<nat>) returns (n: nat)
      requires Valid()
      ensures id.None? ==> n == TotalCount(Counts(chains, order, t, slot))
      ensures id.Some? ==> n == if id.value in chains then chains[id.value].ProcessorCount(t, slot) else 0
    {
      if id.None? {
        n := CountAll(chains, order, t, slot);
        return n;
      }
      if id.value !in chains {
        return 0;
      }
      n := chains[id.value].GetProcessorCount(t, slot);
    }
  }

  /** The order of ids after dict.pop(id). */
  function RemoveId(order: seq<string>, id: string): (r: seq<string>)
    ensures forall x :: x in r <==> x in order && x != id
    ensures (forall i, j :: 0 <= i < j < |order| ==> order[i] != order[j]) ==> forall i, j :: 0 <= i < j < |r| ==> r[i] != r[j]
  {
    if order == [] then []
    else if order[0] == id then RemoveId(order[1..], id)
    else
      var rest := RemoveId(order[1..], id);
      assert order[0] !in order[1..] ==> order[0] !in rest;
      [order[0]] + rest
  }
}

=== FILE: engine_config.dfy ===
/**
 * The engine configuration read from the environment at start-up: the
 * switch timing, the custom switch actions, the Zynaptik and Zyntof sensors,
 * and the MIDI settings (filter rules, port lists, master channel and the
 * master program/bank change codes).
 *
 * The environment is a parameter. The configuration is an object whose
 * fields the configuration steps assign, as the source assigns its module
 * globals; each step names the fields it may change.
 */
module EngineConfig {
  import opened Wrappers
  import opened PyText
  import ZynConf

  // ---------------------------------------------------------------------------
  // The environment
  // ---------------------------------------------------------------------------

  /** os.environ.get(key, default) */
  function EnvOr(env: map<string, string>, key: string, default: string): string
  {
    if key in env then env[key] else default
  }

  /** os.environ.get(key), None when unset. */
  function EnvGet(env: map<string, string>, key: string): Option<string>
  {
    if key in env then Some(env[key]) else None
  }

  /** int(os.environ.get(key, default)) with an int default: the default itself when unset, None on a ValueError. */
  function EnvInt(env: map<string, string>, key: string, default: int): (r: Option<int>)
    ensures key !in env ==> r == Some(default)
    ensures key in env ==> r == ParseInt(env[key])
  {
    if key in env then ParseInt(env[key]) else Some(default)
  }

  /** int(x) where x may be None (a TypeError): None when unset or not a number. */
  function IntOf(s: Option<string>): Option<int>
  {
    if s.Some? then ParseInt(s.value) else None
  }

  // ---------------------------------------------------------------------------
  // Custom switches
  // ---------------------------------------------------------------------------

  /** The MIDI event a custom switch sends. */
  datatype SwitchEvent = SwitchEvent(evtype: int, chan: Option<int>, num: int, val: int)

  /** The variable configuring switch n (counted from 1): "ZYNTHIAN_WIRING_CUSTOM_SWITCH_{:02d}". */
  function SwitchRoot(n: nat): string
  {
    "ZYNTHIAN_WIRING_CUSTOM_SWITCH_" + Pad2(n)
  }

  predicate IsUiActionType(t: string)
  {
    t == "UI_ACTION_PUSH" || t == "UI_ACTION" || t == "UI_ACTION_RELEASE"
  }

  /**
   * The UI actions of a switch, keyed by press kind: Push, Short, Bold, Long.
   * A push action switch has only a push action; a release action switch has
   * none; any other switch has no actions at all.
   */
  function SwitchUiActions(env: map<string, string>, root: string): map<char, string>
  {
    var t := EnvOr(env, root, "");
    if t == "UI_ACTION_PUSH" then
      map['P' := EnvOr(env, root + "__UI_PUSH", ""), 'S' := "", 'B' := "", 'L' := ""]
    else if t == "UI_ACTION" || t == "UI_ACTION_RELEASE" then
      map['P' := "", 'S' := EnvOr(env, root + "__UI_SHORT", ""), 'B' := EnvOr(env, root + "__UI_BOLD", ""),
          'L' := EnvOr(env, root + "__UI_LONG", "")]
    else map[]
  }

  /** The event type of a MIDI/CV switch type: a status nibble, or a negative code for CV/gate switches. */
  function SwitchEventType(t: string): (r: Option<int>)
    ensures r.Some? ==> r.value in {0xB, 0x9, 0xC, -4, -5, -6, -7}
    ensures r.Some? ==> t != "" && !IsUiActionType(t)
  {
    if t == "MIDI_CC" then Some(0xB)
    else if t == "MIDI_NOTE" then Some(0x9)
    else if t == "MIDI_PROG_CHANGE" then Some(0xC)
    else if t == "CVGATE_IN" then Some(-4)
    else if t == "CVGATE_OUT" then Some(-5)
    else if t == "GATE_OUT" then Some(-6)
    else if t == "MIDI_CC_SWITCH" then Some(-7)
    else None
  }

  /** int(chan) - 1 when that is a MIDI channel, None otherwise. */
  function MidiChannel(s: Option<string>): (r: Option<int>)
    ensures r.Some? <==> IntOf(s).Some? && 1 <= IntOf(s).value <= 16
    ensures r.Some? ==> 0 <= r.value <= 15 && r.value == IntOf(s).value - 1
  {
    var v := IntOf(s);
    if v.Some? && 0 <= v.value - 1 <= 15 then Some(v.value - 1) else None
  }

  /** int(num) when that is a MIDI number 0..127, None otherwise. */
  function MidiNumber(s: Option<string>): (r: Option<int>)
    ensures r.Some? <==> IntOf(s).Some? && 0 <= IntOf(s).value <= 127
    ensures r.Some? ==> r.value == IntOf(s).value
  {
    var v := IntOf(s);
    if v.Some? && 0 <= v.value <= 127 then v else None
  }

  /** int(val) clamped to 0..127, or 0 when it does not parse. */
  function ClampedValue(s: Option<string>): (r: int)
    ensures 0 <= r <= 127
    ensures IntOf(s).None? ==> r == 0
    ensures IntOf(s).Some? && 0 <= IntOf(s).value <= 127 ==> r == IntOf(s).value
    ensures IntOf(s).Some? && IntOf(s).value > 127 ==> r == 127
    ensures IntOf(s).Some? && IntOf(s).value < 0 ==> r == 0
  {
    var v := IntOf(s);
    if v.None? then 0 else if v.value > 127 then 127 else if v.value < 0 then 0 else v.value
  }

  /** The variable holding the number: the CV channel for CV/gate inputs and outputs, the MIDI number otherwise. */
  function NumKey(root: string, evtype: int): string
  {
    if evtype == -4 || evtype == -5 then root + "__CV_CHAN" else root + "__MIDI_NUM"
  }

  /** The MIDI event of a switch: there is one exactly when its type is a MIDI/CV type and its number is 0..127. */
  function SwitchMidiEvent(env: map<string, string>, root: string): Option<SwitchEvent>
  {
    var evtype := SwitchEventType(EnvOr(env, root, ""));
    if evtype.None? then None
    else
      var num := MidiNumber(EnvGet(env, NumKey(root, evtype.value)));
      if num.None? then None
      else
        Some(SwitchEvent(evtype.value, MidiChannel(EnvGet(env, root + "__MIDI_CHAN")), num.value,
                         ClampedValue(EnvGet(env, root + "__MIDI_VAL"))))
  }

  /**
   * A switch has the four press kinds exactly when its type is a UI action
   * type; a push action switch has only a push action, a release action
   * switch no push action.
   */
  lemma SwitchUiActionsSpec(env: map<string, string>, root: string)
    ensures var r, t := SwitchUiActions(env, root), EnvOr(env, root, "");
      && (r.Keys == {} || r.Keys == {'P', 'S', 'B', 'L'})
      && (r.Keys != {} <==> IsUiActionType(t))
      && (t == "UI_ACTION_PUSH" ==> r['S'] == r['B'] == r['L'] == "")
      && (IsUiActionType(t) && t != "UI_ACTION_PUSH" ==> r['P'] == "")
  {
    if IsUiActionType(EnvOr(env, root, "")) {
      assert 'P' in SwitchUiActions(env, root);
    }
  }

  /** A switch has a MIDI event exactly when its type is a MIDI/CV type and its number is 0..127. */
  lemma SwitchMidiEventSpec(env: map<string, string>, root: string)
    ensures var r, t := SwitchMidiEvent(env, root), SwitchEventType(EnvOr(env, root, ""));
      && (r.Some? <==> t.Some? && MidiNumber(EnvGet(env, NumKey(root, t.value))).Some?)
      && (r.Some? ==> Some(r.value.evtype) == t)
      && (r.Some? ==> 0 <= r.value.num <= 127 && 0 <= r.value.val <= 127)
      && (r.Some? && r.value.chan.Some? ==> 0 <= r.value.chan.value <= 15)
  {
  }

  /** A switch has UI actions or a MIDI event, never both. */
  lemma SwitchKindsExclusive(env: map<string, string>, root: string)
    ensures SwitchUiActions(env, root) == map[] || SwitchMidiEvent(env, root).None?
  {
  }

  /** A MIDI switch configured with a channel, number and value in range sends exactly that event. */
  lemma SwitchEventRoundTrip(env: map<string, string>, root: string, evtype: int, c: nat, n: nat, v: nat)
    requires SwitchEventType(EnvOr(env, root, "")) == Some(evtype) && evtype != -4 && evtype != -5
    requires c <= 15 && n <= 127 && v <= 127
    requires root + "__MIDI_CHAN" in env && env[root + "__MIDI_CHAN"] == IntStr(c + 1)
    requires root + "__MIDI_NUM" in env && env[root + "__MIDI_NUM"] == IntStr(n)
    requires root + "__MIDI_VAL" in env && env[root + "__MIDI_VAL"] == IntStr(v)
    ensures SwitchMidiEvent(env, root) == Some(SwitchEvent(evtype, Some(c), n, v))
  {
    ParseIntStr(c + 1);
    ParseIntStr(n);
    ParseIntStr(v);
    assert NumKey(root, evtype) == root + "__MIDI_NUM";
    assert MidiNumber(EnvGet(env, root + "__MIDI_NUM")) == Some(n);
    assert MidiChannel(EnvGet(env, root + "__MIDI_CHAN")) == Some(c);
    assert ClampedValue(EnvGet(env, root + "__MIDI_VAL")) == v;
  }

  /** [f(1), ..., f(n)]: what a loop over 1..n appending f(i) builds. */
  function Numbered<T>(f: nat -> T, n: nat): (r: seq<T>)
    ensures |r| == n
  {
    if n == 0 then [] else Numbered(f, n - 1) + [f(n)]
  }

  /** Entry k of a numbered list is the entry for k + 1. */
  lemma {:induction false} NumberedAt<T>(f: nat -> T, n: nat, k: nat)
    requires k < n
    ensures Numbered(f, n)[k] == f(k + 1)
    decreases n
  {
    if k < n - 1 {
      NumberedAt(f, n - 1, k);
    }
  }

  /** The UI actions of switches 1..n. */
  function SwitchActionsList(env: map<string, string>, n: nat): (r: seq<map<char, string>>)
    ensures |r| == n
  {
    Numbered(i => SwitchUiActions(env, SwitchRoot(i)), n)
  }

  /** The MIDI events of switches 1..n. */
  function SwitchEventsList(env: map<string, string>, n: nat): (r: seq<Option<SwitchEvent>>)
    ensures |r| == n
  {
    Numbered(i => SwitchMidiEvent(env, SwitchRoot(i)), n)
  }

  /** Entry k of the lists describes switch k + 1. */
  lemma SwitchListsAt(env: map<string, string>, n: nat, k: nat)
    requires k < n
    ensures SwitchActionsList(env, n)[k] == SwitchUiActions(env, SwitchRoot(k + 1))
    ensures SwitchEventsList(env, n)[k] == SwitchMidiEvent(env, SwitchRoot(k + 1))
  {
    NumberedAt(i => SwitchUiActions(env, SwitchRoot(i)), n, k);
    NumberedAt(i => SwitchMidiEvent(env, SwitchRoot(i)), n, k);
  }


  // ---------------------------------------------------------------------------
  // Zynaptik and Zyntof sensors
  // ---------------------------------------------------------------------------

  /** The MIDI event of a sensor: no value, the sensor supplies it. */
  datatype SensorEvent = SensorEvent(evtype: int, chan: Option<int>, num: int)

  function SensorEventType(t: string): (r: Option<int>)
    ensures r.Some? ==> r.value in {0xB, 0xE, 0xD}
  {
    if t == "MIDI_CC" then Some(0xB)
    else if t == "MIDI_PITCH_BEND" then Some(0xE)
    else if t == "MIDI_CHAN_PRESS" then Some(0xD)
    else None
  }

  /** get_zynsensor_config: the event of a sensor, when its type is known and its number is 0..127. */
  function ZynsensorConfig(env: map<string, string>, root: string): Option<SensorEvent>
  {
    var evtype := SensorEventType(EnvOr(env, root, ""));
    if evtype.None? then None
    else
      var num := MidiNumber(EnvGet(env, root + "__MIDI_NUM"));
      if num.None? then None
      else Some(SensorEvent(evtype.value, MidiChannel(EnvGet(env, root + "__MIDI_CHAN")), num.value))
  }

  /** A sensor has an event exactly when its type is known and its number is 0..127; its channel is 0..15. */
  lemma ZynsensorSpec(env: map<string, string>, root: string)
    ensures var r := ZynsensorConfig(env, root);
      && (r.Some? <==> SensorEventType(EnvOr(env, root, "")).Some? && MidiNumber(EnvGet(env, root + "__MIDI_NUM")).Some?)
      && (r.Some? ==> Some(r.value.evtype) == SensorEventType(EnvOr(env, root, "")))
      && (r.Some? ==> 0 <= r.value.num <= 127 && (r.value.chan.Some? ==> 0 <= r.value.chan.value <= 15))
  {
  }

  /** A sensor configured with a channel and number in range sends exactly that event. */
  lemma SensorRoundTrip(env: map<string, string>, root: string, evtype: int, c: nat, n: nat)
    requires SensorEventType(EnvOr(env, root, "")) == Some(evtype)
    requires c <= 15 && n <= 127
    requires root + "__MIDI_CHAN" in env && env[root + "__MIDI_CHAN"] == IntStr(c + 1)
    requires root + "__MIDI_NUM" in env && env[root + "__MIDI_NUM"] == IntStr(n)
    ensures ZynsensorConfig(env, root) == Some(SensorEvent(evtype, Some(c), n))
  {
    ParseIntStr(c + 1);
    ParseIntStr(n);
  }

  /** The events of sensors prefix01 .. prefix{n:02d}. */
  function SensorList(env: map<string, string>, prefix: string, n: nat): (r: seq<Option<SensorEvent>>)
    ensures |r| == n
  {
    Numbered(i => ZynsensorConfig(env, prefix + Pad2(i)), n)
  }

  /** Entry k of the list describes sensor k + 1. */
  lemma SensorListAt(env: map<string, string>, prefix: string, n: nat, k: nat)
    requires k < n
    ensures SensorList(env, prefix, n)[k] == ZynsensorConfig(env, prefix + Pad2(k + 1))
  {
    NumberedAt(i => ZynsensorConfig(env, prefix + Pad2(i)), n, k);
  }

  /** Python's `sub in s` for strings. */
  predicate Contains(s: string, sub: string)
    decreases |s|
  {
    StartsWith(s, sub) || (s != [] && Contains(s[1..], sub))
  }

  const ZYNAPTIK_CONFIG := "ZYNTHIAN_WIRING_ZYNAPTIK_CONFIG"
  const ZYNAPTIK_AD := "ZYNTHIAN_WIRING_ZYNAPTIK_AD"
  const ZYNAPTIK_DA := "ZYNTHIAN_WIRING_ZYNAPTIK_DA"
  const ZYNTOF_CONFIG := "ZYNTHIAN_WIRING_ZYNTOF_CONFIG"
  const ZYNTOF := "ZYNTHIAN_WIRING_ZYNTOF"

  /** The number of Zyntof sensors: 0 when unset or empty, None when int() fails. */
  function ZyntofCount(env: map<string, string>): Option<int>
  {
    var c := EnvOr(env, ZYNTOF_CONFIG, "");
    if c == "" then Some(0) else ParseInt(c)
  }

  // ---------------------------------------------------------------------------
  // Master channel and its program/bank change codes
  // ---------------------------------------------------------------------------

  /** The configured one-based master channel, made zero-based and capped at 15; negative means none. */
  function MasterChannel(v: int): (r: int)
    ensures r <= 15
    ensures v <= 16 ==> r == v - 1
    ensures v > 16 ==> r == 15
  {
    if v - 1 > 15 then 15 else v - 1
  }

  /** hex(ch)[2]: the lower-case hex digit of a channel. */
  function HexChar(d: nat): char
    requires d < 16
  {
    "0123456789abcdef"[d]
  }

  /** The hex digit of the master channel, when there is one. */
  function ChannelHex(ch: int): (r: Option<char>)
    ensures r.Some? <==> 0 <= ch <= 15
  {
    if 0 <= ch <= 15 then Some(HexChar(ch)) else None
  }

  function HexDigitValue(c: char): (r: Option<nat>)
    ensures r.Some? ==> r.value < 16
  {
    if '0' <= c <= '9' then Some(c as int - '0' as int)
    else if 'a' <= c <= 'f' then Some(c as int - 'a' as int + 10)
    else if 'A' <= c <= 'F' then Some(c as int - 'A' as int + 10)
    else None
  }

  lemma HexCharValue(d: nat)
    requires d < 16
    ensures HexDigitValue(HexChar(d)) == Some(d)
  {
  }

  predicate IsHex(s: string)
  {
    forall i :: 0 <= i < |s| ==> HexDigitValue(s[i]).Some?
  }

  function Pow16(n: nat): (r: nat)
    ensures r >= 1
  {
    if n == 0 then 1 else 16 * Pow16(n - 1)
  }

  /** The value of a string of hex digits. */
  function HexValue(s: string): nat
    requires IsHex(s)
  {
    if s == [] then 0 else HexValue(s[..|s| - 1]) * 16 + HexDigitValue(s[|s| - 1]).value
  }

  /** A string of n hex digits is worth less than 16^n. */
  lemma {:induction false} HexValueBound(s: string)
    requires IsHex(s)
    ensures HexValue(s) < Pow16(|s|)
    decreases |s|
  {
    if s != [] {
      var s' := s[..|s| - 1];
      assert IsHex(s');
      HexValueBound(s');
      var v, p := HexValue(s'), Pow16(|s'|);
      assert v + 1 <= p;
      assert v * 16 + 16 <= p * 16;
    }
  }

  /**
   * int(s, 16) on plain hex digits; anything else is the ValueError, None.
   * Whitespace around the digits, a sign, a "0x" prefix and '_' between
   * digits, which int also accepts, are not modelled.
   */
  function ParseHex(s: string): (r: Option<nat>)
    ensures r.Some? <==> s != [] && IsHex(s)
  {
    if s != [] && IsHex(s) then Some(HexValue(s)) else None
  }

  /** s.replace('#', c) */
  function FillChannel(s: string, c: char): (r: string)
    ensures |r| == |s|
  {
    seq(|s|, i requires 0 <= i < |s| => if s[i] == '#' then c else s[i])
  }

  /** '{:<06}'.format(t): t followed by '0's up to six characters. */
  function PadRight6(t: string): (r: string)
    ensures |r| == if |t| <= 6 then 6 else |t|
    ensures r[..|t|] == t && forall i :: |t| <= i < |r| ==> r[i] == '0'
  {
    if |t| >= 6 then t else t + seq(6 - |t|, _ => '0')
  }

  /** A master change code: not configured, the code, or a pattern int(…, 16) rejects. */
  datatype Code = NoCode | Code(value: nat) | BadHex

  /**
   * A master program/bank change pattern: used only when there is a master
   * channel and the pattern has `width` characters; '#' stands for the
   * channel's hex digit, and the pattern is padded to six hex digits.
   */
  function MasterCode(pattern: string, mmc: Option<char>, width: nat): Code
  {
    if mmc.None? || |pattern| != width then NoCode
    else
      var h := ParseHex(PadRight6(FillChannel(pattern, mmc.value)));
      if h.None? then BadHex else Code(h.value)
  }

  /** The value a code gives its setting: the code, or None. */
  function CodeValue(c: Code): Option<nat>
  {
    if c.Code? then Some(c.value) else None
  }

  lemma {:induction false} HexValueConcat(a: string, b: string)
    requires IsHex(a) && IsHex(b)
    ensures IsHex(a + b) && HexValue(a + b) == HexValue(a) * Pow16(|b|) + HexValue(b)
    decreases |b|
  {
    if b == [] {
      assert a + b == a;
    } else {
      var b', c := b[..|b| - 1], b[|b| - 1];
      assert IsHex(b');
      assert a + b == (a + b') + [c];
      HexValueConcat(a, b');
      HexValueSnoc(a + b', c);
      HexValueSnoc(b', c);
      assert b' + [c] == b;
      ShiftNibble(HexValue(a), Pow16(|b'|), HexValue(b'), HexDigitValue(c).value);
    }
  }

  lemma HexValueSnoc(s: string, c: char)
    requires IsHex(s) && HexDigitValue(c).Some?
    ensures IsHex(s + [c]) && HexValue(s + [c]) == HexValue(s) * 16 + HexDigitValue(c).value
  {
    assert (s + [c])[..|s|] == s;
  }

  lemma ShiftNibble(x: nat, p: nat, y: nat, d: nat)
    ensures (x * p + y) * 16 + d == x * (16 * p) + (y * 16 + d)
  {
  }

  lemma {:induction false} ZerosHex(k: nat)
    ensures IsHex(seq(k, _ => '0')) && HexValue(seq(k, _ => '0')) == 0
  {
    if k > 0 {
      assert seq(k, _ => '0')[..k - 1] == seq(k - 1, _ => '0');
      ZerosHex(k - 1);
    }
  }

  /** Every code fits in three bytes, a whole MIDI message. */
  lemma CodeFits(pattern: string, mmc: Option<char>, width: nat)
    requires width <= 6
    ensures MasterCode(pattern, mmc, width).Code? ==> MasterCode(pattern, mmc, width).value < 0x100_0000
  {
    if MasterCode(pattern, mmc, width).Code? {
      HexValueBound(PadRight6(FillChannel(pattern, mmc.value)));
      assert Pow16(6) == 0x100_0000;
    }
  }

  /** A four-character program change pattern leaves the last byte of its code zero. */
  lemma ProgramCodePadded(pattern: string, mmc: Option<char>)
    ensures MasterCode(pattern, mmc, 4).Code? ==> MasterCode(pattern, mmc, 4).value % 0x100 == 0
  {
    if MasterCode(pattern, mmc, 4).Code? {
      var t := FillChannel(pattern, mmc.value);
      var p := PadRight6(t);
      assert p == t + seq(2, _ => '0');
      assert IsHex(t) by {
        forall i | 0 <= i < |t| ensures HexDigitValue(t[i]).Some? {
          assert p[i] == t[i];
        }
      }
      ZerosHex(2);
      HexValueConcat(t, seq(2, _ => '0'));
      assert Pow16(2) == 0x100;
    }
  }

  /** The digit at `i` of a six-digit string, as the nibble it sets in the value. */
  lemma {:induction false} NibbleAt(h: string, i: nat)
    requires IsHex(h) && i < |h|
    ensures HexValue(h) / Pow16(|h| - 1 - i) % 16 == HexDigitValue(h[i]).value
  {
    var hi, lo := h[..i + 1], h[i + 1..];
    assert h == hi + lo;
    assert hi[..i] + [h[i]] == hi;
    assert IsHex(hi[..i]) && IsHex(lo) && IsHex(hi);
    HexValueConcat(hi, lo);
    var d := HexDigitValue(h[i]).value;
    var x := HexValue(hi[..i]);
    var m := Pow16(|lo|);
    assert HexValue(hi) == x * 16 + d;
    HexValueBound(lo);
    DivNibble(x, d, m, HexValue(lo));
  }

  lemma DivNibble(x: nat, d: nat, m: nat, y: nat)
    requires d < 16 && y < m
    ensures ((x * 16 + d) * m + y) / m % 16 == d
  {
    var q := x * 16 + d;
    assert (q * m + y) / m == q by {
      DivPlus(q, m, y);
    }
    assert q % 16 == d;
  }

  lemma DivPlus(q: nat, m: nat, y: nat)
    requires y < m
    ensures (q * m + y) / m == q
  {
    var n := q * m + y;
    var z, r := n / m, n % m;
    assert n == z * m + r && 0 <= r < m;
    assert (z - q) * m == y - r;
    if z > q {
      MulAtLeast(z - q, m);
    } else if z < q {
      MulAtLeast(q - z, m);
    }
  }

  lemma MulAtLeast(a: int, m: nat)
    requires a >= 1
    ensures a * m >= m
  {
  }

  /**
   * Each '#' of a pattern becomes the master channel's nibble of the code:
   * at position i of the six padded digits, the nibble of weight 16^(5-i).
   */
  lemma CodeChannelNibble(pattern: string, ch: nat, width: nat, i: nat)
    requires ch <= 15 && width <= 6 && i < |pattern| == width && pattern[i] == '#'
    requires MasterCode(pattern, Some(HexChar(ch)), width).Code?
    ensures MasterCode(pattern, Some(HexChar(ch)), width).value / Pow16(5 - i) % 16 == ch
  {
    var t := FillChannel(pattern, HexChar(ch));
    var p := PadRight6(t);
    assert p[i] == t[i] == HexChar(ch);
    NibbleAt(p, i);
    HexCharValue(ch);
  }

  /** A pattern of hex digits and '#' always gives a code, for either width, when there is a master channel. */
  lemma HexPatternAccepted(pattern: string, ch: nat, width: nat)
    requires ch <= 15 && |pattern| == width && width <= 6 && width > 0
    requires forall i :: 0 <= i < |pattern| ==> pattern[i] == '#' || HexDigitValue(pattern[i]).Some?
    ensures MasterCode(pattern, Some(HexChar(ch)), width).Code?
  {
    var t := FillChannel(pattern, HexChar(ch));
    var p := PadRight6(t);
    HexCharValue(ch);
    forall i | 0 <= i < |p| ensures HexDigitValue(p[i]).Some? {
      if i < |t| {
        assert p[i] == t[i];
      }
    }
  }

  // ---------------------------------------------------------------------------
  // MIDI settings
  // ---------------------------------------------------------------------------

  const FILTER_RULES := "ZYNTHIAN_MIDI_FILTER_RULES"
  const MIDI_PORTS := "ZYNTHIAN_MIDI_PORTS"
  /**
   * The output port of the default ZYNTHIAN_MIDI_PORTS text
   * "DISABLED_IN=\nENABLED_OUT=ttymidi:MIDI_out\nENABLED_FB=": it disables
   * no input, enables this one output and no feedback port.
   */
  const DEFAULT_OUT_PORT := "ttymidi:MIDI_out"
  const MASTER_CHANNEL := "ZYNTHIAN_MIDI_MASTER_CHANNEL"
  const MASTER_CHANGE_TYPE := "ZYNTHIAN_MIDI_MASTER_CHANGE_TYPE"
  const BANK_CHANGE_CCNUM := "ZYNTHIAN_MIDI_MASTER_BANK_CHANGE_CCNUM"
  const PROGRAM_CHANGE_UP := "ZYNTHIAN_MIDI_MASTER_PROGRAM_CHANGE_UP"
  const PROGRAM_CHANGE_DOWN := "ZYNTHIAN_MIDI_MASTER_PROGRAM_CHANGE_DOWN"
  const BANK_CHANGE_UP := "ZYNTHIAN_MIDI_MASTER_BANK_CHANGE_UP"
  const BANK_CHANGE_DOWN := "ZYNTHIAN_MIDI_MASTER_BANK_CHANGE_DOWN"

  /** The ZYNTHIAN_MIDI_FILTER_RULES text, with its escaped newlines restored. */
  function MidiFilterRules(env: map<string, string>): string
  {
    ZynConf.Unescape(EnvOr(env, FILTER_RULES, ""))
  }

  /** The ZYNTHIAN_MIDI_PORTS text, with its escaped newlines restored, when it is set. */
  function MidiPortsText(env: map<string, string>): Option<string>
  {
    if MIDI_PORTS in env then Some(ZynConf.Unescape(env[MIDI_PORTS])) else None
  }

  // ---------------------------------------------------------------------------
  // The configuration object
  // ---------------------------------------------------------------------------

  const BOLD_MS := "ZYNTHIAN_UI_SWITCH_BOLD_MS"
  const LONG_MS := "ZYNTHIAN_UI_SWITCH_LONG_MS"

  class Config {
    var boldUs: int
    var longUs: int
    var boldSeconds: Option<real>
    var longSeconds: Option<real>
    var switchUiActions: seq<map<char, string>>
    var switchMidiEvents: seq<Option<SwitchEvent>>
    var zynaptikAdEvents: seq<Option<SensorEvent>>
    var zynaptikDaEvents: seq<Option<SensorEvent>>
    var zyntofEvents: seq<Option<SensorEvent>>
    var midiFilterRules: string
    var disabledMidiInPorts: seq<string>
    var enabledMidiOutPorts: seq<string>
    var enabledMidiFbPorts: seq<string>
    var masterMidiChannel: int
    var masterChangeType: string
    var bankChangeCcnum: int
    var programChangeUp: Option<nat>
    var programChangeDown: Option<nat>
    var bankChangeUp: Option<nat>
    var bankChangeDown: Option<nat>

    /** The values at module load: 300 ms bold and 2 s long presses, nothing configured. */
    constructor()
      ensures boldUs == 300000 && longUs == 2000000 && boldSeconds.None? && longSeconds.None?
      ensures switchUiActions == [] && switchMidiEvents == []
      ensures zynaptikAdEvents == [] && zynaptikDaEvents == [] && zyntofEvents == []
      ensures masterMidiChannel == -1 && programChangeUp.None? && programChangeDown.None?
      ensures bankChangeUp.None? && bankChangeDown.None?
    {
      boldUs := 1000 * 300;
      longUs := 1000 * 2000;
      boldSeconds, longSeconds := None, None;
      switchUiActions, switchMidiEvents := [], [];
      zynaptikAdEvents, zynaptikDaEvents, zyntofEvents := [], [], [];
      midiFilterRules := "";
      disabledMidiInPorts, enabledMidiOutPorts, enabledMidiFbPorts := [], [], [];
      masterMidiChannel := -1;
      masterChangeType := "Roland";
      bankChangeCcnum := 0x20;
      programChangeUp, programChangeDown, bankChangeUp, bankChangeDown := None, None, None, None;
    }

    /**
     * config_zynswitch_timing: the bold and long press thresholds in
     * microseconds. The bold one is assigned before the long one is read,
     * so a bad long value leaves the new bold threshold and the old long one;
     * the thresholds in seconds are set only when both parse.
     */
    method ConfigZynswitchTiming(env: map<string, string>)
      modifies this`boldUs, this`longUs, this`boldSeconds, this`longSeconds
      ensures var b, l := EnvInt(env, BOLD_MS, 300), EnvInt(env, LONG_MS, 2000);
        && boldUs == (if b.Some? then 1000 * b.value else old(boldUs))
        && longUs == (if b.Some? && l.Some? then 1000 * l.value else old(longUs))
        && (b.Some? && l.Some? ==> boldSeconds == Some(boldUs as real / 1000000.0) && longSeconds == Some(longUs as real / 1000000.0))
        && (b.None? || l.None? ==> boldSeconds == old(boldSeconds) && longSeconds == old(longSeconds))
    {
      var b := EnvInt(env, BOLD_MS, 300);
      if b.None? {
        return;
      }
      boldUs := 1000 * b.value;
      var l := EnvInt(env, LONG_MS, 2000);
      if l.None? {
        return;
      }
      longUs := 1000 * l.value;
      boldSeconds := Some(boldUs as real / 1000000.0);
      longSeconds := Some(longUs as real / 1000000.0);
    }

    /** config_custom_switches: the UI actions and MIDI event of each of the switches, in order. */
    method ConfigCustomSwitches(env: map<string, string>, numSwitches: nat)
      modifies this`switchUiActions, this`switchMidiEvents
      ensures switchUiActions == SwitchActionsList(env, numSwitches)
      ensures switchMidiEvents == SwitchEventsList(env, numSwitches)
    {
      switchUiActions := [];
      switchMidiEvents := [];
      for i := 0 to numSwitches
        invariant switchUiActions == SwitchActionsList(env, i)
        invariant switchMidiEvents == SwitchEventsList(env, i)
      {
        var root := SwitchRoot(i + 1);
        switchUiActions := switchUiActions + [SwitchUiActions(env, root)];
        switchMidiEvents := switchMidiEvents + [SwitchMidiEvent(env, root)];
      }
    }

    /** config_zynaptik: four analog input sensors when the configuration holds "4xAD", four outputs for "4xDA". */
    method ConfigZynaptik(env: map<string, string>)
      modifies this`zynaptikAdEvents, this`zynaptikDaEvents
      ensures var c := EnvOr(env, ZYNAPTIK_CONFIG, "");
        && zynaptikAdEvents == (if Contains(c, "4xAD") then SensorList(env, ZYNAPTIK_AD, 4) else [])
        && zynaptikDaEvents == (if Contains(c, "4xDA") then SensorList(env, ZYNAPTIK_DA, 4) else [])
    {
      zynaptikAdEvents := [];
      zynaptikDaEvents := [];
      var c := EnvOr(env, ZYNAPTIK_CONFIG, "");
      if c != "" {
        if Contains(c, "4xAD") {
          for i := 0 to 4
            invariant zynaptikAdEvents == SensorList(env, ZYNAPTIK_AD, i) && zynaptikDaEvents == []
          {
            zynaptikAdEvents := zynaptikAdEvents + [ZynsensorConfig(env, ZYNAPTIK_AD + Pad2(i + 1))];
          }
        }
        if Contains(c, "4xDA") {
          ghost var ad := zynaptikAdEvents;
          for i := 0 to 4
            invariant zynaptikDaEvents == SensorList(env, ZYNAPTIK_DA, i) && zynaptikAdEvents == ad
          {
            zynaptikDaEvents := zynaptikDaEvents + [ZynsensorConfig(env, ZYNAPTIK_DA + Pad2(i + 1))];
          }
        }
      }
    }

    /**
     * config_zyntof: one sensor per configured Zyntof. `ok` is false when the
     * count is not a number: the ValueError then leaves the list empty.
     */
    method ConfigZyntof(env: map<string, string>) returns (ok: bool)
      modifies this`zyntofEvents
      ensures ok <==> ZyntofCount(env).Some?
      ensures zyntofEvents == (if ok && ZyntofCount(env).value > 0 then SensorList(env, ZYNTOF, ZyntofCount(env).value) else [])
    {
      zyntofEvents := [];
      var n := ZyntofCount(env);
      if n.None? {
        return false;
      }
      var count: nat := if n.value > 0 then n.value else 0;
      for i := 0 to count
        invariant zyntofEvents == SensorList(env, ZYNTOF, i)
      {
        zyntofEvents := zyntofEvents + [ZynsensorConfig(env, ZYNTOF + Pad2(i + 1))];
      }
      return true;
    }

    /** set_midi_config, first part: the filter rules and the three port lists. */
    method SetMidiPorts(env: map<string, string>)
      modifies this`midiFilterRules, this`disabledMidiInPorts, this`enabledMidiOutPorts, this`enabledMidiFbPorts
      ensures PortsLoaded(env)
    {
      midiFilterRules := MidiFilterRules(env);
      var text := MidiPortsText(env);
      if text.Some? {
        disabledMidiInPorts := ZynConf.DisabledMidiInPorts(text.value);
        enabledMidiOutPorts := ZynConf.EnabledMidiOutPorts(text.value);
        enabledMidiFbPorts := ZynConf.EnabledMidiFbPorts(text.value);
      } else {
        disabledMidiInPorts, enabledMidiOutPorts, enabledMidiFbPorts := [], [DEFAULT_OUT_PORT], [];
      }
    }

    /**
     * set_midi_config, second part: the master channel, change type, bank
     * change CC number and the four change codes, in this order. `ok` is
     * false when a ValueError stops it: the settings from the failing one on
     * keep their old values.
     */
    method SetMasterMidi(env: map<string, string>) returns (ok: bool)
      modifies this`masterMidiChannel, this`masterChangeType, this`bankChangeCcnum
      modifies this`programChangeUp, this`programChangeDown, this`bankChangeUp, this`bankChangeDown
      ensures var ch := EnvInt(env, MASTER_CHANNEL, 0);
        && masterMidiChannel == (if ch.Some? then MasterChannel(ch.value) else old(masterMidiChannel))
        && masterChangeType == (if ch.Some? then EnvOr(env, MASTER_CHANGE_TYPE, "Roland") else old(masterChangeType))
      ensures var ch, cc := EnvInt(env, MASTER_CHANNEL, 0), EnvInt(env, BANK_CHANGE_CCNUM, 0x20);
        bankChangeCcnum == (if ch.Some? && cc.Some? then cc.value else old(bankChangeCcnum))
      ensures var reached := EnvInt(env, MASTER_CHANNEL, 0).Some? && EnvInt(env, BANK_CHANGE_CCNUM, 0x20).Some?;
        var mmc := if reached then ChannelHex(masterMidiChannel) else None;
        var pu := MasterCode(EnvOr(env, PROGRAM_CHANGE_UP, ""), mmc, 4);
        var pd := MasterCode(EnvOr(env, PROGRAM_CHANGE_DOWN, ""), mmc, 4);
        var bu := MasterCode(EnvOr(env, BANK_CHANGE_UP, ""), mmc, 6);
        var bd := MasterCode(EnvOr(env, BANK_CHANGE_DOWN, ""), mmc, 6);
        && programChangeUp == (if reached && !pu.BadHex? then CodeValue(pu) else old(programChangeUp))
        && programChangeDown == (if reached && !pu.BadHex? && !pd.BadHex? then CodeValue(pd) else old(programChangeDown))
        && bankChangeUp == (if reached && !pu.BadHex? && !pd.BadHex? && !bu.BadHex? then CodeValue(bu) else old(bankChangeUp))
        && bankChangeDown == (if reached && !pu.BadHex? && !pd.BadHex? && !bu.BadHex? && !bd.BadHex? then CodeValue(bd) else old(bankChangeDown))
        && (ok <==> reached && !pu.BadHex? && !pd.BadHex? && !bu.BadHex? && !bd.BadHex?)
      ensures ok ==> MasterLoaded(env)
    {
      var ch := EnvInt(env, MASTER_CHANNEL, 0);
      if ch.None? {
        return false;
      }
      masterMidiChannel := MasterChannel(ch.value);
      var mmc := ChannelHex(masterMidiChannel);
      masterChangeType := EnvOr(env, MASTER_CHANGE_TYPE, "Roland");
      var cc := EnvInt(env, BANK_CHANGE_CCNUM, 0x20);
      if cc.None? {
        return false;
      }
      bankChangeCcnum := cc.value;

      var pu := MasterCode(EnvOr(env, PROGRAM_CHANGE_UP, ""), mmc, 4);
      if pu.BadHex? {
        return false;
      }
      programChangeUp := CodeValue(pu);
      var pd := MasterCode(EnvOr(env, PROGRAM_CHANGE_DOWN, ""), mmc, 4);
      if pd.BadHex? {
        return false;
      }
      programChangeDown := CodeValue(pd);
      var bu := MasterCode(EnvOr(env, BANK_CHANGE_UP, ""), mmc, 6);
      if bu.BadHex? {
        return false;
      }
      bankChangeUp := CodeValue(bu);
      var bd := MasterCode(EnvOr(env, BANK_CHANGE_DOWN, ""), mmc, 6);
      if bd.BadHex? {
        return false;
      }
      bankChangeDown := CodeValue(bd);
      return true;
    }

    /** The filter rules and port lists as set_midi_config reads them from `env`. */
    predicate PortsLoaded(env: map<string, string>)
      reads this`midiFilterRules, this`disabledMidiInPorts, this`enabledMidiOutPorts, this`enabledMidiFbPorts
    {
      && midiFilterRules == MidiFilterRules(env)
      && var text := MidiPortsText(env);
      && disabledMidiInPorts == (if text.Some? then ZynConf.DisabledMidiInPorts(text.value) else [])
      && enabledMidiOutPorts == (if text.Some? then ZynConf.EnabledMidiOutPorts(text.value) else [DEFAULT_OUT_PORT])
      && enabledMidiFbPorts == (if text.Some? then ZynConf.EnabledMidiFbPorts(text.value) else [])
    }

    /**
     * The master channel and the four change codes as a set_midi_config that
     * ran to the end leaves them: each code is its pattern with the channel
     * digit filled in.
     */
    predicate MasterLoaded(env: map<string, string>)
      reads this`masterMidiChannel, this`programChangeUp, this`programChangeDown, this`bankChangeUp, this`bankChangeDown
    {
      && EnvInt(env, MASTER_CHANNEL, 0).Some?
      && masterMidiChannel == MasterChannel(EnvInt(env, MASTER_CHANNEL, 0).value)
      && var mmc := ChannelHex(masterMidiChannel);
      && programChangeUp == CodeValue(MasterCode(EnvOr(env, PROGRAM_CHANGE_UP, ""), mmc, 4))
      && programChangeDown == CodeValue(MasterCode(EnvOr(env, PROGRAM_CHANGE_DOWN, ""), mmc, 4))
      && bankChangeUp == CodeValue(MasterCode(EnvOr(env, BANK_CHANGE_UP, ""), mmc, 6))
      && bankChangeDown == CodeValue(MasterCode(EnvOr(env, BANK_CHANGE_DOWN, ""), mmc, 6))
    }

    /**
     * set_midi_config from the filter rules on (the numeric MIDI options read
     * before them are not part of this model).
     */
    method SetMidiConfig(env: map<string, string>) returns (ok: bool)
      modifies this`midiFilterRules, this`disabledMidiInPorts, this`enabledMidiOutPorts, this`enabledMidiFbPorts
      modifies this`masterMidiChannel, this`masterChangeType, this`bankChangeCcnum
      modifies this`programChangeUp, this`programChangeDown, this`bankChangeUp, this`bankChangeDown
      ensures PortsLoaded(env)
      ensures ok ==> MasterLoaded(env)
    {
      SetMidiPorts(env);
      ok := SetMasterMidi(env);
    }
  }
}

=== FILE: gui.dfy ===
/**
 * The GUI core: how long a switch was held decides the action, the screen
 * history behind show_screen and close_screen, the events of the CUIA
 * (callable UI action) queue, the per-switch stamps the CUIA thread keeps
 * for releases and auto-repeat, and the program change CUIA.
 *
 * Screens are names. Building, showing and hiding views, the ALSA mixer and
 * preset restoring that show_screen also does, and the actions the switch
 * handlers run are not modelled. The clock, the queue and the handlers'
 * answers are inputs: a queue timeout is a call of Tick, a zynswitch event
 * a call of SwitchEvent given the time and what the push handler returned.
 */
module Gui {
  import opened Wrappers
  import opened PyText

  // ---------------------------------------------------------------------------
  // Switch press durations
  // ---------------------------------------------------------------------------

  /**
   * zynswitch_timing: 'P' for a press that just started; otherwise, by the
   * microseconds held, 'L' beyond the long time, 'B' beyond the bold time,
   * 'S' for any shorter positive time, and None for a negative duration.
   */
  function SwitchTiming(dtus: int, boldUs: int, longUs: int): (r: Option<char>)
    ensures r == Some('P') <==> dtus == 0
    ensures r == Some('L') <==> dtus != 0 && dtus > longUs
    ensures r == Some('B') <==> dtus != 0 && boldUs < dtus <= longUs
    ensures r == Some('S') <==> 0 < dtus <= longUs && dtus <= boldUs
    ensures r.None? <==> dtus < 0 && dtus <= longUs && dtus <= boldUs
  {
    if dtus == 0 then Some('P')
    else if dtus > longUs then Some('L')
    else if dtus > boldUs then Some('B')
    else if dtus > 0 then Some('S')
    else None
  }

  /** The order of the held-time classes: short, bold, long. */
  function HeldRank(c: Option<char>): nat
  {
    if c == Some('S') then 1 else if c == Some('B') then 2 else if c == Some('L') then 3 else 0
  }

  /** Holding a switch longer never gives a shorter class, when the bold time is at most the long time. */
  lemma TimingMonotone(d1: int, d2: int, boldUs: int, longUs: int)
    requires 0 <= boldUs <= longUs && 0 < d1 <= d2
    ensures 1 <= HeldRank(SwitchTiming(d1, boldUs, longUs)) <= HeldRank(SwitchTiming(d2, boldUs, longUs))
  {
  }

  /** int(x) for a float: truncation toward zero. */
  function Trunc(x: real): (r: int)
    ensures x >= 0.0 ==> r as real <= x < r as real + 1.0
    ensures x < 0.0 ==> r as real - 1.0 < x <= r as real
  {
    if x >= 0.0 then x.Floor else -((-x).Floor)
  }

  // ---------------------------------------------------------------------------
  // Screen history
  // ---------------------------------------------------------------------------

  const SCREEN_HMODE_NONE := 0
  const SCREEN_HMODE_ADD := 1
  const SCREEN_HMODE_REPLACE := 2
  const SCREEN_HMODE_RESET := 3
  /** The screen shown when there is nothing else to show. */
  const HOME_SCREEN := "audio_mixer"

  /** The screen show_screen shows: the one asked for, else the current one, else the mixer. */
  function TargetScreen(screen: Option<string>, current: Option<string>): string
  {
    if screen.Some? then screen.value
    else if current.Some? && current.value != "" then current.value
    else HOME_SCREEN
  }

  /**
   * The history after show_screen. ADD pushes the screen unless it is
   * already on top, REPLACE swaps the top for it, RESET leaves only it, any
   * other mode leaves the history alone. REPLACE on an empty history is the
   * IndexError of pop: None.
   */
  function HistoryAfter(history: seq<string>, screen: string, hmode: int): (r: Option<seq<string>>)
    ensures r.None? <==> hmode == SCREEN_HMODE_REPLACE && history == []
  {
    if hmode == SCREEN_HMODE_ADD then
      Some(if history == [] || history[|history| - 1] != screen then history + [screen] else history)
    else if hmode == SCREEN_HMODE_REPLACE then
      if history == [] then None else Some(history[..|history| - 1] + [screen])
    else if hmode == SCREEN_HMODE_RESET then Some([screen])
    else Some(history)
  }

  /** No screen follows itself in the history. */
  predicate NoRepeats(history: seq<string>)
  {
    forall i :: 0 <= i < |history| - 1 ==> history[i] != history[i + 1]
  }

  /**
   * ADD, REPLACE and RESET leave the screen on top. ADD keeps everything
   * below it and adds at most the one entry, so it never makes a screen
   * follow itself; REPLACE keeps the depth.
   */
  lemma HistoryModes(history: seq<string>, screen: string)
    ensures var h := HistoryAfter(history, screen, SCREEN_HMODE_ADD).value;
      && h[|h| - 1] == screen
      && (h == history || h == history + [screen])
      && (NoRepeats(history) ==> NoRepeats(h))
    ensures history != [] ==> var h := HistoryAfter(history, screen, SCREEN_HMODE_REPLACE).value;
      && |h| == |history| && h[..|h| - 1] == history[..|history| - 1] && h[|h| - 1] == screen
    ensures HistoryAfter(history, screen, SCREEN_HMODE_RESET) == Some([screen])
  {
  }

  /**
   * The loop of close_screen: pop entries until one differs from the
   * current screen; the mixer when the history runs out. The result is the
   * screen to go back to and what is left of the history.
   */
  function PopUntil(history: seq<string>, current: Option<string>): (r: (string, seq<string>))
    ensures |r.1| <= |history| && r.1 == history[..|r.1|]
    decreases |history|
  {
    if history == [] then (HOME_SCREEN, [])
    else
      var last := history[|history| - 1];
      if Some(last) != current then (last, history[..|history| - 1])
      else PopUntil(history[..|history| - 1], current)
  }

  /**
   * close_screen discards only entries equal to the current screen, and goes
   * back to the first entry from the top that differs from it, or to the
   * mixer when every entry equals the current screen.
   */
  lemma {:induction false} PopUntilSpec(history: seq<string>, current: Option<string>)
    ensures var (back, rest) := PopUntil(history, current);
      && (forall j :: |rest| < j < |history| ==> Some(history[j]) == current)
      && ((|rest| < |history| && back == history[|rest|] && Some(back) != current)
          || (back == HOME_SCREEN && rest == [] && forall j :: 0 <= j < |history| ==> Some(history[j]) == current))
    decreases |history|
  {
    if history != [] {
      var last := history[|history| - 1];
      if Some(last) == current {
        var shorter := history[..|history| - 1];
        PopUntilSpec(shorter, current);
        assert forall j :: 0 <= j < |shorter| ==> shorter[j] == history[j];
      }
    }
  }

  /**
   * Closing a screen opened with ADD goes back to the screen below it and
   * restores the history, when no screen followed itself before.
   */
  lemma CloseUndoesAdd(history: seq<string>, screen: string)
    requires history != [] && NoRepeats(history) && screen != history[|history| - 1]
    ensures var added := HistoryAfter(history, screen, SCREEN_HMODE_ADD).value;
      var (back, rest) := PopUntil(added, Some(screen));
      back == history[|history| - 1] && HistoryAfter(rest, back, SCREEN_HMODE_ADD) == Some(history)
  {
    var added := history + [screen];
    assert added[..|added| - 1] == history;
    var rest := history[..|history| - 1];
    assert rest + [history[|history| - 1]] == history;
  }

  /** The screens of the GUI object: the history stack and the screen shown. */
  class Gui {
    var screenHistory: seq<string>
    var currentScreen: Option<string>

    constructor ()
      ensures screenHistory == [] && currentScreen == None
    {
      screenHistory := [];
      currentScreen := None;
    }

    /**
     * show_screen: update the history as the mode says and make the screen
     * current. `ok` is false when REPLACE finds the history empty: pop
     * raises and nothing changes.
     */
    method ShowScreen(screen: Option<string>, hmode: int) returns (ok: bool)
      modifies this`screenHistory, this`currentScreen
      ensures var s := TargetScreen(screen, old(currentScreen));
        var h := HistoryAfter(old(screenHistory), s, hmode);
        && (ok <==> h.Some?)
        && (ok ==> screenHistory == h.value && currentScreen == Some(s))
        && (!ok ==> screenHistory == old(screenHistory) && currentScreen == old(currentScreen))
    {
      var s := TargetScreen(screen, currentScreen);
      if hmode == SCREEN_HMODE_ADD {
        if |screenHistory| == 0 || screenHistory[|screenHistory| - 1] != s {
          screenHistory := screenHistory + [s];
        }
      } else if hmode == SCREEN_HMODE_REPLACE {
        if screenHistory == [] {
          return false;
        }
        screenHistory := screenHistory[..|screenHistory| - 1];
        screenHistory := screenHistory + [s];
      } else if hmode == SCREEN_HMODE_RESET {
        screenHistory := [s];
      }
      if currentScreen != Some(s) {
        currentScreen := Some(s);
      }
      return true;
    }

    /** close_screen: pop back to a different screen and show it with ADD. */
    method CloseScreen()
      modifies this`screenHistory, this`currentScreen
      ensures var (back, rest) := PopUntil(old(screenHistory), old(currentScreen));
        screenHistory == HistoryAfter(rest, back, SCREEN_HMODE_ADD).value && currentScreen == Some(back)
    {
      ghost var target := PopUntil(screenHistory, currentScreen);
      var current := currentScreen;
      var back := HOME_SCREEN;
      var done := false;
      while !done
        invariant currentScreen == current
        invariant !done ==> PopUntil(screenHistory, current) == target
        invariant done ==> (back, screenHistory) == target
        decreases |screenHistory| + (if done then 0 else 1)
      {
        if screenHistory == [] {
          back := HOME_SCREEN;
          done := true;
        } else {
          back := screenHistory[|screenHistory| - 1];
          screenHistory := screenHistory[..|screenHistory| - 1];
          done := Some(back) != current;
        }
      }
      var _ := ShowScreen(Some(back), SCREEN_HMODE_ADD);
    }
  }

  // ---------------------------------------------------------------------------
  // CUIA queue events
  // ---------------------------------------------------------------------------

  /** A parameter of a CUIA: a word that int() reads, or any other word, stripped. */
  datatype Param = IntParam(n: int) | StrParam(s: string)

  /** What the queue holds: a text "cuia param param ..." or a list [cuia, params]. */
  datatype QueueEvent = TextEvent(text: string) | ListEvent(cuia: string, params: Option<seq<Param>>)

  /** An event as the thread reads it: the end marker, or a CUIA name with its parameters, if any. */
  datatype Command = Exit | Command(cuia: string, params: Option<seq<Param>>)

  function ParseParam(word: string): Param
  {
    var v := ParseInt(word);
    if v.Some? then IntParam(v.value) else StrParam(Strip(word))
  }

  function ParseParams(words: seq<string>): (r: seq<Param>)
    ensures |r| == |words|
  {
    seq(|words|, k requires 0 <= k < |words| => ParseParam(words[k]))
  }

  /**
   * The event parsing of cuia_thread_task: "__EXIT__" ends the thread; a text
   * is split on spaces, its first word lower-cased is the CUIA and the other
   * words, if any, its parameters; a list gives its CUIA lower-cased and its
   * parameters as they are.
   */
  function ParseEvent(e: QueueEvent): Command
  {
    match e
    case TextEvent(s) =>
      if s == "__EXIT__" then Exit
      else
        var words := Split(s, ' ');
        Command(Lower(words[0]), if |words| > 1 then Some(ParseParams(words[1..])) else None)
    case ListEvent(c, ps) => Command(Lower(c), ps)
  }

  /**
   * A CUIA text built from words without spaces, the first of them a
   * lower-case name, parses back to the name and the other words.
   */
  lemma EventRoundTrip(words: seq<string>)
    requires |words| >= 1 && Lower(words[0]) == words[0]
    requires forall k :: 0 <= k < |words| ==> ' ' !in words[k]
    requires Join(words, ' ') != "__EXIT__"
    ensures ParseEvent(TextEvent(Join(words, ' ')))
         == Command(words[0], if |words| == 1 then None else Some(ParseParams(words[1..])))
  {
    SplitJoin(words, ' ');
  }

  /** The event zynswitches queues for a switch: f"zynswitch {i} {timing}". */
  function ZynswitchEvent(i: nat, action: char): string
  {
    Join(["zynswitch", IntStr(i), [action]], ' ')
  }

  lemma LowerZynswitch()
    ensures Lower("zynswitch") == "zynswitch"
  {
    var s := "zynswitch";
    assert forall i :: 0 <= i < |s| ==> 'a' <= s[i] <= 'z';
  }

  /** An action letter is not a number, so it stays a word parameter. */
  lemma LetterParam(c: char)
    requires c in "PSBL"
    ensures ParseParam([c]) == StrParam([c])
  {
    assert Strip([c]) == [c];
  }

  /** The event queued for a switch press parses to the switch number and the action letter. */
  lemma ZynswitchEventParses(i: nat, dtus: nat, boldUs: int, longUs: int)
    ensures var c := SwitchTiming(dtus, boldUs, longUs).value;
      ParseEvent(TextEvent(ZynswitchEvent(i, c))) == Command("zynswitch", Some([IntParam(i), StrParam([c])]))
  {
    var c := SwitchTiming(dtus, boldUs, longUs).value;
    var words := ["zynswitch", IntStr(i), [c]];
    assert IntStr(i) == DecStr(i);
    LowerZynswitch();
    assert Join(words, ' ')[0] == 'z';
    EventRoundTrip(words);
    ParseIntStr(i);
    LetterParam(c);
    assert words[1..] == [IntStr(i), [c]];
    assert ParseParams(words[1..]) == [IntParam(i), StrParam([c])];
  }

  // ---------------------------------------------------------------------------
  // Switch stamps of the CUIA thread: releases and auto-repeat
  // ---------------------------------------------------------------------------

  /** Queue timeouts a handled push waits before it repeats. */
  const REPEAT_DELAY := 3

  /** A stamp after one queue timeout: a countdown rises by one, anything else stays. */
  function TickStamp(v: Option<real>): Option<real>
  {
    if v.Some? && v.value < 0.0 then Some(v.value + 1.0) else v
  }

  /** A stamp after k queue timeouts. */
  function Ticks(v: Option<real>, k: nat): Option<real>
  {
    if k == 0 then v else TickStamp(Ticks(v, k - 1))
  }

  /** The switches one timeout pushes again: those whose stamp was 0, in switch order. */
  function RepeatPushes(stamps: seq<Option<real>>, n: nat): seq<int>
    requires n <= |stamps|
  {
    if n == 0 then [] else RepeatPushes(stamps, n - 1) + (if stamps[n - 1] == Some(0.0) then [n - 1] else [])
  }

  lemma {:induction false} RepeatPushesSpec(stamps: seq<Option<real>>, n: nat)
    requires n <= |stamps|
    ensures forall i :: i in RepeatPushes(stamps, n) <==> 0 <= i < n && stamps[i] == Some(0.0)
    ensures forall a, b :: 0 <= a < b < |RepeatPushes(stamps, n)| ==> RepeatPushes(stamps, n)[a] < RepeatPushes(stamps, n)[b]
    decreases n
  {
    if n > 0 {
      RepeatPushesSpec(stamps, n - 1);
      var p := RepeatPushes(stamps, n - 1);
      assert forall a :: 0 <= a < |p| ==> p[a] in p;
    }
  }

  /**
   * After a handled push the countdown reaches 0 on the REPEAT_DELAY-th
   * timeout and stays there, so from the next timeout on every timeout
   * pushes the switch again.
   */
  lemma {:induction false} Countdown(k: nat)
    ensures Ticks(Some(-REPEAT_DELAY as real), k) == Some(if k < REPEAT_DELAY then (k - REPEAT_DELAY) as real else 0.0)
    ensures Ticks(Some(-REPEAT_DELAY as real), k) == Some(0.0) <==> k >= REPEAT_DELAY
  {
    if k > 0 {
      Countdown(k - 1);
    }
  }

  /** A press time or no stamp is never changed by timeouts, and a press time never repeats. */
  lemma {:induction false} StampKept(v: Option<real>, k: nat)
    requires v.None? || v.value > 0.0
    ensures Ticks(v, k) == v && Ticks(v, k) != Some(0.0)
  {
    if k > 0 {
      StampKept(v, k - 1);
    }
  }

  /** What a zynswitch event did. */
  datatype SwitchOutcome =
    | Handled(action: char)  // the handler of this action was called
    | Unknown                // no such action: the stamp is cleared and a warning logged
    | Failed                 // an exception was logged

  /** The array index of a switch parameter: Python's negative indices count from the end. */
  function StampIndex(p: Param, length: nat): (r: Option<nat>)
    ensures r.Some? ==> r.value < length
  {
    if p.IntParam? && -(length as int) <= p.n < length then Some(if p.n < 0 then p.n + length else p.n) else None
  }

  /** The action letter of a parameter: None for anything that is not one character. */
  function ActionLetter(p: Param): Option<char>
  {
    if p.StrParam? && |p.s| == 1 then Some(p.s[0]) else None
  }

  /** The dispatch on the action letter, after a release has been turned into its action. */
  function Dispatch(stamps: seq<Option<real>>, idx: Option<nat>, action: Option<char>, now: real, pushHandled: bool)
    : (r: (seq<Option<real>>, SwitchOutcome))
    requires idx.Some? ==> idx.value < |stamps|
    ensures |r.0| == |stamps|
  {
    if action == Some('P') then
      if idx.None? then (stamps, Failed)
      else (stamps[idx.value := Some(if pushHandled then -REPEAT_DELAY as real else now)], Handled('P'))
    else if action == Some('S') || action == Some('B') || action == Some('L') then
      if idx.None? then (stamps, Failed) else (stamps[idx.value := None], Handled(action.value))
    else if action == Some('X') || action == Some('Y') then (stamps, Handled(action.value))
    else if idx.None? then (stamps, Failed)
    else (stamps[idx.value := None], Unknown)
  }

  /**
   * The zynswitch branch of cuia_thread_task, on the stamps. A release
   * clears the stamp; a release of a press timed by the clock becomes the
   * action its duration gives, while a release of a counting-down or
   * repeating push stays an unknown action. A push stamps the time, or
   * starts the countdown when its handler took it.
   */
  function SwitchStep(stamps: seq<Option<real>>, params: Option<seq<Param>>, now: real, pushHandled: bool,
                      boldUs: int, longUs: int): (r: (seq<Option<real>>, SwitchOutcome))
    ensures |r.0| == |stamps|
  {
    if params.None? || |params.value| < 2 then (stamps, Failed)
    else
      var idx := StampIndex(params.value[0], |stamps|);
      var t := params.value[1];
      if t == StrParam("R") then
        if idx.None? then (stamps, Failed)
        else
          var val := stamps[idx.value];
          var cleared := stamps[idx.value := None];
          if val.None? then (cleared, Failed)
          else if val.value > 0.0 then
            Dispatch(cleared, idx, SwitchTiming(Trunc(1000000.0 * (now - val.value)), boldUs, longUs), now, pushHandled)
          else Dispatch(cleared, idx, Some('R'), now, pushHandled)
      else Dispatch(stamps, idx, ActionLetter(t), now, pushHandled)
  }

  /**
   * A push the handler did not take, released later, runs the action its
   * duration gives and clears the stamp.
   */
  lemma PressRelease(stamps: seq<Option<real>>, i: nat, t0: real, t1: real, boldUs: int, longUs: int)
    requires i < |stamps| && t0 > 0.0 && Trunc(1000000.0 * (t1 - t0)) > 0
    ensures var pressed := SwitchStep(stamps, Some([IntParam(i), StrParam("P")]), t0, false, boldUs, longUs);
      var released := SwitchStep(pressed.0, Some([IntParam(i), StrParam("R")]), t1, false, boldUs, longUs);
      var c := SwitchTiming(Trunc(1000000.0 * (t1 - t0)), boldUs, longUs);
      && pressed == (stamps[i := Some(t0)], Handled('P'))
      && c.Some? && c.value in "SBL"
      && released == (stamps[i := None], Handled(c.value))
  {
    assert StrParam("P") != StrParam("R");
    assert ActionLetter(StrParam("P")) == Some('P');
    assert StampIndex(IntParam(i), |stamps|) == Some(i);
    var pressed := stamps[i := Some(t0)];
    assert pressed[i] == Some(t0);
    assert pressed[i := None] == stamps[i := None];
    var c := SwitchTiming(Trunc(1000000.0 * (t1 - t0)), boldUs, longUs);
    assert c == Some('S') || c == Some('B') || c == Some('L');
    var ps := Some([IntParam(i), StrParam("R")]);
    assert ps.value[1] == StrParam("R");
    assert SwitchStep(pressed, ps, t1, false, boldUs, longUs) == Dispatch(stamps[i := None], Some(i), c, t1, false);
    assert stamps[i := None][i := None] == stamps[i := None];
  }

  /**
   * A push the handler took starts the countdown; releasing the switch at
   * any point of the countdown or repeat clears the stamp, and a cleared
   * stamp never repeats.
   */
  lemma HandledPushRelease(stamps: seq<Option<real>>, i: nat, t0: real, k: nat, t1: real, boldUs: int, longUs: int)
    requires i < |stamps|
    ensures var pressed := SwitchStep(stamps, Some([IntParam(i), StrParam("P")]), t0, true, boldUs, longUs);
      pressed == (stamps[i := Some(-REPEAT_DELAY as real)], Handled('P'))
    ensures var waiting := stamps[i := Ticks(Some(-REPEAT_DELAY as real), k)];
      var released := SwitchStep(waiting, Some([IntParam(i), StrParam("R")]), t1, false, boldUs, longUs);
      released == (stamps[i := None], Unknown) && Ticks(released.0[i], k) == None
  {
    assert ActionLetter(StrParam("P")) == Some('P');
    assert StampIndex(IntParam(i), |stamps|) == Some(i);
    Countdown(k);
    StampKept(None, k);
    var waiting := stamps[i := Ticks(Some(-REPEAT_DELAY as real), k)];
    assert waiting[i].Some? && waiting[i].value <= 0.0;
    assert waiting[i := None] == stamps[i := None];
    var ps := Some([IntParam(i), StrParam("R")]);
    assert ps.value[1] == StrParam("R");
    assert SwitchStep(waiting, ps, t1, false, boldUs, longUs) == Dispatch(stamps[i := None], Some(i), Some('R'), t1, false);
    assert stamps[i := None][i := None] == stamps[i := None];
  }

  /** The event zynswitches queues for a held switch reaches its handler and clears the stamp. */
  lemma ZynswitchDispatch(stamps: seq<Option<real>>, i: nat, dtus: nat, now: real, pushHandled: bool,
                          boldUs: int, longUs: int)
    requires i < |stamps| && dtus > 0
    ensures var c := SwitchTiming(dtus, boldUs, longUs).value;
      var cmd := ParseEvent(TextEvent(ZynswitchEvent(i, c)));
      cmd.Command? && cmd.cuia == "zynswitch"
      && SwitchStep(stamps, cmd.params, now, pushHandled, boldUs, longUs) == (stamps[i := None], Handled(c))
  {
    ZynswitchEventParses(i, dtus, boldUs, longUs);
    var c := SwitchTiming(dtus, boldUs, longUs).value;
    assert StrParam([c]) != StrParam("R");
  }

  /** The stamps zynswitch_cuia_ts of the CUIA thread, one per switch and four more. */
  class SwitchStamps {
    const stamps: array<Option<real>>

    constructor (numSwitches: nat)
      ensures fresh(stamps) && stamps.Length == numSwitches + 4
      ensures forall i :: 0 <= i < stamps.Length ==> stamps[i].None?
    {
      stamps := new Option<real>[numSwitches + 4](_ => None);
    }

    /** A queue timeout: countdowns rise by one, and each switch whose stamp was 0 is pushed again. */
    method Tick() returns (pushed: seq<int>)
      modifies stamps
      ensures forall i :: 0 <= i < stamps.Length ==> stamps[i] == TickStamp(old(stamps[i]))
      ensures pushed == RepeatPushes(old(stamps[..]), stamps.Length)
    {
      pushed := [];
      for i := 0 to stamps.Length
        invariant forall j :: 0 <= j < i ==> stamps[j] == TickStamp(old(stamps[j]))
        invariant forall j :: i <= j < stamps.Length ==> stamps[j] == old(stamps[j])
        invariant pushed == RepeatPushes(old(stamps[..]), i)
      {
        var ts := stamps[i];
        if ts.Some? {
          if ts.value < 0.0 {
            stamps[i] := Some(ts.value + 1.0);
          }
          if ts.value == 0.0 {
            pushed := pushed + [i];
          }
        }
      }
    }

    /** The zynswitch branch of cuia_thread_task for one event. */
    method SwitchEvent(params: Option<seq<Param>>, now: real, pushHandled: bool, boldUs: int, longUs: int)
      returns (outcome: SwitchOutcome)
      modifies stamps
      ensures (stamps[..], outcome) == SwitchStep(old(stamps[..]), params, now, pushHandled, boldUs, longUs)
    {
      if params.None? || |params.value| < 2 {
        return Failed;
      }
      var idx := StampIndex(params.value[0], stamps.Length);
      var t := params.value[1];
      var action := ActionLetter(t);
      if t == StrParam("R") {
        if idx.None? {
          return Failed;
        }
        var val := stamps[idx.value];
        stamps[idx.value] := None;
        if val.None? {
          return Failed;
        }
        if val.value > 0.0 {
          action := SwitchTiming(Trunc(1000000.0 * (now - val.value)), boldUs, longUs);
        } else {
          action := Some('R');
        }
      }
      if action == Some('P') {
        if idx.None? {
          return Failed;
        }
        stamps[idx.value] := Some(if pushHandled then -REPEAT_DELAY as real else now);
        return Handled('P');
      } else if action == Some('S') || action == Some('B') || action == Some('L') {
        if idx.None? {
          return Failed;
        }
        stamps[idx.value] := None;
        return Handled(action.value);
      } else if action == Some('X') || action == Some('Y') {
        return Handled(action.value);
      }
      if idx.None? {
        return Failed;
      }
      stamps[idx.value] := None;
      return Unknown;
    }
  }

  // ---------------------------------------------------------------------------
  // Program change CUIA
  // ---------------------------------------------------------------------------

  /** What cuia_program_change does. */
  datatype ProgramChangeOutcome =
    | Sent(chan: int, pgm: int)  // the program change is written to the MIDI output
    | NotSent                    // no parameters, or channel or program out of range
    | Raised                     // int() or len() raised: the thread drops the event

  /** int(param) */
  function ParamInt(p: Param): Option<int>
  {
    match p
    case IntParam(n) => Some(n)
    case StrParam(s) => ParseInt(s)
  }

  /**
   * cuia_program_change: the program is the first parameter, the channel the
   * second or else the active channel; only a channel 0..15 with a program
   * 0..127 is sent.
   */
  function ProgramChange(params: Option<seq<Param>>, activeChan: int): (r: ProgramChangeOutcome)
    ensures r.Sent? ==> 0 <= r.chan < 16 && 0 <= r.pgm < 128
    ensures r.Sent? ==> params.Some? && |params.value| >= 1 && ParamInt(params.value[0]) == Some(r.pgm)
    ensures r.Sent? && |params.value| == 1 ==> r.chan == activeChan
  {
    if params.None? then Raised
    else if |params.value| == 0 then NotSent
    else
      var pgm := ParamInt(params.value[0]);
      if pgm.None? then Raised
      else
        var chan := if |params.value| > 1 then ParamInt(params.value[1]) else Some(activeChan);
        if chan.None? then Raised
        else if 0 <= chan.value < 16 && 0 <= pgm.value < 128 then Sent(chan.value, pgm.value)
        else NotSent
  }

  /** Numbers written in decimal are read back as integer parameters. */
  lemma NumberParams(a: nat, b: nat)
    ensures ParseParams([IntStr(a), IntStr(b)]) == [IntParam(a), IntParam(b)]
  {
    ParseIntStr(a);
    ParseIntStr(b);
  }

  /** The program and channel parameters in range are sent as they are. */
  lemma ProgramChangeSent(pgm: nat, chan: nat, activeChan: int)
    requires pgm < 128 && chan < 16
    ensures ProgramChange(Some([IntParam(pgm), IntParam(chan)]), activeChan) == Sent(chan, pgm)
  {
  }

  /** "program_change <pgm> <chan>" on the queue sends exactly that program change, for values in range. */
  lemma ProgramChangeFromText(pgm: nat, chan: nat, activeChan: int)
    requires pgm < 128 && chan < 16
    ensures var cmd := ParseEvent(TextEvent(Join(["program_change", IntStr(pgm), IntStr(chan)], ' ')));
      cmd.Command? && cmd.cuia == "program_change" && ProgramChange(cmd.params, activeChan) == Sent(chan, pgm)
  {
    var name := "program_change";
    var words := [name, IntStr(pgm), IntStr(chan)];
    assert IntStr(pgm) == DecStr(pgm) && IntStr(chan) == DecStr(chan);
    assert Lower(name) == name by {
      assert forall i :: 0 <= i < |name| ==> name[i] == '_' || 'a' <= name[i] <= 'z';
    }
    assert Join(words, ' ')[0] == 'p';
    EventRoundTrip(words);
    assert words[1..] == [IntStr(pgm), IntStr(chan)];
    NumberParams(pgm, chan);
    ProgramChangeSent(pgm, chan, activeChan);
  }
}

=== FILE: keybinding.dfy ===
/**
 * Computer keyboard bindings of the GUI: a table from key combinations to
 * callable UI action (CUIA) strings, with a default table, binding of new
 * combinations, lookup with a fallback to bindings made for any modifier,
 * an enabled flag and the one shared instance.
 *
 * A key combination is written "keycode modifier", or just "keycode" for a
 * binding that ignores the modifier. The keycode reaches the lookup either
 * as an integer or as a key name; the table's keys are always strings.
 * Reading and writing the YAML file is not modelled: a load is given the
 * table it parsed, or None when the file could not be read.
 */
module KeyBinding {
  import opened Wrappers
  import opened PyText

  /** The keycode of a key press: an integer code or a key name. */
  datatype KeyCode = Code(n: int) | Sym(name: string)

  /** f"{keycode}" */
  function KeyText(k: KeyCode): string
  {
    match k
    case Code(n) => IntStr(n)
    case Sym(s) => s
  }

  /** f"{modifier}": the modifier bits, or "None" when absent. */
  function ModifierText(modifier: Option<int>): string
  {
    if modifier.Some? then IntStr(modifier.value) else "None"
  }

  /** f"{keycode} {modifier}": the table key of a binding for one modifier. */
  function ComboKey(k: KeyCode, modifier: Option<int>): (r: string)
    ensures |r| > |KeyText(k)|
    ensures r[..|KeyText(k)|] == KeyText(k)
  {
    KeyText(k) + " " + ModifierText(modifier)
  }

  /** The table key bind_key writes: the bare keycode when the modifier is None. */
  function BoundKey(k: KeyCode, modifier: Option<int>): string
  {
    if modifier.None? then KeyText(k) else ComboKey(k, modifier)
  }

  /** The table after bind_key: the binding is set, overwriting any earlier one. */
  function Bound(m: map<string, string>, k: KeyCode, modifier: Option<int>, cuia: string): (r: map<string, string>)
    ensures r.Keys == m.Keys + {BoundKey(k, modifier)}
    ensures r[BoundKey(k, modifier)] == cuia
    ensures forall key :: key in m && key != BoundKey(k, modifier) ==> r[key] == m[key]
  {
    m[BoundKey(k, modifier) := cuia]
  }

  /**
   * get_key_action as written: the binding for this modifier, else
   * `map[keycode]`. The second lookup uses the keycode itself as the key,
   * so it can only find a binding when the keycode is a key name: an
   * integer keycode is never a key of a table of strings.
   */
  function KeyActionAsWritten(m: map<string, string>, k: KeyCode, modifier: Option<int>): Option<string>
  {
    var combo := ComboKey(k, modifier);
    if combo in m then Some(m[combo])
    else if k.Sym? && k.name in m then Some(m[k.name])
    else None
  }

  /**
   * get_key_action with the fallback looking up the keycode as bind_key
   * writes it: the binding for this modifier wins, then the binding made
   * for any modifier, else None.
   */
  function KeyAction(m: map<string, string>, k: KeyCode, modifier: Option<int>): Option<string>
  {
    var combo := ComboKey(k, modifier);
    if combo in m then Some(m[combo])
    else if KeyText(k) in m then Some(m[KeyText(k)])
    else None
  }

  /** A combination bound for one modifier is found under that modifier. */
  lemma LookupAfterBind(m: map<string, string>, k: KeyCode, modifier: int, cuia: string)
    ensures KeyAction(Bound(m, k, Some(modifier), cuia), k, Some(modifier)) == Some(cuia)
  {
  }

  /**
   * A keycode bound for any modifier is found under every modifier that has
   * no binding of its own.
   */
  lemma LookupAfterBindAny(m: map<string, string>, k: KeyCode, modifier: Option<int>, cuia: string)
    requires ComboKey(k, modifier) !in m
    ensures KeyAction(Bound(m, k, None, cuia), k, modifier) == Some(cuia)
  {
    assert ComboKey(k, modifier) != KeyText(k);
  }

  /** A binding for a particular modifier takes precedence over one for any modifier. */
  lemma ComboWins(m: map<string, string>, k: KeyCode, modifier: Option<int>, cuia: string)
    requires ComboKey(k, modifier) in m
    ensures KeyAction(Bound(m, k, None, cuia), k, modifier) == Some(m[ComboKey(k, modifier)])
  {
    assert ComboKey(k, modifier) != KeyText(k);
  }

  /** Binding one table key leaves every lookup that never reads that key as it was. */
  lemma BindLeavesOthers(m: map<string, string>, k: KeyCode, modifier: Option<int>, cuia: string,
                         k2: KeyCode, modifier2: Option<int>)
    requires BoundKey(k, modifier) != ComboKey(k2, modifier2) && BoundKey(k, modifier) != KeyText(k2)
    ensures KeyAction(Bound(m, k, modifier, cuia), k2, modifier2) == KeyAction(m, k2, modifier2)
  {
  }

  /** For key names the lookup as written and the corrected one agree. */
  lemma KeyNameLookupAgrees(m: map<string, string>, name: string, modifier: Option<int>)
    ensures KeyActionAsWritten(m, Sym(name), modifier) == KeyAction(m, Sym(name), modifier)
  {
  }

  /**
   * As written, an integer keycode bound for any modifier is never found:
   * the lookup comes back empty even right after bind_key.
   */
  lemma AnyModifierBindingLost(m: map<string, string>, n: int, modifier: Option<int>, cuia: string)
    requires ComboKey(Code(n), modifier) !in m
    ensures KeyActionAsWritten(Bound(m, Code(n), None, cuia), Code(n), modifier) == None
    ensures KeyAction(Bound(m, Code(n), None, cuia), Code(n), modifier) == Some(cuia)
  {
    assert ComboKey(Code(n), modifier) != KeyText(Code(n));
  }

  /** The bindings reset_config restores. */
  function DefaultMap(): map<string, string>
  {
    map[
      "65 0" := "ALL_NOTES_OFF",
      "65 1" := "ALL_SOUNDS_OFF",
      "110 1" := "RESTART_UI",
      "110 4" := "REBOOT",
      "115 4" := "POWER_OFF",
      "118 4" := "RELOAD_MIDI_CONFIG",
      "31 0" := "ZYNSWITCH 0",
      "45 0" := "ZYNSWITCH 1",
      "22 0" := "ZYNSWITCH 1",
      "9 0" := "ZYNSWITCH 1",
      "32 0" := "ZYNSWITCH 2",
      "46 0" := "ZYNSWITCH 3",
      "36 0" := "ZYNSWITCH 3",
      "60 4" := "ZYNPOT 1,1",
      "59 4" := "ZYNPOT 1,-1",
      "60 0" := "ZYNPOT 3,1",
      "59 0" := "ZYNPOT 3,-1",
      "60 5" := "ZYNPOT 0,1",
      "59 5" := "ZYNPOT 0,-1",
      "60 1" := "ZYNPOT 2,1",
      "59 1" := "ZYNPOT 2,-1",
      "38 0" := "START_AUDIO_RECORD",
      "38 1" := "STOP_AUDIO_RECORD",
      "38 8" := "TOGGLE_AUDIO_RECORD",
      "38 4" := "START_AUDIO_PLAY",
      "38 5" := "STOP_AUDIO_PLAY",
      "38 12" := "TOGGLE_AUDIO_PLAY",
      "58 0" := "START_MIDI_RECORD",
      "58 1" := "STOP_MIDI_RECORD",
      "58 8" := "TOGGLE_MIDI_RECORD",
      "58 4" := "START_MIDI_PLAY",
      "58 5" := "STOP_MIDI_PLAY",
      "58 12" := "TOGGLE_MIDI_PLAY",
      "116" := "ARROW_DOWN",
      "111" := "ARROW_UP",
      "114" := "ARROW_RIGHT",
      "113" := "ARROW_LEFT",
      "10" := "PROGRAM_CHANGE 1",
      "11" := "PROGRAM_CHANGE 2",
      "12" := "PROGRAM_CHANGE 3",
      "13" := "PROGRAM_CHANGE 4",
      "14" := "PROGRAM_CHANGE 5",
      "15" := "PROGRAM_CHANGE 6",
      "16" := "PROGRAM_CHANGE 7",
      "17" := "PROGRAM_CHANGE 8",
      "18" := "PROGRAM_CHANGE 9",
      "19" := "PROGRAM_CHANGE 0"
    ]
  }

  /** The keybinding object: its table (the `map` attribute) and its enabled flag. */
  class Keybinding {
    var bindings: map<string, string>
    var enabled: bool

    /** The construction that succeeds: it resets the configuration. */
    constructor ()
      ensures bindings == DefaultMap() && enabled
    {
      bindings := DefaultMap();
      enabled := true;
    }

    /** reset_config: a copy of the default table, and binding enabled. */
    method ResetConfig()
      modifies this`bindings, this`enabled
      ensures bindings == DefaultMap() && enabled
    {
      bindings := DefaultMap();
      Enable(true);
    }

    /** bind_key: the combination now gives `cuia`; every other binding is kept. */
    method BindKey(keycode: KeyCode, modifier: Option<int>, cuia: string)
      modifies this`bindings
      ensures bindings == Bound(old(bindings), keycode, modifier, cuia)
    {
      if modifier.None? {
        bindings := bindings[KeyText(keycode) := cuia];
      } else {
        bindings := bindings[ComboKey(keycode, modifier) := cuia];
      }
    }

    /** enable: isEnabled answers the argument from now on. */
    method Enable(e: bool)
      modifies this`enabled
      ensures enabled == e && IsEnabled() == e
    {
      enabled := e;
    }

    /** isEnabled */
    function IsEnabled(): bool
      reads this`enabled
    {
      enabled
    }

    /**
     * get_key_action, with the any-modifier fallback corrected: an action is
     * found exactly when the combination or the bare keycode is bound, and
     * it is always one of the bound actions.
     */
    function GetKeyAction(keycode: KeyCode, modifier: Option<int>): (r: Option<string>)
      reads this`bindings
      ensures r.Some? <==> ComboKey(keycode, modifier) in bindings || KeyText(keycode) in bindings
      ensures r.Some? ==> r.value in bindings.Values
    {
      KeyAction(bindings, keycode, modifier)
    }

    /**
     * load: the parsed table replaces the bindings; when the file cannot be
     * read or parsed the configuration is reset instead.
     */
    method Load(parsed: Option<map<string, string>>) returns (ok: bool)
      modifies this`bindings, this`enabled
      ensures ok <==> parsed.Some?
      ensures parsed.Some? ==> bindings == parsed.value && enabled == old(enabled)
      ensures parsed.None? ==> bindings == DefaultMap() && enabled
    {
      if parsed.Some? {
        bindings := parsed.value;
        return true;
      }
      ResetConfig();
      return false;
    }
  }

  /** The class attribute that holds the one keybinding object, once it is made. */
  class KeybindingSingleton {
    var instance: Keybinding?

    constructor ()
      ensures instance == null
    {
      instance := null;
    }

    /**
     * Constructing the class directly: the first construction becomes the
     * instance; any later one raises and leaves the instance as it was.
     */
    method Construct() returns (r: Option<Keybinding>)
      modifies this`instance
      ensures old(instance) == null ==> r.Some? && fresh(r.value) && instance == r.value
      ensures old(instance) == null ==> r.value.bindings == DefaultMap() && r.value.enabled
      ensures old(instance) != null ==> r.None? && instance == old(instance)
    {
      if instance != null {
        return None;
      }
      var kb := new Keybinding();
      instance := kb;
      return Some(kb);
    }

    /** getInstance: the instance, made on the first call and the same object on every later one. */
    method GetInstance() returns (kb: Keybinding)
      modifies this`instance
      ensures instance == kb
      ensures old(instance) != null ==> kb == old(instance)
      ensures old(instance) == null ==> fresh(kb) && kb.bindings == DefaultMap() && kb.enabled
    {
      if instance == null {
        var r := Construct();
        return r.value;
      }
      return instance;
    }
  }
}

=== FILE: pattern.dfy ===
/**
 * The step-sequencer pattern of zynseq (pattern.cpp): a vector of step events
 * kept in position order, edited in place, with a linear undo/redo history of
 * snapshots of that vector.
 */
module Sequencer {
  import opened Wrappers

  /** MIDI 1.0 channel voice status bytes (channel 0) used as event commands. */
  const MIDI_NOTE_ON: nat := 0x90
  const MIDI_CONTROL: nat := 0xB0
  const MIDI_PROGRAM: nat := 0xC0

  /**
   * Clocks per quarter note, and the defaults addEvent takes for value2,
   * duration and offset: these come from headers that are not part of this
   * model, and are fixed here at zynseq's values.
   */
  const PPQN: nat := 24
  const DEFAULT_VALUE2: nat := 0
  const DEFAULT_DURATION: real := 1.0
  const DEFAULT_OFFSET: real := 0.0

  /** getLastStep's -1 returned as a uint32_t. */
  const NO_STEP: nat := 0xFFFF_FFFF

  /** One event of the pattern: position in steps, MIDI command, start/end values, length and stutter. */
  datatype StepEvent = StepEvent(position: nat, command: nat, value1start: nat, value2start: nat,
                                 value1end: nat, value2end: nat, duration: real, offset: real,
                                 stutterCount: nat, stutterDur: nat)

  /** The pattern's invariant: events in non-decreasing position order. */
  predicate Sorted(evs: seq<StepEvent>)
  {
    forall i, j :: 0 <= i < j < |evs| ==> evs[i].position <= evs[j].position
  }

  // ---------------------------------------------------------------------------
  // addEvent
  // ---------------------------------------------------------------------------

  /**
   * addEvent's overlap test of an existing event against the new span
   * [position, position + duration): the existing event starts inside the
   * new span, or ends inside it. An existing event that encloses the whole
   * new span passes neither test.
   */
  predicate Overlaps(e: StepEvent, position: nat, duration: real)
  {
    var start := position as real;
    var end := start + duration;
    var checkStart := e.position as real;
    var checkEnd := checkStart + e.duration;
    (checkStart >= start && checkStart < end) || (checkEnd > start && checkEnd <= end)
  }

  /** An existing event that addEvent deletes: overlapping, with the same command and first value. */
  predicate Replaced(e: StepEvent, position: nat, command: nat, value1: nat, duration: real)
  {
    Overlaps(e, position, duration) && e.command == command && e.value1start == value1
  }

  /** The events addEvent keeps, in their order. */
  function Survivors(evs: seq<StepEvent>, position: nat, command: nat, value1: nat, duration: real): (r: seq<StepEvent>)
    ensures |r| <= |evs|
  {
    if evs == [] then []
    else
      var last := evs[|evs| - 1];
      Survivors(evs[..|evs| - 1], position, command, value1, duration)
        + (if Replaced(last, position, command, value1, duration) then [] else [last])
  }

  /** addEvent keeps exactly the events it does not replace. */
  lemma {:induction false} SurvivorsSpec(evs: seq<StepEvent>, position: nat, command: nat, value1: nat, duration: real)
    ensures forall e :: (e in Survivors(evs, position, command, value1, duration)
                         <==> e in evs && !Replaced(e, position, command, value1, duration))
  {
    if evs != [] {
      var init := evs[..|evs| - 1];
      assert evs == init + [evs[|evs| - 1]];
      SurvivorsSpec(init, position, command, value1, duration);
    }
  }

  /** The first event addEvent deletes, whose stutter settings the new event inherits. */
  function FirstReplaced(evs: seq<StepEvent>, position: nat, command: nat, value1: nat, duration: real): (r: Option<StepEvent>)
  {
    if evs == [] then None
    else
      var p := FirstReplaced(evs[..|evs| - 1], position, command, value1, duration);
      var last := evs[|evs| - 1];
      if p.Some? then p
      else if Replaced(last, position, command, value1, duration) then Some(last)
      else None
  }

  /** None exactly when nothing is replaced; otherwise the earliest replaced event. */
  lemma {:induction false} FirstReplacedSpec(evs: seq<StepEvent>, position: nat, command: nat, value1: nat, duration: real)
    ensures var r := FirstReplaced(evs, position, command, value1, duration);
      && (r.None? <==> forall e :: e in evs ==> !Replaced(e, position, command, value1, duration))
      && (r.Some? ==> exists i :: 0 <= i < |evs| && evs[i] == r.value && Replaced(r.value, position, command, value1, duration)
                                 && forall j :: 0 <= j < i ==> !Replaced(evs[j], position, command, value1, duration))
  {
    if evs != [] {
      var init := evs[..|evs| - 1];
      assert evs == init + [evs[|evs| - 1]];
      FirstReplacedSpec(init, position, command, value1, duration);
    }
  }

  /** Where addEvent inserts: before the first event with a strictly greater position. */
  function InsertIndex(evs: seq<StepEvent>, position: nat): (r: nat)
    ensures r <= |evs|
    ensures forall j :: 0 <= j < r ==> evs[j].position <= position
    ensures r < |evs| ==> evs[r].position > position
  {
    if evs == [] || evs[0].position > position then 0
    else 1 + InsertIndex(evs[1..], position)
  }

  /** The event addEvent creates, with the stutter count and length of the first deleted event (else 0 and 1). */
  function NewEvent(evs: seq<StepEvent>, position: nat, command: nat, value1: nat, value2: nat,
                    duration: real, offset: real): StepEvent
  {
    var first := FirstReplaced(evs, position, command, value1, duration);
    StepEvent(position, command, value1, value2, value1, value2, duration, offset,
              if first.Some? then first.value.stutterCount else 0,
              if first.Some? then first.value.stutterDur else 1)
  }

  /** The events after addEvent: the survivors with the new event inserted. */
  function Added(evs: seq<StepEvent>, position: nat, command: nat, value1: nat, value2: nat,
                 duration: real, offset: real): seq<StepEvent>
  {
    var kept := Survivors(evs, position, command, value1, duration);
    var i := InsertIndex(kept, position);
    kept[..i] + [NewEvent(evs, position, command, value1, value2, duration, offset)] + kept[i..]
  }

  /** Dropping events keeps the order. */
  lemma {:induction false} SurvivorsSorted(evs: seq<StepEvent>, position: nat, command: nat, value1: nat, duration: real)
    requires Sorted(evs)
    ensures Sorted(Survivors(evs, position, command, value1, duration))
    ensures forall k :: 0 <= k < |Survivors(evs, position, command, value1, duration)| ==>
      exists j :: 0 <= j < |evs| && evs[j] == Survivors(evs, position, command, value1, duration)[k]
  {
    if evs != [] {
      var init := evs[..|evs| - 1];
      var last := evs[|evs| - 1];
      SurvivorsSorted(init, position, command, value1, duration);
      var s := Survivors(init, position, command, value1, duration);
      forall k | 0 <= k < |s|
        ensures s[k].position <= last.position
      {
        var j :| 0 <= j < |init| && init[j] == s[k];
        assert evs[j] == init[j];
      }
      var r := Survivors(evs, position, command, value1, duration);
      forall k | 0 <= k < |r|
        ensures exists j :: 0 <= j < |evs| && evs[j] == r[k]
      {
        if k < |s| {
          var j :| 0 <= j < |init| && init[j] == s[k];
          assert evs[j] == r[k];
        } else {
          assert evs[|evs| - 1] == r[k];
        }
      }
    }
  }

  /** addEvent keeps the events in position order. */
  lemma AddedSorted(evs: seq<StepEvent>, position: nat, command: nat, value1: nat, value2: nat, duration: real, offset: real)
    requires Sorted(evs)
    ensures Sorted(Added(evs, position, command, value1, value2, duration, offset))
  {
    SurvivorsSorted(evs, position, command, value1, duration);
  }

  /**
   * After addEvent the pattern holds the new event and exactly the old events
   * it did not replace: every overlapping event with the same command and
   * first value is gone.
   */
  lemma AddedContents(evs: seq<StepEvent>, position: nat, command: nat, value1: nat, value2: nat,
                      duration: real, offset: real, e: StepEvent)
    ensures var r := Added(evs, position, command, value1, value2, duration, offset);
      e in r <==> e == NewEvent(evs, position, command, value1, value2, duration, offset)
                  || (e in evs && !Replaced(e, position, command, value1, duration))
    ensures |Added(evs, position, command, value1, value2, duration, offset)|
      == |Survivors(evs, position, command, value1, duration)| + 1
  {
    SurvivorsSpec(evs, position, command, value1, duration);
    var kept := Survivors(evs, position, command, value1, duration);
    var i := InsertIndex(kept, position);
    assert kept == kept[..i] + kept[i..];
  }

  /** A same-note event that encloses the new span is not replaced: both remain, overlapping. */
  lemma EnclosingNoteSurvives()
    ensures var prior := StepEvent(0, MIDI_NOTE_ON, 60, 100, 60, 100, 4.0, 0.0, 0, 1);
      var r := Added([prior], 1, MIDI_NOTE_ON, 60, 90, 1.0, 0.0);
      prior in r && |r| == 2
  {
    var prior := StepEvent(0, MIDI_NOTE_ON, 60, 100, 60, 100, 4.0, 0.0, 0, 1);
    assert !Replaced(prior, 1, MIDI_NOTE_ON, 60, 1.0);
    AddedContents([prior], 1, MIDI_NOTE_ON, 60, 90, 1.0, 0.0, prior);
    assert Survivors([prior], 1, MIDI_NOTE_ON, 60, 1.0) == [prior];
  }

  // ---------------------------------------------------------------------------
  // deleteEvent and the program change of a step
  // ---------------------------------------------------------------------------

  predicate At(e: StepEvent, position: nat, command: nat, value1: nat)
  {
    e.position == position && e.command == command && e.value1start == value1
  }

  /** The index of the first event at `position` with this command and first value. */
  function FindEvent(evs: seq<StepEvent>, position: nat, command: nat, value1: nat): (r: Option<nat>)
    ensures r.None? <==> forall i :: 0 <= i < |evs| ==> !At(evs[i], position, command, value1)
    ensures r.Some? ==> r.value < |evs| && At(evs[r.value], position, command, value1)
                        && forall j :: 0 <= j < r.value ==> !At(evs[j], position, command, value1)
  {
    if evs == [] then None
    else if At(evs[0], position, command, value1) then Some(0)
    else
      var r := FindEvent(evs[1..], position, command, value1);
      if r.Some? then Some(r.value + 1) else None
  }

  /** deleteEvent: the first matching event removed, if any. */
  function Deleted(evs: seq<StepEvent>, position: nat, command: nat, value1: nat): seq<StepEvent>
  {
    match FindEvent(evs, position, command, value1)
    case None => evs
    case Some(i) => evs[..i] + evs[i + 1..]
  }

  /** Removing one event keeps the order. */
  lemma DeletedSorted(evs: seq<StepEvent>, position: nat, command: nat, value1: nat)
    requires Sorted(evs)
    ensures Sorted(Deleted(evs, position, command, value1))
  {
    var f := FindEvent(evs, position, command, value1);
    if f.Some? {
      var i := f.value;
      var r := evs[..i] + evs[i + 1..];
      forall a, b | 0 <= a < b < |r|
        ensures r[a].position <= r[b].position
      {
        var a' := if a < i then a else a + 1;
        var b' := if b < i then b else b + 1;
        assert r[a] == evs[a'] && r[b] == evs[b'];
      }
    }
  }

  /** deleteEvent removes exactly one occurrence of the event it finds, and nothing when it finds none. */
  lemma DeletedOne(evs: seq<StepEvent>, position: nat, command: nat, value1: nat)
    ensures var f := FindEvent(evs, position, command, value1);
      f.Some? ==> multiset(Deleted(evs, position, command, value1)) + multiset{evs[f.value]} == multiset(evs)
    ensures FindEvent(evs, position, command, value1).None? ==> Deleted(evs, position, command, value1) == evs
  {
    var f := FindEvent(evs, position, command, value1);
    if f.Some? {
      RemovedOne(evs, f.value);
    }
  }

  lemma RemovedOne<T>(s: seq<T>, i: nat)
    requires i < |s|
    ensures multiset(s[..i] + s[i + 1..]) + multiset{s[i]} == multiset(s)
  {
    assert s == s[..i] + ([s[i]] + s[i + 1..]);
  }

  predicate ProgramChangeAt(e: StepEvent, step: nat)
  {
    e.position == step && e.command == MIDI_PROGRAM
  }

  /** The index of the first program change at a step. */
  function FirstProgramChange(evs: seq<StepEvent>, step: nat): (r: Option<nat>)
    ensures r.None? <==> forall i :: 0 <= i < |evs| ==> !ProgramChangeAt(evs[i], step)
    ensures r.Some? ==> r.value < |evs| && ProgramChangeAt(evs[r.value], step)
                        && forall j :: 0 <= j < r.value ==> !ProgramChangeAt(evs[j], step)
  {
    if evs == [] then None
    else if ProgramChangeAt(evs[0], step) then Some(0)
    else
      var r := FirstProgramChange(evs[1..], step);
      if r.Some? then Some(r.value + 1) else None
  }

  /** getProgramChange: the program of the first program change at an in-range step, else 0xFF. */
  function ProgramAt(evs: seq<StepEvent>, steps: nat, step: nat): nat
  {
    if step >= steps then 0xFF
    else match FirstProgramChange(evs, step)
      case None => 0xFF
      case Some(i) => evs[i].value1start
  }

  /** removeProgramChange: the step's program change deleted, when getProgramChange finds one. */
  function Cleared(evs: seq<StepEvent>, steps: nat, step: nat): seq<StepEvent>
  {
    var program := ProgramAt(evs, steps, step);
    if program == 0xFF then evs else Deleted(evs, step, MIDI_PROGRAM, program)
  }

  /** No two program changes share the step. */
  predicate AtMostOneProgram(evs: seq<StepEvent>, step: nat)
  {
    forall i, j :: 0 <= i < |evs| && 0 <= j < |evs| && ProgramChangeAt(evs[i], step) && ProgramChangeAt(evs[j], step) ==> i == j
  }

  /** Removing the step's only program change leaves none there. */
  lemma ClearedHasNone(evs: seq<StepEvent>, steps: nat, step: nat)
    requires step < steps && AtMostOneProgram(evs, step)
    requires forall i :: 0 <= i < |evs| && ProgramChangeAt(evs[i], step) ==> evs[i].value1start <= 127
    ensures forall i :: 0 <= i < |Cleared(evs, steps, step)| ==> !ProgramChangeAt(Cleared(evs, steps, step)[i], step)
  {
    var f := FirstProgramChange(evs, step);
    if f.Some? {
      var k := f.value;
      var p := evs[k].value1start;
      var d := FindEvent(evs, step, MIDI_PROGRAM, p);
      assert d == Some(k) by {
        assert At(evs[k], step, MIDI_PROGRAM, p);
        if d.Some? && d.value != k {
          assert ProgramChangeAt(evs[d.value], step);
        }
      }
      assert Cleared(evs, steps, step) == evs[..k] + evs[k + 1..];
      RemovedOnlyProgram(evs, step, k);
    }
  }

  lemma RemovedOnlyProgram(evs: seq<StepEvent>, step: nat, k: nat)
    requires k < |evs| && ProgramChangeAt(evs[k], step) && AtMostOneProgram(evs, step)
    ensures var c := evs[..k] + evs[k + 1..];
      forall i :: 0 <= i < |c| ==> !ProgramChangeAt(c[i], step)
  {
    var c := evs[..k] + evs[k + 1..];
    forall i | 0 <= i < |c|
      ensures !ProgramChangeAt(c[i], step)
    {
      var i' := if i < k then i else i + 1;
      assert c[i] == evs[i'];
    }
  }

  /**
   * addProgramChange on a step with at most one program change leaves
   * exactly one there, the new program.
   */
  lemma ProgramChangeReplaces(evs: seq<StepEvent>, steps: nat, step: nat, program: nat)
    requires step < steps && program <= 127 && AtMostOneProgram(evs, step)
    requires forall i :: 0 <= i < |evs| && ProgramChangeAt(evs[i], step) ==> evs[i].value1start <= 127
    ensures var r := Added(Cleared(evs, steps, step), step, MIDI_PROGRAM, program, DEFAULT_VALUE2, DEFAULT_DURATION, DEFAULT_OFFSET);
      AtMostOneProgram(r, step) && ProgramAt(r, steps, step) == program
  {
    ClearedHasNone(evs, steps, step);
    var c := Cleared(evs, steps, step);
    SurvivorsSpec(c, step, MIDI_PROGRAM, program, DEFAULT_DURATION);
    var kept := Survivors(c, step, MIDI_PROGRAM, program, DEFAULT_DURATION);
    var at := InsertIndex(kept, step);
    var ev := NewEvent(c, step, MIDI_PROGRAM, program, DEFAULT_VALUE2, DEFAULT_DURATION, DEFAULT_OFFSET);
    var r := kept[..at] + [ev] + kept[at..];
    assert r == Added(c, step, MIDI_PROGRAM, program, DEFAULT_VALUE2, DEFAULT_DURATION, DEFAULT_OFFSET);
    forall i | 0 <= i < |r| && i != at
      ensures !ProgramChangeAt(r[i], step)
    {
      var i' := if i < at then i else i - 1;
      assert r[i] == kept[i'];
      assert kept[i'] in c;
    }
    assert r[at] == ev;
    var f := FirstProgramChange(r, step);
    assert f == Some(at);
  }

  // ---------------------------------------------------------------------------
  // Bulk edits: transpose and change*All
  // ---------------------------------------------------------------------------

  predicate IsNote(e: StepEvent) { e.command == MIDI_NOTE_ON }

  /** Whether transpose accepts the offset: no NOTE_ON would leave 0..127. */
  predicate TransposeFits(evs: seq<StepEvent>, offset: int)
  {
    forall i :: 0 <= i < |evs| && IsNote(evs[i]) ==> 0 <= evs[i].value1start + offset <= 127
  }

  /** One note moved by `offset`: both first values set to the new note. */
  function Shifted(e: StepEvent, offset: int): StepEvent
    requires 0 <= e.value1start + offset
  {
    var note := e.value1start + offset;
    e.(value1start := note, value1end := note)
  }

  /** transpose: every NOTE_ON moved when all fit, otherwise nothing. */
  function Transposed(evs: seq<StepEvent>, offset: int): (r: seq<StepEvent>)
    ensures |r| == |evs|
  {
    if TransposeFits(evs, offset) then
      seq(|evs|, i requires 0 <= i < |evs| => if IsNote(evs[i]) then Shifted(evs[i], offset) else evs[i])
    else evs
  }

  /**
   * transpose keeps positions, commands, lengths and the order; when it is
   * accepted every note moves by `offset` into 0..127, otherwise nothing changes.
   */
  lemma TransposedSpec(evs: seq<StepEvent>, offset: int)
    ensures var r := Transposed(evs, offset);
      && (forall i :: 0 <= i < |evs| ==>
            r[i].position == evs[i].position && r[i].command == evs[i].command && r[i].duration == evs[i].duration)
      && (TransposeFits(evs, offset) ==>
            forall i :: 0 <= i < |evs| && IsNote(evs[i]) ==>
              r[i].value1start == evs[i].value1start + offset && r[i].value1start <= 127)
      && (!TransposeFits(evs, offset) ==> r == evs)
      && (Sorted(evs) ==> Sorted(r))
  {
  }

  /** Transposing back undoes a transpose that was accepted. */
  lemma TransposeRoundTrip(evs: seq<StepEvent>, offset: int)
    requires forall i :: 0 <= i < |evs| && IsNote(evs[i]) ==> evs[i].value1start <= 127
    requires TransposeFits(evs, offset)
    requires forall i :: 0 <= i < |evs| && IsNote(evs[i]) ==> evs[i].value1end == evs[i].value1start
    ensures Transposed(Transposed(evs, offset), -offset) == evs
  {
    var r := Transposed(evs, offset);
    assert TransposeFits(r, -offset);
    var back := Transposed(r, -offset);
    forall i | 0 <= i < |evs|
      ensures back[i] == evs[i]
    {
    }
  }

  function Clamp(x: int, lo: int, hi: int): (r: int)
    requires lo <= hi
    ensures lo <= r <= hi
    ensures lo <= x <= hi ==> r == x
  {
    if x > hi then hi else if x < lo then lo else x
  }

  /** A per-note edit applied to every NOTE_ON, every other event unchanged. */
  function OnNotes(evs: seq<StepEvent>, f: StepEvent -> StepEvent): (r: seq<StepEvent>)
    ensures |r| == |evs|
    ensures forall i :: 0 <= i < |evs| ==> r[i] == if IsNote(evs[i]) then f(evs[i]) else evs[i]
  {
    seq(|evs|, i requires 0 <= i < |evs| => if IsNote(evs[i]) then f(evs[i]) else evs[i])
  }

  /** changeVelocityAll's edit: velocity moved by `delta`, clamped to 1..127. */
  function WithVelocity(e: StepEvent, delta: int): (r: StepEvent)
    ensures 1 <= r.value2start <= 127 && r.position == e.position && r.command == e.command
    ensures 1 <= e.value2start + delta <= 127 ==> r.value2start == e.value2start + delta
  {
    e.(value2start := Clamp(e.value2start + delta, 1, 127))
  }

  /** changeStutterCountAll's edit: count moved by `delta`, clamped to 0..255. */
  function WithStutterCount(e: StepEvent, delta: int): (r: StepEvent)
    ensures r.stutterCount <= 255 && r.position == e.position && r.command == e.command
    ensures 0 <= e.stutterCount + delta <= 255 ==> r.stutterCount == e.stutterCount + delta
  {
    e.(stutterCount := Clamp(e.stutterCount + delta, 0, 255))
  }

  /** changeStutterDurAll's edit: stutter length moved by `delta`, clamped to 1..255. */
  function WithStutterDur(e: StepEvent, delta: int): (r: StepEvent)
    ensures 1 <= r.stutterDur <= 255 && r.position == e.position && r.command == e.command
    ensures 1 <= e.stutterDur + delta <= 255 ==> r.stutterDur == e.stutterDur + delta
  {
    e.(stutterDur := Clamp(e.stutterDur + delta, 1, 255))
  }

  /** Editing single events without moving them keeps the order. */
  lemma OnNotesSorted(evs: seq<StepEvent>, f: StepEvent -> StepEvent)
    requires forall e :: f(e).position == e.position
    requires Sorted(evs)
    ensures Sorted(OnNotes(evs, f))
  {
  }

  /**
   * changeDurationAll: each NOTE_ON lengthened by `delta`, floored at 0.1,
   * up to the first note the change would leave at 0 or less; from that
   * note on nothing changes.
   */
  function Lengthened(evs: seq<StepEvent>, delta: real): (r: seq<StepEvent>)
    ensures |r| == |evs|
  {
    if evs == [] then []
    else if !IsNote(evs[0]) then [evs[0]] + Lengthened(evs[1..], delta)
    else
      var d := evs[0].duration + delta;
      if d <= 0.0 then evs
      else [evs[0].(duration := if d < 0.1 then 0.1 else d)] + Lengthened(evs[1..], delta)
  }

  /**
   * When every note stays positive, every note is changed and at least 0.1
   * long; otherwise the events from the first failing note on are untouched.
   */
  lemma {:induction false} LengthenedSpec(evs: seq<StepEvent>, delta: real)
    ensures var r := Lengthened(evs, delta);
      && (forall i :: 0 <= i < |evs| ==> r[i].position == evs[i].position && r[i].command == evs[i].command)
      && ((forall i :: 0 <= i < |evs| && IsNote(evs[i]) ==> evs[i].duration + delta > 0.0) ==>
            forall i :: 0 <= i < |evs| && IsNote(evs[i]) ==>
              r[i].duration >= 0.1 && (evs[i].duration + delta >= 0.1 ==> r[i].duration == evs[i].duration + delta))
      && (forall i :: 0 <= i < |evs| && IsNote(evs[i]) && evs[i].duration + delta <= 0.0 ==> r[i..] == evs[i..])
  {
    if evs != [] {
      LengthenedSpec(evs[1..], delta);
      var r := Lengthened(evs, delta);
      var t := Lengthened(evs[1..], delta);
      if IsNote(evs[0]) && evs[0].duration + delta <= 0.0 {
      } else {
        assert r[1..] == t;
        forall i | 0 <= i < |evs| && IsNote(evs[i]) && evs[i].duration + delta <= 0.0
          ensures r[i..] == evs[i..]
        {
          assert i > 0;
          assert evs[1..][i - 1] == evs[i];
          assert t[i - 1..] == evs[1..][i - 1..];
          assert r[i..] == t[i - 1..];
          assert evs[i..] == evs[1..][i - 1..];
        }
        forall i | 0 <= i < |evs|
          ensures r[i].position == evs[i].position && r[i].command == evs[i].command
        {
          if i > 0 { assert r[i] == t[i - 1] && evs[i] == evs[1..][i - 1]; }
        }
        if forall i :: 0 <= i < |evs| && IsNote(evs[i]) ==> evs[i].duration + delta > 0.0 {
          forall i | 0 <= i < |evs| && IsNote(evs[i])
            ensures r[i].duration >= 0.1 && (evs[i].duration + delta >= 0.1 ==> r[i].duration == evs[i].duration + delta)
          {
            if i > 0 { assert r[i] == t[i - 1] && evs[i] == evs[1..][i - 1]; }
          }
        }
      }
    }
  }

  // ---------------------------------------------------------------------------
  // Length of the pattern
  // ---------------------------------------------------------------------------

  /** The step counts setStepsPerBeat accepts. */
  predicate ValidStepsPerBeat(n: nat)
  {
    n == 1 || n == 2 || n == 3 || n == 4 || n == 6 || n == 8 || n == 12 || n == 24
  }

  /** getClocksPerStep: PPQN / stepsPerBeat, or 1 for 0 or more steps than clocks. */
  function ClocksPerStep(stepsPerBeat: nat): (r: nat)
    ensures r >= 1
    ensures ValidStepsPerBeat(stepsPerBeat) ==> r * stepsPerBeat == PPQN
  {
    if stepsPerBeat > PPQN || stepsPerBeat == 0 then 1 else PPQN / stepsPerBeat
  }

  /** setBeatsInPattern's cut: the index of the first event at or past `steps`. */
  function CutIndex(evs: seq<StepEvent>, steps: nat): (r: nat)
    ensures r <= |evs|
    ensures forall j :: 0 <= j < r ==> evs[j].position < steps
    ensures r < |evs| ==> evs[r].position >= steps
  {
    if evs == [] || evs[0].position >= steps then 0 else 1 + CutIndex(evs[1..], steps)
  }

  /** On ordered events the cut keeps exactly the events before `steps`. */
  lemma CutKeepsInRange(evs: seq<StepEvent>, steps: nat)
    requires Sorted(evs)
    ensures forall e :: e in evs[..CutIndex(evs, steps)] <==> e in evs && e.position < steps
  {
    var c := CutIndex(evs, steps);
    forall e | e in evs && e.position < steps
      ensures e in evs[..c]
    {
      var k :| 0 <= k < |evs| && evs[k] == e;
    }
  }

  // ---------------------------------------------------------------------------
  // Undo/redo history
  // ---------------------------------------------------------------------------

  /** The snapshot vector and the snapshot position. */
  datatype History = History(snaps: seq<seq<StepEvent>>, pos: nat)

  predicate HistoryValid(h: History) { h.pos < |h.snaps| }

  /** saveSnapshot: snapshots after the position dropped, a copy of the events appended and made current. */
  function Saved(h: History, evs: seq<StepEvent>): (r: History)
    requires HistoryValid(h)
    ensures HistoryValid(r) && r.snaps[r.pos] == evs && r.pos == h.pos + 1 && r.snaps[..h.pos + 1] == h.snaps[..h.pos + 1]
  {
    History(h.snaps[..h.pos + 1] + [evs], h.pos + 1)
  }

  /** undo's move: one snapshot back when not at the first. */
  function Back(h: History): History
  {
    if h.pos > 0 then h.(pos := h.pos - 1) else h
  }

  /** redo's move: one snapshot forward when not at the last. */
  function Forward(h: History): History
  {
    if |h.snaps| > 1 && h.pos < |h.snaps| - 1 then h.(pos := h.pos + 1) else h
  }

  /** Undo then redo returns to the same snapshot, and redo then undo as well. */
  lemma BackForward(h: History)
    requires HistoryValid(h)
    ensures h.pos > 0 ==> Forward(Back(h)) == h
    ensures h.pos < |h.snaps| - 1 ==> Back(Forward(h)) == h
    ensures HistoryValid(Back(h)) && HistoryValid(Forward(h))
  {
  }

  /** After a save, undo returns to the snapshot current before it, and there is nothing to redo. */
  lemma SaveThenBack(h: History, evs: seq<StepEvent>)
    requires HistoryValid(h)
    ensures Back(Saved(h, evs)).snaps[Back(Saved(h, evs)).pos] == h.snaps[h.pos]
    ensures Forward(Saved(h, evs)) == Saved(h, evs)
  {
    var s := Saved(h, evs);
    assert s.snaps[h.pos] == h.snaps[..h.pos + 1][h.pos];
  }

  /** The largest event position; the events must not be empty. */
  function MaxPosition(evs: seq<StepEvent>): (r: nat)
    requires evs != []
    ensures exists i :: 0 <= i < |evs| && evs[i].position == r
    ensures forall i :: 0 <= i < |evs| ==> evs[i].position <= r
  {
    if |evs| == 1 then evs[0].position
    else
      var m := MaxPosition(evs[..|evs| - 1]);
      assert forall i :: 0 <= i < |evs| - 1 ==> evs[..|evs| - 1][i] == evs[i];
      if evs[|evs| - 1].position > m then evs[|evs| - 1].position else m
  }

  /** On ordered events the last step is the position of the last event. */
  lemma LastStepOfSorted(evs: seq<StepEvent>)
    requires Sorted(evs) && evs != []
    ensures MaxPosition(evs) == evs[|evs| - 1].position
  {
  }

  // ---------------------------------------------------------------------------
  // The loops of the pattern's edits, on the event vector's contents
  // ---------------------------------------------------------------------------

  /** addEvent's first loop: the replaced events erased, the first of them remembered. */
  method Sift(evs: seq<StepEvent>, position: nat, command: nat, value1: nat, duration: real)
    returns (kept: seq<StepEvent>, first: Option<StepEvent>)
    ensures kept == Survivors(evs, position, command, value1, duration)
    ensures first == FirstReplaced(evs, position, command, value1, duration)
  {
    kept := [];
    first := None;
    var i := 0;
    while i < |evs|
      invariant i <= |evs|
      invariant kept == Survivors(evs[..i], position, command, value1, duration)
      invariant first == FirstReplaced(evs[..i], position, command, value1, duration)
    {
      var e := evs[i];
      SiftStep(evs, i, position, command, value1, duration);
      if Replaced(e, position, command, value1, duration) {
        if first.None? {
          first := Some(e);
        }
      } else {
        kept := kept + [e];
      }
      i := i + 1;
    }
    assert evs[..i] == evs;
  }

  /** One more event looked at by addEvent's first loop. */
  lemma SiftStep(evs: seq<StepEvent>, i: nat, position: nat, command: nat, value1: nat, duration: real)
    requires i < |evs|
    ensures var e := evs[i];
      Survivors(evs[..i + 1], position, command, value1, duration)
        == Survivors(evs[..i], position, command, value1, duration) + (if Replaced(e, position, command, value1, duration) then [] else [e])
    ensures var e := evs[i];
      var p := FirstReplaced(evs[..i], position, command, value1, duration);
      FirstReplaced(evs[..i + 1], position, command, value1, duration)
        == if p.Some? then p else if Replaced(e, position, command, value1, duration) then Some(e) else None
  {
    assert evs[..i + 1][..i] == evs[..i];
  }

  /** addEvent's second loop: the insertion point. */
  method FindInsert(evs: seq<StepEvent>, position: nat) returns (at: nat)
    ensures at == InsertIndex(evs, position)
  {
    at := 0;
    while at < |evs| && evs[at].position <= position
      invariant at <= |evs|
      invariant forall j :: 0 <= j < at ==> evs[j].position <= position
    {
      at := at + 1;
    }
  }

  /** addEvent on the vector's contents. */
  method AddTo(evs: seq<StepEvent>, position: nat, command: nat, value1: nat, value2: nat, duration: real, offset: real)
    returns (r: seq<StepEvent>, ev: StepEvent)
    ensures r == Added(evs, position, command, value1, value2, duration, offset)
    ensures ev == NewEvent(evs, position, command, value1, value2, duration, offset)
  {
    var kept, first := Sift(evs, position, command, value1, duration);
    var at := FindInsert(kept, position);
    ev := StepEvent(position, command, value1, value2, value1, value2, duration, offset,
                    if first.Some? then first.value.stutterCount else 0,
                    if first.Some? then first.value.stutterDur else 1);
    r := kept[..at] + [ev] + kept[at..];
  }

  /** deleteEvent's search: the first matching event erased. */
  method DeleteFrom(evs: seq<StepEvent>, position: nat, command: nat, value1: nat) returns (r: seq<StepEvent>)
    ensures r == Deleted(evs, position, command, value1)
  {
    var i := 0;
    while i < |evs|
      invariant i <= |evs|
      invariant forall j :: 0 <= j < i ==> !At(evs[j], position, command, value1)
    {
      if At(evs[i], position, command, value1) {
        return evs[..i] + evs[i + 1..];
      }
      i := i + 1;
    }
    return evs;
  }

  /** A loop applying a per-note edit to every NOTE_ON in turn. */
  method EditEach(evs: seq<StepEvent>, f: StepEvent -> StepEvent) returns (r: seq<StepEvent>)
    ensures r == OnNotes(evs, f)
  {
    r := evs;
    var i := 0;
    while i < |r|
      invariant i <= |r| && |r| == |evs|
      invariant forall j :: 0 <= j < i ==> r[j] == OnNotes(evs, f)[j]
      invariant forall j :: i <= j < |r| ==> r[j] == evs[j]
    {
      if IsNote(r[i]) {
        r := r[i := f(r[i])];
      }
      i := i + 1;
    }
  }

  /** transpose's two loops: the range check over every note, then the move. */
  method TransposeAll(evs: seq<StepEvent>, offset: int) returns (r: seq<StepEvent>)
    ensures r == Transposed(evs, offset)
  {
    var i := 0;
    while i < |evs|
      invariant i <= |evs|
      invariant forall j :: 0 <= j < i && IsNote(evs[j]) ==> 0 <= evs[j].value1start + offset <= 127
    {
      if IsNote(evs[i]) {
        var note := evs[i].value1start + offset;
        if note > 127 || note < 0 {
          return evs;
        }
      }
      i := i + 1;
    }
    r := evs;
    i := 0;
    while i < |r|
      invariant i <= |r| && |r| == |evs|
      invariant forall j :: 0 <= j < i ==> r[j] == Transposed(evs, offset)[j]
      invariant forall j :: i <= j < |r| ==> r[j] == evs[j]
    {
      if IsNote(r[i]) {
        r := r[i := Shifted(r[i], offset)];
      }
      i := i + 1;
    }
  }

  /** changeDurationAll's loop, which returns at the first note it cannot shorten. */
  method LengthenEach(evs: seq<StepEvent>, delta: real) returns (r: seq<StepEvent>)
    ensures r == Lengthened(evs, delta)
  {
    r := evs;
    var i := 0;
    while i < |r|
      invariant i <= |r| && |r| == |evs|
      invariant r[i..] == evs[i..]
      invariant Lengthened(evs, delta) == r[..i] + Lengthened(evs[i..], delta)
    {
      var e := r[i];
      LengthenedAt(evs, delta, i);
      if IsNote(e) {
        var d := e.duration + delta;
        if d <= 0.0 {
          LengthenStop(evs, delta, r, i);
          return;
        }
        e := e.(duration := if d < 0.1 then 0.1 else d);
      }
      LengthenStep(evs, delta, r, i, e);
      r := r[i := e];
      i := i + 1;
    }
  }

  /** The note changeDurationAll cannot shorten: what the loop has written is the whole result. */
  lemma LengthenStop(evs: seq<StepEvent>, delta: real, r: seq<StepEvent>, i: nat)
    requires i < |r| == |evs| && r[i..] == evs[i..]
    requires Lengthened(evs, delta) == r[..i] + Lengthened(evs[i..], delta)
    requires Lengthened(evs[i..], delta) == evs[i..]
    ensures r == Lengthened(evs, delta)
  {
    assert r == r[..i] + r[i..];
  }

  /** One more event of changeDurationAll's loop written back. */
  lemma LengthenStep(evs: seq<StepEvent>, delta: real, r: seq<StepEvent>, i: nat, e: StepEvent)
    requires i < |r| == |evs| && r[i..] == evs[i..]
    requires Lengthened(evs, delta) == r[..i] + Lengthened(evs[i..], delta)
    requires Lengthened(evs[i..], delta) == [e] + Lengthened(evs[i + 1..], delta)
    ensures r[i := e][i + 1..] == evs[i + 1..]
    ensures Lengthened(evs, delta) == r[i := e][..i + 1] + Lengthened(evs[i + 1..], delta)
  {
    var r' := r[i := e];
    assert r'[..i + 1] == r[..i] + [e];
    assert r'[i + 1..] == r[i..][1..];
  }

  /** The head of the remaining events, as changeDurationAll treats it. */
  lemma LengthenedAt(evs: seq<StepEvent>, delta: real, i: nat)
    requires i < |evs|
    ensures var e := evs[i];
      var d := e.duration + delta;
      Lengthened(evs[i..], delta)
        == if !IsNote(e) then [e] + Lengthened(evs[i + 1..], delta)
           else if d <= 0.0 then evs[i..]
           else [e.(duration := if d < 0.1 then 0.1 else d)] + Lengthened(evs[i + 1..], delta)
  {
    assert evs[i..][1..] == evs[i + 1..];
  }

  /** setBeatsInPattern's search for the first event at or past the end. */
  method FindCut(evs: seq<StepEvent>, steps: nat) returns (index: nat)
    ensures index == CutIndex(evs, steps)
  {
    index := 0;
    while index < |evs| && evs[index].position < steps
      invariant index <= |evs|
      invariant forall j :: 0 <= j < index ==> evs[j].position < steps
    {
      index := index + 1;
    }
  }

  /** getLastStep's loop: the largest position, or uint32_t(-1) without events. */
  method LastStep(evs: seq<StepEvent>) returns (step: nat)
    ensures evs == [] ==> step == NO_STEP
    ensures evs != [] ==> step == MaxPosition(evs)
  {
    if |evs| == 0 {
      return NO_STEP;
    }
    step := evs[0].position;
    var i := 1;
    while i < |evs|
      invariant 1 <= i <= |evs|
      invariant forall j :: 0 <= j < i ==> evs[j].position <= step
      invariant exists j :: 0 <= j < i && evs[j].position == step
    {
      if evs[i].position > step {
        step := evs[i].position;
      }
      i := i + 1;
    }
    MaxUnique(evs, step);
  }

  /** A position that occurs and bounds all others is the maximum. */
  lemma MaxUnique(evs: seq<StepEvent>, m: nat)
    requires evs != []
    requires exists i :: 0 <= i < |evs| && evs[i].position == m
    requires forall i :: 0 <= i < |evs| ==> evs[i].position <= m
    ensures m == MaxPosition(evs)
  {
    var k :| 0 <= k < |evs| && evs[k].position == MaxPosition(evs);
  }

  // ---------------------------------------------------------------------------
  // The pattern
  // ---------------------------------------------------------------------------

  class Pattern {
    var events: seq<StepEvent>
    var beats: nat
    var stepsPerBeat: nat
    var snapshots: seq<seq<StepEvent>>
    var snapPos: nat

    ghost predicate Valid()
      reads this`events, this`snapshots, this`snapPos
    {
      && Sorted(events)
      && snapPos < |snapshots|
      && forall k :: 0 <= k < |snapshots| ==> Sorted(snapshots[k])
    }

    function Steps(): nat
      reads this`beats, this`stepsPerBeat
    {
      beats * stepsPerBeat
    }

    function Hist(): History
      reads this`snapshots, this`snapPos
    {
      History(snapshots, snapPos)
    }

    /**
     * Pattern(beats, stepsPerBeat): the lengths, setStepsPerBeat applied, no
     * events and a history holding the empty pattern.
     */
    constructor (b: nat, spb: nat)
      ensures Valid() && events == [] && beats == b && snapshots == [[]] && snapPos == 0
      ensures stepsPerBeat == if ValidStepsPerBeat(spb) then spb else if spb == 0 || spb > PPQN then 4 else spb
    {
      events := [];
      beats := b;
      stepsPerBeat := spb;
      snapshots := [];
      snapPos := 0;
      new;
      var _ := SetStepsPerBeat(spb);
      ResetSnapshots();
    }

    /** resetSnapshots: the history becomes the current events alone. */
    method ResetSnapshots()
      requires Sorted(events)
      modifies this`snapshots, this`snapPos
      ensures Valid() && snapshots == [events] && snapPos == 0
    {
      snapshots := [events];
      snapPos := 0;
    }

    /**
     * addEvent: every overlapping event with the same command and first value
     * deleted, then the new event inserted after every event at or before its
     * position. Returns the inserted event.
     */
    method AddEvent(position: nat, command: nat, value1: nat, value2: nat, duration: real, offset: real)
      returns (ev: StepEvent)
      requires Valid()
      modifies this`events
      ensures Valid()
      ensures events == Added(old(events), position, command, value1, value2, duration, offset)
      ensures ev == NewEvent(old(events), position, command, value1, value2, duration, offset)
    {
      AddedSorted(events, position, command, value1, value2, duration, offset);
      events, ev := AddTo(events, position, command, value1, value2, duration, offset);
    }

    /** deleteEvent: the first event at the position with this command and first value removed. */
    method DeleteEvent(position: nat, command: nat, value1: nat)
      requires Valid()
      modifies this`events
      ensures Valid()
      ensures events == Deleted(old(events), position, command, value1)
    {
      DeletedSorted(events, position, command, value1);
      events := DeleteFrom(events, position, command, value1);
    }

    /** addNote: rejected (false, nothing changed) for a step past the pattern or a note or velocity above 127. */
    method AddNote(step: nat, note: nat, velocity: nat, duration: real, offset: real) returns (ok: bool)
      requires Valid()
      modifies this`events
      ensures Valid()
      ensures ok <==> step < Steps() && note <= 127 && velocity <= 127
      ensures ok ==> events == Added(old(events), step, MIDI_NOTE_ON, note, velocity, duration, offset)
      ensures !ok ==> events == old(events)
    {
      if step >= beats * stepsPerBeat || note > 127 || velocity > 127 {
        return false;
      }
      var _ := AddEvent(step, MIDI_NOTE_ON, note, velocity, duration, offset);
      return true;
    }

    /** getProgramChange */
    function GetProgramChange(step: nat): nat
      reads this`events, this`beats, this`stepsPerBeat
    {
      ProgramAt(events, Steps(), step)
    }

    /** removeProgramChange: false for a step past the pattern or without a program change. */
    method RemoveProgramChange(step: nat) returns (ok: bool)
      requires Valid()
      modifies this`events
      ensures Valid()
      ensures ok <==> old(GetProgramChange(step)) != 0xFF
      ensures events == Cleared(old(events), Steps(), step)
    {
      if step >= beats * stepsPerBeat {
        return false;
      }
      var program := GetProgramChange(step);
      if program == 0xFF {
        return false;
      }
      DeleteEvent(step, MIDI_PROGRAM, program);
      return true;
    }

    /**
     * addProgramChange: rejected for a step past the pattern or a program
     * above 127; otherwise the step's program change replaced by this one.
     */
    method AddProgramChange(step: nat, program: nat) returns (ok: bool)
      requires Valid()
      modifies this`events
      ensures Valid()
      ensures ok <==> step < Steps() && program <= 127
      ensures !ok ==> events == old(events)
      ensures ok ==> events == Added(Cleared(old(events), Steps(), step), step, MIDI_PROGRAM, program,
                                     DEFAULT_VALUE2, DEFAULT_DURATION, DEFAULT_OFFSET)
    {
      if step >= beats * stepsPerBeat || program > 127 {
        return false;
      }
      var _ := RemoveProgramChange(step);
      var _ := AddEvent(step, MIDI_PROGRAM, program, DEFAULT_VALUE2, DEFAULT_DURATION, DEFAULT_OFFSET);
      return true;
    }

    /** transpose: all NOTE_ONs moved by `offset` when every one stays in 0..127, else nothing. */
    method Transpose(offset: int)
      requires Valid()
      modifies this`events
      ensures Valid()
      ensures events == Transposed(old(events), offset)
    {
      TransposedSpec(events, offset);
      events := TransposeAll(events, offset);
    }

    /** A bulk edit of every NOTE_ON, in event order. */
    method EditNotes(f: StepEvent -> StepEvent)
      requires Valid()
      requires forall e :: f(e).position == e.position
      modifies this`events
      ensures Valid()
      ensures events == OnNotes(old(events), f)
    {
      OnNotesSorted(events, f);
      events := EditEach(events, f);
    }

    /** changeVelocityAll: every note's velocity moved by `delta`, clamped to 1..127. */
    method ChangeVelocityAll(delta: int)
      requires Valid()
      modifies this`events
      ensures Valid()
      ensures events == OnNotes(old(events), e => WithVelocity(e, delta))
    {
      EditNotes(e => WithVelocity(e, delta));
    }

    /** changeStutterCountAll: every note's stutter count moved by `delta`, clamped to 0..255. */
    method ChangeStutterCountAll(delta: int)
      requires Valid()
      modifies this`events
      ensures Valid()
      ensures events == OnNotes(old(events), e => WithStutterCount(e, delta))
    {
      EditNotes(e => WithStutterCount(e, delta));
    }

    /** changeStutterDurAll: every note's stutter length moved by `delta`, clamped to 1..255. */
    method ChangeStutterDurAll(delta: int)
      requires Valid()
      modifies this`events
      ensures Valid()
      ensures events == OnNotes(old(events), e => WithStutterDur(e, delta))
    {
      EditNotes(e => WithStutterDur(e, delta));
    }

    /** changeDurationAll: see Lengthened; the loop returns at the first note it cannot shorten. */
    method ChangeDurationAll(delta: real)
      requires Valid()
      modifies this`events
      ensures Valid()
      ensures events == Lengthened(old(events), delta)
    {
      LengthenedSpec(events, delta);
      events := LengthenEach(events, delta);
    }

    /** setBeatsInPattern: a beat count of 0 ignored; events at or past the new end dropped. */
    method SetBeatsInPattern(b: nat)
      requires Valid()
      modifies this`beats, this`events
      ensures Valid()
      ensures beats == if b > 0 then b else old(beats)
      ensures events == old(events)[..CutIndex(old(events), Steps())]
    {
      if b > 0 {
        beats := b;
      }
      var index := FindCut(events, beats * stepsPerBeat);
      events := events[..index];
    }

    /**
     * setStepsPerBeat: a step count that was 0 or above PPQN becomes 4 first;
     * then only 1, 2, 3, 4, 6, 8, 12 or 24 is accepted. The event positions
     * are not rescaled: the scale factor the loop uses stays 1.
     */
    method SetStepsPerBeat(value: nat) returns (ok: bool)
      modifies this`stepsPerBeat
      ensures ok <==> ValidStepsPerBeat(value)
      ensures stepsPerBeat == if ok then value else if old(stepsPerBeat) == 0 || old(stepsPerBeat) > PPQN then 4 else old(stepsPerBeat)
    {
      if stepsPerBeat == 0 || stepsPerBeat > PPQN {
        stepsPerBeat := 4;
      }
      if !ValidStepsPerBeat(value) {
        return false;
      }
      stepsPerBeat := value;
      return true;
    }

    /** getLastStep: the largest event position, or uint32_t(-1) without events. */
    method GetLastStep() returns (step: nat)
      ensures events == [] ==> step == NO_STEP
      ensures events != [] ==> step == MaxPosition(events)
    {
      step := LastStep(events);
    }

    /** saveSnapshot: see Saved. */
    method SaveSnapshot()
      requires Valid()
      modifies this`snapshots, this`snapPos
      ensures Valid()
      ensures Hist() == Saved(old(Hist()), events)
    {
      snapshots := snapshots[..snapPos + 1] + [events];
      snapPos := |snapshots| - 1;
    }

    /** undo: one snapshot back, restored into the events; false at the first snapshot. */
    method Undo() returns (ok: bool)
      requires Valid()
      modifies this`snapPos, this`events
      ensures Valid()
      ensures ok <==> old(snapPos) > 0
      ensures Hist() == Back(old(Hist()))
      ensures events == if ok then snapshots[snapPos] else old(events)
    {
      if snapPos > 0 {
        snapPos := snapPos - 1;
        events := snapshots[snapPos];
        return true;
      }
      return false;
    }

    /** redo: one snapshot forward, restored into the events; false at the last snapshot. */
    method Redo() returns (ok: bool)
      requires Valid()
      modifies this`snapPos, this`events
      ensures Valid()
      ensures ok <==> old(snapPos) < |snapshots| - 1
      ensures Hist() == Forward(old(Hist()))
      ensures events == if ok then snapshots[snapPos] else old(events)
    {
      if |snapshots| > 1 && snapPos < |snapshots| - 1 {
        snapPos := snapPos + 1;
        events := snapshots[snapPos];
        return true;
      }
      return false;
    }

    /** undoAll: back to the first snapshot; false when already there. */
    method UndoAll() returns (ok: bool)
      requires Valid()
      modifies this`snapPos, this`events
      ensures Valid()
      ensures ok <==> old(snapPos) > 0
      ensures ok ==> snapPos == 0 && events == snapshots[0]
      ensures !ok ==> snapPos == old(snapPos) && events == old(events)
    {
      if snapPos > 0 {
        snapPos := 0;
        events := snapshots[snapPos];
        return true;
      }
      return false;
    }

    /** redoAll: forward to the last snapshot; false when already there. */
    method RedoAll() returns (ok: bool)
      requires Valid()
      modifies this`snapPos, this`events
      ensures Valid()
      ensures ok <==> old(snapPos) < |snapshots| - 1
      ensures ok ==> snapPos == |snapshots| - 1 && events == snapshots[snapPos]
      ensures !ok ==> snapPos == old(snapPos) && events == old(events)
    {
      if |snapshots| > 1 && snapPos < |snapshots| - 1 {
        snapPos := |snapshots| - 1;
        events := snapshots[snapPos];
        return true;
      }
      return false;
    }
  }
}

=== FILE: processor.dfy ===
/**
 * A zynthian processor (zyngine/zynthian_processor.py): the bank list with its
 * bank-MSB offset table, bank and preset selection, the favourites flag, the
 * controller screens and the base path string. The engine behind a processor
 * is not part of this model: what it answers (its bank and preset lists, its
 * favourites, the result of loading a bank or preset) is passed in.
 */
module Processor {
  import opened Wrappers
  import opened PyText

  /** A bank_list entry: [path or id, number, name, ...]; the name can be None. */
  datatype BankEntry = BankEntry(id: string, name: Option<string>)

  /** A preset_list entry: [id, ..., name, ...]; the name can be None or empty. */
  datatype PresetEntry = PresetEntry(id: string, name: Option<string>)

  /** One row of bank_msb_info: the bank index of LSB 0 and the number of banks. */
  datatype MsbRange = MsbRange(offset: nat, count: nat)

  /** The class attributes' defaults (the environment variables that override them are not modelled). */
  const EX_DATA_DIR: string := "/media/usb0"
  const MY_DATA_DIR: string := "/zynthian/zynthian-my-data"

  /** The favourites pseudo-bank put in front of the list. */
  const FAVS_BANK: BankEntry := BankEntry("*FAVS*", Some("*** Favorites ***"))

  /** The favourite marker load_preset_list puts in front of a preset name. */
  const FAV_MARK: char := '\U{2764}'

  // ---------------------------------------------------------------------------
  // Bank MSB table
  // ---------------------------------------------------------------------------

  /** Where a bank comes from, checked in the order load_bank_list checks. */
  datatype BankKind = External | User | System

  function Kind(b: BankEntry): BankKind
  {
    if StartsWith(b.id, EX_DATA_DIR) then External
    else if StartsWith(b.id, MY_DATA_DIR) then User
    else System
  }

  /** The length of the leading run of external and user banks. */
  function RunLength(banks: seq<BankEntry>): (n: nat)
    ensures n <= |banks|
    ensures forall k :: 0 <= k < n ==> Kind(banks[k]) != System
    ensures n < |banks| ==> Kind(banks[n]) == System
  {
    if banks == [] || Kind(banks[0]) == System then 0 else 1 + RunLength(banks[1..])
  }

  /** The run ends at the first system bank, or at the end of the list. */
  lemma RunLengthIs(banks: seq<BankEntry>, n: nat)
    requires n <= |banks| && forall k :: 0 <= k < n ==> Kind(banks[k]) != System
    requires n == |banks| || Kind(banks[n]) == System
    ensures RunLength(banks) == n
  {
  }

  /** The number of external banks among the first n. */
  function ExtCount(banks: seq<BankEntry>, n: nat): (e: nat)
    requires n <= |banks|
    ensures e <= n
  {
    if n == 0 then 0 else ExtCount(banks, n - 1) + (if Kind(banks[n - 1]) == External then 1 else 0)
  }

  /**
   * bank_msb_info for a list with no favourites bank: MSB 0 (system) starts
   * after the run, MSB 1 (user) after the external banks, MSB 2 (external) at 0.
   */
  function MsbTable(banks: seq<BankEntry>): (info: seq<MsbRange>)
    ensures |info| == 3
    ensures info[2].offset == 0
    ensures info[2].offset + info[2].count == info[1].offset
    ensures info[1].offset + info[1].count == info[0].offset
    ensures info[0].offset + info[0].count == |banks|
  {
    var n := RunLength(banks);
    var e := ExtCount(banks, n);
    [MsbRange(n, |banks| - n), MsbRange(e, n - e), MsbRange(0, e)]
  }

  /** Every offset moved by d, as prepending the favourites bank does. */
  function ShiftTable(info: seq<MsbRange>, d: nat): (r: seq<MsbRange>)
    ensures |r| == |info|
    ensures forall m :: 0 <= m < |info| ==> r[m] == MsbRange(info[m].offset + d, info[m].count)
  {
    seq(|info|, m requires 0 <= m < |info| => MsbRange(info[m].offset + d, info[m].count))
  }

  /** load_bank_list's counting loop, which stops at the first system bank. */
  method CountBanks(banks: seq<BankEntry>) returns (info: seq<MsbRange>)
    ensures info == MsbTable(banks)
  {
    var sysOffset, userOffset, userCount, extCount := 0, 0, 0, 0;
    var i := 0;
    while i < |banks|
      invariant i <= |banks| && forall k :: 0 <= k < i ==> Kind(banks[k]) != System
      invariant sysOffset == i && extCount == ExtCount(banks, i)
      invariant userOffset == extCount && userCount == i - extCount
    {
      if StartsWith(banks[i].id, EX_DATA_DIR) {
        sysOffset, userOffset, extCount := sysOffset + 1, userOffset + 1, extCount + 1;
        i := i + 1;
      } else if StartsWith(banks[i].id, MY_DATA_DIR) {
        sysOffset, userCount := sysOffset + 1, userCount + 1;
        i := i + 1;
      } else {
        break;
      }
    }
    RunLengthIs(banks, i);
    info := [MsbRange(sysOffset, |banks| - i), MsbRange(userOffset, userCount), MsbRange(0, extCount)];
  }

  /** In a run whose external banks all come before its user banks, the first e are the external ones. */
  lemma {:induction false} SortedRunCounts(banks: seq<BankEntry>, n: nat)
    requires n <= RunLength(banks)
    requires forall i, j :: 0 <= i < j < n && Kind(banks[i]) == User ==> Kind(banks[j]) != External
    ensures forall k :: 0 <= k < ExtCount(banks, n) ==> Kind(banks[k]) == External
    ensures forall k :: ExtCount(banks, n) <= k < n ==> Kind(banks[k]) == User
  {
    if n > 0 {
      SortedRunCounts(banks, n - 1);
    }
  }

  /**
   * With external banks before user banks before the rest, bank MSB m with
   * LSB l below its count selects a bank of the kind that MSB stands for.
   */
  lemma MsbSelectsKind(banks: seq<BankEntry>, l: nat)
    requires forall i, j :: 0 <= i < j < RunLength(banks) && Kind(banks[i]) == User ==> Kind(banks[j]) != External
    ensures var info := MsbTable(banks);
      && (l < info[2].count ==> Kind(banks[info[2].offset + l]) == External)
      && (l < info[1].count ==> Kind(banks[info[1].offset + l]) == User)
      && (l == 0 < info[0].count ==> Kind(banks[info[0].offset + l]) == System)
  {
    SortedRunCounts(banks, RunLength(banks));
  }

  // ---------------------------------------------------------------------------
  // Paths and names
  // ---------------------------------------------------------------------------

  /** get_basepath: "{chan+1}#" in front for a channel below 16, "Main#" for 256, nothing otherwise. */
  function BasePath(chan: Option<nat>, enginePath: string): (r: string)
    ensures chan.Some? && chan.value < 16 ==> r == DecStr(chan.value + 1) + "#" + enginePath
    ensures chan == Some(256) ==> r == "Main#" + enginePath
    ensures chan.None? || (16 <= chan.value && chan.value != 256) ==> r == enginePath
  {
    if chan.Some? && chan.value < 16 then DecStr(chan.value + 1) + "#" + enginePath
    else if chan == Some(256) then "Main#" + enginePath
    else enginePath
  }

  /** The number in front of the first '#' of a channel's base path reads back as the 1-based channel. */
  lemma BasePathChannel(chan: nat, enginePath: string)
    requires chan < 16
    ensures var r := BasePath(Some(chan), enginePath);
      '#' in r && ParseInt(r[..IndexOf(r, '#')]) == Some(chan + 1)
  {
    var r := BasePath(Some(chan), enginePath);
    var d := DecStr(chan + 1);
    assert r[|d|] == '#';
    assert '#' !in d by {
      forall i | 0 <= i < |d| ensures d[i] != '#' { assert IsDigit(d[i]); }
    }
    assert r[..|d|] == d;
    assert IndexOf(r, '#') == |d|;
    ParseDecStr(chan + 1);
  }

  /** A falsy name (None or empty) is refused by set_preset. */
  predicate Truthy(name: Option<string>) { name.Some? && name.value != [] }

  /** The preset name with a leading favourite marker removed. */
  function Unmarked(name: string): (r: string)
    ensures name != [] && name[0] == FAV_MARK ==> r == name[1..]
    ensures name == [] || name[0] != FAV_MARK ==> r == name
  {
    if name != [] && name[0] == FAV_MARK then name[1..] else name
  }

  /** Unmarking undoes the marking load_preset_list applies. */
  lemma UnmarkMarked(name: string)
    ensures Unmarked([FAV_MARK] + name) == name
  {
  }

  /** load_preset_list's marking of favourites: the marker goes in front of each favourite's name. */
  function MarkFavs(presets: seq<PresetEntry>, favIds: set<string>): (r: seq<PresetEntry>)
    ensures |r| == |presets|
    ensures forall k :: 0 <= k < |presets| ==> r[k].id == presets[k].id
    ensures forall k :: 0 <= k < |presets| ==>
      r[k].name == (if presets[k].id in favIds && presets[k].name.Some? then Some([FAV_MARK] + presets[k].name.value) else presets[k].name)
  {
    seq(|presets|, k requires 0 <= k < |presets| =>
      if presets[k].id in favIds && presets[k].name.Some? then PresetEntry(presets[k].id, Some([FAV_MARK] + presets[k].name.value))
      else presets[k])
  }

  /** The first index of a bank with the given name, as set_bank_by_name searches. */
  method FindBank(banks: seq<BankEntry>, name: string) returns (r: Option<nat>)
    ensures r.Some? ==> r.value < |banks| && banks[r.value].name == Some(name)
    ensures r.Some? ==> forall k :: 0 <= k < r.value ==> banks[k].name != Some(name)
    ensures r.None? ==> forall k :: 0 <= k < |banks| ==> banks[k].name != Some(name)
  {
    var i := 0;
    while i < |banks|
      invariant i <= |banks|
      invariant forall k :: 0 <= k < i ==> banks[k].name != Some(name)
    {
      if banks[i].name == Some(name) {
        return Some(i);
      }
      i := i + 1;
    }
    return None;
  }

  // ---------------------------------------------------------------------------
  // Controller screens
  // ---------------------------------------------------------------------------

  /** build_ctrl_screen: the non-empty keys that name a defined controller, in order. */
  function CtrlScreen(keys: seq<string>, controllers: set<string>): (r: seq<string>)
    ensures forall k :: k in r <==> k in keys && k != [] && k in controllers
    ensures |r| <= |keys|
  {
    if keys == [] then []
    else
      var rest := CtrlScreen(keys[1..], controllers);
      if keys[0] != [] && keys[0] in controllers then [keys[0]] + rest else rest
  }

  /** A screen definition of the engine: its title and its controller keys. */
  datatype ScreenDef = ScreenDef(title: string, keys: seq<string>)

  /** Whether a sequence holds no value twice. */
  predicate Distinct(s: seq<string>)
  {
    forall i, j :: 0 <= i < j < |s| ==> s[i] != s[j]
  }

  /** The titles of the definitions, in order. */
  function Titles(defs: seq<ScreenDef>): (r: seq<string>)
    ensures |r| == |defs| && forall k :: 0 <= k < |defs| ==> r[k] == defs[k].title
  {
    seq(|defs|, k requires 0 <= k < |defs| => defs[k].title)
  }

  /**
   * The OrderedDict init_ctrl_screens builds, as its titles in order and the
   * map from title to controllers: a title keeps the position of its first
   * definition and takes the controllers of its last.
   */
  function ScreenTable(defs: seq<ScreenDef>, controllers: set<string>): (r: (seq<string>, map<string, seq<string>>))
    ensures Distinct(r.0)
    ensures forall t :: t in r.0 <==> t in r.1
    ensures forall t :: t in r.1 <==> t in Titles(defs)
    ensures defs != [] ==> r.1[defs[|defs| - 1].title] == CtrlScreen(defs[|defs| - 1].keys, controllers)
  {
    if defs == [] then ([], map[])
    else
      var prev := ScreenTable(defs[..|defs| - 1], controllers);
      var d := defs[|defs| - 1];
      assert Titles(defs) == Titles(defs[..|defs| - 1]) + [d.title];
      (if d.title in prev.1 then prev.0 else prev.0 + [d.title], prev.1[d.title := CtrlScreen(d.keys, controllers)])
  }

  /** A later definition of a title replaces the controllers of an earlier one. */
  lemma {:induction false} ScreenTableLast(defs: seq<ScreenDef>, controllers: set<string>, k: nat)
    requires k < |defs| && forall j :: k < j < |defs| ==> defs[j].title != defs[k].title
    ensures ScreenTable(defs, controllers).1[defs[k].title] == CtrlScreen(defs[k].keys, controllers)
  {
    if k < |defs| - 1 {
      ScreenTableLast(defs[..|defs| - 1], controllers, k);
    }
  }

  /** init_ctrl_screens's loop filling the OrderedDict. */
  method BuildScreens(defs: seq<ScreenDef>, controllers: set<string>) returns (titles: seq<string>, screens: map<string, seq<string>>)
    ensures (titles, screens) == ScreenTable(defs, controllers)
  {
    titles, screens := [], map[];
    var i := 0;
    while i < |defs|
      invariant i <= |defs|
      invariant (titles, screens) == ScreenTable(defs[..i], controllers)
    {
      var t := defs[i].title;
      if t !in screens {
        titles := titles + [t];
      }
      screens := screens[t := CtrlScreen(defs[i].keys, controllers)];
      assert defs[..i + 1][..i] == defs[..i];
      i := i + 1;
    }
    assert defs[..i] == defs;
  }

  // ---------------------------------------------------------------------------
  // The processor
  // ---------------------------------------------------------------------------

  class ZynProcessor {
    var midiChan: Option<nat>
    var bankList: seq<BankEntry>
    var bankIndex: nat
    var bankName: Option<string>
    var bankInfo: Option<BankEntry>
    var bankMsb: nat
    var bankMsbInfo: seq<MsbRange>
    var showFavPresets: bool
    var presetList: seq<PresetEntry>
    var presetIndex: nat
    var presetName: Option<string>
    var presetInfo: Option<PresetEntry>
    var presetBankIndex: Option<nat>
    var preloadIndex: Option<nat>
    var preloadName: Option<string>
    var preloadInfo: Option<PresetEntry>
    var screenTitles: seq<string>
    var ctrlScreens: map<string, seq<string>>
    var currentScreenIndex: int

    /** bank_msb_info always has its three rows and bank_msb indexes one of them. */
    predicate Valid()
      reads this`bankMsbInfo, this`bankMsb
    {
      |bankMsbInfo| == 3 && bankMsb < 3
    }

    /** zynthian_processor(type_info): nothing loaded, no screen selected. */
    constructor ()
      ensures Valid()
      ensures bankList == [] && bankIndex == 0 && bankName.None? && bankInfo.None? && bankMsb == 0
      ensures bankMsbInfo == [MsbRange(0, 0), MsbRange(0, 0), MsbRange(0, 0)]
      ensures !showFavPresets && presetList == [] && presetIndex == 0 && presetName.None? && presetInfo.None?
      ensures presetBankIndex.None? && preloadIndex.None? && preloadName.None? && preloadInfo.None?
      ensures midiChan.None? && screenTitles == [] && ctrlScreens == map[] && currentScreenIndex == -1
    {
      midiChan := None;
      bankList, bankIndex, bankName, bankInfo := [], 0, None, None;
      bankMsb := 0;
      bankMsbInfo := [MsbRange(0, 0), MsbRange(0, 0), MsbRange(0, 0)];
      showFavPresets := false;
      presetList, presetIndex, presetName, presetInfo := [], 0, None, None;
      presetBankIndex := None;
      preloadIndex, preloadName, preloadInfo := None, None, None;
      screenTitles, ctrlScreens := [], map[];
      currentScreenIndex := -1;
    }

    /**
     * load_bank_list: the engine's banks, with the favourites bank in front
     * when the engine shows it and has favourites, which moves every MSB
     * offset up by one.
     */
    method LoadBankList(banks: seq<BankEntry>, showFavsBank: bool, favCount: nat)
      requires Valid()
      modifies this`bankList, this`bankMsbInfo
      ensures Valid()
      ensures var favs := showFavsBank && favCount > 0;
        && bankList == (if favs then [FAVS_BANK] else []) + banks
        && bankMsbInfo == ShiftTable(MsbTable(banks), if favs then 1 else 0)
    {
      var info := CountBanks(banks);
      if showFavsBank && favCount > 0 {
        bankList := [FAVS_BANK] + banks;
        bankMsbInfo := ShiftTable(info, 1);
      } else {
        bankList := banks;
        bankMsbInfo := ShiftTable(info, 0);
      }
    }

    /**
     * set_bank: an index past the list or a bank without a name fails;
     * otherwise the bank is selected, and the engine's answer is returned only
     * when it is asked to and the bank changed. Some(b) is Python's b, None its None.
     */
    method SetBank(i: nat, setEngine: bool, engineResult: Option<bool>) returns (r: Option<bool>)
      modifies this`bankIndex, this`bankName, this`bankInfo
      ensures i >= |bankList| || bankList[i].name.None? ==>
        r == Some(false) && bankIndex == old(bankIndex) && bankName == old(bankName) && bankInfo == old(bankInfo)
      ensures i < |bankList| && bankList[i].name.Some? ==>
        && bankIndex == i && bankName == bankList[i].name && bankInfo == Some(bankList[i])
        && r == if setEngine && (i != old(bankIndex) || old(bankName) != bankList[i].name) then engineResult else Some(false)
    {
      if i < |bankList| {
        var name := bankList[i].name;
        if name.None? {
          return Some(false);
        }
        var needed := i != bankIndex || bankName != name;
        bankIndex, bankName, bankInfo := i, name, Some(bankList[i]);
        if setEngine && needed {
          return engineResult;
        }
      }
      return Some(false);
    }

    /** set_bank_by_name: set_bank on the first bank of that name, False when there is none. */
    method SetBankByName(name: string, setEngine: bool, engineResult: Option<bool>) returns (r: Option<bool>)
      modifies this`bankIndex, this`bankName, this`bankInfo
      ensures (forall k :: 0 <= k < |bankList| ==> bankList[k].name != Some(name)) ==>
        r == Some(false) && bankIndex == old(bankIndex) && bankName == old(bankName) && bankInfo == old(bankInfo)
      ensures (exists k :: 0 <= k < |bankList| && bankList[k].name == Some(name)) ==>
        bankName == Some(name) && bankIndex < |bankList| && bankList[bankIndex].name == Some(name)
        && forall k :: 0 <= k < bankIndex ==> bankList[k].name != Some(name)
      ensures (exists k :: 0 <= k < |bankList| && bankList[k].name == Some(name)) ==>
        && bankInfo == Some(bankList[bankIndex])
        && r == if setEngine && (bankIndex != old(bankIndex) || old(bankName) != Some(name)) then engineResult else Some(false)
    {
      var k := FindBank(bankList, name);
      if k.None? {
        return Some(false);
      }
      r := SetBank(k.value, setEngine, engineResult);
    }

    /**
     * load_preset_list: the engine's favourites when they are shown, otherwise
     * the current bank's presets with favourites marked, and nothing changes
     * when no bank is selected.
     */
    method LoadPresetList(favPresets: seq<PresetEntry>, bankPresets: seq<PresetEntry>, favIds: set<string>)
      modifies this`presetList
      ensures presetList == if showFavPresets then favPresets
                            else if bankInfo.Some? then MarkFavs(bankPresets, favIds)
                            else old(presetList)
    {
      if showFavPresets {
        presetList := favPresets;
      } else if bankInfo.Some? {
        presetList := MarkFavs(bankPresets, favIds);
      }
    }

    /**
     * set_preset: an index past the list or a falsy name fails and changes
     * nothing. Otherwise the bank of a favourite is selected first when it is
     * not the current one, the preset is recorded with its marker stripped
     * and its bank index, and the preload is cleared. The engine's comparison
     * of presets is passed in as `sameAsCurrent` (the new preset against the
     * current one) and `preloadDiffers` (the preload against the current one).
     */
    method SetPreset(i: nat, setEngine: bool, forceSetEngine: bool, favBank: Option<string>,
                     sameAsCurrent: bool, preloadDiffers: bool, engineResult: Option<bool>) returns (r: Option<bool>)
      modifies this`bankIndex, this`bankName, this`bankInfo, this`presetIndex, this`presetName, this`presetInfo,
               this`presetBankIndex, this`preloadIndex, this`preloadName, this`preloadInfo
      ensures i >= |presetList| || !Truthy(presetList[i].name) ==>
        r == Some(false) && presetIndex == old(presetIndex) && presetName == old(presetName)
        && presetInfo == old(presetInfo) && preloadInfo == old(preloadInfo) && bankIndex == old(bankIndex)
      ensures i < |presetList| && Truthy(presetList[i].name) ==>
        && presetIndex == i && presetName == Some(Unmarked(presetList[i].name.value)) && presetInfo == Some(presetList[i])
        && presetBankIndex == Some(bankIndex)
        && preloadIndex.None? && preloadName.None? && preloadInfo.None?
        && (favBank.None? || favBank == old(bankName) ==> bankIndex == old(bankIndex) && bankName == old(bankName))
        && r == if !setEngine then Some(true)
                else if forceSetEngine || !sameAsCurrent || (old(preloadInfo).Some? && preloadDiffers) then engineResult
                else Some(false)
    {
      if i >= |presetList| {
        return Some(false);
      }
      var entry := presetList[i];
      if !Truthy(entry.name) {
        return Some(false);
      }
      var name := Unmarked(entry.name.value);
      SelectFavBank(favBank);
      var needed := forceSetEngine || !sameAsCurrent || (preloadInfo.Some? && preloadDiffers);
      presetIndex, presetName, presetInfo := i, Some(name), Some(entry);
      presetBankIndex := Some(bankIndex);
      preloadIndex, preloadName, preloadInfo := None, None, None;
      if setEngine {
        return if needed then engineResult else Some(false);
      }
      return Some(true);
    }

    /** The bank of a favourite preset is selected by name when it is not the current one. */
    method SelectFavBank(favBank: Option<string>)
      modifies this`bankIndex, this`bankName, this`bankInfo
      ensures favBank.None? || favBank == old(bankName) ==> bankIndex == old(bankIndex) && bankName == old(bankName)
      ensures favBank.Some? && favBank != old(bankName) && (exists k :: 0 <= k < |bankList| && bankList[k].name == favBank) ==>
        bankName == favBank
    {
      if favBank.Some? && favBank != bankName {
        var _ := SetBankByName(favBank.value, true, None);
      }
    }

    /** set_show_fav_presets: the flag is set only when asked for and the engine has a favourite. */
    method SetShowFavPresets(flag: bool, favCount: nat)
      modifies this`showFavPresets
      ensures showFavPresets <==> flag && favCount > 0
    {
      showFavPresets := flag && favCount > 0;
    }

    /** toggle_show_fav_presets: the flag flips, except that it stays off with no favourites. */
    method ToggleShowFavPresets(favCount: nat) returns (r: bool)
      modifies this`showFavPresets
      ensures r == showFavPresets
      ensures showFavPresets <==> !old(showFavPresets) && favCount > 0
    {
      SetShowFavPresets(!showFavPresets, favCount);
      return showFavPresets;
    }

    /** midi_bank_msb: only 0, 1 and 2 are taken. */
    method MidiBankMsb(msb: int)
      requires Valid()
      modifies this`bankMsb
      ensures Valid()
      ensures bankMsb == if 0 <= msb <= 2 then msb else old(bankMsb)
    {
      if 0 <= msb && msb <= 2 {
        bankMsb := msb;
      }
    }

    /**
     * midi_bank_lsb: an LSB below the current MSB's bank count turns the
     * favourites view off, selects the bank at the MSB's offset plus the LSB
     * and reloads the presets; any other LSB changes nothing.
     */
    method MidiBankLsb(lsb: nat, engineResult: Option<bool>, bankPresets: seq<PresetEntry>, favIds: set<string>)
      requires Valid()
      modifies this`showFavPresets, this`bankIndex, this`bankName, this`bankInfo, this`presetList
      ensures Valid()
      ensures var info := bankMsbInfo[bankMsb];
        lsb >= info.count ==> showFavPresets == old(showFavPresets) && bankIndex == old(bankIndex) && presetList == old(presetList)
      ensures var info := bankMsbInfo[bankMsb];
        lsb < info.count ==>
          && !showFavPresets
          && (info.offset + lsb < |bankList| && bankList[info.offset + lsb].name.Some? ==>
                bankIndex == info.offset + lsb && bankInfo == Some(bankList[info.offset + lsb])
                && presetList == MarkFavs(bankPresets, favIds))
    {
      var info := bankMsbInfo[bankMsb];
      if lsb < info.count {
        SetShowFavPresets(false, 0);
        var _ := SetBank(info.offset + lsb, true, engineResult);
        LoadPresetList([], bankPresets, favIds);
      }
    }

    /**
     * init_ctrl_screens: the screens rebuilt from the engine's definitions;
     * the first one is selected when none was, and none when there are none.
     */
    method InitCtrlScreens(defs: seq<ScreenDef>, controllers: set<string>)
      modifies this`screenTitles, this`ctrlScreens, this`currentScreenIndex
      ensures (screenTitles, ctrlScreens) == ScreenTable(defs, controllers)
      ensures defs == [] ==> currentScreenIndex == -1
      ensures defs != [] ==> currentScreenIndex == if old(currentScreenIndex) == -1 then 0 else old(currentScreenIndex)
    {
      screenTitles, ctrlScreens := BuildScreens(defs, controllers);
      if |screenTitles| > 0 {
        if currentScreenIndex == -1 {
          currentScreenIndex := 0;
        }
      } else {
        currentScreenIndex := -1;
      }
    }

    /** get_basepath over the engine's path. */
    function GetBasepath(enginePath: string): (r: string)
      reads this`midiChan
      ensures midiChan.Some? && midiChan.value < 16 ==> '#' in r && ParseInt(r[..IndexOf(r, '#')]) == Some(midiChan.value + 1)
    {
      if midiChan.Some? && midiChan.value < 16 then BasePathChannel(midiChan.value, enginePath); BasePath(midiChan, enginePath)
      else BasePath(midiChan, enginePath)
    }
  }
}

=== FILE: pytext.dfy ===
/**
 * The few Python string built-ins the configuration and GUI code relies on,
 * over ASCII text: decimal formatting of integers, int() of a decimal
 * string, lower(), strip() and split().
 */
module PyText {
  import opened Wrappers

  predicate IsDigit(c: char) { '0' <= c <= '9' }

  predicate AllDigits(s: string) { forall i :: 0 <= i < |s| ==> IsDigit(s[i]) }

  function DigitValue(c: char): (d: nat)
    requires IsDigit(c)
    ensures d < 10
  {
    (c as int - '0' as int) as nat
  }

  function DigitChar(d: nat): (c: char)
    requires d < 10
    ensures IsDigit(c) && DigitValue(c) == d
  {
    (d + '0' as int) as char
  }

  /** str(n) for a non-negative int: decimal digits, no leading zero. */
  function DecStr(n: nat): (s: string)
    ensures |s| >= 1 && forall i :: 0 <= i < |s| ==> IsDigit(s[i])
    ensures |s| > 1 ==> s[0] != '0'
    decreases n
  {
    if n < 10 then [DigitChar(n)] else DecStr(n / 10) + [DigitChar(n % 10)]
  }

  /** The value of a string of decimal digits. */
  function DigitsValue(s: string): nat
    requires forall i :: 0 <= i < |s| ==> IsDigit(s[i])
  {
    if s == [] then 0 else 10 * DigitsValue(s[..|s| - 1]) + DigitValue(s[|s| - 1])
  }

  /** Reading back a formatted number gives the number. */
  lemma {:induction false} DecStrValue(n: nat)
    ensures DigitsValue(DecStr(n)) == n
    decreases n
  {
    if n >= 10 {
      DecStrValue(n / 10);
      var s := DecStr(n);
      assert s[..|s| - 1] == DecStr(n / 10);
    }
  }

  predicate IsSpace(c: char) { c == ' ' || c == '\t' || c == '\n' || c == '\r' || c == '\U{000B}' || c == '\U{000C}' }

  function StripLeft(s: string): (r: string)
    ensures |r| <= |s| && (r != [] ==> !IsSpace(r[0]))
    ensures s != [] && !IsSpace(s[0]) ==> r == s
  {
    if s != [] && IsSpace(s[0]) then StripLeft(s[1..]) else s
  }

  function StripRight(s: string): (r: string)
    ensures |r| <= |s| && (r != [] ==> !IsSpace(r[|r| - 1]) && r[0] == s[0])
    ensures s != [] && !IsSpace(s[|s| - 1]) ==> r == s
  {
    if s != [] && IsSpace(s[|s| - 1]) then StripRight(s[..|s| - 1]) else s
  }

  /** str.strip() with no argument: leading and trailing whitespace removed. */
  function Strip(s: string): (r: string)
    ensures |r| <= |s|
    ensures r != [] ==> !IsSpace(r[0]) && !IsSpace(r[|r| - 1])
    ensures s != [] && !IsSpace(s[0]) && !IsSpace(s[|s| - 1]) ==> r == s
  {
    StripRight(StripLeft(s))
  }

  /**
   * int(s) for decimal text: surrounding whitespace allowed, an optional
   * sign, then at least one digit; anything else is the ValueError, None.
   * Python's underscores between digits and non-ASCII digits are not modelled.
   */
  function ParseInt(s: string): (r: Option<int>)
  {
    ParseSigned(Strip(s))
  }

  /** An optional sign, then at least one digit and nothing else. */
  function ParseSigned(t: string): (r: Option<int>)
  {
    if t == [] then None
    else if t[0] == '-' then Negated(ParseUnsigned(t[1..]))
    else if t[0] == '+' then ParseUnsigned(t[1..])
    else ParseUnsigned(t)
  }

  /** At least one digit and nothing else. */
  function ParseUnsigned(b: string): (r: Option<int>)
  {
    if b != [] && AllDigits(b) then Some(DigitsValue(b)) else None
  }

  function Negated(v: Option<int>): Option<int>
  {
    if v.Some? then Some(-v.value) else None
  }

  /** int() of plain digits is their value. */
  lemma ParseDigits(s: string)
    requires s != [] && AllDigits(s)
    ensures ParseInt(s) == Some(DigitsValue(s))
  {
    assert IsDigit(s[0]) && IsDigit(s[|s| - 1]);
    assert Strip(s) == s;
  }

  /** int() reads back what str() wrote. */
  lemma ParseDecStr(n: nat)
    ensures ParseInt(DecStr(n)) == Some(n)
  {
    ParseDigits(DecStr(n));
    DecStrValue(n);
  }

  function LowerChar(c: char): char
  {
    if 'A' <= c <= 'Z' then (c as int + 32) as char else c
  }

  /** str.lower() over ASCII. */
  function Lower(s: string): (r: string)
    ensures |r| == |s|
    ensures forall i :: 0 <= i < |s| ==> r[i] == LowerChar(s[i])
  {
    seq(|s|, i requires 0 <= i < |s| => LowerChar(s[i]))
  }

  function UpperChar(c: char): char
  {
    if 'a' <= c <= 'z' then (c as int - 32) as char else c
  }

  /** str.upper() over ASCII. */
  function Upper(s: string): (r: string)
    ensures |r| == |s|
    ensures forall i :: 0 <= i < |s| ==> r[i] == UpperChar(s[i])
  {
    seq(|s|, i requires 0 <= i < |s| => UpperChar(s[i]))
  }

  /** str.split(sep) for a one-character separator: the pieces between separators, empty ones included. */
  function Split(s: string, sep: char): (r: seq<string>)
    ensures |r| >= 1
    ensures sep !in s ==> r == [s]
    ensures sep in s ==> |r| >= 2 && r[0] == s[..IndexOf(s, sep)]
    ensures forall k :: 0 <= k < |r| ==> sep !in r[k]
    ensures Join(r, sep) == s
  {
    if sep !in s then [s]
    else
      var i := IndexOf(s, sep);
      var rest := Split(s[i + 1..], sep);
      assert s == s[..i] + [sep] + s[i + 1..];
      [s[..i]] + rest
  }

  /** sep.join(parts) for a one-character separator. */
  function Join(parts: seq<string>, sep: char): string
  {
    if parts == [] then "" else if |parts| == 1 then parts[0] else parts[0] + [sep] + Join(parts[1..], sep)
  }

  /** The first index of a character that occurs. */
  function IndexOf(s: string, c: char): (i: nat)
    requires c in s
    ensures i < |s| && s[i] == c && c !in s[..i]
  {
    if s[0] == c then 0 else 1 + IndexOf(s[1..], c)
  }

  /** Whether `p` is a prefix of `s`. */
  predicate StartsWith(s: string, p: string)
  {
    |p| <= |s| && s[..|p|] == p
  }

  /** "{:02d}".format(n): decimal, zero-padded to two digits. */
  function Pad2(n: nat): (r: string)
    ensures |r| >= 2 && AllDigits(r)
  {
    if n < 10 then "0" + DecStr(n) else DecStr(n)
  }

  lemma {:induction false} LeadingZero(s: string)
    requires AllDigits(s)
    ensures AllDigits("0" + s) && DigitsValue("0" + s) == DigitsValue(s)
    decreases |s|
  {
    if s != [] {
      var t := "0" + s;
      assert t[..|t| - 1] == "0" + s[..|s| - 1];
      LeadingZero(s[..|s| - 1]);
    }
  }

  /** The padded number reads back as the number. */
  lemma Pad2Value(n: nat)
    ensures DigitsValue(Pad2(n)) == n
  {
    DecStrValue(n);
    if n < 10 {
      LeadingZero(DecStr(n));
    }
  }

  /** str(n) for any int: a minus sign before the digits of a negative number. */
  function IntStr(n: int): (s: string)
  {
    if n < 0 then "-" + DecStr(-n) else DecStr(n)
  }

  /** int() reads back what str() wrote, negative numbers included. */
  lemma ParseIntStr(n: int)
    ensures ParseInt(IntStr(n)) == Some(n)
  {
    if n < 0 {
      ParseNegDec(-n);
    } else {
      ParseDecStr(n);
    }
  }

  /** int() of a minus sign before str(m) is -m. */
  lemma ParseNegDec(m: nat)
    requires m > 0
    ensures ParseInt("-" + DecStr(m)) == Some(-(m as int))
  {
    DecStrValue(m);
    ParseNegative(DecStr(m), m);
  }

  /** int() of a minus sign and digits is the negated value. */
  lemma ParseNegative(d: string, v: nat)
    requires d != [] && AllDigits(d) && DigitsValue(d) == v
    ensures ParseInt("-" + d) == Some(-(v as int))
  {
    var t := "-" + d;
    assert t[0] == '-' && t[|t| - 1] == d[|d| - 1];
    StripKeeps(t);
    SignedNegative(d, v);
  }

  /** Text with no whitespace at either end is parsed as it stands. */
  lemma StripKeeps(s: string)
    requires s != [] && !IsSpace(s[0]) && !IsSpace(s[|s| - 1])
    ensures ParseInt(s) == ParseSigned(s)
  {
  }

  lemma SignedNegative(d: string, v: nat)
    requires d != [] && AllDigits(d) && DigitsValue(d) == v
    ensures ParseSigned("-" + d) == Some(-(v as int))
  {
    var t := "-" + d;
    assert t[1..] == d;
  }

  /** Splitting "a<sep>b" where neither part holds the separator gives back the two parts. */
  lemma SplitPair(a: string, b: string, sep: char)
    requires sep !in a && sep !in b
    ensures Split(a + [sep] + b, sep) == [a, b]
  {
    var s := a + [sep] + b;
    assert s[|a|] == sep;
    var i := IndexOf(s, sep);
    assert s[..|a|] == a;
    assert s[..i] == a;
    assert s[i + 1..] == b;
  }

  /** Splitting at the first separator. */
  lemma SplitCons(a: string, rest: string, sep: char)
    requires sep !in a
    ensures Split(a + [sep] + rest, sep) == [a] + Split(rest, sep)
  {
    var s := a + [sep] + rest;
    assert s[|a|] == sep;
    var i := IndexOf(s, sep);
    assert s[..|a|] == a;
    assert s[..i] == a;
    assert s[i + 1..] == rest;
  }

  /** A character that no part holds, other than the separator, is not in the joined string. */
  lemma {:induction false} JoinAvoids(parts: seq<string>, sep: char, c: char)
    requires c != sep && forall k :: 0 <= k < |parts| ==> c !in parts[k]
    ensures c !in Join(parts, sep)
    decreases |parts|
  {
    if |parts| > 1 {
      JoinAvoids(parts[1..], sep, c);
    }
  }

  /** Splitting what was joined gives the parts back, when no part holds the separator. */
  lemma {:induction false} SplitJoin(parts: seq<string>, sep: char)
    requires |parts| >= 1 && forall k :: 0 <= k < |parts| ==> sep !in parts[k]
    ensures Split(Join(parts, sep), sep) == parts
    decreases |parts|
  {
    if |parts| > 1 {
      var rest := parts[1..];
      assert forall k :: 0 <= k < |rest| ==> rest[k] == parts[k + 1];
      SplitJoin(rest, sep);
      assert Join(parts, sep) == parts[0] + [sep] + Join(rest, sep);
      SplitCons(parts[0], Join(rest, sep), sep);
      assert parts == [parts[0]] + rest;
    }
  }

  /** 2 to the power n. */
  function Pow2(n: nat): (r: nat)
    ensures r >= 1
  {
    if n == 0 then 1 else 2 * Pow2(n - 1)
  }

  predicate IsBit(c: char) { c == '0' || c == '1' }

  /** format(n, 'b'): the binary digits of n, most significant first ("0" for zero). */
  function BinDigits(n: nat): (s: string)
    ensures s != [] && forall i :: 0 <= i < |s| ==> IsBit(s[i])
  {
    if n < 2 then [if n == 0 then '0' else '1']
    else BinDigits(n / 2) + [if n % 2 == 0 then '0' else '1']
  }

  /** "{:0wb}".format(n): the binary digits left-padded with '0' to at least w characters. */
  function FormatBin(n: nat, w: nat): string
  {
    var d := BinDigits(n);
    if |d| < w then seq(w - |d|, _ => '0') + d else d
  }

  /** int(s, 2) on a string of binary digits. */
  function BinValue(s: string): nat
  {
    if s == [] then 0 else BinValue(s[..|s| - 1]) * 2 + (if s[|s| - 1] == '1' then 1 else 0)
  }

  /** int(format(n, 'b'), 2) == n. */
  lemma {:induction false} BinDigitsValue(n: nat)
    ensures BinValue(BinDigits(n)) == n
  {
    if n >= 2 {
      var s := BinDigits(n);
      assert s[..|s| - 1] == BinDigits(n / 2);
      BinDigitsValue(n / 2);
    }
  }

  /** A number below 2^w has at most w binary digits. */
  lemma {:induction false} BinDigitsLength(n: nat, w: nat)
    requires 1 <= w && n < Pow2(w)
    ensures |BinDigits(n)| <= w
  {
    if n >= 2 {
      BinDigitsLength(n / 2, w - 1);
    }
  }

  /** Reading a concatenation: the left part is shifted by the length of the right part. */
  lemma {:induction false} BinValueConcat(a: string, b: string)
    ensures BinValue(a + b) == BinValue(a) * Pow2(|b|) + BinValue(b)
    decreases |b|
  {
    if b == [] {
      assert a + b == a;
    } else {
      var ab := a + b;
      var b' := b[..|b| - 1];
      assert ab[..|ab| - 1] == a + b' && ab[|ab| - 1] == b[|b| - 1];
      BinValueConcat(a, b');
      ShiftStep(BinValue(a), Pow2(|b'|), BinValue(b'), if b[|b| - 1] == '1' then 1 else 0);
    }
  }

  lemma ShiftStep(x: nat, p: nat, y: nat, bit: nat)
    ensures (x * p + y) * 2 + bit == x * (2 * p) + (y * 2 + bit)
  {
  }

  /** Leading zeros read as nothing. */
  lemma {:induction false} ZerosValue(k: nat)
    ensures BinValue(seq(k, _ => '0')) == 0
  {
    if k > 0 {
      assert seq(k, _ => '0')[..k - 1] == seq(k - 1, _ => '0');
      ZerosValue(k - 1);
    }
  }

  /** int("{:0wb}".format(n), 2) == n, and a number below 2^w fills exactly w places. */
  lemma FormatBinValue(n: nat, w: nat)
    ensures BinValue(FormatBin(n, w)) == n
    ensures 1 <= w && n < Pow2(w) ==> |FormatBin(n, w)| == w
  {
    var d := BinDigits(n);
    BinDigitsValue(n);
    if |d| < w {
      ZerosValue(w - |d|);
      BinValueConcat(seq(w - |d|, _ => '0'), d);
    }
    if 1 <= w && n < Pow2(w) {
      BinDigitsLength(n, w);
    }
  }
}

=== FILE: setbfree.dfy ===
/**
 * The setBfree tonewheel-organ engine: the parser that turns the lines of a
 * `.pgm` program file into preset entries, the dummy MIDI channel given to
 * disabled manuals in the generated configuration, preset comparison, the
 * translation of preset parameters into controller values, and the staged
 * set-up (manuals layout, then tonewheel model) carried by the bank list.
 *
 * File reading, the configuration template and the synthesiser process are
 * outside the model: a file is given as its lines, or None when it cannot
 * be opened.
 */
module SetBfree {
  import opened Wrappers
  import opened PyText

  // ---------------------------------------------------------------------------
  // Scanning a program line
  // ---------------------------------------------------------------------------

  /** The characters of the separator class `[{},]`. */
  predicate IsSep(c: char) { c == '{' || c == '}' || c == ',' }

  /** The end of the run of whitespace that starts at i. */
  function SkipSpaces(s: string, i: nat): (r: nat)
    requires i <= |s|
    ensures i <= r <= |s| && (r < |s| ==> !IsSpace(s[r]))
    ensures forall x :: i <= x < r ==> IsSpace(s[x])
    decreases |s| - i
  {
    if i < |s| && IsSpace(s[i]) then SkipSpaces(s, i + 1) else i
  }

  /** The end of the run of separator characters that starts at i. */
  function SkipSeps(s: string, i: nat): (r: nat)
    requires i <= |s|
    ensures i <= r <= |s| && (r < |s| ==> !IsSep(s[r]))
    decreases |s| - i
  {
    if i < |s| && IsSep(s[i]) then SkipSeps(s, i + 1) else i
  }

  /** The end of the run of decimal digits that starts at i. */
  function SkipDigits(s: string, i: nat): (r: nat)
    requires i <= |s|
    ensures i <= r <= |s| && (r < |s| ==> !IsDigit(s[r]))
    ensures forall x :: i <= x < r ==> IsDigit(s[x])
    decreases |s| - i
  {
    if i < |s| && IsDigit(s[i]) then SkipDigits(s, i + 1) else i
  }

  /** Whether the split pattern `\s*[{},]+\s*` matches at position i. */
  predicate SepAt(s: string, i: nat)
    requires i <= |s|
  {
    var j := SkipSpaces(s, i);
    j < |s| && IsSep(s[j])
  }

  /** The end of the (greedy) match of the split pattern at i. */
  function SepEnd(s: string, i: nat): (m: nat)
    requires i <= |s| && SepAt(s, i)
    ensures i < m <= |s|
  {
    SkipSpaces(s, SkipSeps(s, SkipSpaces(s, i)))
  }

  /**
   * re.split with the separator pattern: the fragment that began at `start`
   * has been scanned up to `i`; a match at the leftmost position ends it.
   */
  function Fragments(s: string, start: nat, i: nat): (r: seq<string>)
    requires start <= i <= |s|
    ensures |r| >= 1
    decreases |s| - i
  {
    if i == |s| then [s[start..]]
    else if SepAt(s, i) then [s[start..i]] + Fragments(s, SepEnd(s, i), SepEnd(s, i))
    else Fragments(s, start, i + 1)
  }

  /** No fragment holds a separator character. */
  lemma {:induction false} FragmentsHaveNoSeps(s: string, start: nat, i: nat)
    requires start <= i <= |s|
    requires forall x :: start <= x < i ==> !IsSep(s[x])
    ensures forall k, x :: 0 <= k < |Fragments(s, start, i)| && 0 <= x < |Fragments(s, start, i)[k]| ==>
      !IsSep(Fragments(s, start, i)[k][x])
    decreases |s| - i
  {
    if i < |s| {
      if SepAt(s, i) {
        var m := SepEnd(s, i);
        FragmentsHaveNoSeps(s, m, m);
        var r := Fragments(s, start, i);
        assert r[0] == s[start..i];
        assert r[1..] == Fragments(s, m, m);
      } else {
        assert SkipSpaces(s, i) == i || IsSpace(s[i]);
        FragmentsHaveNoSeps(s, start, i + 1);
      }
    }
  }

  /** Positions where the split pattern does not match do not change the fragments. */
  lemma {:induction false} ScanPast(s: string, start: nat, i: nat, p: nat)
    requires start <= i <= p <= |s|
    requires forall x :: i <= x < p ==> !IsSpace(s[x]) && !IsSep(s[x])
    ensures Fragments(s, start, i) == Fragments(s, start, p)
    decreases p - i
  {
    if i < p {
      assert SkipSpaces(s, i) == i;
      ScanPast(s, start, i + 1, p);
    }
  }

  /** The first fragment begins with the text scanned so far. */
  lemma {:induction false} FragmentHead(s: string, start: nat, i: nat)
    requires start <= i <= |s|
    ensures |Fragments(s, start, i)[0]| >= i - start
    ensures Fragments(s, start, i)[0][..i - start] == s[start..i]
    decreases |s| - i
  {
    if i < |s| && !SepAt(s, i) {
      FragmentHead(s, start, i + 1);
      assert s[start..i + 1][..i - start] == s[start..i];
    }
  }

  // ---------------------------------------------------------------------------
  // Program lines
  // ---------------------------------------------------------------------------

  /** Where the `{` of a program line would be: after the leading digits and any whitespace. */
  function BracePos(line: string): nat
    requires |line| > 0
  {
    SkipSpaces(line, SkipDigits(line, 0))
  }

  /** Where `name="` of a program line would start. */
  function NamePos(line: string): nat
    requires |line| > 0 && BracePos(line) < |line|
  {
    SkipSpaces(line, BracePos(line) + 1)
  }

  /** Whether a line matches `^(\d+)\s*\{\s*name="([^"]+)"`. */
  predicate IsProgramLine(line: string)
  {
    && |line| > 0
    && SkipDigits(line, 0) >= 1
    && BracePos(line) < |line| && line[BracePos(line)] == '{'
    && NamePos(line) + 6 < |line| && line[NamePos(line)..NamePos(line) + 6] == "name=\""
    && line[NamePos(line) + 6] != '"' && '"' in line[NamePos(line) + 7..]
  }

  /** The number a program line starts with. */
  function ProgramNumber(line: string): nat
    requires |line| > 0
  {
    DigitsValue(line[..SkipDigits(line, 0)])
  }

  /** str.strip("\"'"): removes quotes and apostrophes at both ends. */
  function StripQuotes(s: string): (r: string)
    ensures |r| <= |s|
    ensures r != [] ==> r[0] != '"' && r[0] != '\'' && r[|r| - 1] != '"' && r[|r| - 1] != '\''
    decreases |s|
  {
    if s == [] then s
    else if s[0] == '"' || s[0] == '\'' then StripQuotes(s[1..])
    else if s[|s| - 1] == '"' || s[|s| - 1] == '\'' then StripQuotes(s[..|s| - 1])
    else s
  }

  /** The params dict built from the fragments after the first: key lowered, value stripped of quotes; later keys win. */
  function Params(frags: seq<string>): map<string, string>
    decreases |frags|
  {
    if frags == [] then map[]
    else
      var p := Params(frags[..|frags| - 1]);
      var parts := Split(frags[|frags| - 1], '=');
      if |parts| >= 2 then p[Lower(parts[0]) := StripQuotes(parts[1])] else p
  }

  predicate IsDrawbarDigit(c: char) { '0' <= c <= '8' }

  /** The drawbar settings of a "drawbars" value: its characters '0' to '8', in order. */
  function DrawbarDigits(s: string): (r: string)
    ensures |r| <= |s|
  {
    if s == [] then [] else (if IsDrawbarDigit(s[0]) then [s[0]] else []) + DrawbarDigits(s[1..])
  }

  /** The params key of drawbar j. */
  function DrawbarKey(j: nat): string
  {
    "drawbar_" + DecStr(j)
  }

  lemma DrawbarKeyInjective(a: nat, b: nat)
    requires DrawbarKey(a) == DrawbarKey(b)
    ensures a == b
  {
    assert DecStr(a) == DrawbarKey(a)[8..];
    assert DecStr(b) == DrawbarKey(b)[8..];
    DecStrValue(a);
    DecStrValue(b);
  }

  /** The loop over "drawbars": each drawbar digit becomes drawbar_j, counting from j. */
  function Drawbars(s: string, j: nat, params: map<string, string>): map<string, string>
    decreases |s|
  {
    if s == [] then params
    else if IsDrawbarDigit(s[0]) then Drawbars(s[1..], j + 1, params[DrawbarKey(j) := [s[0]]])
    else Drawbars(s[1..], j, params)
  }

  /** The keys drawbar_j to drawbar_(j+n-1). */
  function DrawbarKeys(j: nat, n: nat): set<string>
  {
    set k | j <= k < j + n :: DrawbarKey(k)
  }

  /** drawbar_j is not among the keys that follow it. */
  lemma DrawbarKeyNotLater(j: nat, n: nat)
    ensures DrawbarKey(j) !in DrawbarKeys(j + 1, n)
    ensures DrawbarKey(j) in DrawbarKeys(j, n + 1)
    ensures DrawbarKeys(j + 1, n) <= DrawbarKeys(j, n + 1)
  {
    if DrawbarKey(j) in DrawbarKeys(j + 1, n) {
      var k :| j + 1 <= k < j + 1 + n && DrawbarKey(k) == DrawbarKey(j);
      DrawbarKeyInjective(k, j);
    }
  }

  /** The k-th drawbar digit is stored under drawbar_(j+k). */
  lemma {:induction false} DrawbarsSet(s: string, j: nat, params: map<string, string>, k: nat)
    requires k < |DrawbarDigits(s)|
    ensures DrawbarKey(j + k) in Drawbars(s, j, params)
    ensures Drawbars(s, j, params)[DrawbarKey(j + k)] == [DrawbarDigits(s)[k]]
    decreases |s|
  {
    var d' := DrawbarDigits(s[1..]);
    if IsDrawbarDigit(s[0]) {
      var p' := params[DrawbarKey(j) := [s[0]]];
      assert DrawbarDigits(s) == [s[0]] + d';
      if k == 0 {
        DrawbarKeyNotLater(j, |d'|);
        DrawbarsFrame(s[1..], j + 1, p', DrawbarKey(j));
      } else {
        DrawbarsSet(s[1..], j + 1, p', k - 1);
        assert DrawbarKey(j + k) == DrawbarKey((j + 1) + (k - 1));
      }
    } else {
      DrawbarsSet(s[1..], j, params, k);
    }
  }

  /** Every key other than drawbar_j … drawbar_(j+n-1) keeps its value. */
  lemma {:induction false} DrawbarsFrame(s: string, j: nat, params: map<string, string>, key: string)
    requires key !in DrawbarKeys(j, |DrawbarDigits(s)|)
    ensures key in Drawbars(s, j, params) <==> key in params
    ensures key in params ==> Drawbars(s, j, params)[key] == params[key]
    decreases |s|
  {
    if s != [] {
      var d' := DrawbarDigits(s[1..]);
      if IsDrawbarDigit(s[0]) {
        DrawbarKeyNotLater(j, |d'|);
        DrawbarsFrame(s[1..], j + 1, params[DrawbarKey(j) := [s[0]]], key);
      } else {
        DrawbarsFrame(s[1..], j, params, key);
      }
    }
  }

  /** The params a program keeps: all but "name", with "drawbars" spread into drawbar_1, drawbar_2, … */
  function ProgramParams(params: map<string, string>): map<string, string>
  {
    var rest := params - {"name"};
    if "drawbars" in rest then Drawbars(rest["drawbars"], 1, rest) - {"drawbars"} else rest
  }

  /** A program's params never hold "name" or "drawbars". */
  lemma ProgramParamsKeys(params: map<string, string>)
    ensures "name" !in ProgramParams(params) && "drawbars" !in ProgramParams(params)
  {
    var rest := params - {"name"};
    if "drawbars" in rest {
      var v := rest["drawbars"];
      var n := |DrawbarDigits(v)|;
      DrawbarsFrame(v, 1, rest, "name");
    }
  }

  /** The k-th drawbar digit (counting from 0) of the "drawbars" value becomes drawbar_(k+1). */
  lemma ProgramParamsDrawbar(params: map<string, string>, k: nat)
    requires "drawbars" in params && k < |DrawbarDigits(params["drawbars"])|
    ensures DrawbarKey(k + 1) in ProgramParams(params)
    ensures ProgramParams(params)[DrawbarKey(k + 1)] == [DrawbarDigits(params["drawbars"])[k]]
  {
    var rest := params - {"name"};
    var v := rest["drawbars"];
    assert v == params["drawbars"];
    assert DrawbarKey(k + 1) != "drawbars" by {
      assert DrawbarKey(k + 1)[7] == '_';
    }
    DrawbarsSet(v, 1, rest, k);
    assert DrawbarKey(1 + k) == DrawbarKey(k + 1);
  }

  /** A parsed program: MIDI program number (one less than the file's), title and remaining params. */
  datatype Program = Program(program: nat, title: string, params: map<string, string>)

  /**
   * The body of the parser loop for one line: None for a line the first
   * pattern does not match, for program number 0, and for a line whose
   * parsing raises.
   */
  function ParseLine(line: string): Option<Program>
  {
    if !IsProgramLine(line) then None
    else
      var f := Fragments(line, 0, 0);
      match ParseInt(f[0])
      case None => None
      case Some(n) =>
        if n - 1 < 0 then None
        else
          var params := Params(f[1..]);
          if "name" !in params then None
          else
            Some(Program(n - 1, params["name"], ProgramParams(params)))
  }

  /** The number of a program line is its first fragment; the second starts where `name="` does. */
  lemma FirstFragment(line: string)
    requires IsProgramLine(line)
    ensures Fragments(line, 0, 0) == [line[..SkipDigits(line, 0)]] + Fragments(line, NamePos(line), NamePos(line))
  {
    var n := SkipDigits(line, 0);
    var j := BracePos(line);
    ScanPast(line, 0, 0, n);
    assert SepAt(line, n);
    assert line[NamePos(line)..NamePos(line) + 6][0] == 'n';
    assert SkipSeps(line, j) == j + 1;
  }

  /** `name="` holds neither whitespace nor a separator character. */
  lemma NameQuoteIsPlain(x: nat)
    requires x < 6
    ensures !IsSpace("name=\""[x]) && !IsSep("name=\""[x])
  {
  }

  /** A fragment that starts at `name="` begins with it. */
  lemma NameFragment(s: string, k: nat)
    requires k + 6 <= |s| && s[k..k + 6] == "name=\""
    ensures var g := Fragments(s, k, k)[0]; |g| >= 6 && g[..6] == "name=\""
  {
    forall x | k <= x < k + 6
      ensures !IsSpace(s[x]) && !IsSep(s[x])
    {
      assert s[x] == s[k..k + 6][x - k];
      NameQuoteIsPlain(x - k);
    }
    ScanPast(s, k, k, k + 6);
    FragmentHead(s, k, k + 6);
  }

  /** The fragments of a program line: its number, then a fragment beginning `name="`. */
  lemma ProgramLineFragments(line: string)
    requires IsProgramLine(line)
    ensures var f := Fragments(line, 0, 0);
      |f| >= 2 && f[0] == line[..SkipDigits(line, 0)]
      && |f[1]| >= 6 && f[1][..6] == "name=\""
  {
    FirstFragment(line);
    NameFragment(line, NamePos(line));
  }

  lemma LowerName()
    ensures Lower("name") == "name"
  {
  }

  /** Splitting a fragment beginning `name="` at '=' gives "name" first. */
  lemma SplitName(g: string)
    requires |g| >= 6 && g[..6] == "name=\""
    ensures |Split(g, '=')| >= 2 && Split(g, '=')[0] == "name"
  {
    assert g[4] == '=' && g[..4] == "name";
    assert IndexOf(g, '=') == 4;
  }

  /** A fragment beginning `name="` sets the "name" param. */
  lemma NameParam(g: string)
    requires |g| >= 6 && g[..6] == "name=\""
    ensures "name" in Params([g])
  {
    SplitName(g);
    LowerName();
    var none: seq<string> := [];
    assert [g][..0] == none;
  }

  /** A line that matches the first pattern always yields a "name" param. */
  lemma ProgramLineHasName(line: string)
    requires IsProgramLine(line)
    ensures var f := Fragments(line, 0, 0); "name" in Params(f[1..])
  {
    ProgramLineFragments(line);
    FirstFragmentName(Fragments(line, 0, 0)[1..]);
  }

  /** When the first fragment sets "name", later fragments cannot remove it. */
  lemma {:induction false} FirstFragmentName(frags: seq<string>)
    requires |frags| >= 1 && |frags[0]| >= 6 && frags[0][..6] == "name=\""
    ensures "name" in Params(frags)
    decreases |frags|
  {
    if |frags| == 1 {
      NameParam(frags[0]);
    } else {
      FirstFragmentName(frags[..|frags| - 1]);
    }
  }


  /**
   * Exactly the lines that match `^N{name="…"` with N > 0 become programs,
   * and the program number is N - 1.
   */
  lemma ParseLineSpec(line: string)
    ensures ParseLine(line).Some? <==> IsProgramLine(line) && ProgramNumber(line) >= 1
    ensures ParseLine(line).Some? ==> ParseLine(line).value.program == ProgramNumber(line) - 1
  {
    if IsProgramLine(line) {
      ProgramLineFragments(line);
      ProgramLineHasName(line);
      ParseDigits(line[..SkipDigits(line, 0)]);
    }
  }

  /** The programs of a file, in file order. */
  function Programs(lines: seq<string>): seq<Program>
  {
    if lines == [] then []
    else
      var p := ParseLine(lines[|lines| - 1]);
      Programs(lines[..|lines| - 1]) + (if p.Some? then [p.value] else [])
  }

  /** A preset entry: [index, [0, 0, program], title, params]. */
  datatype Entry = Entry(index: nat, address: seq<int>, title: string, params: map<string, string>)

  /** load_program_list: None when the file cannot be read, otherwise one entry per program, numbered from 0. */
  method LoadProgramList(file: Option<seq<string>>) returns (r: Option<seq<Entry>>)
    ensures file.None? <==> r.None?
    ensures file.Some? ==> |r.value| == |Programs(file.value)|
    ensures file.Some? ==> forall k :: 0 <= k < |r.value| ==>
      r.value[k] == Entry(k, [0, 0, Programs(file.value)[k].program], Programs(file.value)[k].title, Programs(file.value)[k].params)
  {
    if file.None? {
      return None;
    }
    var lines := file.value;
    var list: seq<Entry> := [];
    var n := 0;
    while n < |lines|
      invariant n <= |lines|
      invariant |list| == |Programs(lines[..n])|
      invariant forall k :: 0 <= k < |list| ==>
        list[k] == Entry(k, [0, 0, Programs(lines[..n])[k].program], Programs(lines[..n])[k].title, Programs(lines[..n])[k].params)
    {
      assert lines[..n + 1][..n] == lines[..n];
      var p := ParseLine(lines[n]);
      if p.Some? {
        list := list + [Entry(|list|, [0, 0, p.value.program], p.value.title, p.value.params)];
      }
      n := n + 1;
    }
    assert lines[..n] == lines;
    return Some(list);
  }

  // ---------------------------------------------------------------------------
  // Presets
  // ---------------------------------------------------------------------------

  /**
   * cmp_presets on the second element of each preset (None when there is
   * none): equal program numbers at index 2, and False for anything malformed.
   */
  function CmpPresets(a: Option<seq<int>>, b: Option<seq<int>>): bool
  {
    a.Some? && b.Some? && |a.value| > 2 && |b.value| > 2 && a.value[2] == b.value[2]
  }

  /** Two entries of a loaded list compare equal exactly when they are the same MIDI program. */
  lemma CmpLoadedEntries(file: seq<string>, e1: Entry, e2: Entry, i: nat, j: nat)
    requires i < |Programs(file)| && j < |Programs(file)|
    requires e1 == Entry(i, [0, 0, Programs(file)[i].program], Programs(file)[i].title, Programs(file)[i].params)
    requires e2 == Entry(j, [0, 0, Programs(file)[j].program], Programs(file)[j].title, Programs(file)[j].params)
    ensures CmpPresets(Some(e1.address), Some(e2.address)) <==> Programs(file)[i].program == Programs(file)[j].program
  {
  }

  /** setBfree preset params and the controllers they drive. */
  const PARAM_SYMBOLS: map<string, string> := map[
    "reverbmix" := "reverb",
    "rotaryspeed" := "rotary speed",
    "drawbar_1" := "DB 16",
    "drawbar_2" := "DB 5 1/3",
    "drawbar_3" := "DB 8",
    "drawbar_4" := "DB 4",
    "drawbar_5" := "DB 2 2/3",
    "drawbar_6" := "DB 2",
    "drawbar_7" := "DB 1 3/5",
    "drawbar_8" := "DB 1 1/3",
    "drawbar_9" := "DB 1",
    "vibratoupper" := "vibrato upper",
    "vibratolower" := "vibrato lower",
    "vibratorouting" := "vibrato routing",
    "vibrato" := "vibrato selector",
    "perc" := "percussion",
    "percvol" := "percussion volume",
    "percspeed" := "percussion decay",
    "percharm" := "percussion harmonic",
    "overdrive" := "overdrive",
    "overdrive_char" := "overdrive character",
    "overdrive_igain" := "overdrive inputgain",
    "overdrive_ogain" := "overdrive outputgain"
  ]

  /** The value set on a controller: the rotary speed is translated to the controller's labels, anything else passes. */
  function ControlValue(symbol: string, v: string): (r: string)
    ensures symbol == "rotary speed" ==> r in {"fast", "slow", "off"}
    ensures symbol == "rotary speed" ==> (r == "fast" <==> v == "tremolo") && (r == "slow" <==> v == "chorale")
    ensures symbol != "rotary speed" ==> r == v
  {
    if symbol != "rotary speed" then v
    else if v == "tremolo" then "fast"
    else if v == "chorale" then "slow"
    else "off"
  }

  /** The rotary speed of a preset always lands on one of the controller's three labels. */
  lemma RotarySpeedLabels(params: map<string, string>)
    requires "rotaryspeed" in params
    ensures PARAM_SYMBOLS["rotaryspeed"] == "rotary speed"
    ensures ControlValue(PARAM_SYMBOLS["rotaryspeed"], params["rotaryspeed"]) in {"fast", "slow", "off"}
  {
  }

  /**
   * update_controller_values: for each preset param with a controller symbol
   * that the processor has, the (symbol, value) it sets; params without one
   * are skipped.
   */
  method UpdateControllerValues(params: map<string, string>, controllers: set<string>)
    returns (calls: map<string, (string, string)>)
    ensures forall p :: p in calls <==> p in params && p in PARAM_SYMBOLS && PARAM_SYMBOLS[p] in controllers
    ensures forall p :: p in calls ==> calls[p] == (PARAM_SYMBOLS[p], ControlValue(PARAM_SYMBOLS[p], params[p]))
  {
    calls := map[];
    var todo := params.Keys;
    while todo != {}
      invariant todo <= params.Keys
      invariant forall p :: p in calls <==> p in params && p !in todo && p in PARAM_SYMBOLS && PARAM_SYMBOLS[p] in controllers
      invariant forall p :: p in calls ==> calls[p] == (PARAM_SYMBOLS[p], ControlValue(PARAM_SYMBOLS[p], params[p]))
      decreases |todo|
    {
      var p :| p in todo;
      if p in PARAM_SYMBOLS && PARAM_SYMBOLS[p] in controllers {
        var symbol := PARAM_SYMBOLS[p];
        calls := calls[p := (symbol, ControlValue(symbol, params[p]))];
      }
      todo := todo - {p};
    }
  }

  // ---------------------------------------------------------------------------
  // Generated configuration
  // ---------------------------------------------------------------------------

  /** The channel the search from d down to 0 stops at: the first not in use, or 0. */
  function DummyFrom(chans: seq<Option<int>>, d: nat): (r: nat)
    ensures r <= d
    ensures r > 0 ==> Some(r as int) !in chans
    ensures forall c :: r < c <= d ==> Some(c) in chans
  {
    if d == 0 || Some(d as int) !in chans then d else DummyFrom(chans, d - 1)
  }

  /** The dummy MIDI channel for disabled manuals: the highest channel from 15 down that no manual uses. */
  function DummyChan(chans: seq<Option<int>>): nat
  {
    DummyFrom(chans, 15)
  }

  /** With the three manuals, the dummy channel is never one a manual listens on. */
  lemma DummyIsFree(chans: seq<Option<int>>)
    requires |chans| <= 3
    ensures Some(DummyChan(chans) as int) !in chans
    ensures DummyChan(chans) >= 12
  {
    FourChannelsInThree(chans);
  }

  lemma FourChannelsInThree(chans: seq<Option<int>>)
    requires |chans| <= 3
    ensures !(Some(15) in chans && Some(14) in chans && Some(13) in chans && Some(12) in chans)
  {
  }

  /** generate_config_file's channel list: a copy with each disabled (None) manual on the dummy channel. */
  method FillDisabledChans(chans: seq<Option<int>>) returns (r: seq<int>)
    ensures |r| == |chans|
    ensures forall i :: 0 <= i < |r| ==> r[i] == (if chans[i].Some? then chans[i].value else DummyChan(chans))
  {
    var dummy := 15;
    while dummy > 0 && Some(dummy) in chans
      invariant 0 <= dummy <= 15
      invariant DummyFrom(chans, dummy) == DummyChan(chans)
    {
      dummy := dummy - 1;
    }
    r := [];
    var i := 0;
    while i < |chans|
      invariant i <= |chans| && |r| == i
      invariant forall k :: 0 <= k < i ==> r[k] == (if chans[k].Some? then chans[k].value else DummyChan(chans))
    {
      r := r + [if chans[i].Some? then chans[i].value else dummy];
      i := i + 1;
    }
  }

  /** The texts substituted for #MIDI.UPPER.CHANNEL#, #MIDI.LOWER.CHANNEL# and #MIDI.PEDALS.CHANNEL#: 1-based channels. */
  function ChannelTexts(chans: seq<int>): (r: seq<string>)
    requires |chans| == 3
    ensures |r| == 3 && forall i :: 0 <= i < 3 ==> r[i] == IntStr(1 + chans[i])
  {
    [IntStr(1 + chans[0]), IntStr(1 + chans[1]), IntStr(1 + chans[2])]
  }

  /** Each substituted text reads back as the 1-based channel. */
  lemma ChannelTextsRead(chans: seq<int>, i: nat)
    requires |chans| == 3 && i < 3
    ensures ParseInt(ChannelTexts(chans)[i]) == Some(1 + chans[i])
  {
    ParseIntStr(1 + chans[i]);
  }

  // ---------------------------------------------------------------------------
  // Staged set-up
  // ---------------------------------------------------------------------------

  /** The manuals a layout adds to the upper one, and the program it loads. */
  datatype Manuals = Manuals(lower: bool, pedals: bool, program: int)

  /** A bank entry: uri, index, title and, for a manuals layout, its manuals. */
  datatype BankEntry = BankEntry(uri: string, index: int, title: string, manuals: Option<Manuals>)

  /** bank_manuals_list. */
  const MANUALS_BANKS: seq<BankEntry> := [
    BankEntry("Upper", 0, "Upper", Some(Manuals(false, false, 59))),
    BankEntry("Upper + Lower", 1, "Upper + Lower", Some(Manuals(true, false, 59))),
    BankEntry("Upper + Pedals", 2, "Upper + Pedals", Some(Manuals(false, true, 59))),
    BankEntry("Upper + Lower + Pedals", 3, "Upper + Lower + Pedals", Some(Manuals(true, true, 59))),
    BankEntry("Split Lower/Upper", 4, "Split Lower/Upper", Some(Manuals(true, false, 56))),
    BankEntry("Split Pedals/Upper", 5, "Split Pedals/Upper", Some(Manuals(false, true, 58))),
    BankEntry("Split Pedals/Lower/Upper", 6, "Split Pedals/Lower/Upper", Some(Manuals(true, true, 57)))
  ]

  /** bank_twmodels_list. */
  const TONEWHEEL_BANKS: seq<BankEntry> := [
    BankEntry("Sin", 0, "Sine", None),
    BankEntry("Sqr", 1, "Square", None),
    BankEntry("Tri", 2, "Triangle", None)
  ]

  /** The number of MIDI channels a layout takes beyond the upper manual's. */
  function ExtraChannels(e: BankEntry): nat
  {
    if e.manuals.None? then 0
    else (if e.manuals.value.lower then 1 else 0) + (if e.manuals.value.pedals then 1 else 0)
  }

  /** The layouts offered with `free` free MIDI channels (more than one: all; one: the first three). */
  function ManualsOffer(free: nat): (r: seq<BankEntry>)
    requires free > 0
    ensures forall k :: 0 <= k < |r| ==> r[k].manuals.Some? && ExtraChannels(r[k]) <= free
  {
    if free > 1 then MANUALS_BANKS else MANUALS_BANKS[..3]
  }

  /** The program bank of each manual, under the engine's base directory. */
  function ProgramBanks(baseDir: string, manual: string): Option<seq<BankEntry>>
  {
    if manual == "Upper" then Some([BankEntry(baseDir + "/pgm-banks/upper/most_popular.pgm", 0, "Upper", None)])
    else if manual == "Lower" then Some([BankEntry(baseDir + "/pgm-banks/lower/lower_voices.pgm", 0, "Lower", None)])
    else if manual == "Pedals" then Some([BankEntry(baseDir + "/pgm-banks/pedals/pedals.pgm", 0, "Pedals", None)])
    else None
  }

  class SetBfreeEngine {
    /** The engine's data directory, data_dir + "/setbfree". */
    const baseDir: string
    var manualsConfig: Option<BankEntry>
    var tonewheelModel: Option<string>
    /** Whether the synthesiser process exists (self.proc). */
    var running: bool

    constructor (dir: string)
      ensures baseDir == dir && manualsConfig == None && tonewheelModel == None && !running
    {
      baseDir := dir;
      manualsConfig := None;
      tonewheelModel := None;
      running := false;
    }

    /** `not self.tonewheel_model`: no model, or the empty string. */
    predicate TonewheelUnset()
      reads this
    {
      tonewheelModel.None? || tonewheelModel.value == ""
    }

    /**
     * get_bank_list for the processor of `manual`, with `free` free MIDI
     * channels. Without free channels the single-manual layout is chosen on
     * the spot and the tonewheel models are offered.
     */
    method GetBankList(manual: string, free: nat) returns (r: Option<seq<BankEntry>>)
      modifies this
      ensures old(manualsConfig).None? && free > 0 ==> r == Some(ManualsOffer(free)) && manualsConfig == old(manualsConfig)
      ensures old(manualsConfig).None? && free == 0 ==> r == Some(TONEWHEEL_BANKS) && manualsConfig == Some(MANUALS_BANKS[0])
      ensures old(manualsConfig).Some? && old(TonewheelUnset()) ==> r == Some(TONEWHEEL_BANKS) && manualsConfig == old(manualsConfig)
      ensures old(manualsConfig).Some? && !old(TonewheelUnset()) ==> r == ProgramBanks(baseDir, manual) && manualsConfig == old(manualsConfig)
      ensures tonewheelModel == old(tonewheelModel) && running == old(running)
    {
      if manualsConfig.None? {
        if free > 0 {
          return Some(ManualsOffer(free));
        }
        manualsConfig := Some(MANUALS_BANKS[0]);
        return Some(TONEWHEEL_BANKS);
      } else if TonewheelUnset() {
        return Some(TONEWHEEL_BANKS);
      }
      return ProgramBanks(baseDir, manual);
    }

    /**
     * set_bank: the first call stores the manuals layout and answers None;
     * the next stores the tonewheel model (the entry's uri); from then on the
     * engine is started if it is not running and the answer is True.
     */
    method SetBank(bank: BankEntry) returns (r: Option<bool>, starts: bool)
      modifies this
      ensures old(manualsConfig).None? ==>
        r.None? && !starts && manualsConfig == Some(bank) && tonewheelModel == old(tonewheelModel) && running == old(running)
      ensures old(manualsConfig).Some? ==> (r == Some(true) && manualsConfig == old(manualsConfig)
        && starts == !old(running) && running
        && tonewheelModel == (if old(TonewheelUnset()) then Some(bank.uri) else old(tonewheelModel)))
    {
      if manualsConfig.None? {
        manualsConfig := Some(bank);
        return None, false;
      } else if TonewheelUnset() {
        tonewheelModel := Some(bank.uri);
      }
      starts := !running;
      running := true;
      return Some(true), starts;
    }
  }

  /** Choosing any offered tonewheel model completes the set-up: the model is then set. */
  lemma OfferedModelsAreSet(k: nat)
    requires k < |TONEWHEEL_BANKS|
    ensures TONEWHEEL_BANKS[k].uri != ""
  {
  }
}

=== FILE: signal_manager.dfy ===
/**
 * The signal manager: a table of callback lists indexed by signal and
 * subsignal, registration and removal, synchronous delivery and the FIFO
 * of queued signals drained by the dispatch thread.
 *
 * Callbacks are opaque: a callback is an identity, and whether calling it
 * raises is an input to delivery. Callbacks that register or unregister
 * while they are being called are not modelled.
 */
module SignalManager {
  import opened Wrappers

  /** The number of signal rows reset_register builds. */
  const LAST_SIGNAL: nat := 13
  /** The number of subsignal lists in each row. */
  const LAST_SUBSIGNAL: nat := 10

  type Callback = nat
  type Register = seq<seq<seq<Callback>>>

  /** A signal put on the queue with its keyword arguments. */
  datatype Queued = Queued(signal: int, subsignal: int, kwargs: map<string, string>)

  /** What a call of register does. */
  datatype RegisterOutcome =
    | Skipped    // indices fail the guard: nothing happens
    | Raised     // indices pass the guard but the row or list does not exist: IndexError
    | Appended   // the callback is at the end of its list

  /** What a call of send does. */
  datatype SendOutcome =
    | Ignored                                             // indices fail the guard: nothing happens
    | IndexError                                          // indices pass the guard but the row or list does not exist
    | Called(calls: seq<Callback>, errors: seq<Callback>) // every callback called in order; those that raised, logged

  /** The guard of register, unregister and send, upper bounds inclusive. */
  predicate Admits(signal: int, subsignal: int)
  {
    0 <= signal <= LAST_SIGNAL && 0 <= subsignal <= LAST_SUBSIGNAL
  }

  /** The indices that name a list of the table. */
  predicate InTable(signal: int, subsignal: int)
  {
    0 <= signal < LAST_SIGNAL && 0 <= subsignal < LAST_SUBSIGNAL
  }

  /** The table's shape: LAST_SIGNAL rows of LAST_SUBSIGNAL lists. */
  predicate Shaped(reg: Register)
  {
    |reg| == LAST_SIGNAL && forall i :: 0 <= i < |reg| ==> |reg[i]| == LAST_SUBSIGNAL
  }

  /** The table reset_register builds. */
  function EmptyRegister(): (r: Register)
    ensures Shaped(r)
    ensures forall i, j :: 0 <= i < |r| && 0 <= j < |r[i]| ==> r[i][j] == []
  {
    seq(LAST_SIGNAL, i => seq(LAST_SUBSIGNAL, j => []))
  }

  /** Guarded indices that miss the table are exactly the last row and the last column. */
  lemma AdmitsBeyondTable(signal: int, subsignal: int)
    ensures Admits(signal, subsignal) && !InTable(signal, subsignal)
      <==> Admits(signal, subsignal) && (signal == LAST_SIGNAL || subsignal == LAST_SUBSIGNAL)
  {
  }

  /** The guard lets the register's size through although no such row exists. */
  lemma GuardAdmitsLastSignal()
    ensures Admits(LAST_SIGNAL, 0) && !InTable(LAST_SIGNAL, 0)
    ensures Admits(0, LAST_SUBSIGNAL) && !InTable(0, LAST_SUBSIGNAL)
  {
  }

  /** The first index of x in s. */
  function IndexOf(s: seq<Callback>, x: Callback): (i: nat)
    requires x in s
    ensures i < |s| && s[i] == x && x !in s[..i]
  {
    if s[0] == x then 0 else 1 + IndexOf(s[1..], x)
  }

  /** list.remove(x) on a list holding x: its first occurrence taken out. */
  function RemoveFirst(s: seq<Callback>, x: Callback): (r: seq<Callback>)
    requires x in s
  {
    var i := IndexOf(s, x);
    s[..i] + s[i + 1..]
  }

  /** Removing takes out exactly one occurrence. */
  lemma RemoveFirstSpec(s: seq<Callback>, x: Callback)
    requires x in s
    ensures |RemoveFirst(s, x)| == |s| - 1
    ensures multiset(RemoveFirst(s, x)) == multiset(s) - multiset{x}
  {
    var i := IndexOf(s, x);
    assert s == s[..i] + ([x] + s[i + 1..]);
  }

  /** Removing keeps the order of the rest: the callbacks before the first occurrence, then those after it. */
  lemma RemoveFirstOrder(s: seq<Callback>, x: Callback)
    requires x in s
    ensures var i := IndexOf(s, x);
      && (forall k :: 0 <= k < i ==> RemoveFirst(s, x)[k] == s[k] && s[k] != x)
      && (forall k :: i <= k < |s| - 1 ==> RemoveFirst(s, x)[k] == s[k + 1])
  {
    var i := IndexOf(s, x);
    forall k | 0 <= k < i
      ensures s[k] != x
    {
      assert s[k] == s[..i][k];
    }
  }

  /** The list after unregister_all's attempt to remove x from it. */
  function Without(s: seq<Callback>, x: Callback): (r: seq<Callback>)
  {
    if x in s then RemoveFirst(s, x) else s
  }

  /** unregister_all: one occurrence removed from every list of the table. */
  function RemovedEverywhere(reg: Register, x: Callback): (r: Register)
  {
    seq(|reg|, i requires 0 <= i < |reg| => seq(|reg[i]|, j requires 0 <= j < |reg[i]| => Without(reg[i][j], x)))
  }

  /** Every list loses one occurrence of x when it had one; a callback registered at most once per list is gone. */
  lemma RemovedEverywhereSpec(reg: Register, x: Callback, i: nat, j: nat)
    requires i < |reg| && j < |reg[i]|
    ensures var r := RemovedEverywhere(reg, x);
      |r| == |reg| && |r[i]| == |reg[i]|
      && multiset(r[i][j])[x] == (if x in reg[i][j] then multiset(reg[i][j])[x] - 1 else 0)
      && (forall y :: y != x ==> multiset(r[i][j])[y] == multiset(reg[i][j])[y])
      && (multiset(reg[i][j])[x] <= 1 ==> x !in r[i][j])
  {
    var s := reg[i][j];
    if x in s {
      RemoveFirstSpec(s, x);
    } else {
      assert multiset(s)[x] == 0;
    }
    var r := RemovedEverywhere(reg, x);
    if multiset(s)[x] <= 1 {
      assert multiset(r[i][j])[x] == 0;
    }
  }

  /** The callbacks of a list that raise, in calling order. */
  function Raising(s: seq<Callback>, raises: set<Callback>): (r: seq<Callback>)
  {
    if s == [] then []
    else Raising(s[..|s| - 1], raises) + (if s[|s| - 1] in raises then [s[|s| - 1]] else [])
  }

  /** The logged errors are the raising callbacks of the list, each logged once per call, in order. */
  lemma {:induction false} RaisingSpec(s: seq<Callback>, raises: set<Callback>)
    ensures forall c :: c in Raising(s, raises) <==> c in s && c in raises
    ensures |Raising(s, raises)| <= |s|
    ensures (forall c :: c in s ==> c !in raises) ==> Raising(s, raises) == []
  {
    if s != [] {
      RaisingSpec(s[..|s| - 1], raises);
      assert s == s[..|s| - 1] + [s[|s| - 1]];
    }
  }

  /** The outcome of send for the table and the indices. */
  function Delivery(reg: Register, signal: int, subsignal: int, raises: set<Callback>): SendOutcome
    requires Shaped(reg)
  {
    if !Admits(signal, subsignal) then Ignored
    else if !InTable(signal, subsignal) then IndexError
    else Called(reg[signal][subsignal], Raising(reg[signal][subsignal], raises))
  }

  /** The index of the first queued signal whose delivery raises, or the queue's length. */
  function FirstCrash(q: seq<Queued>): (k: nat)
    ensures k <= |q|
    ensures forall i :: 0 <= i < k ==> !(Admits(q[i].signal, q[i].subsignal) && !InTable(q[i].signal, q[i].subsignal))
    ensures k < |q| ==> Admits(q[k].signal, q[k].subsignal) && !InTable(q[k].signal, q[k].subsignal)
  {
    if q == [] then 0
    else if Admits(q[0].signal, q[0].subsignal) && !InTable(q[0].signal, q[0].subsignal) then 0
    else 1 + FirstCrash(q[1..])
  }

  /** The loop of reset_register's inner range: one row of empty lists. */
  method EmptyRow() returns (row: seq<seq<Callback>>)
    ensures row == EmptyRegister()[0]
  {
    row := [];
    var j := 0;
    while j < LAST_SUBSIGNAL
      invariant j <= LAST_SUBSIGNAL
      invariant row == seq(j, k => [])
    {
      row := row + [[]];
      j := j + 1;
    }
  }

  /** unregister_all's inner loop over one row. */
  method RemoveFromRow(row: seq<seq<Callback>>, x: Callback) returns (r: seq<seq<Callback>>)
    ensures |r| == |row|
    ensures forall j :: 0 <= j < |row| ==> r[j] == Without(row[j], x)
  {
    r := row;
    var j := 0;
    while j < |row|
      invariant j <= |row| && |r| == |row|
      invariant forall k :: 0 <= k < j ==> r[k] == Without(row[k], x)
      invariant forall k :: j <= k < |row| ==> r[k] == row[k]
    {
      if x in r[j] {
        r := r[j := RemoveFirst(r[j], x)];
      }
      j := j + 1;
    }
  }

  /** send's loop: every callback called in order, an exception logged and the loop carried on. */
  method CallEach(list: seq<Callback>, raises: set<Callback>) returns (calls: seq<Callback>, errors: seq<Callback>)
    ensures calls == list
    ensures errors == Raising(list, raises)
  {
    calls := [];
    errors := [];
    var i := 0;
    while i < |list|
      invariant i <= |list|
      invariant calls == list[..i]
      invariant errors == Raising(list[..i], raises)
    {
      var cb := list[i];
      calls := calls + [cb];
      if cb in raises {
        errors := errors + [cb];
      }
      assert list[..i + 1][..i] == list[..i];
      i := i + 1;
    }
    assert list[..i] == list;
  }

  class ZynSignalManager {
    var register: Register
    var queue: seq<Queued>
    var exitFlag: bool
    /** Whether the dispatch thread is still running; an exception from send ends it. */
    var dispatching: bool

    predicate Valid()
      reads this
    {
      Shaped(register)
    }

    constructor()
      ensures Valid()
      ensures register == EmptyRegister() && queue == [] && !exitFlag && dispatching
    {
      exitFlag := false;
      queue := [];
      dispatching := true;
      new;
      ResetRegister();
    }

    /** stop: the dispatch loop ends at its next check. */
    method Stop()
      modifies this`exitFlag
      ensures exitFlag
    {
      exitFlag := true;
    }

    /** reset_register: LAST_SIGNAL rows of LAST_SUBSIGNAL empty lists, each list a distinct object. */
    method ResetRegister()
      modifies this`register
      ensures register == EmptyRegister()
    {
      var r: Register := [];
      var i := 0;
      while i < LAST_SIGNAL
        invariant i <= LAST_SIGNAL
        invariant r == EmptyRegister()[..i]
      {
        var row := EmptyRow();
        r := r + [row];
        i := i + 1;
      }
      register := r;
    }

    /**
     * register as written: guarded with inclusive upper bounds, so
     * signal LAST_SIGNAL or subsignal LAST_SUBSIGNAL passes the guard and
     * the indexing raises IndexError.
     */
    method Register(signal: int, subsignal: int, cb: Callback) returns (r: RegisterOutcome)
      requires Valid()
      modifies this`register
      ensures Valid()
      ensures r == (if !Admits(signal, subsignal) then Skipped else if !InTable(signal, subsignal) then Raised else Appended)
      ensures InTable(signal, subsignal) ==>
        register == old(register)[signal := old(register)[signal][subsignal := old(register)[signal][subsignal] + [cb]]]
      ensures !InTable(signal, subsignal) ==> register == old(register)
    {
      if 0 <= signal <= LAST_SIGNAL && 0 <= subsignal <= LAST_SUBSIGNAL {
        if signal < |register| && subsignal < |register[signal]| {
          var row := register[signal];
          register := register[signal := row[subsignal := row[subsignal] + [cb]]];
          return Appended;
        }
        return Raised;
      }
      return Skipped;
    }

    /** register with the guard the table's size calls for: it never raises. */
    method RegisterInRange(signal: int, subsignal: int, cb: Callback) returns (added: bool)
      requires Valid()
      modifies this`register
      ensures Valid()
      ensures added <==> InTable(signal, subsignal)
      ensures added ==> register == old(register)[signal := old(register)[signal][subsignal := old(register)[signal][subsignal] + [cb]]]
      ensures !added ==> register == old(register)
    {
      added := false;
      if 0 <= signal < LAST_SIGNAL && 0 <= subsignal < LAST_SUBSIGNAL {
        var row := register[signal];
        register := register[signal := row[subsignal := row[subsignal] + [cb]]];
        added := true;
      }
    }

    /**
     * unregister: the first occurrence removed. An absent callback and a
     * guarded index past the table both raise inside the try and are
     * logged as a warning.
     */
    method Unregister(signal: int, subsignal: int, cb: Callback) returns (warned: bool)
      requires Valid()
      modifies this`register
      ensures Valid()
      ensures warned <==> Admits(signal, subsignal) && (!InTable(signal, subsignal) || cb !in old(register)[signal][subsignal])
      ensures !warned && InTable(signal, subsignal) ==>
        register == old(register)[signal := old(register)[signal][subsignal := RemoveFirst(old(register)[signal][subsignal], cb)]]
      ensures warned || !InTable(signal, subsignal) ==> register == old(register)
    {
      warned := false;
      if 0 <= signal <= LAST_SIGNAL && 0 <= subsignal <= LAST_SUBSIGNAL {
        if signal < |register| && subsignal < |register[signal]| && cb in register[signal][subsignal] {
          var row := register[signal];
          register := register[signal := row[subsignal := RemoveFirst(row[subsignal], cb)]];
        } else {
          warned := true;
        }
      }
    }

    /** unregister_all: one occurrence of the callback removed from every list, absences ignored. */
    method UnregisterAll(cb: Callback)
      requires Valid()
      modifies this`register
      ensures Valid()
      ensures register == RemovedEverywhere(old(register), cb)
    {
      var reg := register;
      var r := reg;
      var i := 0;
      while i < LAST_SIGNAL
        invariant i <= LAST_SIGNAL && Shaped(r)
        invariant forall k :: 0 <= k < i ==> r[k] == RemovedEverywhere(reg, cb)[k]
        invariant forall k :: i <= k < LAST_SIGNAL ==> r[k] == reg[k]
      {
        var row := RemoveFromRow(r[i], cb);
        r := r[i := row];
        i := i + 1;
      }
      register := r;
    }

    /** send: for guarded indices every registered callback is called in order, whatever the others raise. */
    method Send(signal: int, subsignal: int, raises: set<Callback>) returns (r: SendOutcome)
      requires Valid()
      ensures r == Delivery(register, signal, subsignal, raises)
      ensures r.Called? ==> r.calls == register[signal][subsignal] && |r.errors| <= |r.calls|
    {
      if !(0 <= signal <= LAST_SIGNAL && 0 <= subsignal <= LAST_SUBSIGNAL) {
        return Ignored;
      }
      if !(signal < |register| && subsignal < |register[signal]|) {
        return IndexError;
      }
      var calls, errors := CallEach(register[signal][subsignal], raises);
      RaisingSpec(register[signal][subsignal], raises);
      return Called(calls, errors);
    }

    /** send_queued: the signal put at the back of the queue. */
    method SendQueued(signal: int, subsignal: int, kwargs: map<string, string>)
      modifies this`queue
      ensures queue == old(queue) + [Queued(signal, subsignal, kwargs)]
    {
      queue := queue + [Queued(signal, subsignal, kwargs)];
    }

    /**
     * The dispatch thread's loop while the queue holds signals: the head
     * is taken and sent. An IndexError from send escapes the loop and
     * ends the thread, so the signals queued after it are never sent.
     */
    method Dispatch(raises: set<Callback>) returns (sent: seq<Queued>)
      requires Valid()
      modifies this`queue, this`dispatching
      ensures !old(dispatching) || old(exitFlag) ==> sent == [] && queue == old(queue) && dispatching == old(dispatching)
      ensures old(dispatching) && !old(exitFlag) ==>
        var k := FirstCrash(old(queue));
        && sent == old(queue)[..if k < |old(queue)| then k + 1 else k]
        && queue == old(queue)[|sent|..]
        && dispatching == (k == |old(queue)|)
    {
      sent := [];
      if !dispatching || exitFlag {
        return;
      }
      ghost var q0 := queue;
      while queue != []
        invariant Valid()
        invariant dispatching && |sent| <= FirstCrash(q0) && sent == q0[..|sent|] && queue == q0[|sent|..]
        decreases |queue|
      {
        var item := queue[0];
        queue := queue[1..];
        assert item == q0[|sent|];
        sent := sent + [item];
        var r := Send(item.signal, item.subsignal, raises);
        if r.IndexError? {
          dispatching := false;
          return;
        }
      }
    }
  }
}

=== FILE: state_manager.dfy ===
/**
 * The state manager's own bookkeeping (zyngine/zynthian_state_manager.py):
 * the set of busy clients, the ZS3 table and its id allocation, the two
 * mutually exclusive MIDI-learn modes, the MIDI clone flags it hands to the
 * router, and the MIDI profile variables it writes to the environment.
 */
module StateManager {
  import opened Wrappers
  import opened PyText

  // ---------------------------------------------------------------------------
  // ZS3 ids
  // ---------------------------------------------------------------------------

  const ZS3_PREFIX: string := "zs3-"

  /** int(id.split('-')[1]) for an id starting with "zs3-", None where that raises or the prefix is absent. */
  function Zs3Number(id: string): (r: Option<int>)
  {
    if StartsWith(id, ZS3_PREFIX) then
      assert id[3] == '-';
      ParseInt(Split(id, '-')[1])
    else None
  }

  /** f"zs3-{n}" */
  function Zs3Id(n: nat): (id: string)
    ensures StartsWith(id, ZS3_PREFIX)
  {
    ZS3_PREFIX + DecStr(n)
  }

  /** The number of a formatted id reads back. */
  lemma Zs3IdNumber(n: nat)
    ensures Zs3Number(Zs3Id(n)) == Some(n)
  {
    var d := DecStr(n);
    var id := Zs3Id(n);
    assert '-' !in d by {
      forall i | 0 <= i < |d| ensures d[i] != '-' { assert IsDigit(d[i]); }
    }
    assert id[3] == '-' && '-' !in id[..3];
    assert IndexOf(id, '-') == 3;
    assert id[4..] == d;
    assert Split(id, '-')[1] == d;
    ParseDecStr(n);
  }

  /** The keys on which f yields a value. */
  function Defined(ks: set<string>, f: string -> Option<int>): (r: set<string>)
    ensures r <= ks && forall k :: k in r <==> k in ks && f(k).Some?
  {
    set k | k in ks && f(k).Some?
  }

  /** The values f yields on the keys. */
  function Image(ks: set<string>, f: string -> Option<int>): (r: set<int>)
    ensures forall k :: k in ks && f(k).Some? ==> f(k).value in r
  {
    set k | k in ks && f(k).Some? :: f(k).value
  }

  /** There are no more values than keys yielding them. */
  lemma {:induction false} ImageBound(ks: set<string>, f: string -> Option<int>)
    ensures |Image(ks, f)| <= |Defined(ks, f)|
    decreases ks
  {
    if ks != {} {
      var x :| x in ks;
      var rest := ks - {x};
      ImageBound(rest, f);
      if f(x).Some? {
        assert Image(ks, f) == Image(rest, f) + {f(x).value};
        assert Defined(ks, f) == Defined(rest, f) + {x};
      } else {
        assert Image(ks, f) == Image(rest, f);
        assert Defined(ks, f) == Defined(rest, f);
      }
    }
  }

  /** The ids of the table that yield a number: len(used_ids) counts these. */
  function NumberedIds(ids: set<string>): set<string>
  {
    Defined(ids, Zs3Number)
  }

  /** The numbers in use: the values of used_ids. */
  function UsedNumbers(ids: set<string>): set<int>
  {
    Image(ids, Zs3Number)
  }

  /** The candidate numbers 1..m. */
  function Candidates(m: nat): (r: set<int>)
    ensures forall k :: k in r <==> 1 <= k <= m
    ensures |r| == m
  {
    if m == 0 then {} else
      var r := Candidates(m - 1) + {m};
      assert m !in Candidates(m - 1);
      r
  }

  lemma SubsetCard(a: set<int>, b: set<int>)
    requires a <= b
    ensures |a| <= |b|
  {
    assert b == a + (b - a);
  }

  /**
   * The id search of save_zs3: the least of 1..bound not in use, or None.
   * The loop is the one over range(1, bound + 1).
   */
  method FreeNumber(used: set<int>, bound: nat) returns (r: Option<nat>)
    ensures r.Some? ==> 1 <= r.value <= bound && r.value !in used
    ensures r.Some? ==> forall k :: 1 <= k < r.value ==> k in used
    ensures r.None? <==> forall k :: 1 <= k <= bound ==> k in used
  {
    var index := 1;
    while index <= bound
      invariant 1 <= index <= bound + 1
      invariant forall k :: 1 <= k < index ==> k in used
    {
      if index !in used {
        return Some(index);
      }
      index := index + 1;
    }
    return None;
  }

  /** With a bound one past the number of numbered ids some number is always free. */
  lemma AlwaysFree(ids: set<string>)
    ensures exists k :: 1 <= k <= |NumberedIds(ids)| + 1 && k !in UsedNumbers(ids)
  {
    var m := |NumberedIds(ids)| + 1;
    if forall k :: 1 <= k <= m ==> k in UsedNumbers(ids) {
      SubsetCard(Candidates(m), UsedNumbers(ids));
      ImageBound(ids, Zs3Number);
      assert false;
    }
  }

  /** With a single numbered id, of number 1, the search of 1..1 finds nothing. */
  lemma SearchMissesOnlyOne(id: string)
    requires Zs3Number(id) == Some(1)
    ensures |NumberedIds({id})| == 1 && 1 in UsedNumbers({id})
  {
    assert Defined({id}, Zs3Number) == {id};
  }

  /** Saving a new ZS3 when the table holds just "zs3-1": the search of 1..1 finds nothing. */
  lemma Zs3SearchMisses()
    ensures |NumberedIds({"zs3-1"})| == 1 && 1 in UsedNumbers({"zs3-1"})
  {
    Zs3IdNumber(1);
    assert Zs3Id(1) == "zs3-1";
    SearchMissesOnlyOne("zs3-1");
  }

  // ---------------------------------------------------------------------------
  // MIDI clone CC flags
  // ---------------------------------------------------------------------------

  const CC_COUNT: nat := 128

  /** The value a c_ubyte takes when assigned an int: the low eight bits. */
  function UByte(v: int): (b: nat)
    ensures b < 256 && (0 <= v < 256 ==> b == v)
  {
    v % 256
  }

  /** A 128-byte flag for CC number i: cc's own entry when cc is read as flags, else membership of i. */
  function FlagFor(cc: seq<int>, asFlags: bool, i: nat): (f: nat)
    requires i < CC_COUNT && (asFlags ==> |cc| == CC_COUNT)
    ensures asFlags ==> f == UByte(cc[i])
    ensures !asFlags ==> (f == 1 <==> i in cc) && f <= 1
  {
    if asFlags then UByte(cc[i]) else if i in cc then 1 else 0
  }

  /** set_clone_cc's loops filling the 128-byte array. */
  method FillCcFlags(cc: seq<int>, asFlags: bool) returns (flags: array<nat>)
    requires asFlags ==> |cc| == CC_COUNT
    ensures fresh(flags) && flags.Length == CC_COUNT
    ensures forall i :: 0 <= i < CC_COUNT ==> flags[i] == FlagFor(cc, asFlags, i)
  {
    flags := new nat[CC_COUNT];
    var i := 0;
    while i < CC_COUNT
      invariant i <= CC_COUNT
      invariant forall k :: 0 <= k < i ==> flags[k] == FlagFor(cc, asFlags, k)
      modifies flags
    {
      if asFlags {
        flags[i] := UByte(cc[i]);
      } else {
        flags[i] := if i in cc then 1 else 0;
      }
      i := i + 1;
    }
  }

  /** set_clone_cc as written reads any 128-long list as flags. */
  function CcFlag(cc: seq<int>, i: nat): (f: nat)
    requires i < CC_COUNT
    ensures |cc| == CC_COUNT ==> f == UByte(cc[i])
    ensures |cc| != CC_COUNT ==> (f == 1 <==> i in cc) && f <= 1
  {
    FlagFor(cc, |cc| == CC_COUNT, i)
  }

  /** get_clone_state's list(... .nonzero()[0]): the CC numbers whose flag is set, ascending. */
  function Nonzero(flags: seq<nat>, n: nat): (r: seq<int>)
    requires n <= |flags|
    ensures |r| <= n
    ensures forall i :: i in r <==> 0 <= i < n && flags[i] != 0
    ensures forall a, b :: 0 <= a < b < |r| ==> r[a] < r[b]
  {
    if n == 0 then [] else
      var r := Nonzero(flags, n - 1);
      assert forall a :: 0 <= a < |r| ==> r[a] in r;
      if flags[n - 1] != 0 then r + [n - 1] else r
  }

  /** Every CC enabled: the saved list is 0..127, exactly 128 long. */
  lemma NonzeroAll(flags: seq<nat>, n: nat)
    requires n <= |flags| && forall i :: 0 <= i < n ==> flags[i] == 1
    ensures |Nonzero(flags, n)| == n && forall i :: 0 <= i < n ==> Nonzero(flags, n)[i] == i
  {
  }

  /**
   * Restoring a saved clone state as written: with all 128 CCs enabled the
   * saved list is read back as 128 flag values, and CC 0 comes back disabled.
   */
  lemma CloneRestoreLosesCcZero()
    ensures var all := seq(CC_COUNT, _ => 1);
      CcFlag(Nonzero(all, CC_COUNT), 0) == 0
  {
    var all: seq<nat> := seq(CC_COUNT, _ => 1);
    NonzeroAll(all, CC_COUNT);
  }

  /** Whether a list is read as 128 flags once corrected: 128 entries, each 0 or 1. */
  predicate IsFlagList(cc: seq<int>)
  {
    |cc| == CC_COUNT && forall k :: 0 <= k < |cc| ==> 0 <= cc[k] <= 1
  }

  /**
   * set_clone_cc as evidently intended: a 128-long list is taken as flags only
   * when every entry is 0 or 1, since a list of 128 distinct CC numbers
   * necessarily holds larger numbers.
   */
  function FixedCcFlag(cc: seq<int>, i: nat): (f: nat)
    requires i < CC_COUNT
    ensures IsFlagList(cc) ==> f == cc[i]
    ensures !IsFlagList(cc) ==> (f == 1 <==> i in cc) && f <= 1
  {
    FlagFor(cc, IsFlagList(cc), i)
  }

  /** With the corrected reading, saving and restoring any flag array gives it back. */
  lemma FixedCloneRoundTrip(flags: seq<nat>, i: nat)
    requires |flags| == CC_COUNT && (forall k :: 0 <= k < CC_COUNT ==> flags[k] <= 1) && i < CC_COUNT
    ensures FixedCcFlag(Nonzero(flags, CC_COUNT), i) == flags[i]
  {
    var saved := Nonzero(flags, CC_COUNT);
    if IsFlagList(saved) {
      // Three ascending entries cannot all be 0 or 1.
      assert false;
    }
  }

  // ---------------------------------------------------------------------------
  // MIDI profile
  // ---------------------------------------------------------------------------

  /** The environment after set_midi_profile_state: every key but MASTER_* is written as ZYNTHIAN_MIDI_<key>. */
  ghost predicate ProfileApplied(before: map<string, string>, after: map<string, string>, state: map<string, string>)
  {
    && (forall k :: k in state && !StartsWith(k, "MASTER_") ==> "ZYNTHIAN_MIDI_" + k in after && after["ZYNTHIAN_MIDI_" + k] == state[k])
    && (forall v :: v in after ==> v in before || exists k :: k in state && !StartsWith(k, "MASTER_") && v == "ZYNTHIAN_MIDI_" + k)
    && (forall v :: v in before && (forall k :: k in state && !StartsWith(k, "MASTER_") ==> v != "ZYNTHIAN_MIDI_" + k) ==>
          v in after && after[v] == before[v])
  }

  /** The loop of set_midi_profile_state over the profile's keys. */
  method ApplyProfile(env: map<string, string>, state: map<string, string>) returns (r: map<string, string>)
    ensures ProfileApplied(env, r, state)
  {
    r := env;
    var todo := state.Keys;
    while todo != {}
      invariant todo <= state.Keys
      invariant forall k :: k in state && k !in todo && !StartsWith(k, "MASTER_") ==> "ZYNTHIAN_MIDI_" + k in r && r["ZYNTHIAN_MIDI_" + k] == state[k]
      invariant forall v :: v in r ==> v in env || exists k :: k in state && !StartsWith(k, "MASTER_") && v == "ZYNTHIAN_MIDI_" + k
      invariant forall v :: v in env && (forall k :: k in state && !StartsWith(k, "MASTER_") ==> v != "ZYNTHIAN_MIDI_" + k) ==>
                  v in r && r[v] == env[v]
      decreases todo
    {
      var key :| key in todo;
      if !StartsWith(key, "MASTER_") {
        var name := "ZYNTHIAN_MIDI_" + key;
        forall k | k in state && k !in todo - {key} && !StartsWith(k, "MASTER_") && k != key
          ensures name != "ZYNTHIAN_MIDI_" + k
        {
          PrefixInjective("ZYNTHIAN_MIDI_", key, k);
        }
        r := r[name := state[key]];
      }
      todo := todo - {key};
    }
  }

  lemma PrefixInjective(p: string, a: string, b: string)
    requires a != b
    ensures p + a != p + b
  {
    assert (p + a)[|p|..] == a && (p + b)[|p|..] == b;
  }

  // ---------------------------------------------------------------------------
  // The state manager
  // ---------------------------------------------------------------------------

  /** What the model keeps of a ZS3: its title and the active chain id it recorded. */
  datatype Zs3 = Zs3(title: string, activeChain: Option<string>)

  /** The controller a CC learn is listening for: [processor, parameter symbol]. */
  datatype LearnTarget = LearnTarget(proc: nat, param: string)

  class ZynStateManager {
    var busy: set<string>
    var zs3: map<string, Zs3>
    var midiLearnCc: Option<LearnTarget>
    var midiLearnPc: Option<string>
    /** The router's learning mode, as set_midi_learn last set it. */
    var midiLearnState: bool
    /** The router's clone switches, [src][dst]. */
    var clone: seq<seq<bool>>
    /** The router's clone CC flags, by (src, dst). */
    var cloneCc: map<(int, int), seq<nat>>
    /** The process environment that MIDI profiles are written to. */
    var environ: map<string, string>

    /**
     * At most one learn target is set and the clone table is 16 by 16. The
     * router's learning mode is not tied to the targets: set_midi_learn sets
     * it alone, and disable_learn_pc after enable_learn_cc leaves the CC
     * target set with learning off.
     */
    predicate Valid()
      reads this`midiLearnCc, this`midiLearnPc, this`clone
    {
      && !(midiLearnCc.Some? && midiLearnPc.Some?)
      && |clone| == 16 && (forall s :: 0 <= s < 16 ==> |clone[s]| == 16)
    }

    /** The state after __init__: reset() has cleared the busy set and the ZS3 table, nothing is learning. */
    constructor (env: map<string, string>)
      ensures Valid()
      ensures busy == {} && zs3 == map[] && midiLearnCc.None? && midiLearnPc.None? && !midiLearnState
      ensures (forall s, d :: 0 <= s < 16 && 0 <= d < 16 ==> !clone[s][d]) && cloneCc == map[] && environ == env
    {
      busy := {};
      zs3 := map[];
      midiLearnCc, midiLearnPc, midiLearnState := None, None, false;
      clone := seq(16, _ => seq(16, _ => false));
      cloneCc := map[];
      environ := env;
    }

    // Busy clients

    method StartBusy(id: string)
      modifies this`busy
      ensures busy == old(busy) + {id}
    {
      busy := busy + {id};
    }

    /** end_busy: removing a client that is not busy is silently ignored. */
    method EndBusy(id: string)
      modifies this`busy
      ensures busy == old(busy) - {id}
    {
      busy := busy - {id};
    }

    /** is_busy: a named client is busy when in the set; no name (or an empty one) asks whether anyone is. */
    function IsBusy(client: Option<string>): (r: bool)
      reads this`busy
      ensures client.Some? && client.value != [] ==> (r <==> client.value in busy)
      ensures client.None? || client.value == [] ==> (r <==> busy != {})
    {
      if client.Some? && client.value != [] then client.value in busy else |busy| > 0
    }

    // ZS3 table

    /** get_zs3_title: the stored title, or the id itself for an unknown id. */
    function GetZs3Title(id: string): (r: string)
      reads this`zs3
      ensures id in zs3 ==> r == zs3[id].title
      ensures id !in zs3 ==> r == id
    {
      if id in zs3 then zs3[id].title else id
    }

    /** set_zs3_title: only an existing entry is renamed. */
    method SetZs3Title(id: string, title: string)
      modifies this`zs3
      ensures id in old(zs3) ==> zs3 == old(zs3)[id := Zs3(title, old(zs3)[id].activeChain)]
      ensures id !in old(zs3) ==> zs3 == old(zs3)
    {
      if id in zs3 {
        zs3 := zs3[id := Zs3(title, zs3[id].activeChain)];
      }
    }

    /**
     * save_zs3 as written. Without an id the search runs over 1..n, n the
     * number of numbered ids, and may find nothing; the source then calls
     * upper() on None, which raises: None here, with the table unchanged.
     * The title argument is ignored: an existing entry keeps its title, a
     * new one is titled with its id in upper case.
     */
    method SaveZs3AsWritten(id: Option<string>, activeChain: Option<string>) returns (saved: Option<string>)
      modifies this`zs3
      ensures id.Some? ==> saved == id
      ensures id.None? ==> (saved.None? <==> forall k :: 1 <= k <= |NumberedIds(old(zs3).Keys)| ==> k in UsedNumbers(old(zs3).Keys))
      ensures saved.None? ==> zs3 == old(zs3)
      ensures saved.Some? ==> zs3 == old(zs3)[saved.value := Zs3(
        if saved.value in old(zs3) then old(zs3)[saved.value].title else Upper(saved.value), activeChain)]
    {
      var zid := id;
      if zid.None? {
        var n := FreeNumber(UsedNumbers(zs3.Keys), |NumberedIds(zs3.Keys)|);
        if n.None? {
          return None;
        }
        zid := Some(Zs3Id(n.value));
      }
      var title := if zid.value in zs3 then zs3[zid.value].title else Upper(zid.value);
      zs3 := zs3[zid.value := Zs3(title, activeChain)];
      return zid;
    }

    /**
     * save_zs3 with the search running over 1..n+1, which always finds a
     * number: a new entry is stored under the least unused "zs3-k".
     */
    method SaveZs3(id: Option<string>, activeChain: Option<string>) returns (saved: string)
      modifies this`zs3
      ensures id.Some? ==> saved == id.value
      ensures id.None? ==> exists k: nat :: saved == Zs3Id(k) && k >= 1 && k !in UsedNumbers(old(zs3).Keys)
                                           && forall j :: 1 <= j < k ==> j in UsedNumbers(old(zs3).Keys)
      ensures id.None? ==> Zs3Number(saved).Some? && Zs3Number(saved).value !in UsedNumbers(old(zs3).Keys)
      ensures zs3 == old(zs3)[saved := Zs3(if saved in old(zs3) then old(zs3)[saved].title else Upper(saved), activeChain)]
    {
      if id.Some? {
        saved := id.value;
      } else {
        AlwaysFree(zs3.Keys);
        var n := FreeNumber(UsedNumbers(zs3.Keys), |NumberedIds(zs3.Keys)| + 1);
        saved := Zs3Id(n.value);
        Zs3IdNumber(n.value);
      }
      var title := if saved in zs3 then zs3[saved].title else Upper(saved);
      zs3 := zs3[saved := Zs3(title, activeChain)];
    }

    /**
     * load_zs3: an unknown id fails. Otherwise the recorded active chain is
     * returned for re-selection, except for a ZS3 other than "zs3-0" when a
     * single active channel is configured.
     */
    method LoadZs3(id: string, singleActiveChannel: bool) returns (ok: bool, activate: Option<string>)
      ensures ok <==> id in zs3
      ensures !ok ==> activate.None?
      ensures ok ==> activate == if id != "zs3-0" && singleActiveChannel then None else zs3[id].activeChain
    {
      if id !in zs3 {
        return false, None;
      }
      var activeOnly := id != "zs3-0" && singleActiveChannel;
      if !activeOnly {
        activate := zs3[id].activeChain;
      } else {
        activate := None;
      }
      ok := true;
    }

    /** delete_zs3: an unknown id is silently ignored. */
    method DeleteZs3(id: string)
      modifies this`zs3
      ensures zs3 == old(zs3) - {id}
    {
      zs3 := zs3 - {id};
    }

    // MIDI learn modes

    /** set_midi_learn: the router's learning mode is set, and nothing else changes. */
    method SetMidiLearn(state: bool)
      modifies this`midiLearnState
      ensures midiLearnState == state
    {
      midiLearnState := state;
    }

    /** enable_learn_cc: program-change learning is cleared first, then the controller is learnt with the router learning. */
    method EnableLearnCc(proc: nat, param: string)
      modifies this`midiLearnCc, this`midiLearnPc, this`midiLearnState
      ensures old(Valid()) ==> Valid()
      ensures midiLearnCc == Some(LearnTarget(proc, param)) && midiLearnPc.None? && midiLearnState
    {
      DisableLearnPc();
      midiLearnCc := Some(LearnTarget(proc, param));
      SetMidiLearn(true);
    }

    /** disable_learn_cc: no CC target and the router out of learn mode, whatever was being learnt. */
    method DisableLearnCc()
      modifies this`midiLearnCc, this`midiLearnState
      ensures midiLearnCc.None? && !midiLearnState
      ensures old(Valid()) ==> Valid()
    {
      midiLearnCc := None;
      SetMidiLearn(false);
    }

    /**
     * toggle_learn_cc: a CC target, always a non-empty (so truthy) list, is
     * cleared; with none, enable_learn_cc is called without the processor and
     * symbol it takes, which raises TypeError before anything changes.
     */
    method ToggleLearnCc() returns (raised: bool)
      modifies this`midiLearnCc, this`midiLearnState
      ensures raised <==> old(midiLearnCc).None?
      ensures raised ==> midiLearnCc == old(midiLearnCc) && midiLearnState == old(midiLearnState)
      ensures !raised ==> midiLearnCc.None? && !midiLearnState
    {
      if midiLearnCc.Some? {
        DisableLearnCc();
        return false;
      }
      return true;
    }

    /** enable_learn_pc: an empty name learns a program change for a new ZS3. CC learning is cleared first. */
    method EnableLearnPc(zs3Name: string)
      modifies this`midiLearnCc, this`midiLearnPc, this`midiLearnState
      ensures old(Valid()) ==> Valid()
      ensures midiLearnPc == Some(zs3Name) && midiLearnCc.None? && midiLearnState
    {
      DisableLearnCc();
      midiLearnPc := Some(zs3Name);
      SetMidiLearn(true);
    }

    /** disable_learn_pc: no program-change target and the router out of learn mode. */
    method DisableLearnPc()
      modifies this`midiLearnPc, this`midiLearnState
      ensures midiLearnPc.None? && !midiLearnState
      ensures old(Valid()) ==> Valid()
    {
      midiLearnPc := None;
      SetMidiLearn(false);
    }

    // MIDI clone

    /** enable_clone: channels outside 0..15 are ignored, and a channel never clones to itself. */
    method EnableClone(src: int, dst: int, enable: bool)
      requires Valid()
      modifies this`clone
      ensures Valid()
      ensures !(0 <= src < 16 && 0 <= dst < 16) ==> clone == old(clone)
      ensures 0 <= src < 16 && 0 <= dst < 16 ==>
        && clone[src][dst] == (enable && src != dst)
        && forall s, d :: 0 <= s < 16 && 0 <= d < 16 && (s, d) != (src, dst) ==> clone[s][d] == old(clone)[s][d]
    {
      if src < 0 || src > 15 || dst < 0 || dst > 15 {
        return;
      }
      clone := clone[src := clone[src][dst := enable && src != dst]];
    }

    /**
     * set_clone_cc, with a 128-long list read as flags only when it is a
     * list of flags (the source reads every 128-long list as flags); the
     * 128 bytes are handed to the router for (src, dst).
     */
    method SetCloneCc(src: int, dst: int, cc: seq<int>)
      modifies this`cloneCc
      ensures cloneCc.Keys == old(cloneCc).Keys + {(src, dst)}
      ensures |cloneCc[(src, dst)]| == CC_COUNT && forall i :: 0 <= i < CC_COUNT ==> cloneCc[(src, dst)][i] == FixedCcFlag(cc, i)
      ensures forall key :: key in old(cloneCc) && key != (src, dst) ==> cloneCc[key] == old(cloneCc)[key]
    {
      var flags := FillCcFlags(cc, IsFlagList(cc));
      cloneCc := cloneCc[(src, dst) := flags[..]];
    }

    /** set_midi_profile_state: None does nothing and returns None; a profile is written to the environment. */
    method SetMidiProfileState(state: Option<map<string, string>>) returns (r: Option<bool>)
      modifies this`environ
      ensures state.None? ==> r.None? && environ == old(environ)
      ensures state.Some? ==> r == Some(true) && ProfileApplied(old(environ), environ, state.value)
    {
      if state.None? {
        return None;
      }
      environ := ApplyProfile(environ, state.value);
      return Some(true);
    }
  }
}

=== FILE: wrappers.dfy ===
/** Optional values, standing for Python's None and C's NULL results. */
module Wrappers {
  datatype Option<T> = None | Some(value: T)
}

=== FILE: zynconf.dfy ===
/**
 * The zynthian configuration file helpers: rewriting the `export VAR="value"`
 * lines of a shell configuration file, the MIDI port lists carried by
 * ZYNTHIAN_MIDI_PORTS, the MIDI profile update and the jackd options.
 *
 * A file is given as its lines (None when it cannot be opened); the values
 * written into the process environment are returned as a map.
 */
module ZynConf {
  import opened Wrappers
  import opened PyText

  // ---------------------------------------------------------------------------
  // Escaping a value for the configuration file
  // ---------------------------------------------------------------------------

  /** value.replace("\n", "\\n") */
  function ReplaceNewlines(v: string): (r: string)
    ensures '\n' !in r
    ensures '\r' in r ==> '\r' in v
  {
    if v == [] then [] else (if v[0] == '\n' then "\\n" else [v[0]]) + ReplaceNewlines(v[1..])
  }

  /** value.replace("\r", "") */
  function RemoveCR(v: string): (r: string)
    ensures '\r' !in r
    ensures '\n' in r ==> '\n' in v
  {
    if v == [] then [] else (if v[0] == '\r' then [] else [v[0]]) + RemoveCR(v[1..])
  }

  /** The value as save_config writes it: it never spans more than one line. */
  function Escape(v: string): (r: string)
    ensures '\n' !in r && '\r' !in r
  {
    RemoveCR(ReplaceNewlines(v))
  }

  /** text.replace("\\n", "\n"), as the readers of ZYNTHIAN_MIDI_* values undo the escaping. */
  function Unescape(s: string): (r: string)
    ensures |r| <= |s|
  {
    if s == [] then []
    else if |s| >= 2 && s[0] == '\\' && s[1] == 'n' then "\n" + Unescape(s[2..])
    else [s[0]] + Unescape(s[1..])
  }

  /** A value the escaping can carry: no carriage return, and no backslash directly before an 'n'. */
  predicate Escapable(v: string)
  {
    '\r' !in v && forall i :: 0 <= i < |v| - 1 ==> !(v[i] == '\\' && v[i + 1] == 'n')
  }

  lemma {:induction false} RemoveCRConcat(a: string, b: string)
    ensures RemoveCR(a + b) == RemoveCR(a) + RemoveCR(b)
    decreases |a|
  {
    if a != [] {
      RemoveCRConcat(a[1..], b);
      assert (a + b)[1..] == a[1..] + b;
    } else {
      assert a + b == b;
    }
  }

  /** Escaping works character by character. */
  lemma EscapeCons(v: string)
    requires v != []
    ensures Escape(v) == (if v[0] == '\n' then "\\n" else if v[0] == '\r' then "" else [v[0]]) + Escape(v[1..])
  {
    var head := if v[0] == '\n' then "\\n" else [v[0]];
    RemoveCRConcat(head, ReplaceNewlines(v[1..]));
    if v[0] == '\n' {
      assert RemoveCR("\\n") == "\\n" by {
        assert RemoveCR("n") == "n";
      }
    }
  }

  /** An escaped value that does not start with CR starts with its first character, or with the backslash of "\n". */
  lemma EscapeHead(v: string)
    requires v != [] && v[0] != '\r'
    ensures Escape(v) != [] && Escape(v)[0] == (if v[0] == '\n' then '\\' else v[0])
  {
    EscapeCons(v);
  }

  /** Reading back a saved value gives the value, when it is escapable. */
  lemma {:induction false} UnescapeEscape(v: string)
    requires Escapable(v)
    ensures Unescape(Escape(v)) == v
    decreases |v|
  {
    if v != [] {
      var t := v[1..];
      assert Escapable(t) by {
        forall i | 0 <= i < |t| - 1 ensures !(t[i] == '\\' && t[i + 1] == 'n') {
          assert t[i] == v[i + 1] && t[i + 1] == v[i + 2];
        }
      }
      UnescapeEscape(t);
      EscapeCons(v);
      var e := Escape(t);
      if v[0] == '\n' {
        assert Escape(v) == "\\n" + e;
        assert (("\\n" + e)[2..]) == e;
      } else {
        assert Escape(v) == [v[0]] + e;
        if v[0] == '\\' && t != [] {
          EscapeHead(t);
          assert v[1] != 'n';
        }
        assert ([v[0]] + e)[1..] == e;
      }
    }
  }

  // ---------------------------------------------------------------------------
  // export lines
  // ---------------------------------------------------------------------------

  /** A name the pattern `[^\s]*?=` can capture: no whitespace and no '='. */
  predicate IsVarName(n: string)
  {
    forall i :: 0 <= i < |n| ==> n[i] != '=' && !IsSpace(n[i])
  }

  /** The first '=' or whitespace character at or after i, or the end of the line. */
  function NameEnd(s: string, i: nat): (r: nat)
    requires i <= |s|
    ensures i <= r <= |s|
    ensures r < |s| ==> s[r] == '=' || IsSpace(s[r])
    decreases |s| - i
  {
    if i < |s| && s[i] != '=' && !IsSpace(s[i]) then NameEnd(s, i + 1) else i
  }

  lemma {:induction false} NameEndAt(s: string, i: nat, j: nat)
    requires i <= j < |s| && s[j] == '='
    requires forall x :: i <= x < j ==> s[x] != '=' && !IsSpace(s[x])
    ensures NameEnd(s, i) == j
    decreases j - i
  {
    if i < j {
      NameEndAt(s, i + 1, j);
    }
  }

  lemma {:induction false} NameEndIsName(s: string, i: nat)
    requires i <= |s|
    ensures IsVarName(s[i..NameEnd(s, i)])
    decreases |s| - i
  {
    if i < |s| && s[i] != '=' && !IsSpace(s[i]) {
      NameEndIsName(s, i + 1);
      assert s[i..NameEnd(s, i)] == [s[i]] + s[i + 1..NameEnd(s, i)];
    }
  }

  /** The variable name `^export ([^\s]*?)=` captures, when the line matches. */
  function ExportedName(line: string): Option<string>
  {
    if !StartsWith(line, "export ") then None
    else
      var e := NameEnd(line, 7);
      if e < |line| && line[e] == '=' then Some(line[7..e]) else None
  }

  /** The line save_config writes for a variable. */
  function ExportLine(name: string, value: string): string
  {
    "export " + name + "=\"" + Escape(value) + "\"\n"
  }

  /** A line is an export of n exactly when it reads `export n=…` and n is a plain name. */
  lemma ExportedNameSpec(line: string, n: string)
    ensures ExportedName(line) == Some(n) <==> IsVarName(n) && StartsWith(line, "export " + n + "=")
  {
    var p := "export " + n + "=";
    if ExportedName(line) == Some(n) {
      NameEndIsName(line, 7);
      assert line[..|p|] == line[..7] + line[7..NameEnd(line, 7)] + [line[NameEnd(line, 7)]];
    }
    if IsVarName(n) && StartsWith(line, p) {
      assert line[..7] == p[..7] == "export ";
      forall x | 7 <= x < 7 + |n| ensures line[x] != '=' && !IsSpace(line[x]) {
        assert line[x] == p[x] == n[x - 7];
      }
      assert line[7 + |n|] == p[7 + |n|] == '=';
      NameEndAt(line, 7, 7 + |n|);
      assert line[7..7 + |n|] == p[7..7 + |n|] == n;
    }
  }

  /** The line written for a plain name is recognised as its export. */
  lemma ExportLineName(n: string, v: string)
    requires IsVarName(n)
    ensures ExportedName(ExportLine(n, v)) == Some(n)
  {
    var line := ExportLine(n, v);
    assert line[..|"export " + n + "="|] == "export " + n + "=";
    ExportedNameSpec(line, n);
  }

  // ---------------------------------------------------------------------------
  // save_config
  // ---------------------------------------------------------------------------

  /** One line after the first pass: the export of a configured variable is rewritten, any other line kept. */
  function RewriteLine(line: string, config: map<string, string>): string
  {
    RewriteAs(line, ExportedName(line), config)
  }

  /** A line whose export pattern captured `name`, after the first pass. */
  function RewriteAs(line: string, name: Option<string>, config: map<string, string>): string
  {
    if name.Some? && name.value in config then ExportLine(name.value, config[name.value]) else line
  }

  function Rewritten(lines: seq<string>, config: map<string, string>): (r: seq<string>)
    ensures |r| == |lines|
  {
    if lines == [] then [] else Rewritten(lines[..|lines| - 1], config) + [RewriteLine(lines[|lines| - 1], config)]
  }

  /** The first pass rewrites every line on its own. */
  lemma {:induction false} RewrittenAt(lines: seq<string>, config: map<string, string>, k: nat)
    requires k < |lines|
    ensures Rewritten(lines, config)[k] == RewriteLine(lines[k], config)
    decreases |lines|
  {
    if k < |lines| - 1 {
      RewrittenAt(lines[..|lines| - 1], config, k);
    }
  }

  /** Some line exports n. */
  predicate Exports(lines: seq<string>, n: string)
  {
    exists i :: 0 <= i < |lines| && ExportedName(lines[i]) == Some(n)
  }

  /** The variable a line adds to the updated set: its exported name, when that is configured. */
  function FoundName(line: string, config: map<string, string>): set<string>
  {
    FoundAs(ExportedName(line), config)
  }

  function FoundAs(name: Option<string>, config: map<string, string>): set<string>
  {
    if name.Some? && name.value in config then {name.value} else {}
  }

  /** The configured variables the file already exports. */
  function Updated(lines: seq<string>, config: map<string, string>): (r: set<string>)
    ensures r <= config.Keys
  {
    if lines == [] then {} else Updated(lines[..|lines| - 1], config) + FoundName(lines[|lines| - 1], config)
  }

  /** The configured variables that must be added as new lines. */
  function ToAdd(lines: seq<string>, config: map<string, string>): (r: set<string>)
    ensures r <= config.Keys
  {
    config.Keys - Updated(lines, config)
  }

  const MARKER := "# Directory Paths"

  /** add_row after the first pass: one before the last marker line, 0 when there is none. */
  function MarkerRow(lines: seq<string>): (r: int)
    ensures -1 <= r && (r < 0 ==> |lines| >= 1) && (r != 0 ==> r <= |lines| - 2)
  {
    if lines == [] then 0
    else if StartsWith(lines[|lines| - 1], MARKER) then |lines| - 2
    else MarkerRow(lines[..|lines| - 1])
  }

  /** add_row once a missing marker (row 0) has been replaced by the end of the file. */
  function AddRow(lines: seq<string>): (r: int)
    ensures -1 <= r <= |lines| && (r < 0 ==> |lines| >= 1)
  {
    if MarkerRow(lines) == 0 then |lines| else MarkerRow(lines)
  }

  /** list.insert(idx, x): a negative index counts from the end, and the position is clamped to the list. */
  function InsertAt(s: seq<string>, idx: int, x: string): (r: seq<string>)
    ensures |r| == |s| + 1
  {
    var p := if idx < 0 then (if |s| + idx < 0 then 0 else |s| + idx) else (if idx > |s| then |s| else idx);
    s[..p] + [x] + s[p..]
  }

  /** Where the new lines end up in the rewritten file. */
  function InsertPos(lines: seq<string>): (p: nat)
    ensures p <= |lines|
  {
    if AddRow(lines) < 0 then |lines| - 1 else AddRow(lines)
  }

  /**
   * The new lines for `order`, as repeated inserts at one index leave them:
   * in order when the index counts from the end (-1), reversed otherwise.
   */
  function Block(order: seq<string>, config: map<string, string>, fromEnd: bool): (r: seq<string>)
    requires forall k :: 0 <= k < |order| ==> order[k] in config
    ensures |r| == |order|
  {
    if order == [] then []
    else
      var b := Block(order[..|order| - 1], config, fromEnd);
      var x := ExportLine(order[|order| - 1], config[order[|order| - 1]]);
      if fromEnd then b + [x] else [x] + b
  }

  /** The file save_config writes when the new variables are added in `order`. */
  function Saved(lines: seq<string>, config: map<string, string>, order: seq<string>): (r: seq<string>)
    requires forall k :: 0 <= k < |order| ==> order[k] in config
    ensures |r| == |lines| + |order|
  {
    var rw := Rewritten(lines, config);
    var p := InsertPos(lines);
    rw[..p] + Block(order, config, AddRow(lines) < 0) + rw[p..]
  }

  /** The environment values save_config sets: every configured variable, escaped. */
  function Escaped(config: map<string, string>): (env: map<string, string>)
    ensures env.Keys == config.Keys
  {
    map n | n in config :: Escape(config[n])
  }

  predicate NoDuplicates(s: seq<string>)
  {
    forall i, j :: 0 <= i < j < |s| ==> s[i] != s[j]
  }

  lemma ExportsStep(lines: seq<string>, i: nat, n: string)
    requires i < |lines|
    ensures Exports(lines[..i + 1], n) <==> Exports(lines[..i], n) || ExportedName(lines[i]) == Some(n)
  {
    var a, b := lines[..i + 1], lines[..i];
    if Exports(a, n) && ExportedName(lines[i]) != Some(n) {
      var k :| 0 <= k < |a| && ExportedName(a[k]) == Some(n);
      assert k < i && b[k] == a[k];
    }
    if Exports(b, n) {
      var k :| 0 <= k < |b| && ExportedName(b[k]) == Some(n);
      assert a[k] == b[k];
    }
    if ExportedName(lines[i]) == Some(n) {
      assert a[i] == lines[i];
    }
  }

  lemma MarkerStep(lines: seq<string>, i: nat)
    requires i < |lines|
    ensures MarkerRow(lines[..i + 1]) == if StartsWith(lines[i], MARKER) then i - 1 else MarkerRow(lines[..i])
  {
    assert lines[..i + 1][..i] == lines[..i];
  }

  /** One insert of the second pass keeps the block at its place. */
  lemma InsertStep(rw: seq<string>, row: int, p: nat, b: seq<string>, x: string)
    requires -1 <= row && p <= |rw|
    requires row < 0 ==> p == |rw| - 1
    requires row >= 0 ==> p == row
    ensures InsertAt(rw[..p] + b + rw[p..], row, x) == rw[..p] + (if row < 0 then b + [x] else [x] + b) + rw[p..]
  {
    var s := rw[..p] + b + rw[p..];
    if row < 0 {
      assert |s| + row == p + |b|;
      assert s[..p + |b|] == rw[..p] + b;
      assert s[p + |b|..] == rw[p..];
    } else {
      assert s[..p] == rw[..p];
      assert s[p..] == b + rw[p..];
    }
  }

  /** The environment values for the variables of `names`. */
  function EscapedOn(config: map<string, string>, names: set<string>): map<string, string>
  {
    map n | n in names && n in config :: Escape(config[n])
  }

  /** The updated set holds exactly the configured variables some line exports. */
  lemma {:induction false} UpdatedSpec(lines: seq<string>, config: map<string, string>, n: string)
    ensures n in Updated(lines, config) <==> n in config && Exports(lines, n)
    decreases |lines|
  {
    if lines != [] {
      var i := |lines| - 1;
      UpdatedSpec(lines[..i], config, n);
      ExportsStep(lines, i, n);
      assert lines[..i + 1] == lines;
    }
  }

  lemma EscapedOnAdd(config: map<string, string>, names: set<string>, n: string)
    requires n in config
    ensures EscapedOn(config, names + {n}) == EscapedOn(config, names)[n := Escape(config[n])]
  {
  }

  function NameSet(order: seq<string>): set<string>
  {
    set m | m in order
  }

  lemma NamesStep(order: seq<string>, k: nat)
    requires k < |order|
    ensures NameSet(order[..k + 1]) == NameSet(order[..k]) + {order[k]}
  {
    assert order[..k + 1] == order[..k] + [order[k]];
  }

  /** What one line contributes to the first pass. */
  lemma PassStep(src: seq<string>, i: nat, config: map<string, string>)
    requires i < |src|
    ensures Rewritten(src[..i + 1], config) == Rewritten(src[..i], config) + [RewriteLine(src[i], config)]
    ensures Updated(src[..i + 1], config) == Updated(src[..i], config) + FoundName(src[i], config)
    ensures MarkerRow(src[..i + 1]) == if StartsWith(src[i], MARKER) then i - 1 else MarkerRow(src[..i])
  {
    assert src[..i + 1][..i] == src[..i];
  }

  /**
   * The first pass of save_config: rewrite each line, collect the variables
   * found and the marker row. The rewritten lines are collected in a new
   * list rather than assigned over the old ones.
   */
  method RewritePass(config: map<string, string>, src: seq<string>)
    returns (lines: seq<string>, updated: set<string>, markerRow: int, env: map<string, string>)
    ensures lines == Rewritten(src, config)
    ensures updated == Updated(src, config)
    ensures markerRow == MarkerRow(src)
    ensures env == EscapedOn(config, updated)
  {
    lines := [];
    updated := {};
    markerRow := 0;
    env := map[];
    for i := 0 to |src|
      invariant lines == Rewritten(src[..i], config)
      invariant updated == Updated(src[..i], config)
      invariant markerRow == MarkerRow(src[..i])
      invariant env == EscapedOn(config, updated)
    {
      var line := src[i];
      PassStep(src, i, config);
      var name := ExportedName(line);
      if name.Some? && name.value in config {
        var n := name.value;
        EscapedOnAdd(config, updated, n);
        env := env[n := Escape(config[n])];
        assert RewriteLine(line, config) == ExportLine(n, config[n]) && FoundName(line, config) == {n};
        lines := lines + [ExportLine(n, config[n])];
        updated := updated + {n};
      } else {
        assert RewriteLine(line, config) == line && FoundName(line, config) == {};
        lines := lines + [line];
      }
      markerRow := if StartsWith(line, MARKER) then i - 1 else markerRow;
    }
    assert src[..|src|] == src;
  }

  /** Inserting the line of one more variable extends the block by it. */
  lemma BlockStep(rw: seq<string>, row: int, p: nat, order: seq<string>, config: map<string, string>, n: string)
    requires -1 <= row && p <= |rw| && (row < 0 ==> p == |rw| - 1) && (row >= 0 ==> p == row)
    requires (forall k :: 0 <= k < |order| ==> order[k] in config) && n in config
    ensures forall k :: 0 <= k < |order + [n]| ==> (order + [n])[k] in config
    ensures InsertAt(rw[..p] + Block(order, config, row < 0) + rw[p..], row, ExportLine(n, config[n]))
      == rw[..p] + Block(order + [n], config, row < 0) + rw[p..]
  {
    InsertStep(rw, row, p, Block(order, config, row < 0), ExportLine(n, config[n]));
    assert (order + [n])[..|order|] == order;
  }

  /** Adding a name not yet in `order` keeps it free of duplicates. */
  lemma AppendFresh(order: seq<string>, n: string)
    requires NoDuplicates(order) && n !in order
    ensures NoDuplicates(order + [n]) && NameSet(order + [n]) == NameSet(order) + {n}
  {
  }

  /** The order in which iterating over a set visits its elements: any order, each element once. */
  method SetOrder(rest: set<string>) returns (order: seq<string>)
    ensures NameSet(order) == rest && NoDuplicates(order)
  {
    order := [];
    var todo := rest;
    while todo != {}
      invariant todo <= rest && NameSet(order) == rest - todo && NoDuplicates(order)
      decreases |todo|
    {
      var n :| n in todo;
      AppendFresh(order, n);
      order := order + [n];
      todo := todo - {n};
    }
  }

  /** The second pass of save_config: insert an export line for each variable of `order` at `row`. */
  method InsertPass(rw: seq<string>, row: int, p: nat, config: map<string, string>, order: seq<string>)
    returns (lines: seq<string>)
    requires -1 <= row && p <= |rw| && (row < 0 ==> p == |rw| - 1) && (row >= 0 ==> p == row)
    requires forall k :: 0 <= k < |order| ==> order[k] in config
    ensures lines == rw[..p] + Block(order, config, row < 0) + rw[p..]
  {
    lines := rw;
    for k := 0 to |order|
      invariant lines == rw[..p] + Block(order[..k], config, row < 0) + rw[p..]
    {
      BlockStep(rw, row, p, order[..k], config, order[k]);
      assert order[..k + 1] == order[..k] + [order[k]];
      lines := InsertAt(lines, row, ExportLine(order[k], config[order[k]]));
    }
    assert order[..|order|] == order;
  }

  /** add_row points one line above the last marker line. */
  lemma {:induction false} MarkerRowLast(lines: seq<string>, m: nat)
    requires m < |lines| && StartsWith(lines[m], MARKER)
    requires forall j :: m < j < |lines| ==> !StartsWith(lines[j], MARKER)
    ensures MarkerRow(lines) == m - 1
    decreases |lines|
  {
    if m < |lines| - 1 {
      MarkerRowLast(lines[..|lines| - 1], m);
    }
  }

  /** Without a marker line, add_row stays at 0. */
  lemma {:induction false} MarkerRowNone(lines: seq<string>)
    requires forall j :: 0 <= j < |lines| ==> !StartsWith(lines[j], MARKER)
    ensures MarkerRow(lines) == 0
    decreases |lines|
  {
    if lines != [] {
      MarkerRowNone(lines[..|lines| - 1]);
    }
  }

  /** Without a marker line, the new lines are appended at the end of the file. */
  lemma InsertPosNoMarker(lines: seq<string>)
    requires forall j :: 0 <= j < |lines| ==> !StartsWith(lines[j], MARKER)
    ensures InsertPos(lines) == |lines|
  {
    MarkerRowNone(lines);
  }

  /**
   * With a last marker line at m >= 1, the new lines go one line above it,
   * except when it is the second line: add_row is then 0, taken for "no
   * marker", and the new lines go to the end of the file.
   */
  lemma InsertPosMarker(lines: seq<string>, m: nat)
    requires 1 <= m < |lines| && StartsWith(lines[m], MARKER)
    requires forall j :: m < j < |lines| ==> !StartsWith(lines[j], MARKER)
    ensures InsertPos(lines) == if m == 1 then |lines| else m - 1
  {
    MarkerRowLast(lines, m);
  }

  // ---------------------------------------------------------------------------
  // What save_config writes
  // ---------------------------------------------------------------------------

  /** The k-th added variable sits k lines into the block from the end, k lines from its end otherwise. */
  lemma {:induction false} BlockAt(order: seq<string>, config: map<string, string>, fromEnd: bool, k: nat)
    requires forall j :: 0 <= j < |order| ==> order[j] in config
    requires k < |order|
    ensures Block(order, config, fromEnd)[if fromEnd then k else |order| - 1 - k] == ExportLine(order[k], config[order[k]])
    decreases |order|
  {
    var o := order[..|order| - 1];
    if k < |order| - 1 {
      BlockAt(o, config, fromEnd, k);
      assert o[k] == order[k];
    }
  }

  /** Each line of the file stays in place or moves down past the new block, rewritten on its own. */
  lemma SavedLine(lines: seq<string>, config: map<string, string>, order: seq<string>, i: nat)
    requires forall k :: 0 <= k < |order| ==> order[k] in config
    requires i < |lines|
    ensures Saved(lines, config, order)[if i < InsertPos(lines) then i else i + |order|] == RewriteLine(lines[i], config)
  {
    RewrittenAt(lines, config, i);
  }

  /** Each added variable gets its export line inside the block at the insert position. */
  lemma SavedAdded(lines: seq<string>, config: map<string, string>, order: seq<string>, k: nat)
    requires forall j :: 0 <= j < |order| ==> order[j] in config
    requires k < |order|
    ensures Saved(lines, config, order)[InsertPos(lines) + (if AddRow(lines) < 0 then k else |order| - 1 - k)]
      == ExportLine(order[k], config[order[k]])
  {
    BlockAt(order, config, AddRow(lines) < 0, k);
  }

  /** After save_config, the file holds the export line of every configured variable. */
  lemma SavedExportsAll(lines: seq<string>, config: map<string, string>, order: seq<string>, n: string)
    requires forall k :: 0 <= k < |order| ==> order[k] in config
    requires NameSet(order) == ToAdd(lines, config) && n in config
    ensures ExportLine(n, config[n]) in Saved(lines, config, order)
  {
    var out := Saved(lines, config, order);
    UpdatedSpec(lines, config, n);
    if n in Updated(lines, config) {
      var i :| 0 <= i < |lines| && ExportedName(lines[i]) == Some(n);
      SavedLine(lines, config, order, i);
    } else {
      assert n in NameSet(order);
      var k :| 0 <= k < |order| && order[k] == n;
      SavedAdded(lines, config, order, k);
    }
  }

  /** Rewriting a rewritten line changes nothing. */
  lemma RewriteTwice(line: string, config: map<string, string>)
    ensures RewriteLine(RewriteLine(line, config), config) == RewriteLine(line, config)
  {
    var name := ExportedName(line);
    if name.Some? && name.value in config {
      NameEndIsName(line, 7);
      ExportLineName(name.value, config[name.value]);
    }
  }

  lemma {:induction false} RewrittenFixed(s: seq<string>, config: map<string, string>)
    requires forall j :: 0 <= j < |s| ==> RewriteLine(s[j], config) == s[j]
    ensures Rewritten(s, config) == s
    decreases |s|
  {
    if s != [] {
      RewrittenFixed(s[..|s| - 1], config);
    }
  }

  /** Every line save_config writes is left as it is by a second save of the same values. */
  lemma SavedLineFixed(lines: seq<string>, config: map<string, string>, order: seq<string>, j: nat)
    requires forall k :: 0 <= k < |order| ==> order[k] in config
    requires forall n :: n in config ==> IsVarName(n)
    requires j < |lines| + |order|
    ensures RewriteLine(Saved(lines, config, order)[j], config) == Saved(lines, config, order)[j]
  {
    var p := InsertPos(lines);
    if j < p || j >= p + |order| {
      var i := if j < p then j else j - |order|;
      SavedLine(lines, config, order, i);
      RewriteTwice(lines[i], config);
    } else {
      var k := if AddRow(lines) < 0 then j - p else |order| - 1 - (j - p);
      SavedAdded(lines, config, order, k);
      ExportLineName(order[k], config[order[k]]);
    }
  }

  /** After save_config, a second save finds every configured variable already exported. */
  lemma SavedFindsAll(lines: seq<string>, config: map<string, string>, order: seq<string>, n: string)
    requires forall k :: 0 <= k < |order| ==> order[k] in config
    requires NameSet(order) == ToAdd(lines, config)
    requires n in config && IsVarName(n)
    ensures n in Updated(Saved(lines, config, order), config)
  {
    var out := Saved(lines, config, order);
    SavedExportsAll(lines, config, order, n);
    var j :| 0 <= j < |out| && out[j] == ExportLine(n, config[n]);
    ExportLineName(n, config[n]);
    UpdatedSpec(out, config, n);
  }

  /** With nothing to add, save_config only rewrites lines. */
  lemma SavedNothingAdded(lines: seq<string>, config: map<string, string>)
    ensures Saved(lines, config, []) == Rewritten(lines, config)
  {
    var rw := Rewritten(lines, config);
    assert rw[..InsertPos(lines)] + rw[InsertPos(lines)..] == rw;
  }

  /**
   * Saving the same values twice: when every variable name can be read back,
   * the second save finds every variable in the file and writes it unchanged.
   */
  lemma SaveIdempotent(lines: seq<string>, config: map<string, string>, order: seq<string>)
    requires forall k :: 0 <= k < |order| ==> order[k] in config
    requires NameSet(order) == ToAdd(lines, config)
    requires forall n :: n in config ==> IsVarName(n)
    ensures ToAdd(Saved(lines, config, order), config) == {}
    ensures Saved(Saved(lines, config, order), config, []) == Saved(lines, config, order)
  {
    var out := Saved(lines, config, order);
    forall n | n in config ensures n in Updated(out, config) {
      SavedFindsAll(lines, config, order, n);
    }
    forall j | 0 <= j < |out| ensures RewriteLine(out[j], config) == out[j] {
      SavedLineFixed(lines, config, order, j);
    }
    RewrittenFixed(out, config);
    SavedNothingAdded(out, config);
  }

  /**
   * save_config: rewrite the export lines of configured variables, then
   * insert the remaining variables, one at a time, at add_row. `order` is
   * the order in which the set of new variables happened to be visited.
   * The environment writes of both passes are returned together as `env`.
   * None when the file cannot be opened.
   */
  method SaveConfig(config: map<string, string>, file: Option<seq<string>>)
    returns (saved: Option<seq<string>>, env: map<string, string>, order: seq<string>)
    ensures file.None? ==> saved.None? && env == map[] && order == []
    ensures file.Some? ==> NameSet(order) == ToAdd(file.value, config)
    ensures NoDuplicates(order) && forall k :: 0 <= k < |order| ==> order[k] in config
    ensures file.Some? ==> saved == Some(Saved(file.value, config, order)) && env == Escaped(config)
  {
    if file.None? {
      return None, map[], [];
    }
    var src := file.value;
    var rw, updated, addRow, env1 := RewritePass(config, src);
    if addRow == 0 {
      addRow := |rw|;
    }
    order := SetOrder(config.Keys - updated);
    assert forall k :: 0 <= k < |order| ==> order[k] in NameSet(order);
    var lines := InsertPass(rw, addRow, InsertPos(src), config, order);
    env := env1 + EscapedOn(config, config.Keys - updated);
    saved := Some(lines);
  }

  // ---------------------------------------------------------------------------
  // MIDI port lists
  // ---------------------------------------------------------------------------

  /** The rest of the first line that starts with p, as `^p(.*)$` in multi-line mode captures it. */
  function FirstWithPrefix(ls: seq<string>, p: string): (r: Option<string>)
    ensures r.None? <==> forall i :: 0 <= i < |ls| ==> !StartsWith(ls[i], p)
    ensures r.Some? ==> p + r.value in ls
  {
    if ls == [] then None
    else if StartsWith(ls[0], p) then
      assert ls[0] == p + ls[0][|p|..];
      Some(ls[0][|p|..])
    else
      var r := FirstWithPrefix(ls[1..], p);
      assert forall i :: 1 <= i < |ls| ==> ls[i] == ls[1..][i - 1];
      r
  }

  /** The match is the first line with the prefix. */
  lemma {:induction false} FirstWithPrefixAt(ls: seq<string>, p: string, i: nat)
    requires i < |ls| && StartsWith(ls[i], p)
    requires forall j :: 0 <= j < i ==> !StartsWith(ls[j], p)
    ensures FirstWithPrefix(ls, p) == Some(ls[i][|p|..])
    decreases i
  {
    if i > 0 {
      FirstWithPrefixAt(ls[1..], p, i - 1);
    }
  }

  /** The rest of the first line of a ZYNTHIAN_MIDI_PORTS text that starts with `prefix`, split at commas. */
  function PortList(midiPorts: string, prefix: string): (r: Option<seq<string>>)
    ensures r.Some? ==> |r.value| >= 1 && forall k :: 0 <= k < |r.value| ==> ',' !in r.value[k] && '\n' !in r.value[k]
  {
    var line := FirstWithPrefix(Split(midiPorts, '\n'), prefix);
    if line.None? then None
    else
      var ports := Split(line.value, ',');
      assert '\n' !in line.value by {
        var l := prefix + line.value;
        assert forall c :: c in line.value ==> c in l;
      }
      assert forall k :: 0 <= k < |ports| ==> '\n' !in ports[k] by {
        forall k | 0 <= k < |ports| ensures '\n' !in ports[k] {
          JoinAvoidsInverse(ports, ',', '\n', k);
        }
      }
      Some(ports)
  }

  /** A character missing from the joined string is missing from every part. */
  lemma {:induction false} JoinAvoidsInverse(parts: seq<string>, sep: char, c: char, k: nat)
    requires k < |parts| && c !in Join(parts, sep)
    ensures c !in parts[k]
    decreases |parts|
  {
    if |parts| > 1 {
      var j := Join(parts[1..], sep);
      assert Join(parts, sep) == parts[0] + [sep] + j;
      assert forall x :: x in parts[0] ==> x in Join(parts, sep);
      assert forall x :: x in j ==> x in Join(parts, sep);
      if k > 0 {
        JoinAvoidsInverse(parts[1..], sep, c, k - 1);
      }
    }
  }

  /**
   * get_disabled_midi_in_ports: the ports of the DISABLED_IN line. Without such
   * a line the source returns the empty string, which holds no port name; it is
   * modelled as the empty list.
   */
  function DisabledMidiInPorts(midiPorts: string): (r: seq<string>)
    ensures r == [] <==> PortList(midiPorts, "DISABLED_IN=").None?
  {
    var l := PortList(midiPorts, "DISABLED_IN=");
    if l.Some? then l.value else []
  }

  /** get_enabled_midi_out_ports: the ports of the ENABLED_OUT line, ["ttymidi:MIDI_out"] without one. */
  function EnabledMidiOutPorts(midiPorts: string): (r: seq<string>)
    ensures |r| >= 1
    ensures PortList(midiPorts, "ENABLED_OUT=").None? ==> r == ["ttymidi:MIDI_out"]
  {
    var l := PortList(midiPorts, "ENABLED_OUT=");
    if l.Some? then l.value else ["ttymidi:MIDI_out"]
  }

  /** get_enabled_midi_fb_ports: the ports of the ENABLED_FB line, none without one. */
  function EnabledMidiFbPorts(midiPorts: string): (r: seq<string>)
    ensures r == [] <==> PortList(midiPorts, "ENABLED_FB=").None?
  {
    var l := PortList(midiPorts, "ENABLED_FB=");
    if l.Some? then l.value else []
  }

  /** A port name the comma-separated, line-based format can carry. */
  predicate PortName(p: string)
  {
    ',' !in p && '\n' !in p
  }

  /** The ZYNTHIAN_MIDI_PORTS text for three port lists. */
  function PortsText(disabledIn: seq<string>, enabledOut: seq<string>, enabledFb: seq<string>): string
  {
    Join(["DISABLED_IN=" + Join(disabledIn, ','), "ENABLED_OUT=" + Join(enabledOut, ','), "ENABLED_FB=" + Join(enabledFb, ',')], '\n')
  }

  /** The line of a port list in PortsText. */
  lemma PortLine(key: string, ports: seq<string>)
    requires forall k :: 0 <= k < |ports| ==> PortName(ports[k])
    ensures '\n' !in key + "=" + Join(ports, ',') || '\n' in key
  {
    if '\n' !in key {
      JoinAvoids(ports, ',', '\n');
    }
  }

  /** PortsText holds three lines, one per list. */
  lemma PortsLines(disabledIn: seq<string>, enabledOut: seq<string>, enabledFb: seq<string>)
    requires forall k :: 0 <= k < |disabledIn| ==> PortName(disabledIn[k])
    requires forall k :: 0 <= k < |enabledOut| ==> PortName(enabledOut[k])
    requires forall k :: 0 <= k < |enabledFb| ==> PortName(enabledFb[k])
    ensures Split(PortsText(disabledIn, enabledOut, enabledFb), '\n')
      == ["DISABLED_IN=" + Join(disabledIn, ','), "ENABLED_OUT=" + Join(enabledOut, ','), "ENABLED_FB=" + Join(enabledFb, ',')]
  {
    var l0, l1, l2 := "DISABLED_IN=" + Join(disabledIn, ','), "ENABLED_OUT=" + Join(enabledOut, ','), "ENABLED_FB=" + Join(enabledFb, ',');
    PortLine("DISABLED_IN", disabledIn);
    PortLine("ENABLED_OUT", enabledOut);
    PortLine("ENABLED_FB", enabledFb);
    SplitJoin([l0, l1, l2], '\n');
  }

  /** A port list is read back from the first line holding its key. */
  lemma PortListAt(text: string, ls: seq<string>, prefix: string, ports: seq<string>, i: nat)
    requires |ports| >= 1 && forall k :: 0 <= k < |ports| ==> PortName(ports[k])
    requires ls == Split(text, '\n') && i < |ls| && ls[i] == prefix + Join(ports, ',')
    requires forall j :: 0 <= j < i ==> !StartsWith(ls[j], prefix)
    ensures PortList(text, prefix) == Some(ports)
  {
    var l := ls[i];
    assert l[..|prefix|] == prefix && l[|prefix|..] == Join(ports, ',');
    FirstWithPrefixAt(ls, prefix, i);
    SplitJoin(ports, ',');
  }

  /** A line that starts with p does not start with a q that differs from p at some index. */
  lemma OtherKey(l: string, p: string, q: string, i: nat)
    requires i < |p| && i < |q| && p[i] != q[i] && StartsWith(l, p)
    ensures !StartsWith(l, q)
  {
    assert l[i] == p[i];
  }

  /** A non-empty list of port names the format can carry. */
  predicate PortNames(ports: seq<string>)
  {
    |ports| >= 1 && forall k :: 0 <= k < |ports| ==> PortName(ports[k])
  }

  lemma ReadDisabledIn(disabledIn: seq<string>, enabledOut: seq<string>, enabledFb: seq<string>)
    requires PortNames(disabledIn) && PortNames(enabledOut) && PortNames(enabledFb)
    ensures DisabledMidiInPorts(PortsText(disabledIn, enabledOut, enabledFb)) == disabledIn
  {
    PortsLines(disabledIn, enabledOut, enabledFb);
    var ls := Split(PortsText(disabledIn, enabledOut, enabledFb), '\n');
    PortListAt(PortsText(disabledIn, enabledOut, enabledFb), ls, "DISABLED_IN=", disabledIn, 0);
  }

  lemma ReadEnabledOut(disabledIn: seq<string>, enabledOut: seq<string>, enabledFb: seq<string>)
    requires PortNames(disabledIn) && PortNames(enabledOut) && PortNames(enabledFb)
    ensures EnabledMidiOutPorts(PortsText(disabledIn, enabledOut, enabledFb)) == enabledOut
  {
    PortsLines(disabledIn, enabledOut, enabledFb);
    var ls := Split(PortsText(disabledIn, enabledOut, enabledFb), '\n');
    OtherKey(ls[0], "DISABLED_IN=", "ENABLED_OUT=", 0);
    PortListAt(PortsText(disabledIn, enabledOut, enabledFb), ls, "ENABLED_OUT=", enabledOut, 1);
  }

  lemma ReadEnabledFb(disabledIn: seq<string>, enabledOut: seq<string>, enabledFb: seq<string>)
    requires PortNames(disabledIn) && PortNames(enabledOut) && PortNames(enabledFb)
    ensures EnabledMidiFbPorts(PortsText(disabledIn, enabledOut, enabledFb)) == enabledFb
  {
    PortsLines(disabledIn, enabledOut, enabledFb);
    var ls := Split(PortsText(disabledIn, enabledOut, enabledFb), '\n');
    OtherKey(ls[0], "DISABLED_IN=", "ENABLED_FB=", 0);
    OtherKey(ls[1], "ENABLED_OUT=", "ENABLED_FB=", 8);
    PortListAt(PortsText(disabledIn, enabledOut, enabledFb), ls, "ENABLED_FB=", enabledFb, 2);
  }

  /** The port lists read back from PortsText are the lists written, when each is non-empty. */
  lemma PortsRoundTrip(disabledIn: seq<string>, enabledOut: seq<string>, enabledFb: seq<string>)
    requires PortNames(disabledIn) && PortNames(enabledOut) && PortNames(enabledFb)
    ensures DisabledMidiInPorts(PortsText(disabledIn, enabledOut, enabledFb)) == disabledIn
    ensures EnabledMidiOutPorts(PortsText(disabledIn, enabledOut, enabledFb)) == enabledOut
    ensures EnabledMidiFbPorts(PortsText(disabledIn, enabledOut, enabledFb)) == enabledFb
  {
    ReadDisabledIn(disabledIn, enabledOut, enabledFb);
    ReadEnabledOut(disabledIn, enabledOut, enabledFb);
    ReadEnabledFb(disabledIn, enabledOut, enabledFb);
  }

  // ---------------------------------------------------------------------------
  // jackd options
  // ---------------------------------------------------------------------------

  /** s.split(sep, 1): the text before the first separator and the rest, or s alone. */
  function SplitOnce(s: string, sep: char): (r: seq<string>)
    ensures |r| == 1 <==> sep !in s
    ensures |r| == 1 ==> r[0] == s
    ensures |r| == 2 ==> r[0] + [sep] + r[1] == s && sep !in r[0]
    ensures |r| == 1 || |r| == 2
  {
    if sep !in s then [s]
    else
      var i := IndexOf(s, sep);
      assert s == s[..i] + [sep] + s[i + 1..];
      [s[..i], s[i + 1..]]
  }

  /** The items of JACKD_OPTIONS (empty when unset), as split at '-'. */
  function JackdItems(environ: map<string, string>): seq<string>
  {
    Split(Strip(if "JACKD_OPTIONS" in environ then environ["JACKD_OPTIONS"] else ""), '-')
  }

  /** The options the items define, a later item overriding an earlier one with the same key. */
  function JackdOptions(items: seq<string>): map<string, string>
  {
    if items == [] then map[]
    else
      var m := JackdOptions(items[..|items| - 1]);
      var parts := SplitOnce(items[|items| - 1], ' ');
      if |parts| == 2 then m[parts[0] := Strip(parts[1])] else m
  }

  /** The option key an item defines, if it holds a space. */
  predicate Defines(item: string, key: string)
  {
    |SplitOnce(item, ' ')| == 2 && SplitOnce(item, ' ')[0] == key
  }

  lemma JackdStep(items: seq<string>, i: nat)
    requires i < |items|
    ensures JackdOptions(items[..i + 1]) == (var parts := SplitOnce(items[i], ' ');
      if |parts| == 2 then JackdOptions(items[..i])[parts[0] := Strip(parts[1])] else JackdOptions(items[..i]))
  {
    assert items[..i + 1][..i] == items[..i];
  }

  /** Some item defines the key. */
  predicate AnyDefines(items: seq<string>, key: string)
  {
    exists i :: 0 <= i < |items| && Defines(items[i], key)
  }

  lemma AnyDefinesStep(items: seq<string>, key: string)
    requires items != []
    ensures AnyDefines(items, key) <==> AnyDefines(items[..|items| - 1], key) || Defines(items[|items| - 1], key)
  {
    var init := items[..|items| - 1];
    if AnyDefines(init, key) {
      var i :| 0 <= i < |init| && Defines(init[i], key);
      assert items[i] == init[i];
    }
    if AnyDefines(items, key) {
      var i :| 0 <= i < |items| && Defines(items[i], key);
      if i < |init| {
        assert init[i] == items[i];
      }
    }
  }

  /** get_jackd_options: parse JACKD_OPTIONS into option -> value; items without a space are skipped. */
  method GetJackdOptions(environ: map<string, string>) returns (options: map<string, string>)
    ensures options == JackdOptions(JackdItems(environ))
  {
    var items := JackdItems(environ);
    options := map[];
    for i := 0 to |items|
      invariant options == JackdOptions(items[..i])
    {
      JackdStep(items, i);
      var parts := SplitOnce(items[i], ' ');
      if |parts| == 2 {
        options := options[parts[0] := Strip(parts[1])];
      }
    }
    assert items[..|items|] == items;
  }

  /** An option is defined exactly when some item holding a space starts with its key. */
  lemma {:induction false} JackdKeys(items: seq<string>, key: string)
    ensures key in JackdOptions(items) <==> AnyDefines(items, key)
    decreases |items|
  {
    if items != [] {
      JackdKeys(items[..|items| - 1], key);
      AnyDefinesStep(items, key);
    }
  }

  /** The value of an option comes from the last item that defines it. */
  lemma {:induction false} JackdLastWins(items: seq<string>, key: string, i: nat)
    requires i < |items| && Defines(items[i], key)
    requires forall j :: i < j < |items| ==> !Defines(items[j], key)
    ensures key in JackdOptions(items) && JackdOptions(items)[key] == Strip(SplitOnce(items[i], ' ')[1])
    decreases |items|
  {
    if i < |items| - 1 {
      var init := items[..|items| - 1];
      JackdLastWins(init, key, i);
    }
  }

  // ---------------------------------------------------------------------------
  // update_midi_profile
  // ---------------------------------------------------------------------------

  /** A parameter as the web configuration posts it: a text, or a list of texts. */
  datatype ParamValue = Text(s: string) | Items(l: seq<string>)

  /** The value saved for a parameter: the text, or the first item of a list; None when the list is empty. */
  function FirstValue(v: ParamValue): (r: Option<string>)
    ensures r.None? <==> v == Items([])
    ensures v.Text? ==> r == Some(v.s)
    ensures v.Items? && r.Some? ==> r.value == v.l[0]
  {
    match v
    case Text(s) => Some(s)
    case Items(l) => if l == [] then None else Some(l[0])
  }

  predicate IsMidiKey(k: string)
  {
    StartsWith(k, "ZYNTHIAN_MIDI")
  }

  /** The MIDI parameters among `done`, with the value saved for each. */
  function MidiParams(params: map<string, ParamValue>, done: set<string>): (r: map<string, string>)
    ensures forall k :: k in r <==> k in done && k in params && IsMidiKey(k) && FirstValue(params[k]).Some?
  {
    map k | k in done && k in params && IsMidiKey(k) && FirstValue(params[k]).Some? :: FirstValue(params[k]).value
  }

  /** No MIDI parameter holds an empty list, which would stop update_midi_profile with an IndexError. */
  predicate MidiValuesOk(params: map<string, ParamValue>)
  {
    forall k :: k in params && IsMidiKey(k) ==> FirstValue(params[k]).Some?
  }

  /** The first loop of update_midi_profile: the MIDI parameters and their saved values, None on an IndexError. */
  method CollectMidiParams(params: map<string, ParamValue>) returns (midi: Option<map<string, string>>)
    ensures midi.None? <==> !MidiValuesOk(params)
    ensures midi.Some? ==> midi.value == MidiParams(params, params.Keys)
  {
    var m: map<string, string> := map[];
    var todo := params.Keys;
    while todo != {}
      invariant todo <= params.Keys
      invariant m == MidiParams(params, params.Keys - todo)
      invariant forall k :: k in params && k !in todo && IsMidiKey(k) ==> FirstValue(params[k]).Some?
      decreases |todo|
    {
      var k :| k in todo;
      if IsMidiKey(k) {
        var v := FirstValue(params[k]);
        if v.None? {
          return None;
        }
        m := m[k := v.value];
      }
      todo := todo - {k};
    }
    return Some(m);
  }

  /** The parameters a web form posts, updated in place by update_midi_profile. */
  class ParamDict {
    var entries: map<string, ParamValue>

    constructor(entries: map<string, ParamValue>)
      ensures this.entries == entries
    {
      this.entries := entries;
    }

    /** `del params[k]` for each key. */
    method DeleteKeys(keys: set<string>)
      modifies this
      ensures entries == old(entries) - keys
    {
      var gone := keys;
      while gone != {}
        invariant gone <= keys
        invariant entries == old(entries) - (keys - gone)
        decreases |gone|
      {
        var k :| k in gone;
        entries := entries - {k};
        gone := gone - {k};
      }
    }
  }

  /**
   * update_midi_profile: save the MIDI parameters to the MIDI profile file,
   * then delete them from the caller's parameters. An empty list (IndexError)
   * or a file that cannot be opened stops it with nothing changed.
   */
  method UpdateMidiProfile(params: ParamDict, file: Option<seq<string>>)
    returns (saved: Option<seq<string>>, env: map<string, string>, order: seq<string>)
    modifies params
    ensures !MidiValuesOk(old(params.entries)) || file.None? ==> saved.None? && params.entries == old(params.entries)
    ensures MidiValuesOk(old(params.entries)) && file.Some? ==>
      var midi := MidiParams(old(params.entries), old(params.entries).Keys);
      && NameSet(order) == ToAdd(file.value, midi)
      && (forall k :: 0 <= k < |order| ==> order[k] in midi)
      && saved == Some(Saved(file.value, midi, order)) && env == Escaped(midi)
      && params.entries == old(params.entries) - midi.Keys
  {
    var midi := CollectMidiParams(params.entries);
    if midi.None? {
      return None, map[], [];
    }
    saved, env, order := SaveConfig(midi.value, file);
    if saved.Some? {
      params.DeleteKeys(midi.value.Keys);
    }
  }

  /** After update_midi_profile, the parameters keep every non-MIDI entry and lose every MIDI one. */
  lemma MidiRemoved(params: map<string, ParamValue>, k: string)
    requires MidiValuesOk(params)
    ensures k in params - MidiParams(params, params.Keys).Keys <==> k in params && !IsMidiKey(k)
  {
  }
}
